=== FILE: README.md ===
# Free text tools: a Dafny model

A Dafny model of the pure logic inside a family of single-endpoint web
tools. Each tool wraps a small piece of text or collection logic in HTTP,
file-format and process plumbing. The model keeps the logic, one module per
tool, and proves what each tool promises its callers.

- **Repeated phrase detector** (`PhraseText`, `RepeatedPhrases`). It
  normalises white space, then splits a document into lines, sentences and
  tokens. It cuts windows of three to eight tokens and folds sentences and
  phrases into maps under case- and space-blind keys. It reports every key
  seen on two or more lines, ordered by count and then text.
- **JSON combiner** (`JsonCombiner`). Arrays are concatenated. Objects are
  deep-merged: null overrides, objects merge, arrays append, and anything
  else replaces. A mixed list is wrapped in an array.
- **Batch renamer** (`BatchRenamer`). The form options are normalised. Each
  name goes through a left-to-right replace, the numbering, the prefix,
  suffix and trim, and the fallback name. A dedupe loop makes all names
  distinct, ignoring case.
- **Long-word counter** (`LongWords`). It counts, per source and overall,
  the words at least a threshold long, keyed ignoring case under their first
  spelling. The listing is ordered by count and then word.
- **Stock earnings calendar** (`Earnings`, `CalendarExport`, `Csv`,
  `Dates`). This covers the request's comma lists, the ticker set and the
  three sort orders. It also covers the CSV export and the iCalendar export
  with its TEXT escaping (section 3.3.11 of RFC 5545), its VCALENDAR/VEVENT
  framing and its all-day DATE values.
- **SKU extractor** (`SkuExtractor`). This covers SKU validation and
  first-occurrence dedupe per SKU and file.
- **File-path extractor** (`PathExtractor`). This covers the line split,
  path cleaning, dedupe per path and line, the listing order and the totals.
- **Voice-message extractor** (`VoiceExtractor`). Uploads and archive
  entries are classified into audio messages and warnings. It also covers
  the target-format default and the metadata CSV.
- **Shorts downloader** (`ShortsDownloader`). This covers the container
  request, the 60-second gate, vertical-first stream selection, the square
  crop side and the headers.

Shared modules:
- `Strings`: white space, trimming, ASCII case mapping, replace, split and join.
- `Numbers`: 32-bit `int.TryParse`, formatting and wrap-around.
- `Sorting`: stable insertion sort, the LINQ order combinators and the ordinal order.
- `Collections`: first-occurrence dedupe, mapping, flattening and sums.
- `PathNames`: `Path.GetFileName`, `GetExtension` and `GetFileNameWithoutExtension`.
- `Wrappers`: `Option` and `Result`.

Regular expressions that are not simple scanners are parameters. This covers
the SKU patterns, the long-word pattern and the path pattern. Clocks,
GUIDs, network fetches, converters and number formatters are parameters too.

## Model

| member | source | states |
|---|---|---|
| PhraseText.NormalizeWhitespace | apps/repetitive-phrase-extractor/Program.cs:169-174 | the normal form holds no tab, no two adjacent spaces and no white space at either end |
| PhraseText.NormalizeNoCrLf | apps/repetitive-phrase-extractor/Program.cs:171 | for input without "\r\r\n", no CRLF survives the normalisation |
| PhraseText.NormalizeIdempotent | apps/repetitive-phrase-extractor/Program.cs:169-174 | for input without "\r\r\n", normalising twice gives the same text as normalising once |
| PhraseText.NormalizeNotIdempotentOnCrCrLf | apps/repetitive-phrase-extractor/Program.cs:171 | "a\r\r\nb" normalises to "a\r\nb", which normalises again to "a\nb" |
| PhraseText.CrLfShrinks | apps/repetitive-phrase-extractor/Program.cs:171 | the CRLF pass never lengthens a text and strictly shortens one holding a CRLF |
| PhraseText.LineFeedsOnly | apps/repetitive-phrase-extractor/Program.cs:171 | CRLF replacement repeated to the end leaves no CRLF |
| PhraseText.NormalizeWhitespaceFixed | apps/repetitive-phrase-extractor/Program.cs:169-174 | the corrected normal form: no tab, no CRLF, no double space, trimmed |
| PhraseText.NormalizeFixedIdempotent | apps/repetitive-phrase-extractor/Program.cs:169-174 | the corrected normalisation is idempotent on every text |
| PhraseText.NormalizeFixedAgrees | apps/repetitive-phrase-extractor/Program.cs:169-174 | on every text without "\r\r\n", the corrected normalisation equals the code's |
| PhraseText.FirstCut | apps/repetitive-phrase-extractor/Program.cs:178 | finds a cut (a white-space run right after one of `. ! ? ; :`) at or after the position, with no cut before it |
| PhraseText.SplitPieces | apps/repetitive-phrase-extractor/Program.cs:178 | the split gives at least one piece; no piece holds a cut; every piece but the last ends in sentence punctuation |
| PhraseText.KeepSentences | apps/repetitive-phrase-extractor/Program.cs:179-186 | every sentence kept is trimmed and non-empty |
| PhraseText.SentencesShape | apps/repetitive-phrase-extractor/Program.cs:176-187 | sentences are trimmed, non-empty and free of cuts; each but the last ends in sentence punctuation |
| PhraseText.SentencesKeepVisible | apps/repetitive-phrase-extractor/Program.cs:176-187 | the sentences hold exactly the line's non-white-space characters, in order |
| PhraseText.RunLength | apps/repetitive-phrase-extractor/Program.cs:191 | gives the longest prefix made of token characters; the next character is not one |
| PhraseText.Tokenize | apps/repetitive-phrase-extractor/Program.cs:189-194 | every token is a non-empty run of letters, digits and apostrophes |
| PhraseText.TokenCount | apps/repetitive-phrase-extractor/Program.cs:189-196 | the word count is the number of maximal runs of token characters |
| PhraseText.TokensKeepTokenChars | apps/repetitive-phrase-extractor/Program.cs:189-194 | the tokens, concatenated, are exactly the token characters of the text |
| PhraseText.TokenizeJoin | apps/repetitive-phrase-extractor/Program.cs:189-194 | tokens joined by single spaces tokenize back to the same tokens |
| PhraseText.KeyShape | apps/repetitive-phrase-extractor/Program.cs:198-202 | a key is trimmed, has only single spaces for white space and has no upper-case letter |
| PhraseText.KeyIdempotent | apps/repetitive-phrase-extractor/Program.cs:198-202 | the key of a key is itself |
| PhraseText.KeyIgnoresCase | apps/repetitive-phrase-extractor/Program.cs:198-202 | texts equal in lower case get the same key |
| PhraseText.KeysCompareOrdinally | apps/repetitive-phrase-extractor/Program.cs:104-105 | on keys, the maps' ignore-case comparer is plain equality |
| PhraseText.SkipTake | apps/repetitive-phrase-extractor/Program.cs:133 | `Skip(start).Take(size)` within bounds is the slice of that window |
| PhraseText.SliceGuardDead | apps/repetitive-phrase-extractor/Program.cs:131-137 | inside the loop bounds the slice always has `size` tokens, so the guard never fires |
| PhraseText.WindowsFrom | apps/repetitive-phrase-extractor/Program.cs:131-147 | every candidate kept is at least 12 characters long |
| PhraseText.PhraseCandidates | apps/repetitive-phrase-extractor/Program.cs:128-147 | every phrase candidate is at least 12 characters long |
| PhraseText.WindowsFromSpec | apps/repetitive-phrase-extractor/Program.cs:131-147 | a text is a candidate of one window size exactly when it is a window of that size at some offset, long enough |
| PhraseText.CandidatesSpec | apps/repetitive-phrase-extractor/Program.cs:128-147 | the candidates are exactly the windows of 3 to min(8, n) tokens at every offset, joined by spaces, of 12 or more characters |
| PhraseText.WindowTokens | apps/repetitive-phrase-extractor/Program.cs:139 | every window tokenizes back to its slice of the sentence's tokens |
| RepeatedPhrases.AddOccurrence | apps/repetitive-phrase-extractor/Program.cs:204-213 | adds the key; a new key takes the trimmed original text and an existing one keeps its text; the line joins the key's line set; other keys are untouched; a new key goes last |
| RepeatedPhrases.AddOccurrenceAgain | apps/repetitive-phrase-extractor/Program.cs:204-213 | recording a line already recorded for a key changes nothing |
| RepeatedPhrases.AddItemsKeys | apps/repetitive-phrase-extractor/Program.cs:117-147 | the keys after one line are the old keys plus those of the line's items |
| RepeatedPhrases.AddItemsLines | apps/repetitive-phrase-extractor/Program.cs:117-147 | the line is recorded for exactly the keys of the line's items |
| RepeatedPhrases.AddItemsText | apps/repetitive-phrase-extractor/Program.cs:204-213 | existing texts are kept and a new key's text comes from its first item |
| RepeatedPhrases.FoldLinesSpec | apps/repetitive-phrase-extractor/Program.cs:107-150 | the map after the loop: a key exactly when some line yields it; its lines are those lines; its text is that of its first item |
| RepeatedPhrases.SentenceItemsOfSpec | apps/repetitive-phrase-extractor/Program.cs:117-126 | a sentence item is a sentence of at least five words under its key |
| RepeatedPhrases.SentenceItemsSpec | apps/repetitive-phrase-extractor/Program.cs:112-126 | a line feeds the sentence map exactly with its sentences of five or more words; blank lines feed nothing |
| RepeatedPhrases.PhraseItemsOfSpec | apps/repetitive-phrase-extractor/Program.cs:117-147 | every phrase item comes from a sentence of at least five words |
| RepeatedPhrases.PhraseItemsSpec | apps/repetitive-phrase-extractor/Program.cs:112-147 | a line feeds exactly the candidate windows of its sentences of five or more words, each under its normal key; a blank line feeds nothing |
| RepeatedPhrases.Repeated | apps/repetitive-phrase-extractor/Program.cs:152-164 | keeps exactly the entries seen on more than one line |
| RepeatedPhrases.RepetitionLines | apps/repetitive-phrase-extractor/Program.cs:152-164 | the reported lines are the entry's line set in strictly increasing order, and the count is their number |
| RepeatedPhrases.ReportElement | apps/repetitive-phrase-extractor/Program.cs:152-164 | each reported repetition comes from an entry of the map and is well formed |
| RepeatedPhrases.ReportContents | apps/repetitive-phrase-extractor/Program.cs:152-164 | every reported repetition comes from the map and is well formed |
| RepeatedPhrases.ReportComplete | apps/repetitive-phrase-extractor/Program.cs:152-164 | every entry seen on two or more lines is reported |
| RepeatedPhrases.ReportOrdered | apps/repetitive-phrase-extractor/Program.cs:152-164 | the report is ordered by count, largest first, then by text |
| RepeatedPhrases.ReportStable | apps/repetitive-phrase-extractor/Program.cs:152-164 | entries tied on count and text keep the map's insertion order |
| RepeatedPhrases.ReportedIffTwoLines | apps/repetitive-phrase-extractor/Program.cs:107-164 | a key is reported exactly when it occurs on two or more distinct lines, with that number as its count |
| RepeatedPhrases.ReportLines | apps/repetitive-phrase-extractor/Program.cs:107-164 | a reported repetition's lines are the 1-based lines of one key |
| RepeatedPhrases.EmptyReportsNothing | apps/repetitive-phrase-extractor/Program.cs:101-167 | an empty document gives `TotalRepeated` 0 |
| RepeatedPhrases.OneLineReportsNothing | apps/repetitive-phrase-extractor/Program.cs:107-164 | a document of one line gives `TotalRepeated` 0 |
| JsonCombiner.Get | apps/json-combiner/Program.cs:135-141 | a lookup finds a value exactly when the key is present |
| JsonCombiner.Put | apps/json-combiner/Program.cs:129-151 | setting a key adds it, gives it the value and leaves every other key's value alone |
| JsonCombiner.PutDistinct | apps/json-combiner/Program.cs:129-151 | setting a key never duplicates a key |
| JsonCombiner.MergeObjects | apps/json-combiner/Program.cs:123-153 | the merged keys are the target's plus the source's |
| JsonCombiner.MergeObjectsGet | apps/json-combiner/Program.cs:123-153 | key by key: a key the source lacks keeps its value; one it has gets the source value merged onto the target's |
| JsonCombiner.MergeKeepsAbsent | apps/json-combiner/Program.cs:125-152 | a target key the source lacks is unchanged |
| JsonCombiner.MergeNullOverrides | apps/json-combiner/Program.cs:129-133 | a null in the source sets the key to null |
| JsonCombiner.MergeObjectsRecursive | apps/json-combiner/Program.cs:135-139 | object meeting object is merged recursively |
| JsonCombiner.MergeArraysAppend | apps/json-combiner/Program.cs:141-149 | array meeting array gives the target's items followed by the source's |
| JsonCombiner.MergeOtherReplaces | apps/json-combiner/Program.cs:151 | any other pairing replaces the target value by the source's |
| JsonCombiner.MergeDistinct | apps/json-combiner/Program.cs:123-153 | merging keeps the target's keys distinct |
| JsonCombiner.MergeFreshAppends | apps/json-combiner/Program.cs:123-153 | properties whose keys the target lacks are appended in order |
| JsonCombiner.MergeIntoEmpty | apps/json-combiner/Program.cs:105-108 | merging into an empty object copies the source |
| JsonCombiner.CombineNodes | apps/json-combiner/Program.cs:85-121 | all arrays: their items concatenated; all objects: an object over the union of keys; otherwise an array of the inputs in order |
| JsonCombiner.MergeAllKeys | apps/json-combiner/Program.cs:103-112 | the merged object's keys are the union of the inputs' keys |
| JsonCombiner.ConcatItemsAppend | apps/json-combiner/Program.cs:89-101 | concatenating a split list of arrays concatenates the two results |
| JsonCombiner.MergeAllDistinct | apps/json-combiner/Program.cs:103-112 | the merged object has distinct keys |
| JsonCombiner.CombinedTypeNeverMixed | apps/json-combiner/Program.cs:72-77 | `combinedType` is always "array" or "object", never "mixed" |
| JsonCombiner.ParseUploads | apps/json-combiner/Program.cs:34-61 | every upload yields one parsed node or one error, and no parsed node is null |
| JsonCombiner.CombineEndpoint | apps/json-combiner/Program.cs:26-80 | no files is a bad request; a combination is never "mixed" and had fewer errors than files; a failure reports one error per file |
| Numbers.ParseOrDefault | apps/batch-file-renamer/Program.cs:137-145 | a 32-bit integer text gives its value; anything else gives the fallback |
| Numbers.ParseFormatRoundTrip | apps/batch-file-renamer/Program.cs:139 | every 32-bit integer, written out, parses back to itself |
| Numbers.Wrap32 | apps/batch-file-renamer/Program.cs:75 | the wrapped value is a 32-bit integer congruent to the input, and equal to it when in range |
| Numbers.PadLeft | apps/batch-file-renamer/Program.cs:71 | pads on the left to the width with the pad character and keeps the text as its tail |
| BatchRenamer.IndexOfSpec | apps/batch-file-renamer/Program.cs:159 | `IndexOf` gives the first match at or after the start, or -1 when there is none |
| BatchRenamer.ReplaceOccurrences | apps/batch-file-renamer/Program.cs:147-172 | the loop equals the reference left-to-right, non-overlapping replacement; an empty search gives the source |
| BatchRenamer.ReplaceNext | apps/batch-file-renamer/Program.cs:157-169 | one loop turn either finishes with the full replacement or advances the index, keeping the invariant |
| BatchRenamer.ReplaceWithoutMatch | apps/batch-file-renamer/Program.cs:160-163 | with no match anywhere the source comes back unchanged |
| BatchRenamer.ReplaceBySelf | apps/batch-file-renamer/Program.cs:147-172 | replacing a text by itself changes nothing |
| BatchRenamer.Clamp | apps/batch-file-renamer/Program.cs:49 | `Math.Clamp`: inside the bounds, and equal to the value when it is in them |
| BatchRenamer.ReadOptions | apps/batch-file-renamer/Program.cs:32-51 | replacement is on iff the flag is "true" and the search is not blank; position is "prefix" only when asked, else "suffix"; the start is the parsed `int`, else 1; the pad is the parsed `int` clamped to 1..6, else 2 |
| BatchRenamer.ReadOptionsRoundTrip | apps/batch-file-renamer/Program.cs:32-51 | the normalisation always yields normalised options and reads the form of normalised options back to the same options |
| BatchRenamer.NumberLabel | apps/batch-file-renamer/Program.cs:71 | the padded number is non-empty and made of digits and a minus sign |
| BatchRenamer.TransformName | apps/batch-file-renamer/Program.cs:65-82 | the name is trimmed and never blank; a blank result becomes "renamed-file" |
| BatchRenamer.NumberKept | apps/batch-file-renamer/Program.cs:69-82 | with numbering on, the padded number appears in the final name |
| BatchRenamer.TransformNameTrims | apps/batch-file-renamer/Program.cs:78-82 | a name that is not blank is only trimmed |
| BatchRenamer.StemNumber | apps/batch-file-renamer/Program.cs:71-74 | the number sits at the front for "prefix" and at the end for "suffix" |
| BatchRenamer.CandidatesDiffer | apps/batch-file-renamer/Program.cs:84-90 | different attempts never collide, even ignoring case |
| BatchRenamer.UpperCandidate | apps/batch-file-renamer/Program.cs:89 | upper-cased, a candidate keeps its name, its number and its extension |
| BatchRenamer.ResolveName | apps/batch-file-renamer/Program.cs:84-92 | the loop stops at the first attempt not yet used, ignoring case; every earlier attempt was taken |
| BatchRenamer.TriedCard | apps/batch-file-renamer/Program.cs:86-90 | the attempts before `k` are `k - 1` distinct names |
| BatchRenamer.CandidatesBound | apps/batch-file-renamer/Program.cs:86-90 | the loop tries at most one more name than are taken, so it ends |
| BatchRenamer.CounterAtWraps | apps/batch-file-renamer/Program.cs:58-76 | with numbering on, the `i`-th file's counter is the start plus `i`, wrapped to 32 bits |
| BatchRenamer.Planner | apps/batch-file-renamer/Program.cs:65-82 | the naming plan is the name pipeline at every base name and counter |
| BatchRenamer.RenameLoop | apps/batch-file-renamer/Program.cs:58-109 | one entry per file; names pairwise distinct ignoring case; each entry is its file's planned name at some dedupe number, `duplicateResolved` iff that number exceeds 1, and every smaller number gives the name of an earlier file ignoring case, so it is the first free one |
| BatchRenamer.RenameFiles | apps/batch-file-renamer/Program.cs:58-109 | the same for the handler's own naming pipeline |
| BatchRenamer.KeepsExtension | apps/batch-file-renamer/Program.cs:62-90 | every emitted name ends with the upload's extension |
| BatchRenamer.Rename | apps/batch-file-renamer/Program.cs:27-132 | no files is the error "Upload at least one file to rename."; otherwise the normalised options and, per file in order, its name planned under them with the first free dedupe number, all distinct ignoring case |
| LongWords.Threshold | apps/long-word-extractor/Program.cs:31 | the threshold is the parsed `int` when it parses and is positive, and 10 otherwise; so it is at least 1 |
| LongWords.ThresholdOfNumber | apps/long-word-extractor/Program.cs:31 | a positive `int` written out is the threshold; any other `int` gives 10 |
| LongWords.AddCount | apps/long-word-extractor/Program.cs:151-158 | adding raises exactly the count of the key, ignoring case |
| LongWords.AddTotal | apps/long-word-extractor/Program.cs:151-158 | adding `n` raises the total by `n` |
| LongWords.AddWords | apps/long-word-extractor/Program.cs:151-158 | a new key goes last under the spelling it was added with; a known key keeps its spelling |
| LongWords.AddUnique | apps/long-word-extractor/Program.cs:151-158 | adding keeps the keys unique and adds the key to the key set |
| LongWords.TrimAll | apps/long-word-extractor/Program.cs:145 | every match is trimmed of apostrophes and hyphens at both ends |
| LongWords.KeepLong | apps/long-word-extractor/Program.cs:146-149 | every word kept is at least the threshold long |
| LongWords.LongWordsOfSpec | apps/long-word-extractor/Program.cs:143-149 | the long words are exactly the trimmed matches of at least the threshold |
| LongWords.TallyCount | apps/long-word-extractor/Program.cs:143-159 | the count of every key is its number of occurrences, ignoring case |
| LongWords.TallyWords | apps/long-word-extractor/Program.cs:151-158 | entries appear in first-met order, under their first spelling |
| LongWords.CountLongWordsSpec | apps/long-word-extractor/Program.cs:132-162 | unique keys, positive counts equal to the occurrences, first spellings, every key long enough and trimmed; blank content gives nothing |
| LongWords.MergeCountsCount | apps/long-word-extractor/Program.cs:164-177 | a merged count is the sum of both counts, a missing key counting 0 |
| LongWords.MergeCountsTotal | apps/long-word-extractor/Program.cs:164-177 | the merged total is the sum of both totals |
| LongWords.MergeCountsKeys | apps/long-word-extractor/Program.cs:164-177 | merging keeps keys unique and gives the union of the key sets |
| LongWords.MergeCountsUnchanged | apps/long-word-extractor/Program.cs:164-177 | entries whose key the addition lacks are untouched |
| LongWords.CountOrderMeaning | apps/long-word-extractor/Program.cs:181-183 | the order is count descending, then word ignoring case |
| LongWords.OrderCountsSpec | apps/long-word-extractor/Program.cs:179-185 | the listing is a permutation of the table, in that order |
| LongWords.StripMarkdown | apps/long-word-extractor/Program.cs:199-200 | the text keeps its length, no markdown decoration character remains, and every other character is kept in place |
| LongWords.ReadAllowed | apps/long-word-extractor/Program.cs:82-89 | every allowed extension has a reader |
| LongWords.FileResultSpec | apps/long-word-extractor/Program.cs:63-116 | an upload fails with the unsupported message iff its extension is not allowed, or with the reader's message; a failure counts nothing |
| LongWords.Sources | apps/long-word-extractor/Program.cs:46-116 | non-blank inline text comes first as the "Inline text" source counted at the threshold; then one source per upload, in order, each as `FileSource` reads it |
| LongWords.Extract | apps/long-word-extractor/Program.cs:31-127 | no files and blank text is the error; otherwise the parsed threshold, the results of the sources in order, and the merged table reordered by count then word |
| LongWords.AggregateSpec | apps/long-word-extractor/Program.cs:43-127 | the aggregate has unique keys and its total is the sum of the sources' totals |
| LongWords.AggregateCount | apps/long-word-extractor/Program.cs:43-102 | the aggregate count of a word is the sum of its counts over the sources |
| LongWords.ExtractTotals | apps/long-word-extractor/Program.cs:118-127 | the results are the sources' in order; `totalOccurrences` sums their totals; the aggregate is a reordering of the merged table, has one entry per word up to case, and gives each word the sum of its per-source counts; `totalUniqueWords` counts it; it is ordered |
| Earnings.SplitList | webapps/StockEarningsCalendar/Models/EarningsRequest.cs:22 | every entry is non-empty, trimmed and free of commas |
| Earnings.SplitListJoin | webapps/StockEarningsCalendar/Models/EarningsRequest.cs:22 | such entries joined by commas split back to exactly themselves |
| Earnings.SplitListBlank | webapps/StockEarningsCalendar/Models/EarningsRequest.cs:20-28 | a blank list gives no entries |
| Earnings.FromQuery | webapps/StockEarningsCalendar/Models/EarningsRequest.cs:11-31 | the dates pass through; the sort key is "date" when blank and otherwise verbatim |
| Earnings.FromQueryLists | webapps/StockEarningsCalendar/Models/EarningsRequest.cs:20-28 | each list is the split of its text, and none when the text is missing |
| Earnings.TickerSetSpec | webapps/StockEarningsCalendar/Services/EarningsService.cs:16-25 | the ticker set holds each upper-cased requested or sector ticker once, and nothing else |
| Earnings.OrderMeaning | webapps/StockEarningsCalendar/Services/EarningsService.cs:41-46 | "ticker": ticker ignoring case, then date; "marketcap": cap descending with none as 0, then date; otherwise date, then ticker |
| Earnings.SortSpec | webapps/StockEarningsCalendar/Services/EarningsService.cs:39-47 | the sort is a permutation, in the order asked for, and full ties keep input order |
| Earnings.SortOrdered | webapps/StockEarningsCalendar/Services/EarningsService.cs:39-47 | every pair of sorted events is in the order asked for |
| Earnings.FetchAll | webapps/StockEarningsCalendar/Services/EarningsService.cs:32-33 | one fetch per ticker, over the request's dates, in ticker order |
| Earnings.GetEarnings | webapps/StockEarningsCalendar/Services/EarningsService.cs:14-37 | no tickers gives no events; otherwise a permutation of the fetched events, in the order asked for |
| Dates.NextDay | webapps/StockEarningsCalendar/Services/CalendarExporter.cs:50 | the next valid day, or none exactly on the last representable day |
| Dates.Format8RoundTrip | webapps/StockEarningsCalendar/Services/CalendarExporter.cs:49-50 | the `yyyyMMdd` form reads back as the date |
| Dates.FormatIsoShape | webapps/StockEarningsCalendar/Services/CalendarExporter.cs:18 | `yyyy-MM-dd` is ten characters, digits with dashes at 4 and 7 |
| Dates.DateLePreorder | webapps/StockEarningsCalendar/Services/EarningsService.cs:43-45 | dates are totally preordered |
| CalendarExport.CsvEscapeForms | webapps/StockEarningsCalendar/Services/CalendarExporter.cs:60 | a value with a comma is quoted with quotes doubled; any other has line feeds turned into spaces |
| CalendarExport.CsvEscapePlain | webapps/StockEarningsCalendar/Services/CalendarExporter.cs:60 | a value with no comma and no line feed goes out as it is |
| CalendarExport.CellRoundTrip | webapps/StockEarningsCalendar/Services/CalendarExporter.cs:60 | an escaped cell reads back as the value, line feeds shown as spaces when unquoted, unless it starts with a quote and has no comma |
| CalendarExport.LeadingQuoteMisread | webapps/StockEarningsCalendar/Services/CalendarExporter.cs:60 | `"Q3"` goes out bare and reads back as `Q3` |
| CalendarExport.HeaderCells | webapps/StockEarningsCalendar/Services/CalendarExporter.cs:12 | the header is the nine column names, and they read back unchanged |
| CalendarExport.CsvRowCells | webapps/StockEarningsCalendar/Services/CalendarExporter.cs:16-28 | a row is the event's nine column values, each escaped, joined by commas |
| CalendarExport.ToCsvRoundTrip | webapps/StockEarningsCalendar/Services/CalendarExporter.cs:9-32 | a reader gets the header, then one record per event in order: its nine values, line feeds in unquoted cells read as spaces, provided no text cell starts with a quote unless it holds a comma |
| CalendarExport.ToCsvQuotedRoundTrip | webapps/StockEarningsCalendar/Services/CalendarExporter.cs:9-60 | with the corrected escape, every export reads back exactly: header, then each event's nine values |
| Csv.EscapeField | apps/voice-message-extractor/Program.cs:255-263 | a value with no comma, quote or line feed goes out unchanged; any other is wrapped in quotes (the reading back is `Csv.EscapeFieldRoundTrip`) |
| Csv.EscapeFieldRoundTrip | apps/voice-message-extractor/Program.cs:255-263 | every value, escaped and followed by a separator, reads back as itself |
| Csv.RecordRoundTrip | webapps/StockEarningsCalendar/Services/CalendarExporter.cs:28 | a line of escaped values joined by commas reads back as one record of the values |
| Csv.LinesRoundTrip | webapps/StockEarningsCalendar/Services/CalendarExporter.cs:28-31 | lines that each write a row read back as those rows, in order |
| CalendarExport.EscapeTextIsMap | webapps/StockEarningsCalendar/Services/CalendarExporter.cs:62-69 | the four replacements in that order escape each character on its own |
| CalendarExport.EscapeTextRoundTrip | webapps/StockEarningsCalendar/Services/CalendarExporter.cs:62-69 | the escaped text is well formed, and unescaping it (section 3.3.11 of RFC 5545) gives the value back |
| CalendarExport.UnescapeRoundTrip | webapps/StockEarningsCalendar/Services/CalendarExporter.cs:62-69 | every well-formed escaped text is the escape of what it reads as |
| CalendarExport.EscapedOneLine | webapps/StockEarningsCalendar/Services/CalendarExporter.cs:62-69 | an escaped text holds no line feed |
| CalendarExport.Details | webapps/StockEarningsCalendar/Services/CalendarExporter.cs:73-108 | the description starts with the ticker and ends with the source |
| CalendarExport.DetailsLookup | webapps/StockEarningsCalendar/Services/CalendarExporter.cs:71-110 | each label carries its value exactly when the code adds it: optional texts when not blank, numbers when present |
| CalendarExport.DescriptionOneLine | webapps/StockEarningsCalendar/Services/CalendarExporter.cs:71-110 | the details are joined by a literal backslash-n, which the DESCRIPTION escape preserves, so a reader gets no line breaks |
| CalendarExport.EndDates | webapps/StockEarningsCalendar/Services/CalendarExporter.cs:50 | each event's DTEND is the day after its date; no stream when an event falls on the last day |
| CalendarExport.SlotLines | webapps/StockEarningsCalendar/Services/CalendarExporter.cs:47-53 | the `k`-th block is the `k`-th event's VEVENT, ending the next day |
| CalendarExport.EventLinesRead | webapps/StockEarningsCalendar/Services/CalendarExporter.cs:47-53 | each VEVENT reads back as the ticker, start, end, description and UID |
| CalendarExport.IcsSplit | webapps/StockEarningsCalendar/Services/CalendarExporter.cs:36-57 | the calendar's lines are the head, the seven-line blocks in order, and END:VCALENDAR |
| CalendarExport.BlocksLayout | webapps/StockEarningsCalendar/Services/CalendarExporter.cs:36-57 | the calendar's lines hold one VEVENT per event, in input order, after the head |
| CalendarExport.ToIcsLayout | webapps/StockEarningsCalendar/Services/CalendarExporter.cs:34-58 | BEGIN:VCALENDAR, VERSION, PRODID, a CALNAME iff a name is given, one VEVENT per event in order, END:VCALENDAR; no stream iff an event is on the last day |
| SkuExtractor.ReadOptions | apps/product-sku-extractor/Program.cs:36-42 | the prefix is trimmed; a length is kept exactly when it parses as an `int` |
| SkuExtractor.SanitizedLength | apps/product-sku-extractor/Program.cs:103 | the sanitised length is the number of ASCII letters and digits |
| SkuExtractor.IsValidSku | apps/product-sku-extractor/Program.cs:101-122 | with no constraint every candidate is valid |
| SkuExtractor.IsValidSkuSpec | apps/product-sku-extractor/Program.cs:101-122 | valid exactly when long enough, short enough and, for a non-blank prefix, starting with it ignoring case |
| SkuExtractor.Candidates | apps/product-sku-extractor/Program.cs:74-78 | every candidate is a trimmed match |
| SkuExtractor.Accepted | apps/product-sku-extractor/Program.cs:78-88 | every hit is a valid candidate of the cell, at that cell's file, sheet and 1-based place |
| SkuExtractor.HitsFrom | apps/product-sku-extractor/Program.cs:53-92 | every hit was found in a non-blank cell of some file, sheet, row and column |
| SkuExtractor.SignatureSpec | apps/product-sku-extractor/Program.cs:84 | two hits share a signature iff their SKUs and file names agree ignoring case (SKUs without '\|') |
| SkuExtractor.ExtractSkus | apps/product-sku-extractor/Program.cs:31-96 | no files is "No files were uploaded."; otherwise the first hit of each signature, in order |
| SkuExtractor.ExtractSkusDistinct | apps/product-sku-extractor/Program.cs:51-88 | no two results agree in SKU and file name, ignoring case |
| SkuExtractor.ExtractSkusFirst | apps/product-sku-extractor/Program.cs:84-88 | each result is the earliest hit with its signature, at the place it was first found |
| PathExtractor.SplitLines | apps/file-path-extractor/Program.cs:114 | the split gives at least one line |
| PathExtractor.SplitLinesJoin | apps/file-path-extractor/Program.cs:114 | the lines joined by '\n' are the text with each CRLF made LF; no line holds a '\n' |
| PathExtractor.Clean | apps/file-path-extractor/Program.cs:129 | the cleaned path is the trimmed capture less its trailing closers; it starts with no white space and ends in no closer |
| PathExtractor.ExtractPaths | apps/file-path-extractor/Program.cs:109-140 | the first match of each (path ignoring case, line) key, in order; every key is kept |
| PathExtractor.ExtractPathsSpec | apps/file-path-extractor/Program.cs:114-135 | each result is a cleaned non-blank capture of its 1-based line, its snippet is the trimmed line, and no other result has the same path and line |
| PathExtractor.MatchOrderMeaning | apps/file-path-extractor/Program.cs:81-82 | the order is line ascending, then path ignoring case |
| PathExtractor.OrderMatchesSpec | apps/file-path-extractor/Program.cs:80-83 | the listing is a permutation in that order, ties in input order |
| PathExtractor.ScanFile | apps/file-path-extractor/Program.cs:42-86 | an unsupported type or an empty file gives that error and no matches; the error is absent exactly otherwise, and then the listing is a permutation of the file's matches, ascending by line and within a line by path ignoring case, with comparer ties in extraction order |
| PathExtractor.Scan | apps/file-path-extractor/Program.cs:22-104 | no files is the error; otherwise one report per file, and `filesProcessed` is their number |
| PathExtractor.ScanTotal | apps/file-path-extractor/Program.cs:38-104 | `totalMatches` is the sum of the listed matches of every report |
| VoiceExtractor.AudioExtensionTrimmed | apps/voice-message-extractor/Program.cs:152-221 | an audio extension is '.' then "opus" or "ogg" in some case, and trimming dots leaves that name |
| VoiceExtractor.EntryMessagesKeep | apps/voice-message-extractor/Program.cs:174-204 | every audio entry of an archive gives its message |
| VoiceExtractor.EntryMessagesSource | apps/voice-message-extractor/Program.cs:174-204 | every message of an archive is that of an audio entry, not a directory |
| VoiceExtractor.EntryMessageShape | apps/voice-message-extractor/Program.cs:198-204 | an entry's relative path has no '\' and its extension is "opus" or "ogg" without a dot |
| VoiceExtractor.UploadOutcome | apps/voice-message-extractor/Program.cs:159-230 | an empty or unsupported upload gives exactly one warning and no message; any other gives none |
| VoiceExtractor.UploadMessages | apps/voice-message-extractor/Program.cs:159-230 | every message is the upload itself, for an audio file, or an audio entry of a non-empty archive |
| VoiceExtractor.ExtractKeeps | apps/voice-message-extractor/Program.cs:159-230 | every upload's messages are in the extraction |
| VoiceExtractor.ExtractSource | apps/voice-message-extractor/Program.cs:159-230 | every extracted message comes from some upload |
| VoiceExtractor.ExtractShape | apps/voice-message-extractor/Program.cs:198-224 | every extracted extension is "opus" or "ogg" without a dot |
| VoiceExtractor.Scan | apps/voice-message-extractor/Program.cs:28-50 | no messages is the bad request with the warnings; otherwise the messages, their count and the warnings |
| VoiceExtractor.TargetFormat | apps/voice-message-extractor/Program.cs:62-67 | the format is "mp3" or "wav": the lower-cased field when it is one of them, else "mp3" |
| VoiceExtractor.ConvertedSplit | apps/voice-message-extractor/Program.cs:98-116 | every message either converts or adds one warning |
| VoiceExtractor.NamesOfMessages | apps/voice-message-extractor/Program.cs:102-133 | every archived file is named after one of the messages, in the target format |
| VoiceExtractor.Deliver | apps/voice-message-extractor/Program.cs:71-145 | no messages is the bad request with the extraction's warnings; nothing converted is the problem response, which carries no warnings; otherwise a bare archive of one file per converted message, named after it, then metadata.csv |
| VoiceExtractor.Download | apps/voice-message-extractor/Program.cs:53-146 | the same for the whole endpoint, in the chosen target format: only the no-audio reply carries warnings |
| VoiceExtractor.Collected | apps/voice-message-extractor/Program.cs:98-116 | the warnings held after the conversion loop are the extraction's, followed by one per message that failed |
| VoiceExtractor.FailureWarningDropped | apps/voice-message-extractor/Program.cs:112-122 | one message "a.ogg" failing with "E": a warning is collected, yet the problem reply carries none |
| VoiceExtractor.DeliverReporting | apps/voice-message-extractor/Program.cs:118-122 | the corrected reply: when nothing converts, the problem response carries the collected warnings, one per message beyond the extraction's; every other reply is the code's |
| VoiceExtractor.DeliverReportingNamesFailures | apps/voice-message-extractor/Program.cs:112-122 | every failed message's warning is in the corrected problem reply, where the code's reply has none |
| VoiceExtractor.MetadataRoundTrip | apps/voice-message-extractor/Program.cs:93-110 | a reader gets the header, then each converted message's name, path, time and duration, whatever the names hold |
| ShortsDownloader.ParseContainerSpec | apps/youtube-shorts-downloader/Program.cs:136-141 | "mp4" and "webm" are recognised ignoring case, and nothing else is |
| ShortsDownloader.DurationGate | apps/youtube-shorts-downloader/Program.cs:42-45 | passes exactly a known duration of at most 60 seconds |
| ShortsDownloader.ContainerFiltered | apps/youtube-shorts-downloader/Program.cs:50-53 | keeps exactly the streams in the requested container, or all of them |
| ShortsDownloader.Verticals | apps/youtube-shorts-downloader/Program.cs:55-56 | keeps exactly the streams whose width is less than their height |
| ShortsDownloader.Best | apps/youtube-shorts-downloader/Program.cs:57-62 | the first stream by height, then bitrate, both descending: none better, the earliest of equals |
| ShortsDownloader.SelectSpec | apps/youtube-shorts-downloader/Program.cs:50-69 | in the requested container, vertical when one is on offer, best of its pool; none iff the pool is empty |
| ShortsDownloader.SelectedHasQuality | apps/youtube-shorts-downloader/Program.cs:55-64 | a selected stream always has a quality |
| ShortsDownloader.SquareSide | apps/youtube-shorts-downloader/Program.cs:172 | the crop side is the smaller of width and height |
| ShortsDownloader.CropExtension | apps/youtube-shorts-downloader/Program.cs:173 | "webm" iff the preferred format parses as WebM, else "mp4" |
| ShortsDownloader.ChangeExtensionOf | apps/youtube-shorts-downloader/Program.cs:101-103 | a name ending in "." and a dot-free extension gets that extension swapped for the requested one |
| ShortsDownloader.Download | apps/youtube-shorts-downloader/Program.cs:25-131 | a blank URL, an unresolvable URL, a video over 60 s or of unknown length, an empty pool and a failed crop are each refused with their own message; a pool stream without a quality is the unhandled failure; otherwise the selected stream is delivered, "vertical" iff width < height, video/webm iff WebM, named by the cleaned title (or "shorts") with the container's extension, changed to the requested format when cropped |

## Left out

- PhraseText.IsTokenChar: `[\p{L}0-9']` is narrowed to ASCII letters, digits and the apostrophe, because Unicode letter classes are out of scope. For "café" the code gives the token "café" and the model gives "caf".
- Strings.Lower: `ToLowerInvariant` is ASCII-only here, so a non-ASCII letter keeps its case. This reaches phrase keys (`PhraseText.NormalizeForKey`).
- Strings.Upper: `ToUpperInvariant` and the `OrdinalIgnoreCase` comparers are modelled as ASCII upper-casing. .NET treats "É" and "é" as equal; the model does not. This reaches phrase keys, renamer collisions, long-word keys, SKU and path dedupe, and the earnings ticker set and sort.
- Strings.IsWhiteSpace: the white-space set is the fixed list of characters `char.IsWhiteSpace` and `\s` accept.
- PathNames.FileName: the directory separator is '/' only, as on Linux; a '\' is an ordinary character.
- Csv.AppendLines: `StringBuilder.AppendLine` writes "\n", the Linux `Environment.NewLine`.
- CalendarExport.Columns: `decimal` is modelled as `real`, which has no scale. Number text comes from a `format` parameter of which only the character set is stated. The `N0` form and the default `decimal` form of the description are parameters too.
- Earnings.GetEarnings: `fetch` and `sectorTickers` are total functions. HTTP failures, cancellation and the `Task.WhenAll` fan-out are not modelled, and FinancialModelingPrepClient.cs is not part of this model.
- RepeatedPhrases.Report: the culture-sensitive default comparer of `ThenBy(x => x.Text)` is the parameter `textLe`, assumed to be a total preorder.
- RepeatedPhrases.AnalyzeContent: the code interleaves the sentence map and the phrase map per sentence. The model builds the two maps in two folds over the lines. They never interact, so the maps are the same.
- RepeatedPhrases.AnalyzeContent keeps the code's `NormalizeWhitespace`, not the corrected one. The two agree on every text without "\r\r\n" (`PhraseText.NormalizeFixedAgrees`).
- The analyze endpoint of the phrase detector (lines 18-97) and its file readers (lines 215-260) are left out: form reading and DOCX/RTF/HTML/PDF decoding.
- LongWords.CountLongWords: the pattern `\b[\p{L}\p{N}'-]{threshold,}\b` is an uninterpreted matcher. Lines 141 and 145 are not valid C# as written; the model follows their evident intent, a match trimmed of apostrophes and hyphens.
- LongWords.ReadContent: the DOCX, PDF and HTML readers are left out (foreign libraries). Only the markdown strip of plain text is modelled.
- SkuExtractor.Candidates: the two SKU patterns are uninterpreted matchers, and the workbook is given as sheets of cell texts (ExcelDataReader is left out).
- PathExtractor.ExtractPaths: the path pattern is an uninterpreted matcher, and a capture is whatever it yields.
- PathExtractor.ScanFile: reading a file is total here, so the catch of a reader failure (lines 87-96 of the path extractor) is left out.
- JsonCombiner.ParseUploads: `JsonNode.Parse` is a given per-upload result (parsed node, null, or exception message).
- Dictionary and HashSet enumeration order is modelled as insertion order, which is what .NET gives when nothing is removed.
- VoiceExtractor.Download models the code's replies (`Deliver`), not the corrected `DeliverReporting`. The archive reply is a bare file, so the warnings of a partly failed download reach no client either; a remedy there would need a new reply format, so none is modelled.
- VoiceExtractor.Download: FFmpeg, the zip reader and writer, temporary files, cleanup and `Guid` names are left out. Conversion is a parameter giving a duration text or an error message, and FFmpeg download failure is not modelled. The time and duration formats (`o`, `0.###`) are parameters.
- VoiceExtractor.MetadataRoundTrip: stated only when the time and duration texts need no quoting. The duration is formatted with `0.###` in the current culture. Under a culture whose decimal separator is ',' (de-DE writes "1,5"), the code writes it bare and a reader splits the row into five cells; the round trip holds only when the separator is not ','.
- ShortsDownloader.Download: the video lookup, manifest, download and crop are parameters. `SanitizeFileName` is a parameter, because it depends on the platform's invalid-character list and an extension method that is not part of this model. Response headers other than file name, orientation and mime are left out.
- ShortsDownloader.Select: a stream without a video quality, met by the fallback order's `VideoQuality.Height`, throws in the code. The model reports this as `MissingQuality`, and `Download` as `None`.
- CalendarExport.ToIcs: `Guid.NewGuid()` UIDs are the parameter `uid`, assumed free of line feeds.
- CalendarExport.ToIcs: `DTSTART` and `DTEND` format `{Date:yyyyMMdd}` in the current culture (lines 49-50 of CalendarExporter.cs), while `ToCsv` uses the invariant culture. The model writes Gregorian year, month and day digits, so `ToIcsLayout` and `Format8RoundTrip` hold only under a culture whose calendar is the Gregorian one; under th-TH, say, the code writes a Buddhist-era year.
- The webapp's Program.cs, ApiOptions.cs and the PowerPoint slide exporter are left out: HTTP wiring and an external converter.
- BatchRenamer.Rename: the zip archive and its base64 text are left out.

## Findings

| source | as written | input that shows it | evidently intended | confidence | as-written member | corrected member |
|---|---|---|---|---|---|---|
| apps/repetitive-phrase-extractor/Program.cs:169-174 | one pass of `Replace("\r\n", "\n")`, so normalisation is not idempotent | "a\r\r\nb" normalises to "a\r\nb", and normalising that gives "a\nb" | no CRLF left in the normal form, so normalising is idempotent | high (not executed) | PhraseText.NormalizeNotIdempotentOnCrCrLf | PhraseText.NormalizeFixedIdempotent |
| webapps/StockEarningsCalendar/Services/CalendarExporter.cs:60 | `Escape` quotes only values containing ',' | the fiscal period `"Q3"` goes out bare and a CSV reader gets `Q3` | quote also on '"' and '\n', as section 2 of RFC 4180 requires, so every cell reads back | high (not executed) | CalendarExport.LeadingQuoteMisread | CalendarExport.ToCsvQuotedRoundTrip |
| apps/voice-message-extractor/Program.cs:118-122 | when nothing converts, the problem response says "See warnings for details." but carries only that detail text; the warnings collected at line 114 are dropped | one upload "a.ogg" whose conversion fails with "E": the warning "Failed to convert a.ogg: E" is collected, and the reply holds no warnings | the problem response carries the collected warnings, as the no-audio reply at lines 73-77 does | high (not executed) | VoiceExtractor.FailureWarningDropped | VoiceExtractor.DeliverReporting |

=== FILE: calendar_export.dfy ===
/** `CalendarExporter`: the watch list as comma-separated values (read back
    by the record grammar of section 2 of RFC 4180, with LF line breaks) and as an iCalendar
    stream (section 3.6.1 of RFC 5545, with TEXT values escaped as section
    3.3.11 asks). */
module CalendarExport {
  import opened Wrappers
  import opened Strings
  import opened Numbers
  import opened Collections
  import opened Dates
  import opened Earnings
  import opened Csv

  /** `value ?? string.Empty`. */
  function OrEmpty(s: Option<string>): string {
    s.GetOr("")
  }

  /* ------------------------------------------------------- CSV cell escape */

  function NewlineToSpace(c: char): string {
    if c == '\n' then " " else [c]
  }

  /** `Escape`: a value holding a comma is enclosed in quotes with its own
      quotes doubled; any other value only has its line feeds turned into
      spaces. */
  function CsvEscape(v: string): string {
    if ',' in v then "\"" + Replace(v, "\"", "\"\"") + "\"" else Replace(v, "\n", " ")
  }

  /** What a reader gets back for a cell: the value itself when it was
      quoted, else the value with its line feeds as spaces. */
  function Shown(v: string): (r: string)
    ensures |r| == |v|
    ensures forall i :: 0 <= i < |v| ==> r[i] == if v[i] == '\n' && ',' !in v then ' ' else v[i]
  {
    if ',' in v then v else SpacedLines(v)
  }

  /** Every line feed of `v` turned into a space. */
  function SpacedLines(v: string): (r: string)
    ensures |r| == |v|
    ensures forall i :: 0 <= i < |v| ==> r[i] == if v[i] == '\n' then ' ' else v[i]
    decreases |v|
  {
    if |v| == 0 then ""
    else
      var rest := SpacedLines(v[1..]);
      var r := NewlineToSpace(v[0]) + rest;
      assert forall i :: 1 <= i < |v| ==> r[i] == rest[i - 1];
      r
  }

  lemma {:induction false} SpacedLinesIsMap(v: string)
    ensures MapChars(v, NewlineToSpace) == SpacedLines(v)
    decreases |v|
  {
    if |v| > 0 {
      SpacedLinesIsMap(v[1..]);
    }
  }

  /** The two forms `Escape` produces. */
  lemma CsvEscapeForms(v: string)
    ensures ',' in v ==> CsvEscape(v) == Quoted(v)
    ensures ',' !in v ==> CsvEscape(v) == SpacedLines(v)
  {
    assert "\n" == ['\n'];
    ReplaceCharIsMap(v, '\n', " ");
    MapCharsSame(v, x => if x == '\n' then " " else [x], NewlineToSpace);
    SpacedLinesIsMap(v);
  }

  /** A value with neither a comma nor a line feed is written as it is. */
  lemma CsvEscapePlain(v: string)
    requires ',' !in v && '\n' !in v
    ensures CsvEscape(v) == v
  {
    CsvEscapeForms(v);
  }

  /** A value is read back unless it starts with a quote while holding no
      comma: `Escape` then leaves it unquoted and a reader takes the quote
      for the start of a quoted field. */
  predicate ReadsBack(v: string) {
    ',' in v || |v| == 0 || v[0] != '"'
  }

  /** An escaped cell followed by a separator reads back as the value
      shown. */
  lemma CellRoundTrip(v: string, rest: string)
    requires ReadsBack(v)
    requires Separated(rest)
    ensures ReadField(CsvEscape(v) + rest) == (Shown(v), rest)
  {
    CsvEscapeForms(v);
    if ',' in v {
      QuotedRoundTrip(v, rest);
    } else {
      ReadPlainOf(SpacedLines(v), rest);
    }
  }

  lemma CsvEscapeCells()
    ensures CellsReadBack(CsvEscape, Shown, ReadsBack)
  {
    forall v, rest | ReadsBack(v) && Separated(rest) ensures ReadField(CsvEscape(v) + rest) == (Shown(v), rest) {
      CellRoundTrip(v, rest);
    }
  }

  /* --------------------------------------------------------------- ToCsv */

  /** The header line, "Date,Ticker,...,Fiscal Period,Source". */
  const CsvHeader: string := Join(HeaderColumns, ",")

  const HeaderColumns: seq<string> :=
    ["Date", "Ticker", "Company", "Time Of Day", "Market Cap", "Estimated EPS", "Reported EPS",
     "Fiscal Period", "Source"]

  /** A decimal written by `format` (its invariant-culture `ToString`), or
      nothing when it is missing. */
  function NumberCell(x: Option<real>, format: real -> string): string {
    if x.Some? then format(x.value) else ""
  }

  /** The row of one event with the text cells passed through `escape`:
      the date and the numbers as they are. */
  function CsvRowWith(e: EarningsEvent, format: real -> string, escape: string -> string): string {
    Join([FormatIso(e.date), escape(e.ticker), escape(OrEmpty(e.companyName)),
          escape(OrEmpty(e.timeOfDay)), NumberCell(e.marketCap, format),
          NumberCell(e.estimatedEps, format), NumberCell(e.reportedEps, format),
          escape(OrEmpty(e.fiscalPeriod)), escape(e.source)], ",")
  }

  /** The header line, then one line per event in the given order. */
  function CsvLinesWith(events: seq<EarningsEvent>, format: real -> string, escape: string -> string): seq<string> {
    [CsvHeader] + RowLines(events, format, escape)
  }

  function RowLines(events: seq<EarningsEvent>, format: real -> string, escape: string -> string): seq<string> {
    MapSeq(events, (e: EarningsEvent) => CsvRowWith(e, format, escape))
  }

  /** `ToCsv`, with its `Escape`. */
  function ToCsv(events: seq<EarningsEvent>, format: real -> string): string {
    AppendLines(CsvLinesWith(events, format, CsvEscape))
  }

  /** The same export with every text cell escaped by `EscapeField`, which
      also quotes values holding a quote or a line feed. */
  function ToCsvQuoted(events: seq<EarningsEvent>, format: real -> string): string {
    AppendLines(CsvLinesWith(events, format, EscapeField))
  }

  /** The nine values of an event's row, before escaping. */
  function Columns(e: EarningsEvent, format: real -> string): (r: seq<string>)
    ensures |r| == |HeaderColumns|
  {
    [FormatIso(e.date), e.ticker, OrEmpty(e.companyName), OrEmpty(e.timeOfDay),
     NumberCell(e.marketCap, format), NumberCell(e.estimatedEps, format), NumberCell(e.reportedEps, format),
     OrEmpty(e.fiscalPeriod), e.source]
  }

  predicate IsNumberChar(c: char) {
    IsAsciiDigit(c) || c == '-' || c == '.'
  }

  /** An invariant-culture decimal is digits, a sign and a point. */
  predicate NumberText(t: string) {
    forall i :: 0 <= i < |t| ==> IsNumberChar(t[i])
  }

  ghost predicate InvariantNumbers(format: real -> string) {
    forall x :: NumberText(format(x))
  }

  /** The text cells of an event all pass `ok`. */
  predicate TextOk(e: EarningsEvent, ok: string -> bool) {
    ok(e.ticker) && ok(OrEmpty(e.companyName)) && ok(OrEmpty(e.timeOfDay))
    && ok(OrEmpty(e.fiscalPeriod)) && ok(e.source)
  }

  /** The text cells of an event all read back through `Escape`. */
  predicate TextReadsBack(e: EarningsEvent) {
    TextOk(e, ReadsBack)
  }

  /** Letters, digits, spaces, dashes and points: nothing a CSV writer or
      reader treats specially. */
  predicate PlainText(v: string) {
    forall j :: 0 <= j < |v| ==>
      IsAsciiLetter(v[j]) || IsAsciiDigit(v[j]) || v[j] == ' ' || v[j] == '-' || v[j] == '.'
  }

  /** `escape` writes plain text as it is, it is admitted, and it reads
      back as itself. */
  ghost predicate KeepsPlain(escape: string -> string, shown: string -> string, ok: string -> bool) {
    forall v :: PlainText(v) ==> escape(v) == v && shown(v) == v && ok(v)
  }

  lemma CsvEscapeKeepsPlain()
    ensures KeepsPlain(CsvEscape, Shown, ReadsBack)
  {
    forall v | PlainText(v) ensures CsvEscape(v) == v && Shown(v) == v && ReadsBack(v) {
      CsvEscapePlain(v);
      PlainStart(v);
    }
  }

  lemma EscapeFieldKeepsPlain()
    ensures KeepsPlain(EscapeField, Identity, Anything)
  {
  }

  lemma NumberCellPlain(x: Option<real>, format: real -> string)
    requires InvariantNumbers(format)
    ensures PlainText(NumberCell(x, format))
  {
    if x.Some? {
      FormatNumber(x.value, format);
    }
  }

  lemma FormatNumber(y: real, format: real -> string)
    requires InvariantNumbers(format)
    ensures NumberText(format(y))
  {
  }

  lemma DateCellPlain(d: ValidDate)
    ensures PlainText(FormatIso(d))
  {
  }

  /** An event's row is its nine values escaped and joined by commas. */
  lemma CsvRowCells(e: EarningsEvent, format: real -> string, escape: string -> string, shown: string -> string, ok: string -> bool)
    requires InvariantNumbers(format) && KeepsPlain(escape, shown, ok)
    ensures CsvRowWith(e, format, escape) == Join(MapSeq(Columns(e, format), escape), ",")
  {
    var cs := Columns(e, format);
    var row := [FormatIso(e.date), escape(e.ticker), escape(OrEmpty(e.companyName)),
          escape(OrEmpty(e.timeOfDay)), NumberCell(e.marketCap, format),
          NumberCell(e.estimatedEps, format), NumberCell(e.reportedEps, format),
          escape(OrEmpty(e.fiscalPeriod)), escape(e.source)];
    forall i | 0 <= i < |cs|
      ensures MapSeq(cs, escape)[i] == row[i]
    {
      if i == 0 {
        DateCellPlain(e.date);
      } else if i in {4, 5, 6} {
        NumberCellPlain(if i == 4 then e.marketCap else if i == 5 then e.estimatedEps else e.reportedEps, format);
      }
    }
    SameJoin(MapSeq(cs, escape), row);
  }

  lemma SameJoin(a: seq<string>, b: seq<string>)
    requires |a| == |b| && forall i :: 0 <= i < |a| ==> a[i] == b[i]
    ensures Join(a, ",") == Join(b, ",")
  {
    assert a == b;
  }

  lemma ColumnsOk(e: EarningsEvent, format: real -> string, escape: string -> string, shown: string -> string, ok: string -> bool)
    requires InvariantNumbers(format) && KeepsPlain(escape, shown, ok) && TextOk(e, ok)
    ensures AllOk(Columns(e, format), ok)
  {
    var date := FormatIso(e.date);
    var cap := NumberCell(e.marketCap, format);
    var estimated := NumberCell(e.estimatedEps, format);
    var reported := NumberCell(e.reportedEps, format);
    DateCellPlain(e.date);
    NumberCellPlain(e.marketCap, format);
    NumberCellPlain(e.estimatedEps, format);
    NumberCellPlain(e.reportedEps, format);
    PlainOk(date, escape, shown, ok);
    PlainOk(cap, escape, shown, ok);
    PlainOk(estimated, escape, shown, ok);
    PlainOk(reported, escape, shown, ok);
    NineOk(date, e.ticker, OrEmpty(e.companyName), OrEmpty(e.timeOfDay), cap, estimated, reported,
           OrEmpty(e.fiscalPeriod), e.source, ok);
  }

  lemma PlainOk(v: string, escape: string -> string, shown: string -> string, ok: string -> bool)
    requires KeepsPlain(escape, shown, ok) && PlainText(v)
    ensures ok(v)
  {
  }

  lemma NineOk(c0: string, c1: string, c2: string, c3: string, c4: string, c5: string, c6: string,
               c7: string, c8: string, ok: string -> bool)
    requires ok(c0) && ok(c1) && ok(c2) && ok(c3) && ok(c4)
    requires ok(c5) && ok(c6) && ok(c7) && ok(c8)
    ensures AllOk([c0, c1, c2, c3, c4, c5, c6, c7, c8], ok)
  {
  }

  lemma PlainOneLine(v: string)
    requires PlainText(v)
    ensures '\n' !in v
  {
  }

  lemma PlainStart(v: string)
    requires PlainText(v)
    ensures ReadsBack(v)
  {
    if |v| > 0 {
      assert IsAsciiLetter(v[0]) || IsAsciiDigit(v[0]) || v[0] == ' ' || v[0] == '-' || v[0] == '.';
    }
  }

  lemma HeaderPlain()
    ensures forall i :: 0 <= i < |HeaderColumns| ==> PlainText(HeaderColumns[i])
  {
  }

  /** The header line is the column names escaped and joined by commas, and
      they read back unchanged. */
  lemma HeaderCells(escape: string -> string, shown: string -> string, ok: string -> bool)
    requires KeepsPlain(escape, shown, ok)
    ensures CsvHeader == Join(MapSeq(HeaderColumns, escape), ",")
    ensures AllOk(HeaderColumns, ok)
    ensures MapSeq(HeaderColumns, shown) == HeaderColumns
  {
    HeaderPlain();
    SameJoin(MapSeq(HeaderColumns, escape), HeaderColumns);
  }

  /** The event lines read back as the events' values, one record each. */
  lemma RowsRoundTrip(events: seq<EarningsEvent>, format: real -> string,
                      escape: string -> string, shown: string -> string, ok: string -> bool)
    requires InvariantNumbers(format)
    requires CellsReadBack(escape, shown, ok) && KeepsPlain(escape, shown, ok)
    requires forall k :: 0 <= k < |events| ==> TextOk(events[k], ok)
    ensures var table := ParseCsv(AppendLines(RowLines(events, format, escape)));
      && |table| == |events|
      && forall k :: 0 <= k < |events| ==> table[k] == MapSeq(Columns(events[k], format), shown)
  {
    var line := (e: EarningsEvent) => CsvRowWith(e, format, escape);
    var values := (e: EarningsEvent) => Columns(e, format);
    forall k | 0 <= k < |events|
      ensures WritesRow(line, values, escape, ok, events[k])
    {
      CsvRowCells(events[k], format, escape, shown, ok);
      ColumnsOk(events[k], format, escape, shown, ok);
    }
    LinesRoundTrip(events, line, values, escape, shown, ok);
  }

  /** A reader of an export written with `escape` gets the column names,
      then for each event its nine values as shown. */
  lemma ExportRoundTrip(events: seq<EarningsEvent>, format: real -> string,
                        escape: string -> string, shown: string -> string, ok: string -> bool)
    requires InvariantNumbers(format)
    requires CellsReadBack(escape, shown, ok) && KeepsPlain(escape, shown, ok)
    requires forall k :: 0 <= k < |events| ==> TextOk(events[k], ok)
    ensures var table := ParseCsv(AppendLines(CsvLinesWith(events, format, escape)));
      && |table| == |events| + 1
      && table[0] == HeaderColumns
      && forall j :: 1 <= j < |table| ==> table[j] == MapSeq(Columns(events[j - 1], format), shown)
  {
    var rows := RowLines(events, format, escape);
    var rest := AppendLines(rows);
    assert CsvLinesWith(events, format, escape)[1..] == rows;
    assert AppendLines(CsvLinesWith(events, format, escape)) == CsvHeader + "\n" + rest;
    HeaderCells(escape, shown, ok);
    RecordRoundTrip(HeaderColumns, rest, escape, shown, ok);
    RowsRoundTrip(events, format, escape, shown, ok);
    var table := ParseCsv(AppendLines(CsvLinesWith(events, format, escape)));
    var tail := ParseCsv(rest);
    assert table == [HeaderColumns] + tail;
    forall j | 1 <= j < |table|
      ensures table[j] == MapSeq(Columns(events[j - 1], format), shown)
    {
      ConsIndex(HeaderColumns, tail, j);
    }
  }

  /** A reader of `ToCsv` gets the column names, then for each event its
      nine values, with line feeds in unquoted text cells read as spaces,
      provided no text cell starts with a quote unless it holds a comma. */
  lemma ToCsvRoundTrip(events: seq<EarningsEvent>, format: real -> string)
    requires InvariantNumbers(format)
    requires forall k :: 0 <= k < |events| ==> TextReadsBack(events[k])
    ensures var table := ParseCsv(ToCsv(events, format));
      && |table| == |events| + 1
      && table[0] == HeaderColumns
      && forall j :: 1 <= j < |table| ==> table[j] == MapSeq(Columns(events[j - 1], format), Shown)
  {
    CsvEscapeCells();
    CsvEscapeKeepsPlain();
    ExportRoundTrip(events, format, CsvEscape, Shown, ReadsBack);
  }

  /** With `EscapeField` every export reads back exactly: the column names,
      then each event's nine values, whatever its text holds. */
  lemma ToCsvQuotedRoundTrip(events: seq<EarningsEvent>, format: real -> string)
    requires InvariantNumbers(format)
    ensures var table := ParseCsv(ToCsvQuoted(events, format));
      && |table| == |events| + 1
      && table[0] == HeaderColumns
      && forall j :: 1 <= j < |table| ==> table[j] == Columns(events[j - 1], format)
  {
    EscapeFieldCells();
    EscapeFieldKeepsPlain();
    assert forall k :: 0 <= k < |events| ==> TextOk(events[k], Anything);
    ExportRoundTrip(events, format, EscapeField, Identity, Anything);
    forall k | 0 <= k < |events| ensures MapSeq(Columns(events[k], format), Identity) == Columns(events[k], format) {
      MapIdentity(Columns(events[k], format));
    }
  }

  lemma ConsIndex<T>(x: T, tail: seq<T>, j: nat)
    requires 1 <= j <= |tail|
    ensures ([x] + tail)[j] == tail[j - 1]
  {
  }

  /** A value that starts with a quote but holds no comma goes out
      unquoted, and a reader drops its quotes. */
  lemma LeadingQuoteMisread()
    ensures CsvEscape("\"Q3\"") == "\"Q3\""
    ensures ParseCsv(CsvEscape("\"Q3\"") + "\n") == [["Q3"]]
  {
    var v := "\"Q3\"";
    assert PlainText("Q3");
    CsvEscapePlain(v);
    var s := v + "\n";
    var close := "\"\n";
    assert close[0] == '"' && close[1] == '\n';
    assert ReadQuoted(close) == ("", "\n");
    var three := "3" + close;
    assert three[0] == '3' && three[1..] == close;
    assert ['3'] + "" == "3";
    assert ReadQuoted(three) == ("3", "\n");
    var body := "Q" + three;
    assert body[0] == 'Q' && body[1..] == three;
    assert ['Q'] + "3" == "Q3";
    assert ReadQuoted(body) == ("Q3", "\n");
    assert s[0] == '"' && s[1..] == body;
    assert ReadField(s) == ("Q3", "\n");
    assert ReadRecord(s) == (["Q3"], "");
  }

  /* --------------------------------------- iCalendar TEXT values (RFC 5545) */

  /** How `EscapeText` writes one character: a backslash, semicolon or comma
      behind a backslash, a line feed as a backslash and `n` (the
      ESCAPED-CHAR forms of section 3.3.11 of RFC 5545). */
  function TextChar(c: char): string {
    if c == '\\' then "\\\\"
    else if c == ';' then "\\;"
    else if c == ',' then "\\,"
    else if c == '\n' then "\\n"
    else [c]
  }

  function EscapeBackslash(c: char): string {
    if c == '\\' then "\\\\" else [c]
  }

  function EscapeSemicolon(c: char): string {
    if c == ';' then "\\;" else [c]
  }

  function EscapeComma(c: char): string {
    if c == ',' then "\\," else [c]
  }

  function EscapeLineFeed(c: char): string {
    if c == '\n' then "\\n" else [c]
  }

  /** `EscapeText`: four replacements in turn, backslashes first. */
  function EscapeText(v: string): string {
    Replace(Replace(Replace(Replace(v, "\\", "\\\\"), ";", "\\;"), ",", "\\,"), "\n", "\\n")
  }

  /** Reads a TEXT value back: each ESCAPED-CHAR stands for the character it
      escapes (`\n` and `\N` for a line feed), anything else for itself. */
  function Unescape(t: string): string
    decreases |t|
  {
    if |t| == 0 then ""
    else if |t| >= 2 && t[0] == '\\' && (t[1] == '\\' || t[1] == ';' || t[1] == ',') then
      [t[1]] + Unescape(t[2..])
    else if |t| >= 2 && t[0] == '\\' && (t[1] == 'n' || t[1] == 'N') then
      "\n" + Unescape(t[2..])
    else [t[0]] + Unescape(t[1..])
  }

  /** The texts `EscapeText` can write: a backslash only as the first half of
      an escape, and no bare semicolon, comma or line feed. */
  predicate IsEscaped(t: string)
    decreases |t|
  {
    if |t| == 0 then true
    else if t[0] == '\\' then
      |t| >= 2 && (t[1] == '\\' || t[1] == ';' || t[1] == ',' || t[1] == 'n') && IsEscaped(t[2..])
    else t[0] != ';' && t[0] != ',' && t[0] != '\n' && IsEscaped(t[1..])
  }

  /** The four replacements amount to escaping each character on its own. */
  lemma EscapeTextIsMap(v: string)
    ensures EscapeText(v) == MapChars(v, TextChar)
  {
    assert "\\" == ['\\'] && ";" == [';'] && "," == [','] && "\n" == ['\n'];
    var s1 := Replace(v, "\\", "\\\\");
    ReplaceCharIsMap(v, '\\', "\\\\");
    MapCharsSame(v, x => if x == '\\' then "\\\\" else [x], EscapeBackslash);
    var s2 := Replace(s1, ";", "\\;");
    ReplaceCharIsMap(s1, ';', "\\;");
    MapCharsSame(s1, x => if x == ';' then "\\;" else [x], EscapeSemicolon);
    var s3 := Replace(s2, ",", "\\,");
    ReplaceCharIsMap(s2, ',', "\\,");
    MapCharsSame(s2, x => if x == ',' then "\\," else [x], EscapeComma);
    ReplaceCharIsMap(s3, '\n', "\\n");
    MapCharsSame(s3, x => if x == '\n' then "\\n" else [x], EscapeLineFeed);
    StagesIsMap(v);
  }

  lemma {:induction false} StagesIsMap(v: string)
    ensures MapChars(MapChars(MapChars(MapChars(v, EscapeBackslash), EscapeSemicolon), EscapeComma), EscapeLineFeed)
         == MapChars(v, TextChar)
    decreases |v|
  {
    if |v| > 0 {
      var t := v[1..];
      var b := EscapeBackslash(v[0]);
      MapCharsAppend(b, MapChars(t, EscapeBackslash), EscapeSemicolon);
      var bs := MapChars(b, EscapeSemicolon);
      MapCharsAppend(bs, MapChars(MapChars(t, EscapeBackslash), EscapeSemicolon), EscapeComma);
      var bsc := MapChars(bs, EscapeComma);
      MapCharsAppend(bsc, MapChars(MapChars(MapChars(t, EscapeBackslash), EscapeSemicolon), EscapeComma), EscapeLineFeed);
      StagesOfChar(v[0]);
      StagesIsMap(t);
    }
  }

  lemma StagesOfChar(c: char)
    ensures MapChars(MapChars(MapChars(EscapeBackslash(c), EscapeSemicolon), EscapeComma), EscapeLineFeed) == TextChar(c)
  {
    if c == '\\' {
      assert EscapeBackslash(c) == [c, c];
      MapCharsTwo(c, c, EscapeSemicolon);
      MapCharsTwo(c, c, EscapeComma);
      MapCharsTwo(c, c, EscapeLineFeed);
    } else if c == ';' {
      MapCharsOne(c, EscapeSemicolon);
      assert EscapeSemicolon(c) == ['\\', c];
      MapCharsTwo('\\', c, EscapeComma);
      MapCharsTwo('\\', c, EscapeLineFeed);
    } else if c == ',' {
      MapCharsOne(c, EscapeSemicolon);
      MapCharsOne(c, EscapeComma);
      assert EscapeComma(c) == ['\\', c];
      MapCharsTwo('\\', c, EscapeLineFeed);
    } else {
      MapCharsOne(c, EscapeSemicolon);
      MapCharsOne(c, EscapeComma);
      MapCharsOne(c, EscapeLineFeed);
    }
  }

  lemma MapCharsOne(a: char, f: char -> string)
    ensures MapChars([a], f) == f(a)
  {
    assert [a][1..] == [];
  }

  lemma MapCharsTwo(a: char, b: char, f: char -> string)
    ensures MapChars([a, b], f) == f(a) + f(b)
  {
    assert [a, b][1..] == [b];
    MapCharsOne(b, f);
  }

  /** What `EscapeText` writes is an escaped text, and reading it back gives
      the value. */
  lemma EscapeTextRoundTrip(v: string)
    ensures IsEscaped(EscapeText(v))
    ensures Unescape(EscapeText(v)) == v
  {
    EscapeTextIsMap(v);
    EscapedChars(v);
  }

  lemma {:induction false} EscapedChars(v: string)
    ensures IsEscaped(MapChars(v, TextChar))
    ensures Unescape(MapChars(v, TextChar)) == v
    decreases |v|
  {
    if |v| > 0 {
      var w := MapChars(v[1..], TextChar);
      EscapedChars(v[1..]);
      EscapedCons(v[0], w);
      assert MapChars(v, TextChar) == TextChar(v[0]) + w;
      assert v == [v[0]] + v[1..];
    }
  }

  /** One more escaped character in front of an escaped text. */
  lemma EscapedCons(c: char, w: string)
    requires IsEscaped(w)
    ensures IsEscaped(TextChar(c) + w)
    ensures Unescape(TextChar(c) + w) == [c] + Unescape(w)
  {
    var t := TextChar(c) + w;
    if |TextChar(c)| == 2 {
      assert t[0] == '\\' && t[2..] == w;
    } else {
      assert t[0] == c && t[1..] == w;
    }
  }

  /** An escaped text is what `EscapeText` writes for the value it reads
      as. */
  lemma {:induction false} UnescapeRoundTrip(t: string)
    requires IsEscaped(t)
    ensures EscapeText(Unescape(t)) == t
    decreases |t|
  {
    EscapeTextIsMap(Unescape(t));
    if |t| > 0 {
      var n := if t[0] == '\\' then 2 else 1;
      var x := Unescape(t)[0];
      UnescapeRoundTrip(t[n..]);
      EscapeTextIsMap(Unescape(t[n..]));
      assert Unescape(t) == [x] + Unescape(t[n..]);
      assert TextChar(x) == t[..n];
      assert MapChars(Unescape(t), TextChar) == TextChar(x) + MapChars(Unescape(t[n..]), TextChar);
      assert t == t[..n] + t[n..];
    }
  }

  /** An escaped text holds no line feed. */
  lemma {:induction false} EscapedOneLine(t: string)
    requires IsEscaped(t)
    ensures '\n' !in t
    decreases |t|
  {
    if |t| > 0 {
      var n := if t[0] == '\\' then 2 else 1;
      EscapedOneLine(t[n..]);
      assert t == t[..n] + t[n..];
    }
  }

  /* ---------------------------------------------------- event description */

  datatype Detail = Detail(name: string, value: string)

  /** The details of the description, in order: the ticker, the company and
      the time of day when not blank, the market cap in whole-number form and
      the two EPS figures when present, the fiscal period when not blank, and
      the source. The two number forms are parameters. */
  function Details(e: EarningsEvent, wholeNumber: real -> string, number: real -> string): (ds: seq<Detail>)
    ensures |ds| >= 2
    ensures ds[0] == Detail("Ticker", e.ticker) && ds[|ds| - 1] == Detail("Source", e.source)
  {
    [Detail("Ticker", e.ticker)]
    + Item("Company", NonBlank(e.companyName))
    + Item("Time", NonBlank(e.timeOfDay))
    + Item("Market Cap", Formatted(e.marketCap, wholeNumber))
    + Item("Estimated EPS", Formatted(e.estimatedEps, number))
    + Item("Reported EPS", Formatted(e.reportedEps, number))
    + Item("Fiscal Period", NonBlank(e.fiscalPeriod))
    + [Detail("Source", e.source)]
  }

  /** A detail that is added only when there is a value for it. */
  function Item(name: string, value: Option<string>): seq<Detail> {
    if value.Some? then [Detail(name, value.value)] else []
  }

  /** The text, unless it is missing or blank. */
  function NonBlank(s: Option<string>): Option<string> {
    if IsNullOrBlank(s) then None else s
  }

  /** The amount in the given form, when there is one. */
  function Formatted(x: Option<real>, form: real -> string): Option<string> {
    if x.Some? then Some(form(x.value)) else None
  }

  function DetailText(d: Detail): string {
    d.name + ": " + d.value
  }

  /** `BuildDescription`: the details joined by a backslash and an `n`. */
  function BuildDescription(e: EarningsEvent, wholeNumber: real -> string, number: real -> string): string {
    Join(MapSeq(Details(e, wholeNumber, number), DetailText), "\\n")
  }

  /** The value given for a label, if any. */
  function Lookup(ds: seq<Detail>, name: string): Option<string>
    decreases |ds|
  {
    if |ds| == 0 then None
    else if ds[0].name == name then Some(ds[0].value)
    else Lookup(ds[1..], name)
  }

  lemma {:induction false} LookupAppend(a: seq<Detail>, b: seq<Detail>, name: string)
    ensures Lookup(a + b, name) == if Lookup(a, name).Some? then Lookup(a, name) else Lookup(b, name)
    decreases |a|
  {
    if |a| == 0 {
      assert a + b == b;
    } else {
      assert (a + b)[1..] == a[1..] + b;
      LookupAppend(a[1..], b, name);
    }
  }

  /** A label names the value the code gives it, and no other label is
      given: the ticker and the source always, the company, time of day and
      fiscal period when not blank, the market cap and EPS figures when
      present. */
  lemma DetailsLookup(e: EarningsEvent, wholeNumber: real -> string, number: real -> string, n: string)
    ensures Lookup(Details(e, wholeNumber, number), n) ==
      if n == "Ticker" then Some(e.ticker)
      else if n == "Company" && !IsNullOrBlank(e.companyName) then Some(e.companyName.value)
      else if n == "Time" && !IsNullOrBlank(e.timeOfDay) then Some(e.timeOfDay.value)
      else if n == "Market Cap" && e.marketCap.Some? then Some(wholeNumber(e.marketCap.value))
      else if n == "Estimated EPS" && e.estimatedEps.Some? then Some(number(e.estimatedEps.value))
      else if n == "Reported EPS" && e.reportedEps.Some? then Some(number(e.reportedEps.value))
      else if n == "Fiscal Period" && !IsNullOrBlank(e.fiscalPeriod) then Some(e.fiscalPeriod.value)
      else if n == "Source" then Some(e.source)
      else None
  {
    var p0 := [Detail("Ticker", e.ticker)];
    var p1 := Item("Company", NonBlank(e.companyName));
    var p2 := Item("Time", NonBlank(e.timeOfDay));
    var p3 := Item("Market Cap", Formatted(e.marketCap, wholeNumber));
    var p4 := Item("Estimated EPS", Formatted(e.estimatedEps, number));
    var p5 := Item("Reported EPS", Formatted(e.reportedEps, number));
    var p6 := Item("Fiscal Period", NonBlank(e.fiscalPeriod));
    var p7 := [Detail("Source", e.source)];
    assert Details(e, wholeNumber, number) == p0 + p1 + p2 + p3 + p4 + p5 + p6 + p7;
    LookupItem("Ticker", Some(e.ticker), n);
    LookupItem("Company", NonBlank(e.companyName), n);
    LookupItem("Time", NonBlank(e.timeOfDay), n);
    LookupItem("Market Cap", Formatted(e.marketCap, wholeNumber), n);
    LookupItem("Estimated EPS", Formatted(e.estimatedEps, number), n);
    LookupItem("Reported EPS", Formatted(e.reportedEps, number), n);
    LookupItem("Fiscal Period", NonBlank(e.fiscalPeriod), n);
    LookupItem("Source", Some(e.source), n);
    assert p0 == Item("Ticker", Some(e.ticker)) && p7 == Item("Source", Some(e.source));
    LookupAppend(p0, p1, n);
    LookupAppend(p0 + p1, p2, n);
    LookupAppend(p0 + p1 + p2, p3, n);
    LookupAppend(p0 + p1 + p2 + p3, p4, n);
    LookupAppend(p0 + p1 + p2 + p3 + p4, p5, n);
    LookupAppend(p0 + p1 + p2 + p3 + p4 + p5, p6, n);
    LookupAppend(p0 + p1 + p2 + p3 + p4 + p5 + p6, p7, n);
  }

  lemma LookupItem(m: string, v: Option<string>, n: string)
    ensures Lookup(Item(m, v), n) == if m == n then v else None
  {
    if v.Some? {
      assert [Detail(m, v.value)][1..] == [];
    }
  }

  /** Read back from its DESCRIPTION line, the description shows its details
      separated by a backslash and an `n`, not by line breaks: when no
      detail holds a line feed, neither does the text a reader gets. */
  lemma DescriptionOneLine(e: EarningsEvent, wholeNumber: real -> string, number: real -> string)
    requires forall d :: d in Details(e, wholeNumber, number) ==> '\n' !in d.value
    ensures var d := BuildDescription(e, wholeNumber, number);
      var first := DetailText(Details(e, wholeNumber, number)[0]);
      && Unescape(EscapeText(d)) == d
      && '\n' !in d
      && |first| + 2 <= |d| && d[|first|..|first| + 2] == "\\n"
  {
    var ds := Details(e, wholeNumber, number);
    var texts := MapSeq(ds, DetailText);
    var d := BuildDescription(e, wholeNumber, number);
    EscapeTextRoundTrip(d);
    DetailNamesOneLine(e, wholeNumber, number);
    forall k | 0 <= k < |texts|
      ensures '\n' !in texts[k]
    {
      assert ds[k] in ds;
    }
    JoinWithout(texts, "\\n", '\n');
    var rest := Join(texts[1..], "\\n");
    assert d == texts[0] + "\\n" + rest;
    assert d[|texts[0]|..|texts[0]| + 2] == "\\n";
  }

  /** No label holds a line feed. */
  lemma DetailNamesOneLine(e: EarningsEvent, wholeNumber: real -> string, number: real -> string)
    ensures forall d :: d in Details(e, wholeNumber, number) ==> '\n' !in d.name
  {
    var names := ["Ticker", "Company", "Time", "Market Cap", "Estimated EPS", "Reported EPS", "Fiscal Period", "Source"];
    forall i | 0 <= i < |names|
      ensures PlainText(names[i])
    {
    }
    forall d | d in Details(e, wholeNumber, number)
      ensures '\n' !in d.name
    {
      assert d.name in names;
      PlainOneLine(d.name);
    }
  }

  /** A join holds a character only when a part or the separator does. */
  lemma {:induction false} JoinWithout(parts: seq<string>, sep: string, c: char)
    requires c !in sep
    requires forall k :: 0 <= k < |parts| ==> c !in parts[k]
    ensures c !in Join(parts, sep)
    decreases |parts|
  {
    if |parts| > 1 {
      JoinWithout(parts[1..], sep, c);
    }
  }

  /* ------------------------------------------------------ iCalendar stream */

  /** The product identifier, `-//NatesFreeTools//Stock Earnings
      Calendar//EN` (section 3.7.3 of RFC 5545). */
  const ProductId: string := "PRODID:-//NatesFreeTools//" + "Stock Earnings Calendar//EN"

  const CalendarEnd: string := "END:VCALENDAR"

  /** The opening lines: begin, version, the product identifier, and the
      calendar name unless it is missing or blank. */
  function CalendarHead(name: Option<string>): seq<string> {
    ["BEGIN:VCALENDAR", "VERSION:2.0", ProductId]
      + (if IsNullOrBlank(name) then [] else ["X-WR-CALNAME:" + EscapeText(name.value)])
  }

  /** One VEVENT: an all-day event from the event's date up to `end`,
      titled by the ticker, carrying the description, and identified by
      `uid`. */
  function EventLines(e: EarningsEvent, end: ValidDate, uid: string, description: string): (r: seq<string>)
    ensures |r| == 7
  {
    ["BEGIN:VEVENT", SummaryLine(e.ticker), StartLine(e.date), EndLine(end),
     DescriptionLine(description), UidLine(uid), "END:VEVENT"]
  }

  function SummaryLine(ticker: string): string {
    "SUMMARY:" + EscapeText(ticker) + " earnings"
  }

  /** `DTSTART` with `{Date:yyyyMMdd}`, written here with Gregorian digits,
      as the invariant culture writes it. */
  function StartLine(d: ValidDate): string {
    "DTSTART;VALUE=DATE:" + Format8(d)
  }

  function EndLine(d: ValidDate): string {
    "DTEND;VALUE=DATE:" + Format8(d)
  }

  function DescriptionLine(description: string): string {
    "DESCRIPTION:" + EscapeText(description)
  }

  function UidLine(uid: string): string {
    "UID:" + uid + "@earnings-calendar"
  }

  /** The day after each event's date (`AddDays(1)`), or `None` when some
      event falls on the last representable day, where `AddDays` throws. */
  function EndDates(events: seq<EarningsEvent>): (r: Option<seq<ValidDate>>)
    ensures r.None? <==> exists k :: 0 <= k < |events| && events[k].date == MaxDate
    ensures r.Some? ==> |r.value| == |events|
    ensures r.Some? ==> forall k :: 0 <= k < |events| ==> NextDay(events[k].date) == Some(r.value[k])
  {
    if exists k :: 0 <= k < |events| && events[k].date == MaxDate then None
    else Some(seq(|events|, k requires 0 <= k < |events| => NextDay(events[k].date).value))
  }

  /** The VEVENT of the event in a slot, where `k` is the event's place. */
  function EventBlock(uid: nat -> string, wholeNumber: real -> string, number: real -> string)
    : ((EarningsEvent, ValidDate), nat) -> seq<string>
  {
    (slot: (EarningsEvent, ValidDate), k: nat) =>
      EventLines(slot.0, slot.1, uid(k), BuildDescription(slot.0, wholeNumber, number))
  }

  /** Each event with its end date. */
  function Slots(events: seq<EarningsEvent>, ends: seq<ValidDate>): (r: seq<(EarningsEvent, ValidDate)>)
    requires |ends| == |events|
    ensures |r| == |events|
    ensures forall k :: 0 <= k < |events| ==> r[k] == (events[k], ends[k])
  {
    seq(|events|, k requires 0 <= k < |events| => (events[k], ends[k]))
  }

  /** `block` applied to each element and its place, counting from
      `first`. */
  function Blocks<T>(xs: seq<T>, first: nat, block: (T, nat) -> seq<string>): (r: seq<seq<string>>)
    ensures |r| == |xs|
    decreases |xs|
  {
    if |xs| == 0 then [] else [block(xs[0], first)] + Blocks(xs[1..], first + 1, block)
  }

  lemma {:induction false} BlocksAt<T>(xs: seq<T>, first: nat, block: (T, nat) -> seq<string>, k: nat)
    requires k < |xs|
    ensures Blocks(xs, first, block)[k] == block(xs[k], first + k)
    decreases k
  {
    if k > 0 {
      BlocksAt(xs[1..], first + 1, block, k - 1);
      assert xs[1..][k - 1] == xs[k];
    }
  }

  /** `ToIcs`: the calendar head, one VEVENT per event, and the end line,
      each ended by a line feed; `uid(k)` stands for the fresh GUID of the
      `k`-th event. `None` where `AddDays` throws. */
  function ToIcs(events: seq<EarningsEvent>, name: Option<string>, uid: nat -> string,
                 wholeNumber: real -> string, number: real -> string): Option<string>
  {
    match EndDates(events)
    case None => None
    case Some(ends) =>
      Some(AppendLines(CalendarHead(name) + Flatten(Blocks(Slots(events, ends), 0, EventBlock(uid, wholeNumber, number))) + [CalendarEnd]))
  }

  /* ------------------------------------------------ reading the stream back */

  /** Seven-line blocks lie one after another. */
  lemma {:induction false} FlattenSevens(xss: seq<seq<string>>)
    requires forall k :: 0 <= k < |xss| ==> |xss[k]| == 7
    ensures |Flatten(xss)| == 7 * |xss|
    ensures forall k :: 0 <= k < |xss| ==> Flatten(xss)[7 * k .. 7 * k + 7] == xss[k]
    decreases |xss|
  {
    if |xss| > 0 {
      var rest := Flatten(xss[1..]);
      FlattenSevens(xss[1..]);
      assert Flatten(xss) == xss[0] + rest;
      forall k | 0 <= k < |xss|
        ensures Flatten(xss)[7 * k .. 7 * k + 7] == xss[k]
      {
        if k > 0 {
          assert xss[k] == xss[1..][k - 1];
          assert Flatten(xss)[7 * k .. 7 * k + 7] == rest[7 * (k - 1) .. 7 * (k - 1) + 7];
        }
      }
    }
  }

  /** Lines each ended by a line feed are the join of the lines and a last
      empty piece. */
  lemma {:induction false} AppendLinesIsJoin(ls: seq<string>)
    ensures AppendLines(ls) == Join(ls + [""], "\n")
    decreases |ls|
  {
    if |ls| > 0 {
      AppendLinesIsJoin(ls[1..]);
      assert (ls + [""])[1..] == ls[1..] + [""];
    }
  }

  /** Splitting the text at its line feeds gives the lines back, then the
      empty piece after the last line feed. */
  lemma AppendLinesSplit(ls: seq<string>)
    requires forall k :: 0 <= k < |ls| ==> '\n' !in ls[k]
    ensures Split(AppendLines(ls), '\n') == ls + [""]
  {
    AppendLinesIsJoin(ls);
    assert "\n" == ['\n'];
    var parts := ls + [""];
    assert forall k :: 0 <= k < |parts| ==> '\n' !in parts[k] by {
      forall k | 0 <= k < |parts|
        ensures '\n' !in parts[k]
      {
        if k < |ls| {
          assert parts[k] == ls[k];
        }
      }
    }
    SplitJoin(parts, '\n');
  }

  /** The fixed texts of the calendar hold no line feed. */
  lemma HeadTextsOneLine()
    ensures '\n' !in "BEGIN:VCALENDAR" && '\n' !in "VERSION:2.0" && '\n' !in ProductId
    ensures '\n' !in "X-WR-CALNAME:" && '\n' !in CalendarEnd
  {
  }

  lemma EndOneLine()
    ensures '\n' !in CalendarEnd
  {
    HeadTextsOneLine();
  }

  /** The fixed texts of an event hold no line feed. */
  lemma EventTextsOneLine()
    ensures '\n' !in "BEGIN:VEVENT" && '\n' !in "SUMMARY:" && '\n' !in " earnings"
    ensures '\n' !in "DTSTART;VALUE=DATE:" && '\n' !in "DTEND;VALUE=DATE:"
    ensures '\n' !in "DESCRIPTION:" && '\n' !in "UID:" && '\n' !in "@earnings-calendar"
    ensures '\n' !in "END:VEVENT"
  {
  }

  /** An escaped value holds no line feed. */
  lemma EscapeTextOneLine(v: string)
    ensures '\n' !in EscapeText(v)
  {
    EscapeTextRoundTrip(v);
    EscapedOneLine(EscapeText(v));
  }

  lemma DigitsOneLine(s: string)
    requires AllDigits(s)
    ensures '\n' !in s
  {
  }

  /** Every line of a VEVENT is one line when its identifier is. */
  lemma EventOneLine(e: EarningsEvent, end: ValidDate, uid: string, description: string)
    requires '\n' !in uid
    ensures OneLineSeven(EventLines(e, end, uid, description))
  {
    EventTextsOneLine();
    SummaryLineRead(e.ticker);
    StartLineRead(e.date);
    EndLineRead(end);
    DescriptionLineRead(description);
    UidLineRead(uid);
    SevenOneLine("BEGIN:VEVENT", SummaryLine(e.ticker), StartLine(e.date), EndLine(end),
                 DescriptionLine(description), UidLine(uid), "END:VEVENT");
  }

  lemma SevenOneLine(a: string, b: string, c: string, d: string, e: string, f: string, g: string)
    requires '\n' !in a && '\n' !in b && '\n' !in c && '\n' !in d && '\n' !in e && '\n' !in f && '\n' !in g
    ensures OneLineSeven([a, b, c, d, e, f, g])
  {
  }

  lemma ThreeOneLine(a: string, b: string, c: string)
    requires '\n' !in a && '\n' !in b && '\n' !in c
    ensures '\n' !in a + b + c && '\n' !in a + b
  {
  }

  /** The head of the calendar is one line per entry. */
  lemma HeadOneLine(name: Option<string>)
    ensures forall x :: x in CalendarHead(name) ==> '\n' !in x
  {
    HeadTextsOneLine();
    if !IsNullOrBlank(name) {
      EscapeTextOneLine(name.value);
    }
  }

  lemma MiddleSlice<T>(a: seq<T>, b: seq<T>, c: seq<T>, i: nat, j: nat)
    requires i <= j <= |b|
    ensures (a + b + c)[|a| + i .. |a| + j] == b[i..j]
  {
  }

  /** `ls` is the head lines, the seven-line blocks one after another, the
      last line, and an empty piece. */
  predicate StreamOf(ls: seq<string>, head: seq<string>, blocks: seq<seq<string>>, last: string) {
    && |ls| == |head| + 7 * |blocks| + 2
    && ls[..|head|] == head
    && ls[|ls| - 2] == last && ls[|ls| - 1] == ""
    && forall k :: 0 <= k < |blocks| ==> ls[|head| + 7 * k .. |head| + 7 * k + 7] == blocks[k]
  }

  /** Head lines, seven-line blocks and a last line, each ended by a line
      feed, split back at the line feeds. */
  lemma StreamSplit(head: seq<string>, blocks: seq<seq<string>>, last: string)
    requires forall x :: x in head ==> '\n' !in x
    requires OneLineSevens(blocks)
    requires '\n' !in last
    ensures StreamOf(Split(AppendLines(head + Flatten(blocks) + [last]), '\n'), head, blocks, last)
  {
    var body := Flatten(blocks);
    FlattenSevens(blocks);
    var lines := head + body + [last];
    forall i | 0 <= i < |lines|
      ensures '\n' !in lines[i]
    {
      if |head| <= i < |head| + |body| {
        var x := lines[i];
        assert x == body[i - |head|];
        FlattenMembers(blocks, x);
      } else if i < |head| {
        assert lines[i] in head;
      }
    }
    AppendLinesSplit(lines);
    var ls := lines + [""];
    assert ls == head + body + [last, ""];
    forall k | 0 <= k < |blocks|
      ensures ls[|head| + 7 * k .. |head| + 7 * k + 7] == blocks[k]
    {
      MiddleSlice(head, body, [last, ""], 7 * k, 7 * k + 7);
    }
  }

  /** Blocks of seven lines, none holding a line feed. */
  predicate OneLineSevens(blocks: seq<seq<string>>) {
    forall k :: 0 <= k < |blocks| ==> OneLineSeven(blocks[k])
  }

  predicate OneLineSeven(b: seq<string>) {
    |b| == 7 && forall x :: x in b ==> '\n' !in x
  }

  /** Every VEVENT is seven lines, none holding a line feed, when the
      identifiers hold none. */
  lemma BlocksOneLine(events: seq<EarningsEvent>, ends: seq<ValidDate>, uid: nat -> string,
                      wholeNumber: real -> string, number: real -> string)
    requires |ends| == |events|
    requires forall k: nat :: '\n' !in uid(k)
    ensures OneLineSevens(Blocks(Slots(events, ends), 0, EventBlock(uid, wholeNumber, number)))
  {
    forall k | 0 <= k < |events|
      ensures OneLineSeven(Blocks(Slots(events, ends), 0, EventBlock(uid, wholeNumber, number))[k])
    {
      BlockOneLine(events, ends, uid, wholeNumber, number, k);
    }
  }

  lemma BlockOneLine(events: seq<EarningsEvent>, ends: seq<ValidDate>, uid: nat -> string,
                     wholeNumber: real -> string, number: real -> string, k: nat)
    requires |ends| == |events| && k < |events|
    requires '\n' !in uid(k)
    ensures OneLineSeven(Blocks(Slots(events, ends), 0, EventBlock(uid, wholeNumber, number))[k])
  {
    var slots := Slots(events, ends);
    var e, end := slots[k].0, slots[k].1;
    EventBlockAt(uid, wholeNumber, number, slots[k], k);
    EventOneLine(e, end, uid(k), BuildDescription(e, wholeNumber, number));
    BlockIs(slots, EventBlock(uid, wholeNumber, number), k,
            EventLines(e, end, uid(k), BuildDescription(e, wholeNumber, number)));
  }

  lemma BlockIs<T>(xs: seq<T>, block: (T, nat) -> seq<string>, k: nat, lines: seq<string>)
    requires k < |xs| && block(xs[k], k) == lines
    ensures Blocks(xs, 0, block)[k] == lines
  {
    BlocksAt(xs, 0, block, k);
  }

  lemma EventBlockAt(uid: nat -> string, wholeNumber: real -> string, number: real -> string,
                     slot: (EarningsEvent, ValidDate), k: nat)
    ensures EventBlock(uid, wholeNumber, number)(slot, k)
         == EventLines(slot.0, slot.1, uid(k), BuildDescription(slot.0, wholeNumber, number))
  {
  }

  /** The number of head lines: three, and a fourth naming the calendar. */
  function HeadSize(name: Option<string>): nat {
    if IsNullOrBlank(name) then 3 else 4
  }

  /** `ls` opens with the calendar head: begin, version and product
      identifier, then the escaped calendar name when one is given. */
  predicate HeadAt(ls: seq<string>, name: Option<string>) {
    && |ls| >= HeadSize(name)
    && ls[0] == "BEGIN:VCALENDAR" && ls[1] == "VERSION:2.0" && ls[2] == ProductId
    && (HeadSize(name) == 4 ==> ls[3] == "X-WR-CALNAME:" + EscapeText(name.value))
  }

  /** `ls` is a calendar of the given blocks: the head, the blocks one after
      another, the end line and the empty piece after the last line feed. */
  predicate FrameOf(ls: seq<string>, name: Option<string>, blocks: seq<seq<string>>) {
    var h := HeadSize(name);
    && |ls| == h + 7 * |blocks| + 2
    && HeadAt(ls, name)
    && ls[|ls| - 2] == CalendarEnd && ls[|ls| - 1] == ""
    && forall k :: 0 <= k < |blocks| ==> ls[h + 7 * k .. h + 7 * k + 7] == blocks[k]
  }

  lemma HeadAtPrefix(ls: seq<string>, name: Option<string>)
    requires |ls| >= |CalendarHead(name)| && ls[..|CalendarHead(name)|] == CalendarHead(name)
    ensures HeadAt(ls, name)
  {
    var head := CalendarHead(name);
    assert |head| == HeadSize(name);
    assert ls[0] == head[0] && ls[1] == head[1] && ls[2] == head[2];
    if HeadSize(name) == 4 {
      assert ls[3] == head[3];
    }
  }

  /** A calendar of seven-line blocks, split at its line feeds: the head
      lines, the blocks, the end line and the empty piece after it. */
  lemma IcsSplit(name: Option<string>, blocks: seq<seq<string>>)
    requires OneLineSevens(blocks)
    ensures FrameOf(Split(AppendLines(CalendarHead(name) + Flatten(blocks) + [CalendarEnd]), '\n'), name, blocks)
  {
    var head := CalendarHead(name);
    HeadOneLine(name);
    EndOneLine();
    StreamSplit(head, blocks, CalendarEnd);
    var ls := Split(AppendLines(head + Flatten(blocks) + [CalendarEnd]), '\n');
    assert StreamOf(ls, head, blocks, CalendarEnd);
    assert |head| == HeadSize(name);
    HeadAtPrefix(ls, name);
  }

  /** The block of the `k`-th event is its VEVENT, ending the day after. */
  lemma {:induction false} SlotLines(events: seq<EarningsEvent>, ends: seq<ValidDate>, uid: nat -> string,
                  wholeNumber: real -> string, number: real -> string, k: nat)
    requires EndDates(events) == Some(ends) && k < |events|
    ensures NextDay(events[k].date).Some?
    ensures Blocks(Slots(events, ends), 0, EventBlock(uid, wholeNumber, number))[k]
         == EventLines(events[k], NextDay(events[k].date).value, uid(k), BuildDescription(events[k], wholeNumber, number))
  {
    var slots := Slots(events, ends);
    BlocksAt(slots, 0, EventBlock(uid, wholeNumber, number), k);
    assert slots[k] == (events[k], ends[k]);
    assert NextDay(events[k].date) == Some(ends[k]);
  }

  /** From line `at` on, `ls` holds the VEVENT of `e`, ending the day after
      its date, identified by `u`. */
  predicate EventAt(ls: seq<string>, at: nat, e: EarningsEvent, u: string,
                    wholeNumber: real -> string, number: real -> string)
  {
    && NextDay(e.date).Some?
    && at + 7 <= |ls|
    && ls[at .. at + 7] == EventLines(e, NextDay(e.date).value, u, BuildDescription(e, wholeNumber, number))
  }

  /** `ls` is the calendar of the events: the head, then for each event its
      seven-line VEVENT whose DTEND is the day after the event, then the end
      line and the empty piece after the last line feed. */
  predicate EventsAt(ls: seq<string>, name: Option<string>, events: seq<EarningsEvent>, uid: nat -> string,
                     wholeNumber: real -> string, number: real -> string)
  {
    && |ls| == HeadSize(name) + 7 * |events| + 2
    && HeadAt(ls, name)
    && ls[|ls| - 2] == CalendarEnd && ls[|ls| - 1] == ""
    && forall k :: 0 <= k < |events| ==> EventAt(ls, HeadSize(name) + 7 * k, events[k], uid(k), wholeNumber, number)
  }

  /** A calendar of the events' blocks is the calendar of the events. */
  lemma {:induction false} FrameEvents(ls: seq<string>, name: Option<string>, events: seq<EarningsEvent>, ends: seq<ValidDate>,
                                       uid: nat -> string, wholeNumber: real -> string, number: real -> string)
    requires EndDates(events) == Some(ends)
    requires FrameOf(ls, name, Blocks(Slots(events, ends), 0, EventBlock(uid, wholeNumber, number)))
    ensures EventsAt(ls, name, events, uid, wholeNumber, number)
  {
    assert |Blocks(Slots(events, ends), 0, EventBlock(uid, wholeNumber, number))| == |events|;
    EveryEvent(ls, name, events, ends, uid, wholeNumber, number);
  }

  lemma EveryEvent(ls: seq<string>, name: Option<string>, events: seq<EarningsEvent>, ends: seq<ValidDate>,
                   uid: nat -> string, wholeNumber: real -> string, number: real -> string)
    requires EndDates(events) == Some(ends)
    requires FrameOf(ls, name, Blocks(Slots(events, ends), 0, EventBlock(uid, wholeNumber, number)))
    ensures forall k :: 0 <= k < |events| ==> EventAt(ls, HeadSize(name) + 7 * k, events[k], uid(k), wholeNumber, number)
  {
    forall k | 0 <= k < |events|
      ensures EventAt(ls, HeadSize(name) + 7 * k, events[k], uid(k), wholeNumber, number)
    {
      FrameEvent(ls, name, events, ends, uid, wholeNumber, number, k);
    }
  }

  lemma FrameEvent(ls: seq<string>, name: Option<string>, events: seq<EarningsEvent>, ends: seq<ValidDate>,
                   uid: nat -> string, wholeNumber: real -> string, number: real -> string, k: nat)
    requires EndDates(events) == Some(ends) && k < |events|
    requires FrameOf(ls, name, Blocks(Slots(events, ends), 0, EventBlock(uid, wholeNumber, number)))
    ensures EventAt(ls, HeadSize(name) + 7 * k, events[k], uid(k), wholeNumber, number)
  {
    var blocks := Blocks(Slots(events, ends), 0, EventBlock(uid, wholeNumber, number));
    assert ls[HeadSize(name) + 7 * k .. HeadSize(name) + 7 * k + 7] == blocks[k];
    SlotLines(events, ends, uid, wholeNumber, number, k);
  }

  /** The text of the events' blocks, split at its line feeds, is the
      calendar of the events. */
  lemma {:induction false} BlocksLayout(events: seq<EarningsEvent>, ends: seq<ValidDate>, name: Option<string>,
                                        uid: nat -> string, wholeNumber: real -> string, number: real -> string)
    requires EndDates(events) == Some(ends)
    requires forall k: nat :: '\n' !in uid(k)
    ensures EventsAt(Split(AppendLines(CalendarHead(name) + Flatten(Blocks(Slots(events, ends), 0, EventBlock(uid, wholeNumber, number)))
                                       + [CalendarEnd]), '\n'),
                     name, events, uid, wholeNumber, number)
  {
    var blocks := Blocks(Slots(events, ends), 0, EventBlock(uid, wholeNumber, number));
    BlocksOneLine(events, ends, uid, wholeNumber, number);
    IcsSplit(name, blocks);
    FrameEvents(Split(AppendLines(CalendarHead(name) + Flatten(blocks) + [CalendarEnd]), '\n'), name, events, ends,
                uid, wholeNumber, number);
  }

  /** The stream, split at its line feeds, is the calendar of the events.
      There is no stream exactly when some event falls on the last
      representable day. */
  lemma {:induction false} ToIcsLayout(events: seq<EarningsEvent>, name: Option<string>, uid: nat -> string,
                    wholeNumber: real -> string, number: real -> string)
    requires forall k: nat :: '\n' !in uid(k)
    ensures ToIcs(events, name, uid, wholeNumber, number).None?
      <==> exists k :: 0 <= k < |events| && events[k].date == MaxDate
    ensures ToIcs(events, name, uid, wholeNumber, number).Some? ==>
      EventsAt(Split(ToIcs(events, name, uid, wholeNumber, number).value, '\n'), name, events, uid, wholeNumber, number)
  {
    if EndDates(events).Some? {
      BlocksLayout(events, EndDates(events).value, name, uid, wholeNumber, number);
    }
  }

  /** The text between a line's fixed prefix and suffix, when it has both. */
  function Inner(line: string, p: string, q: string): (r: Option<string>)
    ensures r.Some? ==> p + r.value + q == line
  {
    if |line| >= |p| + |q| && line[..|p|] == p && line[|line| - |q|..] == q then
      var v := line[|p|..|line| - |q|];
      assert p + v + q == line[..|p|] + v + line[|line| - |q|..];
      Some(v)
    else None
  }

  /** What one VEVENT carries. */
  datatype EventFields = EventFields(ticker: string, start: Date, end: Date, description: string, uid: string)

  /** Reads a VEVENT back: its framing lines, the unescaped summary without
      the " earnings" suffix, both DATE values, the unescaped description and
      the identifier. */
  function ReadEvent(b: seq<string>): Option<EventFields> {
    if |b| != 7 || b[0] != "BEGIN:VEVENT" || b[6] != "END:VEVENT" then None
    else
      var summary := Inner(b[1], "SUMMARY:", " earnings");
      var start := Inner(b[2], "DTSTART;VALUE=DATE:", "");
      var end := Inner(b[3], "DTEND;VALUE=DATE:", "");
      var description := Inner(b[4], "DESCRIPTION:", "");
      var uid := Inner(b[5], "UID:", "@earnings-calendar");
      if summary.None? || start.None? || end.None? || description.None? || uid.None? then None
      else
        match (Parse8(start.value), Parse8(end.value))
        case (Some(s), Some(f)) =>
          Some(EventFields(Unescape(summary.value), s, f, Unescape(description.value), uid.value))
        case _ => None
  }

  /** Each VEVENT reads back as the event's ticker and date, the given end,
      description and identifier. */
  lemma EventLinesRead(e: EarningsEvent, end: ValidDate, uid: string, description: string)
    ensures ReadEvent(EventLines(e, end, uid, description))
         == Some(EventFields(e.ticker, e.date, end, description, uid))
  {
    var summary, start, finish := SummaryLine(e.ticker), StartLine(e.date), EndLine(end);
    var described, identified := DescriptionLine(description), UidLine(uid);
    var startText, endText := Format8(e.date), Format8(end);
    assert EventLines(e, end, uid, description)
        == ["BEGIN:VEVENT", summary, start, finish, described, identified, "END:VEVENT"];
    SummaryLineRead(e.ticker);
    StartLineRead(e.date);
    EndLineRead(end);
    DescriptionLineRead(description);
    UidLineRead(uid);
    ReadEventOf(summary, start, finish, described, identified,
                EscapeText(e.ticker), startText, endText, EscapeText(description), uid, e.date, end);
  }

  /** `ReadEvent` on the seven lines of a VEVENT whose fields all read. */
  lemma ReadEventOf(l1: string, l2: string, l3: string, l4: string, l5: string,
                    summary: string, start: string, end: string, description: string, uid: string, s: Date, f: Date)
    requires Inner(l1, "SUMMARY:", " earnings") == Some(summary)
    requires Inner(l2, "DTSTART;VALUE=DATE:", "") == Some(start)
    requires Inner(l3, "DTEND;VALUE=DATE:", "") == Some(end)
    requires Inner(l4, "DESCRIPTION:", "") == Some(description)
    requires Inner(l5, "UID:", "@earnings-calendar") == Some(uid)
    requires Parse8(start) == Some(s) && Parse8(end) == Some(f)
    ensures ReadEvent(["BEGIN:VEVENT", l1, l2, l3, l4, l5, "END:VEVENT"])
         == Some(EventFields(Unescape(summary), s, f, Unescape(description), uid))
  {
  }

  /** The summary reads back as the ticker and is one line. */
  lemma SummaryLineRead(ticker: string)
    ensures Inner(SummaryLine(ticker), "SUMMARY:", " earnings") == Some(EscapeText(ticker))
    ensures Unescape(EscapeText(ticker)) == ticker && '\n' !in SummaryLine(ticker)
  {
    EventTextsOneLine();
    EscapeTextRoundTrip(ticker);
    EscapeTextOneLine(ticker);
    InnerOf("SUMMARY:", EscapeText(ticker), " earnings");
    ThreeOneLine("SUMMARY:", EscapeText(ticker), " earnings");
  }

  /** The start line reads back as the date and is one line. */
  lemma StartLineRead(d: ValidDate)
    ensures Inner(StartLine(d), "DTSTART;VALUE=DATE:", "") == Some(Format8(d))
    ensures Parse8(Format8(d)) == Some(d) && '\n' !in StartLine(d)
  {
    EventTextsOneLine();
    Format8RoundTrip(d);
    assert StartLine(d) == "DTSTART;VALUE=DATE:" + Format8(d) + "";
    InnerOf("DTSTART;VALUE=DATE:", Format8(d), "");
    DigitsOneLine(Format8(d));
    ThreeOneLine("DTSTART;VALUE=DATE:", Format8(d), "");
  }

  /** The end line reads back as the date and is one line. */
  lemma EndLineRead(d: ValidDate)
    ensures Inner(EndLine(d), "DTEND;VALUE=DATE:", "") == Some(Format8(d))
    ensures Parse8(Format8(d)) == Some(d) && '\n' !in EndLine(d)
  {
    EventTextsOneLine();
    Format8RoundTrip(d);
    assert EndLine(d) == "DTEND;VALUE=DATE:" + Format8(d) + "";
    InnerOf("DTEND;VALUE=DATE:", Format8(d), "");
    DigitsOneLine(Format8(d));
    ThreeOneLine("DTEND;VALUE=DATE:", Format8(d), "");
  }

  /** The description line reads back as the description and is one line. */
  lemma DescriptionLineRead(description: string)
    ensures Inner(DescriptionLine(description), "DESCRIPTION:", "") == Some(EscapeText(description))
    ensures Unescape(EscapeText(description)) == description && '\n' !in DescriptionLine(description)
  {
    EventTextsOneLine();
    EscapeTextRoundTrip(description);
    EscapeTextOneLine(description);
    assert DescriptionLine(description) == "DESCRIPTION:" + EscapeText(description) + "";
    InnerOf("DESCRIPTION:", EscapeText(description), "");
    ThreeOneLine("DESCRIPTION:", EscapeText(description), "");
  }

  /** The identifier line reads back as the identifier, and is one line
      when the identifier is. */
  lemma UidLineRead(uid: string)
    ensures Inner(UidLine(uid), "UID:", "@earnings-calendar") == Some(uid)
    ensures '\n' !in uid ==> '\n' !in UidLine(uid)
  {
    EventTextsOneLine();
    InnerOf("UID:", uid, "@earnings-calendar");
    if '\n' !in uid {
      ThreeOneLine("UID:", uid, "@earnings-calendar");
    }
  }

  /** A value framed by a prefix and a suffix is read back between them. */
  lemma InnerOf(p: string, v: string, q: string)
    ensures Inner(p + v + q, p, q) == Some(v)
  {
    var line := p + v + q;
    assert line[..|p|] == p;
    assert line[|line| - |q|..] == q;
    assert line[|p|..|line| - |q|] == v;
  }
}

=== FILE: collections.dfy ===
/** Sequence helpers shared by the extractors: the "first occurrence wins"
    filter that a `HashSet.Add` guard implements, and sums. */
module Collections {
  import opened Wrappers

  /** `sub` can be obtained from `s` by deleting elements. */
  predicate IsSubsequence<T(==)>(sub: seq<T>, s: seq<T>)
    decreases |s|
  {
    |sub| == 0 || (|s| > 0 && (if sub[0] == s[0] then IsSubsequence(sub[1..], s[1..]) else IsSubsequence(sub, s[1..])))
  }

  /** Every element of a subsequence is an element of the sequence. */
  lemma {:induction false} SubsequenceIn<T>(sub: seq<T>, s: seq<T>, i: nat)
    requires IsSubsequence(sub, s) && i < |sub|
    ensures sub[i] in s
    decreases |s|
  {
    if sub[0] == s[0] {
      if i > 0 {
        SubsequenceIn(sub[1..], s[1..], i - 1);
      }
    } else {
      SubsequenceIn(sub, s[1..], i);
    }
  }

  /** The first element of `s` whose key is `k`. */
  function FirstWithKey<T, K(==)>(s: seq<T>, key: T -> K, k: K): Option<T>
    decreases |s|
  {
    if |s| == 0 then None
    else if key(s[0]) == k then Some(s[0])
    else FirstWithKey(s[1..], key, k)
  }

  function KeysOf<T, K>(s: seq<T>, key: T -> K): set<K> {
    set i | 0 <= i < |s| :: key(s[i])
  }

  /** The loop `foreach x in s: if (seen.Add(key(x))) emit x`, started with
      the keys in `seen` already taken. */
  function DedupeFrom<T, K(==)>(s: seq<T>, key: T -> K, seen: set<K>): (r: seq<T>)
    ensures IsSubsequence(r, s)
    ensures forall i, j :: 0 <= i < j < |r| ==> key(r[i]) != key(r[j])
    ensures forall i :: 0 <= i < |r| ==> key(r[i]) !in seen
    ensures forall i :: 0 <= i < |r| ==> FirstWithKey(s, key, key(r[i])) == Some(r[i])
    ensures KeysOf(r, key) == KeysOf(s, key) - seen
    decreases |s|
  {
    if |s| == 0 then []
    else
      var k := key(s[0]);
      KeysOfCons(s, key);
      if k in seen then
        var rest := DedupeFrom(s[1..], key, seen);
        assert forall i :: 0 <= i < |rest| ==> key(rest[i]) != k;
        rest
      else
        var rest := DedupeFrom(s[1..], key, seen + {k});
        var r := [s[0]] + rest;
        assert r[1..] == rest;
        KeysOfCons(r, key);
        r
  }

  /** One step of the filter. */
  lemma DedupeFromCons<T, K>(s: seq<T>, key: T -> K, seen: set<K>)
    requires |s| > 0
    ensures DedupeFrom(s, key, seen) ==
      if key(s[0]) in seen then DedupeFrom(s[1..], key, seen)
      else [s[0]] + DedupeFrom(s[1..], key, seen + {key(s[0])})
  {
  }

  lemma KeysOfCons<T, K>(s: seq<T>, key: T -> K)
    requires |s| > 0
    ensures KeysOf(s, key) == {key(s[0])} + KeysOf(s[1..], key)
  {
    forall x | x in KeysOf(s, key) ensures x in {key(s[0])} + KeysOf(s[1..], key) {
      var i :| 0 <= i < |s| && key(s[i]) == x;
      if i > 0 {
        assert key(s[1..][i - 1]) == x;
      }
    }
    forall x | x in KeysOf(s[1..], key) ensures x in KeysOf(s, key) {
      var i :| 0 <= i < |s[1..]| && key(s[1..][i]) == x;
      assert key(s[i + 1]) == x;
    }
  }

  lemma {:induction false} FirstWithKeyAppend<T, K>(a: seq<T>, b: seq<T>, key: T -> K, k: K)
    ensures FirstWithKey(a + b, key, k) ==
      if FirstWithKey(a, key, k).Some? then FirstWithKey(a, key, k) else FirstWithKey(b, key, k)
    decreases |a|
  {
    if |a| == 0 {
      assert a + b == b;
    } else {
      assert (a + b)[0] == a[0];
      assert (a + b)[1..] == a[1..] + b;
      FirstWithKeyAppend(a[1..], b, key, k);
    }
  }

  lemma {:induction false} FirstWithKeyFound<T, K>(s: seq<T>, key: T -> K, k: K)
    ensures FirstWithKey(s, key, k).Some? <==> k in KeysOf(s, key)
    decreases |s|
  {
    if |s| > 0 {
      KeysOfCons(s, key);
      FirstWithKeyFound(s[1..], key, k);
    }
  }

  /** Position `i` holds the first element of `s` with its key. */
  predicate IsFirstWithKey<T, K(==)>(s: seq<T>, key: T -> K, i: int) {
    0 <= i < |s| && forall j :: 0 <= j < i ==> key(s[j]) != key(s[i])
  }

  /** What `FirstWithKey` finds sits at a position no earlier element with
      the same key precedes. */
  lemma {:induction false} FirstWithKeyIndex<T, K>(s: seq<T>, key: T -> K, k: K)
    requires FirstWithKey(s, key, k).Some?
    ensures exists i :: IsFirstWithKey(s, key, i) && s[i] == FirstWithKey(s, key, k).value && key(s[i]) == k
    decreases |s|
  {
    if key(s[0]) != k {
      FirstWithKeyIndex(s[1..], key, k);
      var i :| IsFirstWithKey(s[1..], key, i) && s[1..][i] == FirstWithKey(s[1..], key, k).value && key(s[1..][i]) == k;
      assert IsFirstWithKey(s, key, i + 1) by {
        forall j | 0 <= j < i + 1 ensures key(s[j]) != key(s[i + 1]) {
          if j > 0 {
            assert s[j] == s[1..][j - 1];
          }
        }
      }
    } else {
      assert IsFirstWithKey(s, key, 0);
    }
  }

  lemma KeysOfAppend<T, K>(a: seq<T>, b: seq<T>, key: T -> K)
    ensures KeysOf(a + b, key) == KeysOf(a, key) + KeysOf(b, key)
  {
    var ab := a + b;
    forall x | x in KeysOf(ab, key) ensures x in KeysOf(a, key) + KeysOf(b, key) {
      var i :| 0 <= i < |ab| && key(ab[i]) == x;
      if i >= |a| {
        assert key(b[i - |a|]) == x;
      }
    }
    forall x | x in KeysOf(b, key) ensures x in KeysOf(ab, key) {
      var i :| 0 <= i < |b| && key(b[i]) == x;
      assert key(ab[i + |a|]) == x;
    }
    forall x | x in KeysOf(a, key) ensures x in KeysOf(ab, key) {
      var i :| 0 <= i < |a| && key(a[i]) == x;
      assert key(ab[i]) == x;
    }
  }

  /** `HashSet`-guarded emission with a fresh set. */
  function Dedupe<T, K(==)>(s: seq<T>, key: T -> K): seq<T> {
    DedupeFrom(s, key, {})
  }

  /** `Select`: `f` applied to each element in turn. */
  function MapSeq<T, U>(xs: seq<T>, f: T -> U): (r: seq<U>)
    ensures |r| == |xs|
    ensures forall k :: 0 <= k < |xs| ==> r[k] == f(xs[k])
  {
    seq(|xs|, k requires 0 <= k < |xs| => f(xs[k]))
  }

  /** The sequences one after another (`SelectMany`). */
  function Flatten<T>(xss: seq<seq<T>>): seq<T>
    decreases |xss|
  {
    if |xss| == 0 then [] else xss[0] + Flatten(xss[1..])
  }

  /** `Where` then `Select`: `f` of each element `keep` admits, in order. */
  function KeepMap<T, U>(xs: seq<T>, keep: T -> bool, f: T -> U): seq<U>
    decreases |xs|
  {
    if |xs| == 0 then [] else (if keep(xs[0]) then [f(xs[0])] else []) + KeepMap(xs[1..], keep, f)
  }

  /** Every admitted element gives its image. */
  lemma {:induction false} KeepMapKeeps<T, U>(xs: seq<T>, keep: T -> bool, f: T -> U, k: nat)
    requires k < |xs| && keep(xs[k])
    ensures f(xs[k]) in KeepMap(xs, keep, f)
    decreases k
  {
    if k > 0 {
      assert xs[1..][k - 1] == xs[k];
      KeepMapKeeps(xs[1..], keep, f, k - 1);
    }
  }

  /** Every image comes from an admitted element. */
  lemma {:induction false} KeepMapSource<T, U>(xs: seq<T>, keep: T -> bool, f: T -> U, y: U)
    requires y in KeepMap(xs, keep, f)
    ensures exists k :: 0 <= k < |xs| && keep(xs[k]) && y == f(xs[k])
    decreases |xs|
  {
    if !(keep(xs[0]) && y == f(xs[0])) {
      KeepMapSource(xs[1..], keep, f, y);
      var k :| 0 <= k < |xs[1..]| && keep(xs[1..][k]) && y == f(xs[1..][k]);
      assert xs[1..][k] == xs[k + 1];
    }
  }

  lemma {:induction false} FlattenMembers<T>(xss: seq<seq<T>>, x: T)
    ensures x in Flatten(xss) <==> exists i :: 0 <= i < |xss| && x in xss[i]
    decreases |xss|
  {
    if |xss| > 0 {
      FlattenMembers(xss[1..], x);
      if exists i :: 0 <= i < |xss| && x in xss[i] {
        var i :| 0 <= i < |xss| && x in xss[i];
        if i > 0 {
          assert x in xss[1..][i - 1];
        }
      }
      if exists i :: 0 <= i < |xss[1..]| && x in xss[1..][i] {
        var i :| 0 <= i < |xss[1..]| && x in xss[1..][i];
        assert x in xss[i + 1];
      }
    }
  }

  function Sum(xs: seq<int>): int
    decreases |xs|
  {
    if |xs| == 0 then 0 else xs[0] + Sum(xs[1..])
  }

  lemma {:induction false} SumAppend(a: seq<int>, b: seq<int>)
    ensures Sum(a + b) == Sum(a) + Sum(b)
    decreases |a|
  {
    if |a| == 0 {
      assert a + b == b;
    } else {
      assert (a + b)[1..] == a[1..] + b;
      SumAppend(a[1..], b);
    }
  }

  /** No element occurs twice. */
  predicate Distinct<T(==)>(s: seq<T>) {
    forall i, j :: 0 <= i < j < |s| ==> s[i] != s[j]
  }

  function Elements<T>(s: seq<T>): set<T> {
    set x | x in s
  }

  /** A duplicate-free sequence has as many elements as its set. */
  lemma {:induction false} DistinctCard<T>(s: seq<T>)
    requires Distinct(s)
    ensures |Elements(s)| == |s|
    decreases |s|
  {
    if |s| > 0 {
      assert Distinct(s[1..]) by {
        forall i, j | 0 <= i < j < |s[1..]| ensures s[1..][i] != s[1..][j] {
          assert s[1..][i] == s[i + 1] && s[1..][j] == s[j + 1];
        }
      }
      DistinctCard(s[1..]);
      assert Elements(s) == {s[0]} + Elements(s[1..]);
      assert s[0] !in Elements(s[1..]);
    }
  }

  /** A duplicate-free sequence holds each element once. */
  lemma {:induction false} DistinctCount<T>(s: seq<T>, x: T)
    requires Distinct(s)
    ensures multiset(s)[x] <= 1
    decreases |s|
  {
    if |s| > 0 {
      assert s == [s[0]] + s[1..];
      assert Distinct(s[1..]) by {
        forall i, j | 0 <= i < j < |s[1..]| ensures s[1..][i] != s[1..][j] {
          assert s[1..][i] == s[i + 1] && s[1..][j] == s[j + 1];
        }
      }
      DistinctCount(s[1..], x);
      if s[0] == x {
        assert x !in s[1..];
      }
    }
  }

  /** A permutation of a duplicate-free sequence is duplicate-free. */
  lemma PermutationKeepsDistinct<T>(s: seq<T>, t: seq<T>)
    requires Distinct(s) && multiset(s) == multiset(t)
    ensures Distinct(t)
  {
    forall i, j | 0 <= i < j < |t| ensures t[i] != t[j] {
      if t[i] == t[j] {
        var x := t[i];
        assert t == t[..j] + [t[j]] + t[j + 1..];
        assert x in multiset(t[..j]) by {
          assert t[..j][i] == x;
        }
        assert multiset(t)[x] >= 2;
        DistinctCount(s, x);
        assert false;
      }
    }
  }

  /** Taking the same element out of two permutations leaves permutations. */
  lemma RemoveMatched<T>(a: seq<T>, b: seq<T>, p: nat)
    requires |a| > 0 && p < |b| && b[p] == a[0] && multiset(a) == multiset(b)
    ensures multiset(a[1..]) == multiset(b[..p] + b[p + 1..])
  {
    assert a == [a[0]] + a[1..];
    assert b == b[..p] + [b[p]] + b[p + 1..];
    var rest := multiset(b[..p] + b[p + 1..]);
    assert multiset(b) == rest + multiset{b[p]};
    assert multiset(a) == multiset(a[1..]) + multiset{a[0]};
    assert multiset(a[1..]) == multiset(a) - multiset{a[0]};
    assert rest == multiset(b) - multiset{b[p]};
  }

  /** A subset is no larger than the set that holds it. */
  lemma SubsetCard<T>(a: set<T>, b: set<T>)
    requires a <= b
    ensures |a| <= |b|
  {
    assert b == a + (b - a);
  }
}

=== FILE: csv.dfy ===
/** Comma-separated values in the record grammar of section 2 of RFC 4180,
    with LF line breaks and any character but a comma, a quote or a line
    feed allowed in a plain field: a reader for records of fields (a field is plain, or quoted with its own
    quotes doubled), the field escape that quotes whenever a value holds a
    comma, a quote or a line feed, and the round trip of rows written with a
    cell escape. */
module Csv {
  import opened Strings
  import opened Collections

  /* -------------------------------------------------------------- reader */

  /** The rest of a quoted field after its opening quote: a doubled quote
      stands for one quote and a single quote closes the field. Gives the
      value and the text after the closing quote. */
  function ReadQuoted(s: string): (r: (string, string))
    ensures |r.1| <= |s|
    decreases |s|
  {
    if |s| == 0 then ("", "")
    else if s[0] == '"' then
      if |s| >= 2 && s[1] == '"' then
        var (v, rest) := ReadQuoted(s[2..]);
        ("\"" + v, rest)
      else ("", s[1..])
    else
      var (v, rest) := ReadQuoted(s[1..]);
      ([s[0]] + v, rest)
  }

  /** An unquoted field: everything up to the next comma or line feed. */
  function ReadPlain(s: string): (r: (string, string))
    ensures r.0 + r.1 == s
    ensures ',' !in r.0 && '\n' !in r.0
    ensures r.1 == "" || r.1[0] == ',' || r.1[0] == '\n'
    decreases |s|
  {
    if |s| == 0 || s[0] == ',' || s[0] == '\n' then ("", s)
    else
      var (v, rest) := ReadPlain(s[1..]);
      assert [s[0]] + v + rest == [s[0]] + (v + rest);
      ([s[0]] + v, rest)
  }

  function ReadField(s: string): (r: (string, string))
    ensures |r.1| <= |s|
    ensures |r.1| == |s| > 0 ==> r.1[0] == ',' || r.1[0] == '\n'
  {
    if |s| > 0 && s[0] == '"' then ReadQuoted(s[1..]) else ReadPlain(s)
  }

  /** One record: fields separated by commas, ended by a line feed or by the
      end of the text. */
  function ReadRecord(s: string): (r: (seq<string>, string))
    ensures |r.1| <= |s|
    ensures |s| > 0 ==> |r.1| < |s|
    decreases |s|
  {
    var (v, rest) := ReadField(s);
    if |rest| > 0 && rest[0] == ',' then
      var (more, tail) := ReadRecord(rest[1..]);
      ([v] + more, tail)
    else if |rest| > 0 && rest[0] == '\n' then ([v], rest[1..])
    else ([v], rest)
  }

  /** The records of a whole text. */
  function ParseCsv(s: string): seq<seq<string>>
    decreases |s|
  {
    if |s| == 0 then []
    else
      var (record, rest) := ReadRecord(s);
      [record] + ParseCsv(rest)
  }

  /** What may follow a field: nothing, a comma or a line feed. */
  predicate Separated(rest: string) {
    rest == "" || rest[0] == ',' || rest[0] == '\n'
  }

  /* ------------------------------------------------------------- writing */

  function DoubleQuote(c: char): string {
    if c == '"' then "\"\"" else [c]
  }

  /** A value enclosed in quotes with its own quotes doubled. */
  function Quoted(v: string): string {
    "\"" + Replace(v, "\"", "\"\"") + "\""
  }

  lemma QuotedIsMap(v: string)
    ensures Quoted(v) == "\"" + MapChars(v, DoubleQuote) + "\""
  {
    assert "\"" == ['"'];
    ReplaceCharIsMap(v, '"', "\"\"");
    MapCharsSame(v, x => if x == '"' then "\"\"" else [x], DoubleQuote);
  }

  /** A value needs quoting when it holds a comma, a quote or a line feed. */
  predicate NeedsQuotes(v: string) {
    ',' in v || '"' in v || '\n' in v
  }

  /** The field escape: a value that needs quoting is quoted, any other is
      written as it is. */
  function EscapeField(v: string): (r: string)
    ensures !NeedsQuotes(v) ==> r == v
    ensures NeedsQuotes(v) ==> |r| >= 2 && r[0] == '"' && r[|r| - 1] == '"'
  {
    if NeedsQuotes(v) then Quoted(v) else v
  }

  /** The quoted form read from just behind its opening quote gives the
      value back and stops behind the closing quote. */
  lemma {:induction false} ReadQuotedDoubled(v: string, rest: string)
    requires rest == "" || rest[0] != '"'
    ensures ReadQuoted(MapChars(v, DoubleQuote) + "\"" + rest) == (v, rest)
    decreases |v|
  {
    var s := MapChars(v, DoubleQuote) + "\"" + rest;
    if |v| == 0 {
      assert s == "\"" + rest;
    } else {
      var inner := MapChars(v[1..], DoubleQuote) + "\"" + rest;
      assert s == DoubleQuote(v[0]) + inner;
      ReadQuotedDoubled(v[1..], rest);
      if v[0] == '"' {
        assert s[2..] == inner;
      } else {
        assert s[1..] == inner;
      }
      assert [v[0]] + v[1..] == v;
    }
  }

  lemma {:induction false} ReadPlainOf(u: string, rest: string)
    requires ',' !in u && '\n' !in u
    requires Separated(rest)
    ensures ReadPlain(u + rest) == (u, rest)
    decreases |u|
  {
    if |u| > 0 {
      assert (u + rest)[1..] == u[1..] + rest;
      ReadPlainOf(u[1..], rest);
      assert [u[0]] + u[1..] == u;
    } else {
      assert u + rest == rest;
    }
  }

  /** A quoted value followed by a separator reads back as the value. */
  lemma QuotedRoundTrip(v: string, rest: string)
    requires Separated(rest)
    ensures ReadField(Quoted(v) + rest) == (v, rest)
  {
    QuotedIsMap(v);
    var body := MapChars(v, DoubleQuote);
    assert Quoted(v) + rest == "\"" + (body + "\"" + rest);
    ReadQuotedDoubled(v, rest);
  }

  /** Every value, escaped and followed by a separator, reads back as
      itself. */
  lemma EscapeFieldRoundTrip(v: string, rest: string)
    requires Separated(rest)
    ensures ReadField(EscapeField(v) + rest) == (v, rest)
  {
    if NeedsQuotes(v) {
      QuotedRoundTrip(v, rest);
    } else {
      ReadPlainOf(v, rest);
    }
  }

  /* ---------------------------------------------------- rows of escapes */

  /** `escape` writes each value `ok` admits as a field that a reader takes
      for `shown(v)`. */
  ghost predicate CellsReadBack(escape: string -> string, shown: string -> string, ok: string -> bool) {
    forall v, rest :: ok(v) && Separated(rest) ==> ReadField(escape(v) + rest) == (shown(v), rest)
  }

  predicate Anything(v: string) {
    true
  }

  lemma EscapeFieldCells()
    ensures CellsReadBack(EscapeField, Identity, Anything)
  {
    forall v, rest | Separated(rest) ensures ReadField(EscapeField(v) + rest) == (v, rest) {
      EscapeFieldRoundTrip(v, rest);
    }
  }

  lemma MapIdentity(vs: seq<string>)
    ensures MapSeq(vs, Identity) == vs
  {
  }

  lemma UseCells(escape: string -> string, shown: string -> string, ok: string -> bool, v: string, rest: string)
    requires CellsReadBack(escape, shown, ok) && ok(v) && Separated(rest)
    ensures ReadField(escape(v) + rest) == (shown(v), rest)
  {
  }

  predicate AllOk(vs: seq<string>, ok: string -> bool) {
    forall i :: 0 <= i < |vs| ==> ok(vs[i])
  }

  lemma ReadRecordComma(s: string, v: string, rest: string)
    requires ReadField(s) == (v, "," + rest)
    ensures ReadRecord(s) == ([v] + ReadRecord(rest).0, ReadRecord(rest).1)
  {
    assert ("," + rest)[1..] == rest;
  }

  lemma ReadRecordEnd(s: string, v: string, tail: string)
    requires ReadField(s) == (v, "\n" + tail)
    ensures ReadRecord(s) == ([v], tail)
  {
    assert ("\n" + tail)[1..] == tail;
  }

  /** A line of escaped values reads back as one record of the values as
      shown. */
  lemma {:induction false} RecordRoundTrip(values: seq<string>, tail: string,
                                           escape: string -> string, shown: string -> string, ok: string -> bool)
    requires CellsReadBack(escape, shown, ok)
    requires |values| >= 1 && AllOk(values, ok)
    ensures ReadRecord(Join(MapSeq(values, escape), ",") + "\n" + tail) == (MapSeq(values, shown), tail)
    decreases |values|
  {
    var cells := MapSeq(values, escape);
    var first := escape(values[0]);
    if |values| == 1 {
      var s := first + "\n" + tail;
      assert Join(cells, ",") == first;
      UseCells(escape, shown, ok, values[0], "\n" + tail);
      assert s == first + ("\n" + tail);
      ReadRecordEnd(s, shown(values[0]), tail);
      assert MapSeq(values, shown) == [shown(values[0])];
    } else {
      var later := values[1..];
      var more := Join(MapSeq(later, escape), ",") + "\n" + tail;
      assert cells[1..] == MapSeq(later, escape);
      assert Join(cells, ",") == first + "," + Join(MapSeq(later, escape), ",");
      var s := first + ("," + more);
      assert Join(cells, ",") + "\n" + tail == s;
      UseCells(escape, shown, ok, values[0], "," + more);
      ReadRecordComma(s, shown(values[0]), more);
      assert AllOk(later, ok) by {
        forall i | 0 <= i < |later| ensures ok(later[i]) {
          assert later[i] == values[i + 1];
        }
      }
      RecordRoundTrip(later, tail, escape, shown, ok);
      assert [shown(values[0])] + MapSeq(later, shown) == MapSeq(values, shown);
    }
  }

  /** `line` writes the values of `x` escaped and joined by commas. */
  predicate WritesRow<T>(line: T -> string, values: T -> seq<string>, escape: string -> string, ok: string -> bool, x: T) {
    line(x) == Join(MapSeq(values(x), escape), ",") && |values(x)| >= 1 && AllOk(values(x), ok)
  }

  /** Lines that each write a row of values read back as those rows. */
  lemma {:induction false} LinesRoundTrip<T>(xs: seq<T>, line: T -> string, values: T -> seq<string>,
                                             escape: string -> string, shown: string -> string, ok: string -> bool)
    requires CellsReadBack(escape, shown, ok)
    requires forall k :: 0 <= k < |xs| ==> WritesRow(line, values, escape, ok, xs[k])
    ensures var table := ParseCsv(AppendLines(MapSeq(xs, line)));
      && |table| == |xs|
      && forall k :: 0 <= k < |xs| ==> table[k] == MapSeq(values(xs[k]), shown)
    decreases |xs|
  {
    if |xs| > 0 {
      var lines := MapSeq(xs, line);
      var later := xs[1..];
      var rest := AppendLines(lines[1..]);
      assert lines[1..] == MapSeq(later, line);
      assert forall k :: 0 <= k < |later| ==> later[k] == xs[k + 1];
      assert WritesRow(line, values, escape, ok, xs[0]);
      RecordRoundTrip(values(xs[0]), rest, escape, shown, ok);
      assert AppendLines(lines) == Join(MapSeq(values(xs[0]), escape), ",") + "\n" + rest;
      LinesRoundTrip(later, line, values, escape, shown, ok);
      var table := ParseCsv(AppendLines(lines));
      var tail := ParseCsv(rest);
      assert table == [MapSeq(values(xs[0]), shown)] + tail;
      forall k | 1 <= k < |xs|
        ensures table[k] == MapSeq(values(xs[k]), shown)
      {
        assert table[k] == tail[k - 1];
        assert later[k - 1] == xs[k];
      }
    }
  }

  /** `StringBuilder.AppendLine` for each line in turn (a line feed after
      every line). */
  function AppendLines(lines: seq<string>): string
    decreases |lines|
  {
    if |lines| == 0 then "" else lines[0] + "\n" + AppendLines(lines[1..])
  }
}

=== FILE: dates.dfy ===
/** `DateOnly` of the proleptic Gregorian calendar: validity, order, the day
    after, and the fixed-width digit forms `yyyyMMdd` (the DATE value of
    section 3.3.4 of RFC 5545) and `yyyy-MM-dd`. */
module Dates {
  import opened Wrappers
  import opened Strings
  import opened Numbers
  import opened Sorting

  datatype Date = Date(year: int, month: int, day: int)

  predicate IsLeapYear(y: int) {
    y % 4 == 0 && (y % 100 != 0 || y % 400 == 0)
  }

  function DaysInMonth(y: int, m: int): (n: int)
    requires 1 <= m <= 12
    ensures 28 <= n <= 31
  {
    if m == 2 then (if IsLeapYear(y) then 29 else 28)
    else if m == 4 || m == 6 || m == 9 || m == 11 then 30
    else 31
  }

  /** The range `DateOnly` can hold: 0001-01-01 to 9999-12-31. */
  predicate IsValid(d: Date) {
    1 <= d.year <= 9999 && 1 <= d.month <= 12 && 1 <= d.day <= DaysInMonth(d.year, d.month)
  }

  /** A `DateOnly` value. */
  type ValidDate = d: Date | IsValid(d) witness Date(1, 1, 1)

  const MaxDate: Date := Date(9999, 12, 31)

  /** `a` is an earlier day than `b`. */
  predicate Before(a: Date, b: Date) {
    a.year < b.year
    || (a.year == b.year && (a.month < b.month || (a.month == b.month && a.day < b.day)))
  }

  /** The comparer `OrderBy(e => e.Date)` uses. */
  function DateLe(): (Date, Date) -> bool {
    (a: Date, b: Date) => !Before(b, a)
  }

  /** `AddDays(1)`: the very next valid day, with no valid day between;
      there is none after the last representable day, where `AddDays`
      throws. */
  function NextDay(d: Date): (r: Option<Date>)
    requires IsValid(d)
    ensures r.None? <==> d == MaxDate
    ensures r.None? ==> forall e :: IsValid(e) ==> !Before(d, e)
    ensures r.Some? ==> IsValid(r.value) && Before(d, r.value)
    ensures r.Some? ==> forall e :: IsValid(e) && Before(d, e) ==> !Before(e, r.value)
  {
    if d.day < DaysInMonth(d.year, d.month) then Some(Date(d.year, d.month, d.day + 1))
    else if d.month < 12 then Some(Date(d.year, d.month + 1, 1))
    else if d.year < 9999 then Some(Date(d.year + 1, 1, 1))
    else None
  }

  /* ---------------------------------------------------------- formatting */

  function Pow10(n: nat): (p: nat)
    ensures p >= 1
  {
    if n == 0 then 1 else 10 * Pow10(n - 1)
  }

  /** `n` in exactly `width` decimal digits, zero-padded. */
  function Digits(n: nat, width: nat): (r: string)
    requires n < Pow10(width)
    ensures |r| == width && AllDigits(r)
    ensures DigitsValue(r) == n
    decreases width
  {
    if width == 0 then ""
    else
      var front := Digits(n / 10, width - 1);
      var r := front + [DigitChar(n % 10)];
      assert r[..|r| - 1] == front;
      r
  }

  /** Four year digits, two each for the month and the day. */
  const YearWidth: nat := 4
  const PartWidth: nat := 2

  /** `ToString("yyyyMMdd")`. */
  function Format8(d: Date): (r: string)
    requires IsValid(d)
    ensures |r| == 8 && AllDigits(r)
  {
    Digits(d.year, YearWidth) + Digits(d.month, PartWidth) + Digits(d.day, PartWidth)
  }

  /** `ToString("yyyy-MM-dd")`: the `yyyyMMdd` digits with a dash after the
      year and after the month. */
  function FormatIso(d: Date): (r: string)
    requires IsValid(d)
    ensures forall i :: 0 <= i < |r| ==> IsAsciiDigit(r[i]) || r[i] == '-'
  {
    Dashed(Format8(d))
  }

  function Dashed(t: string): (r: string)
    requires |t| == 8
    ensures |r| == 10 && r[4] == '-' && r[7] == '-'
    ensures r[..4] + r[5..7] + r[8..] == t
    ensures AllDigits(t) ==> forall i :: 0 <= i < |r| ==> IsAsciiDigit(r[i]) || r[i] == '-'
  {
    var r := t[..4] + "-" + t[4..6] + "-" + t[6..];
    assert r[..4] == t[..4] && r[5..7] == t[4..6] && r[8..] == t[6..];
    assert t == t[..4] + t[4..6] + t[6..];
    r
  }

  /** Reads a `yyyyMMdd` form back. */
  function Parse8(s: string): (r: Option<Date>)
  {
    if |s| == 8 && AllDigits(s) then
      Some(Date(DigitsValue(s[..4]), DigitsValue(s[4..6]), DigitsValue(s[6..])))
    else None
  }

  /** The DATE text names the date it was made from. */
  lemma Format8RoundTrip(d: Date)
    requires IsValid(d)
    ensures Parse8(Format8(d)) == Some(d)
  {
    var y, m, dd := Digits(d.year, YearWidth), Digits(d.month, PartWidth), Digits(d.day, PartWidth);
    ParseParts(y, m, dd, Format8(d));
    assert Date(DigitsValue(y), DigitsValue(m), DigitsValue(dd)) == d;
  }

  lemma ParseParts(y: string, m: string, dd: string, s: string)
    requires |y| == 4 && |m| == 2 && |dd| == 2
    requires AllDigits(y) && AllDigits(m) && AllDigits(dd)
    requires s == y + m + dd
    ensures Parse8(s) == Some(Date(DigitsValue(y), DigitsValue(m), DigitsValue(dd)))
  {
    assert s[..4] == y && s[4..6] == m && s[6..] == dd;
  }

  /** The dashed form is the DATE text with '-' after the year and the
      month. */
  lemma FormatIsoShape(d: Date)
    requires IsValid(d)
    ensures var s := FormatIso(d);
      && |s| == 10 && s[4] == '-' && s[7] == '-'
      && s[..4] + s[5..7] + s[8..] == Format8(d)
  {
  }

  lemma DateLePreorder()
    ensures TotalPreorder(DateLe())
  {
  }
}

=== FILE: earnings.dfy ===
/** The request side of the stock earnings calendar: the query-string parser,
    the set of tickers to fetch (requested tickers and the tickers of the
    requested sectors), and the three orders the results can be sorted in.
    The data provider is a pair of functions. */
module Earnings {
  import opened Wrappers
  import opened Strings
  import opened Sorting
  import opened Collections
  import opened Dates

  /** `EarningsEvent`, with the `decimal` amounts as reals. */
  datatype EarningsEvent = EarningsEvent(
    ticker: string,
    companyName: Option<string>,
    date: ValidDate,
    timeOfDay: Option<string>,
    marketCap: Option<real>,
    estimatedEps: Option<real>,
    reportedEps: Option<real>,
    fiscalPeriod: Option<string>,
    source: string)

  datatype EarningsRequest = EarningsRequest(
    tickers: seq<string>, sectors: seq<string>, from: Option<ValidDate>, to: Option<ValidDate>, sortBy: string)

  /** `string.IsNullOrWhiteSpace`. */
  predicate IsNullOrBlank(s: Option<string>) {
    s.None? || IsBlank(s.value)
  }

  /* --------------------------------------------------------------- query */

  function TrimEach(ps: seq<string>): (r: seq<string>)
    ensures |r| == |ps|
    ensures forall i :: 0 <= i < |ps| ==> r[i] == Trim(ps[i])
  {
    seq(|ps|, i requires 0 <= i < |ps| => Trim(ps[i]))
  }

  /** The non-empty strings of `ps`, in order. */
  function NonEmpty(ps: seq<string>): (r: seq<string>)
    ensures forall i :: 0 <= i < |r| ==> r[i] != "" && r[i] in ps
    decreases |ps|
  {
    if |ps| == 0 then []
    else if ps[0] == "" then NonEmpty(ps[1..])
    else [ps[0]] + NonEmpty(ps[1..])
  }

  lemma {:induction false} NonEmptyAll(ps: seq<string>)
    requires forall i :: 0 <= i < |ps| ==> ps[i] != ""
    ensures NonEmpty(ps) == ps
    decreases |ps|
  {
    if |ps| > 0 {
      NonEmptyAll(ps[1..]);
    }
  }

  lemma {:induction false} NonEmptyNone(ps: seq<string>)
    requires forall i :: 0 <= i < |ps| ==> ps[i] == ""
    ensures NonEmpty(ps) == []
    decreases |ps|
  {
    if |ps| > 0 {
      NonEmptyNone(ps[1..]);
    }
  }

  /** An entry of a split list: non-empty, trimmed and comma-free. */
  predicate IsItem(x: string) {
    x != "" && IsTrimmed(x) && ',' !in x
  }

  /** `s.Split(',', RemoveEmptyEntries | TrimEntries)`: the trimmed pieces
      between commas, empty ones dropped, in order. */
  function SplitList(s: string): (r: seq<string>)
    ensures forall i :: 0 <= i < |r| ==> IsItem(r[i])
  {
    var ts := TrimEach(Split(s, ','));
    TrimmedPieces(Split(s, ','));
    var r := NonEmpty(ts);
    assert forall i :: 0 <= i < |r| ==> IsItem(r[i]) by {
      forall i | 0 <= i < |r| ensures IsItem(r[i]) {
        var k :| 0 <= k < |ts| && ts[k] == r[i];
      }
    }
    r
  }

  /** The trimmed pieces of a comma split are trimmed and comma-free. */
  lemma TrimmedPieces(ps: seq<string>)
    requires forall k :: 0 <= k < |ps| ==> ',' !in ps[k]
    ensures forall k :: 0 <= k < |ps| ==> IsTrimmed(TrimEach(ps)[k]) && ',' !in TrimEach(ps)[k]
  {
    forall k | 0 <= k < |ps| ensures IsTrimmed(TrimEach(ps)[k]) && ',' !in TrimEach(ps)[k] {
      TrimInside(ps[k], ',');
    }
  }

  /** Trimming keeps out a character that was not there. */
  lemma TrimInside(p: string, c: char)
    requires c !in p
    ensures c !in Trim(p)
  {
    var a, e := TrimSlice(p);
    var t := Trim(p);
    forall i | 0 <= i < |t| ensures t[i] != c {
      assert t[i] == p[a + i];
    }
  }

  /** Listing items that are non-empty, trimmed and comma-free, separated by
      commas, gives back exactly those items. */
  lemma SplitListJoin(items: seq<string>)
    requires forall i :: 0 <= i < |items| ==> IsItem(items[i])
    ensures SplitList(Join(items, ",")) == items
  {
    if |items| == 0 {
      SplitListEmpty();
    } else {
      var ps := Split(Join(items, ","), ',');
      SplitJoin(items, ',');
      assert ps == items;
      TrimEachTrimmed(items);
      NonEmptyAll(items);
      assert SplitList(Join(items, ",")) == NonEmpty(TrimEach(ps));
    }
  }

  lemma SplitListEmpty()
    ensures SplitList("") == []
  {
    assert Split("", ',') == [""];
    assert TrimEach([""]) == [""];
  }

  lemma TrimEachTrimmed(items: seq<string>)
    requires forall i :: 0 <= i < |items| ==> IsTrimmed(items[i])
    ensures TrimEach(items) == items
  {
    forall i | 0 <= i < |items| ensures Trim(items[i]) == items[i] {
      TrimOfTrimmed(items[i]);
    }
  }

  /** A blank list yields no entries. */
  lemma SplitListBlank(s: string)
    requires IsBlank(s)
    ensures SplitList(s) == []
  {
    var ps := Split(s, ',');
    SplitPiecesOf(s, ',');
    forall k | 0 <= k < |ps| ensures Trim(ps[k]) == "" {
      assert IsBlank(ps[k]);
    }
    NonEmptyNone(TrimEach(ps));
  }

  /** Every character of a piece comes from the text. */
  lemma {:induction false} SplitPiecesOf(s: string, c: char)
    ensures forall k, i :: 0 <= k < |Split(s, c)| && 0 <= i < |Split(s, c)[k]| ==> Split(s, c)[k][i] in s
    decreases |s|
  {
    if c in s {
      var i := IndexOfChar(s, c);
      var rest := s[i + 1..];
      SplitPiecesOf(rest, c);
      assert forall x :: x in rest ==> x in s;
      assert forall x :: x in s[..i] ==> x in s;
    }
  }

  /** `EarningsRequest.FromQuery`: lists are parsed by `SplitList` (a null
      list giving none), the sort key defaults to "date", and the dates pass
      through. */
  function FromQuery(tickers: Option<string>, sectors: Option<string>, sortBy: Option<string>,
                     from: Option<ValidDate>, to: Option<ValidDate>): (r: EarningsRequest)
    ensures r.from == from && r.to == to
    ensures r.sortBy == if IsNullOrBlank(sortBy) then "date" else sortBy.value
  {
    EarningsRequest(
      if IsNullOrBlank(tickers) then [] else SplitList(tickers.value),
      if IsNullOrBlank(sectors) then [] else SplitList(sectors.value),
      from, to,
      if IsNullOrBlank(sortBy) then "date" else sortBy.value)
  }

  /** The white-space guards in front of the splits change nothing: each
      list is simply the parse of the given text. */
  lemma FromQueryLists(tickers: Option<string>, sectors: Option<string>, sortBy: Option<string>,
                       from: Option<ValidDate>, to: Option<ValidDate>)
    ensures var r := FromQuery(tickers, sectors, sortBy, from, to);
      && r.tickers == (if tickers.None? then [] else SplitList(tickers.value))
      && r.sectors == (if sectors.None? then [] else SplitList(sectors.value))
  {
    if tickers.Some? && IsBlank(tickers.value) {
      SplitListBlank(tickers.value);
    }
    if sectors.Some? && IsBlank(sectors.value) {
      SplitListBlank(sectors.value);
    }
  }

  /* ------------------------------------------------------------- tickers */

  function UpperEach(ts: seq<string>): (r: seq<string>)
    ensures |r| == |ts|
    ensures forall i :: 0 <= i < |ts| ==> r[i] == Upper(ts[i])
  {
    seq(|ts|, i requires 0 <= i < |ts| => Upper(ts[i]))
  }

  /** The tickers that are looked up, upper-cased: the requested ones, then
      the ones of each requested sector. */
  function WantedTickers(request: EarningsRequest, sectorTickers: string -> seq<string>): seq<string> {
    UpperEach(request.tickers + Flatten(seq(|request.sectors|, i requires 0 <= i < |request.sectors| =>
      sectorTickers(request.sectors[i]))))
  }

  /** The `HashSet<string>` of tickers in its enumeration order, which without
      removals is the order of first insertion. */
  function TickerSet(request: EarningsRequest, sectorTickers: string -> seq<string>): seq<string> {
    Dedupe(WantedTickers(request, sectorTickers), Identity)
  }

  /** Some ticker of `xs` upper-cases to `t`. */
  predicate UpperIn(xs: seq<string>, t: string) {
    exists i :: 0 <= i < |xs| && Upper(xs[i]) == t
  }

  /** Some ticker of some list upper-cases to `t`. */
  predicate UpperInAny(lists: seq<seq<string>>, t: string) {
    exists j, k :: 0 <= j < |lists| && 0 <= k < |lists[j]| && Upper(lists[j][k]) == t
  }

  /** Some ticker of a requested sector upper-cases to `t`. */
  predicate SectorListed(request: EarningsRequest, sectorTickers: string -> seq<string>, t: string) {
    exists j, k :: 0 <= j < |request.sectors| && 0 <= k < |sectorTickers(request.sectors[j])|
      && Upper(sectorTickers(request.sectors[j])[k]) == t
  }

  /** The ticker set holds each upper-cased requested or sector ticker once,
      and nothing else. */
  lemma TickerSetSpec(request: EarningsRequest, sectorTickers: string -> seq<string>, t: string)
    ensures var ts := TickerSet(request, sectorTickers);
      && Distinct(ts)
      && (t in ts <==> UpperIn(request.tickers, t) || SectorListed(request, sectorTickers, t))
      && (t in ts ==> Upper(t) == t)
  {
    var ts := TickerSet(request, sectorTickers);
    var lists := seq(|request.sectors|, i requires 0 <= i < |request.sectors| => sectorTickers(request.sectors[i]));
    var all := request.tickers + Flatten(lists);
    var wanted := WantedTickers(request, sectorTickers);
    assert wanted == UpperEach(all);
    DedupeSameElements(wanted, t);
    UpperEachMembers(all, t);
    SourceTicker(request.tickers, lists, t);
    SectorLists(request, sectorTickers, lists, t);
    if t in ts {
      var i :| 0 <= i < |all| && Upper(all[i]) == t;
      UpperIdempotent(all[i]);
    }
  }

  lemma SectorLists(request: EarningsRequest, sectorTickers: string -> seq<string>, lists: seq<seq<string>>, t: string)
    requires |lists| == |request.sectors|
    requires forall j :: 0 <= j < |lists| ==> lists[j] == sectorTickers(request.sectors[j])
    ensures UpperInAny(lists, t) <==> SectorListed(request, sectorTickers, t)
  {
    if UpperInAny(lists, t) {
      var j, k :| 0 <= j < |lists| && 0 <= k < |lists[j]| && Upper(lists[j][k]) == t;
      assert lists[j] == sectorTickers(request.sectors[j]);
    }
    if SectorListed(request, sectorTickers, t) {
      var j, k :| 0 <= j < |request.sectors| && 0 <= k < |sectorTickers(request.sectors[j])|
        && Upper(sectorTickers(request.sectors[j])[k]) == t;
      assert lists[j] == sectorTickers(request.sectors[j]);
    }
  }

  lemma UpperEachMembers(s: seq<string>, t: string)
    ensures t in UpperEach(s) <==> UpperIn(s, t)
  {
    var u := UpperEach(s);
    if t in u {
      var i :| 0 <= i < |u| && u[i] == t;
      assert Upper(s[i]) == t;
    }
    if UpperIn(s, t) {
      var i :| 0 <= i < |s| && Upper(s[i]) == t;
      assert u[i] == t;
    }
  }

  /** Dropping repeats keeps the elements and leaves none twice. */
  lemma DedupeSameElements(s: seq<string>, t: string)
    ensures Distinct(Dedupe(s, Identity))
    ensures t in Dedupe(s, Identity) <==> t in s
  {
    var d := Dedupe(s, Identity);
    assert KeysOf(d, Identity) == KeysOf(s, Identity);
    if t in d {
      var i :| 0 <= i < |d| && d[i] == t;
      assert Identity(d[i]) in KeysOf(d, Identity);
    }
    if t in s {
      var i :| 0 <= i < |s| && s[i] == t;
      assert Identity(s[i]) in KeysOf(s, Identity);
    }
  }

  lemma SourceTicker(requested: seq<string>, lists: seq<seq<string>>, t: string)
    ensures UpperIn(requested + Flatten(lists), t) <==> UpperIn(requested, t) || UpperInAny(lists, t)
  {
    var all := requested + Flatten(lists);
    var flat := Flatten(lists);
    if UpperIn(all, t) {
      var i :| 0 <= i < |all| && Upper(all[i]) == t;
      if i >= |requested| {
        var x := flat[i - |requested|];
        assert x == all[i];
        FlattenMembers(lists, x);
        var j :| 0 <= j < |lists| && x in lists[j];
        var k :| 0 <= k < |lists[j]| && lists[j][k] == x;
      }
    }
    if UpperInAny(lists, t) {
      var j, k :| 0 <= j < |lists| && 0 <= k < |lists[j]| && Upper(lists[j][k]) == t;
      var x := lists[j][k];
      FlattenMembers(lists, x);
      var m :| 0 <= m < |flat| && flat[m] == x;
      assert all[|requested| + m] == x;
    }
    if UpperIn(requested, t) {
      var i :| 0 <= i < |requested| && Upper(requested[i]) == t;
      assert all[i] == requested[i];
    }
  }

  /* ------------------------------------------------------------- sorting */

  function TickerOf(e: EarningsEvent): string {
    e.ticker
  }

  function DateOf(e: EarningsEvent): Date {
    e.date
  }

  /** `e.MarketCap ?? 0`. */
  function CapOrZero(e: EarningsEvent): real {
    e.marketCap.GetOr(0.0)
  }

  function RealLe(): (real, real) -> bool {
    (a: real, b: real) => a <= b
  }

  datatype SortMode = ByTicker | ByMarketCap | ByDate

  /** `sortBy?.ToLowerInvariant() switch { "ticker" => ..., "marketcap" => ..., _ => ... }`. */
  function ModeOf(sortBy: string): SortMode {
    var key := Lower(sortBy);
    if key == "ticker" then ByTicker
    else if key == "marketcap" then ByMarketCap
    else ByDate
  }

  /** The key comparer of each mode. */
  function Order(mode: SortMode): (EarningsEvent, EarningsEvent) -> bool {
    match mode
    case ByTicker => ThenBy(By(TickerOf, IgnoreCaseLe()), By(DateOf, DateLe()))
    case ByMarketCap => ThenBy(Descending(By(CapOrZero, RealLe())), By(DateOf, DateLe()))
    case ByDate => ThenBy(By(DateOf, DateLe()), By(TickerOf, IgnoreCaseLe()))
  }

  lemma OrderPreorder(mode: SortMode)
    ensures TotalPreorder(Order(mode))
  {
    DateLePreorder();
    IgnoreCasePreorder();
    ByPreorder(TickerOf, IgnoreCaseLe());
    ByPreorder(DateOf, DateLe());
    assert TotalPreorder(RealLe());
    ByPreorder(CapOrZero, RealLe());
    DescendingPreorder(By(CapOrZero, RealLe()));
    match mode
    case ByTicker => ThenByPreorder(By(TickerOf, IgnoreCaseLe()), By(DateOf, DateLe()));
    case ByMarketCap => ThenByPreorder(Descending(By(CapOrZero, RealLe())), By(DateOf, DateLe()));
    case ByDate => ThenByPreorder(By(DateOf, DateLe()), By(TickerOf, IgnoreCaseLe()));
  }

  /** `a` may precede `b` in the listing: by ticker ignoring case then date,
      by market cap (missing as 0) largest first then date, or by date then
      ticker ignoring case. */
  predicate InOrder(mode: SortMode, a: EarningsEvent, b: EarningsEvent) {
    match mode
    case ByTicker =>
      var ta := Upper(a.ticker);
      var tb := Upper(b.ticker);
      OrdinalLe(ta, tb) && (ta == tb ==> !Before(b.date, a.date))
    case ByMarketCap =>
      CapOrZero(a) >= CapOrZero(b) && (CapOrZero(a) == CapOrZero(b) ==> !Before(b.date, a.date))
    case ByDate =>
      !Before(b.date, a.date) && (a.date == b.date ==> OrdinalLe(Upper(a.ticker), Upper(b.ticker)))
  }

  lemma OrderMeaning(mode: SortMode, a: EarningsEvent, b: EarningsEvent)
    ensures Order(mode)(a, b) <==> InOrder(mode, a, b)
  {
    var ta := Upper(a.ticker);
    var tb := Upper(b.ticker);
    var ticker := By(TickerOf, IgnoreCaseLe());
    var date := By(DateOf, DateLe());
    assert ticker(a, b) <==> OrdinalLe(ta, tb);
    assert ticker(b, a) <==> OrdinalLe(tb, ta);
    assert date(a, b) <==> !Before(b.date, a.date);
    assert date(b, a) <==> !Before(a.date, b.date);
    if OrdinalLe(ta, tb) && OrdinalLe(tb, ta) {
      OrdinalLeAntisymmetric(ta, tb);
    }
    if ta == tb {
      OrdinalLeTotal(ta, tb);
    }
    assert date(a, b) && date(b, a) <==> a.date == b.date;
    match mode
    case ByTicker =>
      assert Order(mode) == ThenBy(ticker, date);
    case ByMarketCap =>
      var cap := Descending(By(CapOrZero, RealLe()));
      assert cap(a, b) <==> CapOrZero(b) <= CapOrZero(a);
      assert cap(b, a) <==> CapOrZero(a) <= CapOrZero(b);
      assert Order(mode) == ThenBy(cap, date);
    case ByDate =>
      assert Order(mode) == ThenBy(date, ticker);
  }

  /** `EarningsService.Sort`. */
  function Sort(events: seq<EarningsEvent>, sortBy: string): (r: seq<EarningsEvent>)
    ensures multiset(r) == multiset(events)
  {
    SortBy(events, Order(ModeOf(sortBy)))
  }

  /** The sort is an ordered permutation of its input, and events tied on
      both keys keep their input order. */
  lemma SortSpec(events: seq<EarningsEvent>, sortBy: string, r: seq<EarningsEvent>, e: EarningsEvent)
    requires r == Sort(events, sortBy)
    ensures multiset(r) == multiset(events)
    ensures forall i, j :: 0 <= i < j < |r| ==> InOrder(ModeOf(sortBy), r[i], r[j])
    ensures TiesOf(r, e, Order(ModeOf(sortBy))) == TiesOf(events, e, Order(ModeOf(sortBy)))
  {
    var mode := ModeOf(sortBy);
    OrderPreorder(mode);
    SortStable(events, e, Order(mode));
    SortOrdered(events, sortBy);
  }

  /** Every pair of the sorted events is in the order asked for. */
  lemma SortOrdered(events: seq<EarningsEvent>, sortBy: string)
    ensures var r := Sort(events, sortBy);
      forall i, j :: 0 <= i < j < |r| ==> InOrder(ModeOf(sortBy), r[i], r[j])
  {
    var mode := ModeOf(sortBy);
    var r := Sort(events, sortBy);
    OrderPreorder(mode);
    SortSorted(events, Order(mode));
    forall i, j | 0 <= i < j < |r| ensures InOrder(mode, r[i], r[j]) {
      OrderMeaning(mode, r[i], r[j]);
    }
  }

  /* ------------------------------------------------------------- service */

  /** The events of each ticker, in ticker order. */
  function FetchAll(tickers: seq<string>, request: EarningsRequest,
                    fetch: (string, Option<ValidDate>, Option<ValidDate>) -> seq<EarningsEvent>): (r: seq<seq<EarningsEvent>>)
    ensures |r| == |tickers|
    ensures forall i :: 0 <= i < |tickers| ==> r[i] == fetch(tickers[i], request.from, request.to)
  {
    seq(|tickers|, i requires 0 <= i < |tickers| => fetch(tickers[i], request.from, request.to))
  }

  /** `GetEarningsAsync`: no tickers, no events; otherwise exactly the
      events fetched for the tickers of the ticker set, each once, in the
      order asked for. */
  function GetEarnings(request: EarningsRequest, sectorTickers: string -> seq<string>,
                       fetch: (string, Option<ValidDate>, Option<ValidDate>) -> seq<EarningsEvent>): (r: seq<EarningsEvent>)
    ensures |TickerSet(request, sectorTickers)| == 0 ==> r == []
    ensures multiset(r) == multiset(Flatten(FetchAll(TickerSet(request, sectorTickers), request, fetch)))
    ensures forall i, j :: 0 <= i < j < |r| ==> InOrder(ModeOf(request.sortBy), r[i], r[j])
  {
    var tickers := TickerSet(request, sectorTickers);
    if |tickers| == 0 then []
    else
      var all := Flatten(FetchAll(tickers, request, fetch));
      SortOrdered(all, request.sortBy);
      Sort(all, request.sortBy)
  }
}

=== FILE: json_combiner.dfy ===
/** The JSON combiner: every uploaded document that parsed is combined into
    one. All arrays are concatenated; all objects are deep-merged, later
    documents winning; any other mix is wrapped in an array. */
module JsonCombiner {
  import opened Wrappers

  /** A `JsonNode?` after parsing. `Null` is the C# `null` that a JSON
      `null` parses to; numbers keep their literal text, as the combiner
      never computes with them. */
  datatype Json =
    | Null
    | Bool(b: bool)
    | Number(literal: string)
    | Str(s: string)
    | Arr(items: seq<Json>)
    | Obj(props: seq<Prop>)

  /** A property of a `JsonObject`; the properties keep insertion order. */
  datatype Prop = Prop(key: string, value: Json)

  function Keys(props: seq<Prop>): set<string> {
    set i | 0 <= i < |props| :: props[i].key
  }

  /** No key occurs twice, as in every `JsonObject`. */
  predicate DistinctKeys(props: seq<Prop>) {
    forall i, j :: 0 <= i < j < |props| ==> props[i].key != props[j].key
  }

  /** `obj[key]`: the value stored under `key`, if any. */
  function Get(props: seq<Prop>, key: string): (r: Option<Json>)
    ensures r.Some? <==> key in Keys(props)
    decreases |props|
  {
    if |props| == 0 then None
    else if props[0].key == key then Some(props[0].value)
    else
      KeysCons(props);
      Get(props[1..], key)
  }

  /** `obj[key] = value`: replaces the value in place when the key is
      present, and appends a property otherwise. */
  function Put(props: seq<Prop>, key: string, value: Json): (r: seq<Prop>)
    ensures Keys(r) == Keys(props) + {key}
    ensures Get(r, key) == Some(value)
    ensures forall k :: k != key ==> Get(r, k) == Get(props, k)
    decreases |props|
  {
    if |props| == 0 then
      var r := [Prop(key, value)];
      KeysCons(r);
      assert r[1..] == [];
      r
    else if props[0].key == key then
      var r := [Prop(key, value)] + props[1..];
      assert r[1..] == props[1..];
      KeysCons(r);
      KeysCons(props);
      r
    else
      var rest := Put(props[1..], key, value);
      var r := [props[0]] + rest;
      assert r[1..] == rest;
      KeysCons(r);
      KeysCons(props);
      r
  }

  lemma DistinctKeysTail(props: seq<Prop>)
    requires |props| > 0 && DistinctKeys(props)
    ensures DistinctKeys(props[1..])
    ensures props[0].key !in Keys(props[1..])
  {
    forall i, j | 0 <= i < j < |props[1..]| ensures props[1..][i].key != props[1..][j].key {
      assert props[1..][i] == props[i + 1] && props[1..][j] == props[j + 1];
    }
  }

  /** Setting a key never duplicates it. */
  lemma {:induction false} PutDistinct(props: seq<Prop>, key: string, value: Json)
    requires DistinctKeys(props)
    ensures DistinctKeys(Put(props, key, value))
    decreases |props|
  {
    if |props| > 0 {
      DistinctKeysTail(props);
      var r := Put(props, key, value);
      if props[0].key == key {
        forall i, j | 0 <= i < j < |r| ensures r[i].key != r[j].key {
          if i == 0 {
            assert r[j] == props[j];
          } else {
            assert r[i] == props[i] && r[j] == props[j];
          }
        }
      } else {
        PutDistinct(props[1..], key, value);
        var rest := Put(props[1..], key, value);
        assert r == [props[0]] + rest;
        forall i, j | 0 <= i < j < |r| ensures r[i].key != r[j].key {
          if i == 0 {
            assert r[j].key in Keys(rest) by {
              assert rest[j - 1] == r[j];
            }
          } else {
            assert r[i] == rest[i - 1] && r[j] == rest[j - 1];
          }
        }
      }
    }
  }

  lemma KeysCons(props: seq<Prop>)
    requires |props| > 0
    ensures Keys(props) == {props[0].key} + Keys(props[1..])
  {
    forall x | x in Keys(props) ensures x in {props[0].key} + Keys(props[1..]) {
      var i :| 0 <= i < |props| && props[i].key == x;
      if i > 0 {
        assert props[1..][i - 1].key == x;
      }
    }
    forall x | x in Keys(props[1..]) ensures x in Keys(props) {
      var i :| 0 <= i < |props[1..]| && props[1..][i].key == x;
      assert props[i + 1].key == x;
    }
  }

  /* ------------------------------------------------------------- merging */

  /** The value a key ends up with when `incoming` is merged onto what the
      target holds: null overwrites, object meets object recursively, array
      meets array by appending, anything else is replaced. */
  function MergeValue(existing: Option<Json>, incoming: Json): Json
    decreases incoming, 1
  {
    if incoming.Null? then Null
    else if existing.Some? && existing.value.Obj? && incoming.Obj? then
      Obj(MergeObjects(existing.value.props, incoming.props))
    else if existing.Some? && existing.value.Arr? && incoming.Arr? then
      Arr(existing.value.items + incoming.items)
    else incoming
  }

  /** `MergeObjects(target, source)`: each source property in order, merged
      onto the target. */
  function MergeObjects(target: seq<Prop>, source: seq<Prop>): (r: seq<Prop>)
    ensures Keys(r) == Keys(target) + Keys(source)
    decreases source, 0
  {
    if |source| == 0 then target
    else
      var p := source[0];
      var next := Put(target, p.key, MergeValue(Get(target, p.key), p.value));
      KeysCons(source);
      MergeObjects(next, source[1..])
  }

  /** What a key holds after a merge, given what the target and the source
      hold under it. */
  function Merged(existing: Option<Json>, incoming: Option<Json>): Option<Json> {
    match incoming
    case None => existing
    case Some(v) => Some(MergeValue(existing, v))
  }

  /** The merge, key by key: a key the source lacks keeps the target's
      value, and a key the source has gets its value merged onto the
      target's. */
  lemma {:induction false} MergeObjectsGet(target: seq<Prop>, source: seq<Prop>, k: string)
    requires DistinctKeys(source)
    ensures Get(MergeObjects(target, source), k) == Merged(Get(target, k), Get(source, k))
    decreases |source|
  {
    if |source| > 0 {
      var p := source[0];
      var next := Put(target, p.key, MergeValue(Get(target, p.key), p.value));
      DistinctKeysTail(source);
      MergeObjectsGet(next, source[1..], k);
      if k == p.key {
        assert Get(source[1..], k) == None;
      }
    }
  }

  /** A target key the source does not mention is left unchanged. */
  lemma MergeKeepsAbsent(target: seq<Prop>, source: seq<Prop>, k: string)
    requires DistinctKeys(source)
    requires k !in Keys(source)
    ensures Get(MergeObjects(target, source), k) == Get(target, k)
  {
    MergeObjectsGet(target, source, k);
  }

  /** A null in the source sets the key to null. */
  lemma MergeNullOverrides(target: seq<Prop>, source: seq<Prop>, k: string)
    requires DistinctKeys(source)
    requires Get(source, k) == Some(Null)
    ensures Get(MergeObjects(target, source), k) == Some(Null)
  {
    MergeObjectsGet(target, source, k);
  }

  /** Object meets object: merged recursively. */
  lemma MergeObjectsRecursive(target: seq<Prop>, source: seq<Prop>, k: string, t: seq<Prop>, s: seq<Prop>)
    requires DistinctKeys(source)
    requires Get(target, k) == Some(Obj(t)) && Get(source, k) == Some(Obj(s))
    ensures Get(MergeObjects(target, source), k) == Some(Obj(MergeObjects(t, s)))
  {
    MergeObjectsGet(target, source, k);
  }

  /** Array meets array: the source items follow the target's own. */
  lemma MergeArraysAppend(target: seq<Prop>, source: seq<Prop>, k: string, t: seq<Json>, s: seq<Json>)
    requires DistinctKeys(source)
    requires Get(target, k) == Some(Arr(t)) && Get(source, k) == Some(Arr(s))
    ensures Get(MergeObjects(target, source), k) == Some(Arr(t + s))
  {
    MergeObjectsGet(target, source, k);
  }

  /** Any other pairing: the source value replaces the target's. */
  lemma MergeOtherReplaces(target: seq<Prop>, source: seq<Prop>, k: string, v: Json)
    requires DistinctKeys(source)
    requires Get(source, k) == Some(v)
    requires !(v.Obj? && Get(target, k).Some? && Get(target, k).value.Obj?)
    requires !(v.Arr? && Get(target, k).Some? && Get(target, k).value.Arr?)
    ensures Get(MergeObjects(target, source), k) == Some(v)
  {
    MergeObjectsGet(target, source, k);
  }

  /** Merging keeps the keys of the target distinct. */
  lemma {:induction false} MergeDistinct(target: seq<Prop>, source: seq<Prop>)
    requires DistinctKeys(target)
    ensures DistinctKeys(MergeObjects(target, source))
    decreases |source|
  {
    if |source| > 0 {
      var p := source[0];
      PutDistinct(target, p.key, MergeValue(Get(target, p.key), p.value));
      MergeDistinct(Put(target, p.key, MergeValue(Get(target, p.key), p.value)), source[1..]);
    }
  }

  /** A key the object lacks is appended. */
  lemma {:induction false} PutAbsent(props: seq<Prop>, key: string, value: Json)
    requires key !in Keys(props)
    ensures Put(props, key, value) == props + [Prop(key, value)]
    decreases |props|
  {
    if |props| > 0 {
      KeysCons(props);
      PutAbsent(props[1..], key, value);
      assert [props[0]] + (props[1..] + [Prop(key, value)]) == props + [Prop(key, value)];
    }
  }

  /** Merging properties whose keys the target lacks appends them. */
  lemma {:induction false} MergeFreshAppends(target: seq<Prop>, source: seq<Prop>)
    requires DistinctKeys(source)
    requires Keys(target) !! Keys(source)
    ensures MergeObjects(target, source) == target + source
    decreases |source|
  {
    if |source| == 0 {
      assert target + source == target;
    } else {
      MergeFreshStep(target, source);
      MergeFreshAppends(target + [source[0]], source[1..]);
      ShiftFirst(target, source);
    }
  }

  /** One step of the merge above: the first source property is appended,
      and the rest stay fresh for the grown target. */
  lemma MergeFreshStep(target: seq<Prop>, source: seq<Prop>)
    requires |source| > 0 && DistinctKeys(source)
    requires Keys(target) !! Keys(source)
    ensures MergeObjects(target, source) == MergeObjects(target + [source[0]], source[1..])
    ensures Keys(target + [source[0]]) !! Keys(source[1..])
    ensures DistinctKeys(source[1..])
  {
    var p := source[0];
    KeysCons(source);
    DistinctKeysTail(source);
    assert Get(target, p.key) == None;
    PutAbsent(target, p.key, p.value);
    KeysSnoc(target, p);
  }

  lemma ShiftFirst<T>(a: seq<T>, s: seq<T>)
    requires |s| > 0
    ensures (a + [s[0]]) + s[1..] == a + s
  {
    assert s == [s[0]] + s[1..];
  }

  lemma KeysSnoc(props: seq<Prop>, p: Prop)
    ensures Keys(props + [p]) == Keys(props) + {p.key}
  {
    KeysAppend(props, [p]);
    KeysCons([p]);
    assert [p][1..] == [];
  }

  lemma KeysAppend(a: seq<Prop>, b: seq<Prop>)
    ensures Keys(a + b) == Keys(a) + Keys(b)
  {
    var ab := a + b;
    forall x | x in Keys(ab) ensures x in Keys(a) + Keys(b) {
      var i :| 0 <= i < |ab| && ab[i].key == x;
      if i >= |a| {
        assert b[i - |a|].key == x;
      }
    }
    forall x | x in Keys(b) ensures x in Keys(ab) {
      var i :| 0 <= i < |b| && b[i].key == x;
      assert ab[i + |a|].key == x;
    }
    forall x | x in Keys(a) ensures x in Keys(ab) {
      var i :| 0 <= i < |a| && a[i].key == x;
      assert ab[i].key == x;
    }
  }

  /** Merging an object into an empty one copies it. */
  lemma MergeIntoEmpty(source: seq<Prop>)
    requires DistinctKeys(source)
    ensures MergeObjects([], source) == source
  {
    MergeFreshAppends([], source);
  }

  /* ----------------------------------------------------------- combining */

  predicate AllArrays(nodes: seq<Json>) {
    forall i :: 0 <= i < |nodes| ==> nodes[i].Arr?
  }

  predicate AllObjects(nodes: seq<Json>) {
    forall i :: 0 <= i < |nodes| ==> nodes[i].Obj?
  }

  /** The items of every array, in order. */
  function ConcatItems(nodes: seq<Json>): seq<Json>
    requires AllArrays(nodes)
    decreases |nodes|
  {
    if |nodes| == 0 then [] else nodes[0].items + ConcatItems(nodes[1..])
  }

  /** Every object merged in turn onto `target`. */
  function MergeAll(target: seq<Prop>, nodes: seq<Json>): seq<Prop>
    requires AllObjects(nodes)
    decreases |nodes|
  {
    if |nodes| == 0 then target else MergeAll(MergeObjects(target, nodes[0].props), nodes[1..])
  }

  /** The keys of all the objects together. */
  function AllKeys(nodes: seq<Json>): set<string>
    requires AllObjects(nodes)
    decreases |nodes|
  {
    if |nodes| == 0 then {} else Keys(nodes[0].props) + AllKeys(nodes[1..])
  }

  /** `CombineNodes(nodes)`. */
  function CombineNodes(nodes: seq<Json>): (r: Json)
    ensures r.Arr? || r.Obj?
    ensures AllArrays(nodes) ==> r == Arr(ConcatItems(nodes))
    ensures !AllArrays(nodes) && AllObjects(nodes) ==> r.Obj? && Keys(r.props) == AllKeys(nodes)
    ensures !AllArrays(nodes) && !AllObjects(nodes) ==> r == Arr(nodes) && |r.items| == |nodes|
  {
    if AllArrays(nodes) then Arr(ConcatItems(nodes))
    else if AllObjects(nodes) then
      MergeAllKeys([], nodes);
      Obj(MergeAll([], nodes))
    else Arr(nodes)
  }

  lemma {:induction false} MergeAllKeys(target: seq<Prop>, nodes: seq<Json>)
    requires AllObjects(nodes)
    ensures Keys(MergeAll(target, nodes)) == Keys(target) + AllKeys(nodes)
    decreases |nodes|
  {
    if |nodes| > 0 {
      MergeAllKeys(MergeObjects(target, nodes[0].props), nodes[1..]);
    }
  }

  /** Concatenating a split list of arrays concatenates the two results. */
  lemma {:induction false} ConcatItemsAppend(a: seq<Json>, b: seq<Json>)
    requires AllArrays(a) && AllArrays(b)
    ensures AllArrays(a + b)
    ensures ConcatItems(a + b) == ConcatItems(a) + ConcatItems(b)
    decreases |a|
  {
    if |a| == 0 {
      assert a + b == b;
    } else {
      assert (a + b)[1..] == a[1..] + b;
      ConcatItemsAppend(a[1..], b);
    }
  }

  /** The merged object of distinct-keyed objects has distinct keys. */
  lemma {:induction false} MergeAllDistinct(target: seq<Prop>, nodes: seq<Json>)
    requires AllObjects(nodes) && DistinctKeys(target)
    ensures DistinctKeys(MergeAll(target, nodes))
    decreases |nodes|
  {
    if |nodes| > 0 {
      MergeDistinct(target, nodes[0].props);
      MergeAllDistinct(MergeObjects(target, nodes[0].props), nodes[1..]);
    }
  }

  /** The `combinedType` the endpoint reports. */
  function CombinedType(node: Json): string {
    match node
    case Arr(_) => "array"
    case Obj(_) => "object"
    case _ => "mixed"
  }

  /** `combinedType` is never "mixed": the combination is always an array or
      an object. */
  lemma CombinedTypeNeverMixed(nodes: seq<Json>)
    ensures CombinedType(CombineNodes(nodes)) in {"array", "object"}
  {
  }

  /* ------------------------------------------------------------ endpoint */

  /** An uploaded file: its name, its length, and what `JsonNode.Parse`
      made of it (a `JsonException` message, or a node; `Null` when the file
      held the literal `null`). */
  datatype Upload = Upload(fileName: string, length: nat, parsed: Result<Json, string>)

  datatype FileError = FileError(file: string, message: string)

  datatype CombineResponse =
    | BadRequest(error: string, details: seq<FileError>)
    | Combined(combinedType: string, combined: Json, parseErrors: seq<FileError>)

  /** The per-file loop: every file yields a parsed node or one error. */
  function ParseUploads(files: seq<Upload>): (r: (seq<Json>, seq<FileError>))
    ensures |r.0| + |r.1| == |files|
    ensures forall i :: 0 <= i < |r.0| ==> r.0[i] != Null
    decreases |files|
  {
    if |files| == 0 then ([], [])
    else
      var rest := ParseUploads(files[1..]);
      var f := files[0];
      if f.length == 0 then (rest.0, [FileError(f.fileName, "File was empty.")] + rest.1)
      else match f.parsed
        case Err(message) => (rest.0, [FileError(f.fileName, message)] + rest.1)
        case Ok(node) =>
          if node == Null then (rest.0, [FileError(f.fileName, "File did not contain valid JSON content.")] + rest.1)
          else ([node] + rest.0, rest.1)
  }

  /** The `/api/combine` handler after the form has been read. */
  function CombineEndpoint(files: seq<Upload>): (r: CombineResponse)
    ensures |files| == 0 ==> r == BadRequest("No files were uploaded.", [])
    ensures r.Combined? ==> r.combinedType != "mixed" && |r.parseErrors| < |files|
    ensures r.BadRequest? && |files| > 0 ==> |r.details| == |files|
  {
    if |files| == 0 then BadRequest("No files were uploaded.", [])
    else
      var (nodes, errors) := ParseUploads(files);
      if |nodes| == 0 then BadRequest("Unable to parse any JSON payloads.", errors)
      else
        var combined := CombineNodes(nodes);
        Combined(CombinedType(combined), combined, errors)
  }
}

=== FILE: long_words.dfy ===
/** The long-word extractor: the words of at least `threshold` characters of
    each source are counted case-insensitively (the first spelling seen is
    the one reported), the per-source counts are merged into an aggregate,
    and every count table is listed by count, largest first, then by word. */
module LongWords {
  import opened Wrappers
  import opened Strings
  import opened Numbers
  import opened Sorting
  import opened Collections
  import opened PathNames
  import PhraseText

  /* ------------------------------------------------------------ threshold */

  const DefaultThreshold: int := 10

  /** `int.TryParse(form["threshold"], out var parsed) && parsed > 0 ? parsed : 10`. */
  function Threshold(field: string): (t: int)
    ensures t >= 1
    ensures t != DefaultThreshold ==> ParseInt32(field) == Some(t)
    ensures ParseInt32(field).Some? && ParseInt32(field).value > 0 ==> t == ParseInt32(field).value
    ensures ParseInt32(field).None? || ParseInt32(field).value <= 0 ==> t == DefaultThreshold
  {
    match ParseInt32(field)
    case Some(p) => if p > 0 then p else DefaultThreshold
    case None => DefaultThreshold
  }

  /** Any positive `int`, written out, is taken as the threshold, and
      anything that is not a positive `int` gives the default. */
  lemma ThresholdOfNumber(n: int)
    requires IsInt32(n)
    ensures Threshold(IntToString(n)) == if n > 0 then n else DefaultThreshold
  {
    ParseFormatRoundTrip(n);
  }

  /* ----------------------------------------------------------- count table */

  /** One entry of a `Dictionary<string, int>` built with
      `StringComparer.OrdinalIgnoreCase`. */
  datatype WordCount = WordCount(word: string, count: int)

  /** The dictionary's entries in enumeration order, which for a dictionary
      that is only ever added to is insertion order. */
  type Counts = seq<WordCount>

  /** The ignore-case identity of an entry. */
  function EntryKey(e: WordCount): string {
    Upper(e.word)
  }

  function Keys(c: Counts): (ks: seq<string>)
    ensures |ks| == |c|
    ensures forall i :: 0 <= i < |c| ==> ks[i] == EntryKey(c[i])
    decreases |c|
  {
    if |c| == 0 then [] else [EntryKey(c[0])] + Keys(c[1..])
  }

  function Words(c: Counts): (ws: seq<string>)
    ensures |ws| == |c|
    ensures forall i :: 0 <= i < |c| ==> ws[i] == c[i].word
    decreases |c|
  {
    if |c| == 0 then [] else [c[0].word] + Words(c[1..])
  }

  /** The keys present, up to case. */
  function KeySet(c: Counts): set<string> {
    Elements(Keys(c))
  }

  /** The dictionary invariant: no two entries share a key up to case. */
  predicate UniqueKeys(c: Counts) {
    Distinct(Keys(c))
  }

  /** The count stored under `k` (up to case), 0 when there is none; with
      unique keys this is the dictionary's lookup with a default of 0. */
  function CountOf(c: Counts, k: string): int
    decreases |c|
  {
    if |c| == 0 then 0
    else (if EntryKey(c[0]) == Upper(k) then c[0].count else 0) + CountOf(c[1..], k)
  }

  /** `counts.Values.Sum()`. */
  function Total(c: Counts): int
    decreases |c|
  {
    if |c| == 0 then 0 else c[0].count + Total(c[1..])
  }

  lemma UniqueTail(c: Counts)
    requires UniqueKeys(c) && |c| > 0
    ensures UniqueKeys(c[1..])
    ensures EntryKey(c[0]) !in KeySet(c[1..])
  {
    var ks := Keys(c);
    assert ks == [EntryKey(c[0])] + Keys(c[1..]);
    assert forall j :: 0 <= j < |c| - 1 ==> Keys(c[1..])[j] == ks[j + 1];
  }

  /** With unique keys, `CountOf` finds an entry's own count. */
  lemma {:induction false} CountOfEntry(c: Counts, i: nat)
    requires UniqueKeys(c) && i < |c|
    ensures CountOf(c, c[i].word) == c[i].count
    decreases |c|
  {
    UniqueTail(c);
    if i == 0 {
      CountOfMissing(c[1..], c[0].word);
    } else {
      assert Keys(c)[0] != Keys(c)[i];
      CountOfEntry(c[1..], i - 1);
    }
  }

  /** A key that is absent counts 0. */
  lemma {:induction false} CountOfMissing(c: Counts, k: string)
    requires Upper(k) !in KeySet(c)
    ensures CountOf(c, k) == 0
    decreases |c|
  {
    if |c| > 0 {
      assert Keys(c) == [EntryKey(c[0])] + Keys(c[1..]);
      CountOfMissing(c[1..], k);
    }
  }

  lemma {:induction false} CountOfAppend(a: Counts, b: Counts, k: string)
    ensures CountOf(a + b, k) == CountOf(a, k) + CountOf(b, k)
    decreases |a|
  {
    if |a| == 0 {
      assert a + b == b;
    } else {
      assert (a + b)[0] == a[0] && (a + b)[1..] == a[1..] + b;
      CountOfAppend(a[1..], b, k);
    }
  }

  /** Reordering a table changes none of its lookups. */
  lemma {:induction false} CountOfPermuted(a: Counts, b: Counts, k: string)
    requires multiset(a) == multiset(b)
    ensures CountOf(a, k) == CountOf(b, k)
    decreases |a|
  {
    if |a| > 0 {
      assert a[0] in multiset(b) by { assert a[0] in multiset(a); }
      var p :| 0 <= p < |b| && b[p] == a[0];
      RemoveMatched(a, b, p);
      CountOfPermuted(a[1..], b[..p] + b[p + 1..], k);
      assert b == b[..p] + ([b[p]] + b[p + 1..]);
      CountOfAppend(b[..p], b[p + 1..], k);
      CountOfAppend(b[..p], [b[p]] + b[p + 1..], k);
      CountOfAppend([b[p]], b[p + 1..], k);
    }
  }

  /** Reordering a table keeps its keys unique. */
  lemma UniqueKeysPermuted(a: Counts, b: Counts)
    requires UniqueKeys(a) && multiset(a) == multiset(b)
    ensures UniqueKeys(b)
  {
    assert Distinct(a) by {
      forall p, q | 0 <= p < q < |a| ensures a[p] != a[q] {
        assert Keys(a)[p] != Keys(a)[q];
      }
    }
    PermutationKeepsDistinct(a, b);
    forall i, j | 0 <= i < j < |b| ensures Keys(b)[i] != Keys(b)[j] {
      assert b[i] in multiset(a) && b[j] in multiset(a);
      var p :| 0 <= p < |a| && a[p] == b[i];
      var q :| 0 <= q < |a| && a[q] == b[j];
      assert Keys(a)[p] == Keys(b)[i] && Keys(a)[q] == Keys(b)[j];
    }
  }

  /** `if (d.TryGetValue(key, out var current)) d[key] = current + n; else
      d[key] = n;`: an existing entry keeps its spelling and gains `n`, a new
      key is appended. */
  function Add(c: Counts, key: string, n: int): (r: Counts)
    ensures |c| <= |r| <= |c| + 1
    ensures forall i :: 0 <= i < |c| ==> r[i].word == c[i].word
    ensures forall i :: 0 <= i < |c| && EntryKey(c[i]) != Upper(key) ==> r[i] == c[i]
    decreases |c|
  {
    if |c| == 0 then [WordCount(key, n)]
    else if EntryKey(c[0]) == Upper(key) then [c[0].(count := c[0].count + n)] + c[1..]
    else [c[0]] + Add(c[1..], key, n)
  }

  lemma {:induction false} AddCount(c: Counts, key: string, n: int, k: string)
    ensures CountOf(Add(c, key, n), k) == CountOf(c, k) + if Upper(k) == Upper(key) then n else 0
    decreases |c|
  {
    var r := Add(c, key, n);
    if |c| == 0 {
      assert r[1..] == [];
    } else if EntryKey(c[0]) == Upper(key) {
      assert r[1..] == c[1..];
    } else {
      assert r[1..] == Add(c[1..], key, n);
      AddCount(c[1..], key, n, k);
    }
  }

  lemma {:induction false} AddTotal(c: Counts, key: string, n: int)
    ensures Total(Add(c, key, n)) == Total(c) + n
    decreases |c|
  {
    var r := Add(c, key, n);
    if |c| == 0 {
      assert r[1..] == [];
    } else if EntryKey(c[0]) == Upper(key) {
      assert r[1..] == c[1..];
    } else {
      assert r[1..] == Add(c[1..], key, n);
      AddTotal(c[1..], key, n);
    }
  }

  /** A new key goes to the end, under the spelling it was added with. */
  lemma {:induction false} AddWords(c: Counts, key: string, n: int)
    ensures Words(Add(c, key, n)) == Words(c) + if Upper(key) in Keys(c) then [] else [key]
    ensures Keys(Add(c, key, n)) == Keys(c) + if Upper(key) in Keys(c) then [] else [Upper(key)]
    decreases |c|
  {
    var r := Add(c, key, n);
    if |c| == 0 {
      assert r[1..] == [];
    } else if EntryKey(c[0]) == Upper(key) {
      assert r[1..] == c[1..];
      assert Upper(key) in Keys(c) by { assert Keys(c)[0] == Upper(key); }
    } else {
      var rest := Add(c[1..], key, n);
      assert r[1..] == rest;
      AddWords(c[1..], key, n);
      assert Upper(key) in Keys(c) <==> Upper(key) in Keys(c[1..]) by {
        assert Keys(c) == [EntryKey(c[0])] + Keys(c[1..]);
      }
    }
  }

  /** Adding keeps the keys unique. */
  lemma AddUnique(c: Counts, key: string, n: int)
    requires UniqueKeys(c)
    ensures UniqueKeys(Add(c, key, n))
    ensures KeySet(Add(c, key, n)) == KeySet(c) + {Upper(key)}
  {
    AddWords(c, key, n);
    var ks := Keys(c);
    if Upper(key) !in ks {
      var next := ks + [Upper(key)];
      assert forall i :: 0 <= i < |ks| ==> next[i] == ks[i];
      assert Elements(next) == Elements(ks) + {Upper(key)};
    }
  }

  predicate AllPositive(c: Counts) {
    forall i :: 0 <= i < |c| ==> c[i].count >= 1
  }

  lemma AddPositive(c: Counts, key: string, n: int)
    requires AllPositive(c) && n >= 1
    ensures AllPositive(Add(c, key, n))
  {
    var r := Add(c, key, n);
    AddCount(c, key, n, key);
    forall i | 0 <= i < |r| ensures r[i].count >= 1 {
      if i < |c| && EntryKey(c[i]) == Upper(key) {
        AddPositiveAt(c, key, n, i);
      } else if i == |c| {
        AddWords(c, key, n);
        AddLast(c, key, n);
      }
    }
  }

  lemma {:induction false} AddPositiveAt(c: Counts, key: string, n: int, i: nat)
    requires AllPositive(c) && n >= 1 && i < |c|
    ensures Add(c, key, n)[i].count >= 1
    decreases |c|
  {
    if i > 0 && EntryKey(c[0]) != Upper(key) {
      AddPositiveAt(c[1..], key, n, i - 1);
    }
  }

  lemma {:induction false} AddLast(c: Counts, key: string, n: int)
    requires |Add(c, key, n)| > |c|
    ensures Add(c, key, n)[|c|] == WordCount(key, n)
    decreases |c|
  {
    if |c| > 0 {
      AddLast(c[1..], key, n);
    }
  }

  /* ------------------------------------------------------------- counting */

  /** The characters trimmed off both ends of every match. */
  const TrimmedChars: set<char> := {'\'', '-'}

  /** The callers' word pattern `\b[\p{L}\p{N}'\-]{threshold,}\b`: the matches
      it finds in a text, left to right. */
  type Matcher = (string, int) -> seq<string>

  /** A word that no apostrophe or hyphen begins or ends. */
  predicate IsTrimmedWord(w: string) {
    |w| > 0 ==> w[0] !in TrimmedChars && w[|w| - 1] !in TrimmedChars
  }

  /** `match.Value.Trim('\'', '-')` for every match. */
  function TrimAll(ms: seq<string>): (ws: seq<string>)
    ensures |ws| == |ms|
    ensures forall i :: 0 <= i < |ms| ==> ws[i] == TrimWith(ms[i], TrimmedChars) && IsTrimmedWord(ws[i])
  {
    seq(|ms|, i requires 0 <= i < |ms| => TrimWith(ms[i], TrimmedChars))
  }

  /** The words that pass `if (raw.Length < threshold) continue;`. */
  function KeepLong(ws: seq<string>, threshold: int): (r: seq<string>)
    ensures forall i :: 0 <= i < |r| ==> |r[i]| >= threshold
    decreases |ws|
  {
    if |ws| == 0 then []
    else (if |ws[0]| < threshold then [] else [ws[0]]) + KeepLong(ws[1..], threshold)
  }

  /** Every word long enough is kept. */
  lemma {:induction false} KeepLongKeeps(ws: seq<string>, threshold: int, i: nat)
    requires i < |ws| && |ws[i]| >= threshold
    ensures ws[i] in KeepLong(ws, threshold)
    decreases |ws|
  {
    var head := if |ws[0]| < threshold then [] else [ws[0]];
    var rest := KeepLong(ws[1..], threshold);
    assert KeepLong(ws, threshold) == head + rest;
    if i > 0 {
      assert ws[1..][i - 1] == ws[i];
      KeepLongKeeps(ws[1..], threshold, i - 1);
      assert forall x :: x in rest ==> x in head + rest;
    }
  }

  /** Every kept word is one of the words. */
  lemma {:induction false} KeepLongSource(ws: seq<string>, threshold: int, j: nat) returns (i: nat)
    requires j < |KeepLong(ws, threshold)|
    ensures i < |ws| && ws[i] == KeepLong(ws, threshold)[j]
    decreases |ws|
  {
    var head := if |ws[0]| < threshold then [] else [ws[0]];
    var rest := KeepLong(ws[1..], threshold);
    assert KeepLong(ws, threshold) == head + rest;
    if j < |head| {
      i := 0;
    } else {
      var k := KeepLongSource(ws[1..], threshold, j - |head|);
      assert (head + rest)[j] == rest[j - |head|];
      i := k + 1;
    }
  }

  /** The matches, trimmed of apostrophes and hyphens, that are still at
      least `threshold` long. */
  function LongWordsOf(ms: seq<string>, threshold: int): seq<string> {
    KeepLong(TrimAll(ms), threshold)
  }

  /** The long words are exactly the trimmed matches of at least `threshold`
      characters: each comes from a match, and each such match is kept. */
  lemma LongWordsOfSpec(ms: seq<string>, threshold: int)
    ensures var ws := LongWordsOf(ms, threshold);
      && (forall j :: 0 <= j < |ws| ==>
            |ws[j]| >= threshold && IsTrimmedWord(ws[j]) && ws[j] in TrimAll(ms))
      && (forall i :: 0 <= i < |ms| && |TrimWith(ms[i], TrimmedChars)| >= threshold ==>
            TrimWith(ms[i], TrimmedChars) in ws)
  {
    var ts := TrimAll(ms);
    var ws := KeepLong(ts, threshold);
    forall j | 0 <= j < |ws|
      ensures |ws[j]| >= threshold && IsTrimmedWord(ws[j]) && ws[j] in ts
    {
      var i := KeepLongSource(ts, threshold, j);
    }
    forall i | 0 <= i < |ms| && |TrimWith(ms[i], TrimmedChars)| >= threshold
      ensures TrimWith(ms[i], TrimmedChars) in ws
    {
      KeepLongKeeps(ts, threshold, i);
    }
  }

  /** The words counted for `content`: none when it is blank, otherwise the
      long words among the matches in its normalised text. */
  function Qualifying(content: string, threshold: int, matches: Matcher): seq<string> {
    if IsBlank(content) then []
    else LongWordsOf(matches(PhraseText.NormalizeWhitespace(content), threshold), threshold)
  }

  /** The counting loop: every word adds one to its entry. */
  function Tally(acc: Counts, ws: seq<string>): (r: Counts)
    ensures |acc| <= |r|
    ensures forall i :: 0 <= i < |acc| ==> r[i].word == acc[i].word
    decreases |ws|
  {
    if |ws| == 0 then acc else Tally(Add(acc, ws[0], 1), ws[1..])
  }

  /** `CountLongWords(content, threshold)`. */
  function CountLongWords(content: string, threshold: int, matches: Matcher): Counts {
    Tally([], Qualifying(content, threshold, matches))
  }

  /** How many of `ws` equal `k` up to case. */
  function Occurrences(ws: seq<string>, k: string): nat
    decreases |ws|
  {
    if |ws| == 0 then 0
    else (if Upper(ws[0]) == Upper(k) then 1 else 0) + Occurrences(ws[1..], k)
  }

  lemma {:induction false} TallyCount(acc: Counts, ws: seq<string>, k: string)
    ensures CountOf(Tally(acc, ws), k) == CountOf(acc, k) + Occurrences(ws, k)
    decreases |ws|
  {
    if |ws| > 0 {
      AddCount(acc, ws[0], 1, k);
      TallyCount(Add(acc, ws[0], 1), ws[1..], k);
    }
  }

  /** The entries appear in the order their keys were first met, each under
      its first spelling. */
  lemma {:induction false} TallyWords(acc: Counts, ws: seq<string>)
    ensures Words(Tally(acc, ws)) == Words(acc) + DedupeFrom(ws, Upper, KeySet(acc))
    decreases |ws|
  {
    if |ws| == 0 {
      assert Words(acc) + [] == Words(acc);
    } else {
      var w := ws[0];
      var rest := ws[1..];
      var next := Add(acc, w, 1);
      var seen := KeySet(acc);
      assert Tally(acc, ws) == Tally(next, rest);
      AddWords(acc, w, 1);
      TallyWords(next, rest);
      DedupeFromCons(ws, Upper, seen);
      if Upper(w) in seen {
        assert Words(next) == Words(acc) && KeySet(next) == seen;
        assert DedupeFrom(ws, Upper, seen) == DedupeFrom(rest, Upper, seen);
      } else {
        AddedKey(Keys(acc), Upper(w));
        assert Words(next) == Words(acc) + [w] && KeySet(next) == seen + {Upper(w)};
        var tail := DedupeFrom(rest, Upper, seen + {Upper(w)});
        assert DedupeFrom(ws, Upper, seen) == [w] + tail;
        Regroup3(Words(acc), [w], tail);
      }
    }
  }

  lemma AddedKey(ks: seq<string>, k: string)
    ensures Elements(ks + [k]) == Elements(ks) + {k}
  {
    assert forall i :: 0 <= i < |ks| ==> (ks + [k])[i] == ks[i];
  }

  lemma Regroup3<T>(a: seq<T>, b: seq<T>, c: seq<T>)
    ensures (a + b) + c == a + (b + c)
  {
  }

  /** Every tallied word is one of the words tallied. */
  lemma TallyWordsIn(ws: seq<string>, r: Counts)
    requires r == Tally([], ws)
    ensures forall i :: 0 <= i < |r| ==> r[i].word in ws
  {
    TallyWords([], ws);
    assert KeySet([]) == {};
    var d := Dedupe(ws, Upper);
    assert Words(r) == d;
    forall i | 0 <= i < |r| ensures r[i].word in ws {
      assert Words(r)[i] == d[i];
      SubsequenceIn(d, ws, i);
    }
  }

  lemma {:induction false} TallyUnique(acc: Counts, ws: seq<string>)
    requires UniqueKeys(acc)
    ensures UniqueKeys(Tally(acc, ws))
    decreases |ws|
  {
    if |ws| > 0 {
      AddUnique(acc, ws[0], 1);
      TallyUnique(Add(acc, ws[0], 1), ws[1..]);
    }
  }

  lemma {:induction false} TallyPositive(acc: Counts, ws: seq<string>)
    requires AllPositive(acc)
    ensures AllPositive(Tally(acc, ws))
    decreases |ws|
  {
    if |ws| > 0 {
      AddPositive(acc, ws[0], 1);
      TallyPositive(Add(acc, ws[0], 1), ws[1..]);
    }
  }

  /** What `CountLongWords` returns: a table with unique keys, holding for
      every word (up to case) the number of its long-word matches, under the
      spelling first met; every key is at least `threshold` long, trimmed of
      apostrophes and hyphens, and counted at least once; blank content
      gives the empty table. */
  lemma CountLongWordsSpec(content: string, threshold: int, matches: Matcher, r: Counts)
    requires r == CountLongWords(content, threshold, matches)
    ensures UniqueKeys(r) && AllPositive(r)
    ensures forall k :: CountOf(r, k) == Occurrences(Qualifying(content, threshold, matches), k)
    ensures Words(r) == Dedupe(Qualifying(content, threshold, matches), Upper)
    ensures forall i :: 0 <= i < |r| ==> |r[i].word| >= threshold && IsTrimmedWord(r[i].word)
    ensures IsBlank(content) ==> r == []
  {
    var ws := Qualifying(content, threshold, matches);
    TallyUnique([], ws);
    TallyPositive([], ws);
    forall k ensures CountOf(r, k) == Occurrences(ws, k) {
      TallyCount([], ws, k);
    }
    TallyWords([], ws);
    assert KeySet([]) == {};
    TallyWordsIn(ws, r);
    QualifyingShape(content, threshold, matches);
  }

  lemma QualifyingShape(content: string, threshold: int, matches: Matcher)
    ensures var ws := Qualifying(content, threshold, matches);
      forall w :: w in ws ==> |w| >= threshold && IsTrimmedWord(w)
  {
    if !IsBlank(content) {
      LongWordsOfSpec(matches(PhraseText.NormalizeWhitespace(content), threshold), threshold);
    }
  }

  /* -------------------------------------------------------------- merging */

  /** `MergeCounts(aggregate, addition)`: each entry of the addition is added
      to the aggregate under its key. */
  function MergeCounts(aggregate: Counts, addition: Counts): (r: Counts)
    ensures |aggregate| <= |r|
    ensures forall i :: 0 <= i < |aggregate| ==> r[i].word == aggregate[i].word
    decreases |addition|
  {
    if |addition| == 0 then aggregate
    else MergeCounts(Add(aggregate, addition[0].word, addition[0].count), addition[1..])
  }

  /** The merged count of every key is the sum of both counts. */
  lemma {:induction false} MergeCountsCount(aggregate: Counts, addition: Counts, k: string)
    ensures CountOf(MergeCounts(aggregate, addition), k) == CountOf(aggregate, k) + CountOf(addition, k)
    decreases |addition|
  {
    if |addition| > 0 {
      var e := addition[0];
      AddCount(aggregate, e.word, e.count, k);
      MergeCountsCount(Add(aggregate, e.word, e.count), addition[1..], k);
    }
  }

  /** The merged total is the sum of both totals. */
  lemma {:induction false} MergeCountsTotal(aggregate: Counts, addition: Counts)
    ensures Total(MergeCounts(aggregate, addition)) == Total(aggregate) + Total(addition)
    decreases |addition|
  {
    if |addition| > 0 {
      var e := addition[0];
      AddTotal(aggregate, e.word, e.count);
      MergeCountsTotal(Add(aggregate, e.word, e.count), addition[1..]);
    }
  }

  /** Merging keeps the keys unique and yields the union of the key sets. */
  lemma {:induction false} MergeCountsKeys(aggregate: Counts, addition: Counts)
    requires UniqueKeys(aggregate)
    ensures UniqueKeys(MergeCounts(aggregate, addition))
    ensures KeySet(MergeCounts(aggregate, addition)) == KeySet(aggregate) + KeySet(addition)
    decreases |addition|
  {
    if |addition| > 0 {
      var e := addition[0];
      AddUnique(aggregate, e.word, e.count);
      MergeCountsKeys(Add(aggregate, e.word, e.count), addition[1..]);
      assert Keys(addition) == [EntryKey(e)] + Keys(addition[1..]);
      assert KeySet(addition) == {EntryKey(e)} + KeySet(addition[1..]);
    }
  }

  /** Entries of the aggregate whose key the addition lacks are untouched. */
  lemma {:induction false} MergeCountsUnchanged(aggregate: Counts, addition: Counts, i: nat)
    requires i < |aggregate| && EntryKey(aggregate[i]) !in KeySet(addition)
    ensures MergeCounts(aggregate, addition)[i] == aggregate[i]
    decreases |addition|
  {
    if |addition| > 0 {
      var e := addition[0];
      assert Keys(addition) == [EntryKey(e)] + Keys(addition[1..]);
      assert KeySet(addition) == {EntryKey(e)} + KeySet(addition[1..]);
      MergeCountsUnchanged(Add(aggregate, e.word, e.count), addition[1..], i);
    }
  }

  /* ------------------------------------------------------------- ordering */

  function EntryCount(e: WordCount): int {
    e.count
  }

  function EntryWord(e: WordCount): string {
    e.word
  }

  /** `OrderByDescending(x => x.Value).ThenBy(x => x.Key,
      StringComparer.OrdinalIgnoreCase)`. */
  function CountOrder(): (WordCount, WordCount) -> bool {
    ThenBy(Descending(By(EntryCount, IntLe())), By(EntryWord, IgnoreCaseLe()))
  }

  lemma CountOrderPreorder()
    ensures TotalPreorder(CountOrder())
  {
    IntLePreorder();
    ByPreorder(EntryCount, IntLe());
    DescendingPreorder(By(EntryCount, IntLe()));
    IgnoreCasePreorder();
    ByPreorder(EntryWord, IgnoreCaseLe());
    ThenByPreorder(Descending(By(EntryCount, IntLe())), By(EntryWord, IgnoreCaseLe()));
  }

  /** `OrderCounts(counts)`. */
  function OrderCounts(c: Counts): (r: Counts)
    ensures multiset(r) == multiset(c)
  {
    SortBy(c, CountOrder())
  }

  /** Larger counts come first; equal counts are in ordinal-ignore-case
      order of their words. */
  predicate CountsOrdered(r: Counts) {
    forall i, j :: 0 <= i < j < |r| ==>
      r[i].count > r[j].count
      || (r[i].count == r[j].count && OrdinalLe(Upper(r[i].word), Upper(r[j].word)))
  }

  /** What the comparer says about two entries. */
  lemma CountOrderMeaning(a: WordCount, b: WordCount)
    ensures CountOrder()(a, b) <==>
      a.count > b.count || (a.count == b.count && OrdinalLe(Upper(a.word), Upper(b.word)))
  {
    var first := Descending(By(EntryCount, IntLe()));
    var second := By(EntryWord, IgnoreCaseLe());
    assert first(a, b) <==> b.count <= a.count;
    assert first(b, a) <==> a.count <= b.count;
    assert second(a, b) <==> OrdinalLe(Upper(a.word), Upper(b.word));
  }

  /** The listing is an ordered permutation of the table. */
  lemma OrderCountsSpec(c: Counts, r: Counts)
    requires r == OrderCounts(c)
    ensures multiset(r) == multiset(c)
    ensures CountsOrdered(r)
  {
    CountOrderPreorder();
    SortSorted(c, CountOrder());
    forall i, j | 0 <= i < j < |r|
      ensures r[i].count > r[j].count
        || (r[i].count == r[j].count && OrdinalLe(Upper(r[i].word), Upper(r[j].word)))
    {
      CountOrderMeaning(r[i], r[j]);
    }
  }

  /* ------------------------------------------------------------- endpoint */

  const NoInputMessage: string := "Upload at least one file or provide inline text."
  const UnsupportedMessage: string :=
    "Unsupported file type. Upload .txt, .docx, .pdf, .md/.markdown, or .html/.htm."

  const AllowedExtensions: set<string> := {".txt", ".docx", ".pdf", ".md", ".markdown", ".html", ".htm"}

  /** Membership in the ignore-case extension set. */
  predicate IsAllowed(ext: string) {
    exists a | a in AllowedExtensions :: EqualsIgnoreCase(ext, a)
  }

  /** The decorations `[`*_>#\[\]{}()!\-]` blanked out of plain-text and
      Markdown uploads. */
  const MarkdownChars: set<char> := {'`', '*', '_', '>', '#', '[', ']', '{', '}', '(', ')', '!', '-'}

  function StripMarkdown(s: string): (r: string)
    ensures |r| == |s|
    ensures forall i :: 0 <= i < |s| ==> r[i] !in MarkdownChars
    ensures forall i :: 0 <= i < |s| && s[i] !in MarkdownChars ==> r[i] == s[i]
  {
    seq(|s|, i requires 0 <= i < |s| => if s[i] in MarkdownChars then ' ' else s[i])
  }

  /** An upload: its file name and the text its reader extracts (the decoded
      file, the Word or PDF text, the HTML inner text), or the message of the
      exception the reader throws. */
  datatype Upload = Upload(fileName: string, payload: Result<string, string>)

  /** The text counted for an upload of an allowed extension. */
  function ReadContent(ext: string, payload: Result<string, string>): (r: Result<string, string>)
    ensures payload.Err? ==> r == Err(payload.error)
  {
    match payload
    case Err(message) => Err(message)
    case Ok(text) =>
      var lower := Lower(ext);
      if lower in {".txt", ".md", ".markdown"} then Ok(StripMarkdown(text))
      else if lower == ".docx" || lower == ".pdf" then Ok(text)
      else if lower in {".html", ".htm"} then Ok(CollapseRuns(text, WhiteSpace))
      else Err("Unsupported file type.")
  }

  /** A source of words with what came of it: a count table or an error. */
  datatype Source = Source(name: string, kind: string, outcome: Result<Counts, string>)

  /** One element of the response's `results`. */
  datatype SourceResult = SourceResult(
    source: string, kind: string, totalWords: int, uniqueWords: nat, words: Counts, error: Option<string>)

  datatype Response = Response(
    threshold: int, totalUniqueWords: nat, totalOccurrences: int, aggregate: Counts, results: seq<SourceResult>)

  function FileSource(u: Upload, threshold: int, matches: Matcher): (s: Source)
    ensures s.name == u.fileName
  {
    var ext := Extension(u.fileName);
    var kind := TrimStartWith(ext, {'.'});
    if !IsAllowed(ext) then Source(u.fileName, kind, Err(UnsupportedMessage))
    else
      var content := ReadContent(ext, u.payload);
      if content.Err? then Source(u.fileName, kind, Err(content.error))
      else Source(u.fileName, kind, Ok(CountLongWords(content.value, threshold, matches)))
  }

  lemma ReadAllowed(ext: string, text: string)
    requires IsAllowed(ext)
    ensures ReadContent(ext, Ok(text)).Ok?
  {
    var a :| a in AllowedExtensions && EqualsIgnoreCase(ext, a);
    AllowedLower(a);
    LowerOfMatch(ext, a);
  }

  lemma AllowedLower(a: string)
    requires a in AllowedExtensions
    ensures NoUpper(a)
  {
  }

  predicate NoUpper(s: string) {
    forall i :: 0 <= i < |s| ==> !('A' <= s[i] <= 'Z')
  }

  /** A text equal ignoring case to one without capitals lower-cases to it. */
  lemma LowerOfMatch(s: string, a: string)
    requires EqualsIgnoreCase(s, a) && NoUpper(a)
    ensures Lower(s) == a
  {
    assert |s| == |a|;
    forall i | 0 <= i < |a| ensures Lower(s)[i] == a[i] {
      assert Upper(s)[i] == Upper(a)[i];
    }
  }

  /** The pasted text, counted as a source of its own. */
  function InlineSource(text: string, threshold: int, matches: Matcher): Source {
    Source("Inline text", "text", Ok(CountLongWords(text, threshold, matches)))
  }

  /** Each upload read as a source, in order. */
  function FileSources(files: seq<Upload>, threshold: int, matches: Matcher): (ss: seq<Source>)
    ensures |ss| == |files|
    ensures forall i :: 0 <= i < |files| ==> ss[i] == FileSource(files[i], threshold, matches)
  {
    seq(|files|, i requires 0 <= i < |files| => FileSource(files[i], threshold, matches))
  }

  /** The inline text (when not blank) and then the uploads, in order. */
  function Sources(text: string, files: seq<Upload>, threshold: int, matches: Matcher): (ss: seq<Source>)
    ensures |ss| == |files| + if IsBlank(text) then 0 else 1
    ensures !IsBlank(text) ==> ss[0] == InlineSource(text, threshold, matches)
    ensures ss[|ss| - |files|..] == FileSources(files, threshold, matches)
  {
    var uploads := FileSources(files, threshold, matches);
    if IsBlank(text) then uploads
    else
      var ss := [InlineSource(text, threshold, matches)] + uploads;
      assert ss[1..] == uploads;
      ss
  }

  function ToResult(s: Source): (r: SourceResult)
    ensures r.source == s.name && r.kind == s.kind
    ensures r.error.Some? <==> s.outcome.Err?
  {
    match s.outcome
    case Ok(c) => SourceResult(s.name, s.kind, Total(c), |c|, OrderCounts(c), None)
    case Err(message) => SourceResult(s.name, s.kind, 0, 0, [], Some(message))
  }

  /** What a source adds to the aggregate: its table, or nothing. */
  function Contribution(s: Source): Counts {
    match s.outcome
    case Ok(c) => c
    case Err(_) => []
  }

  /** The aggregate table: the sources' tables merged in order. */
  function AggregateOf(ss: seq<Source>): Counts
    decreases |ss|
  {
    if |ss| == 0 then [] else MergeCounts(AggregateOf(ss[..|ss| - 1]), Contribution(ss[|ss| - 1]))
  }

  function ResultsOf(ss: seq<Source>): (rs: seq<SourceResult>)
    ensures |rs| == |ss|
    ensures forall i :: 0 <= i < |ss| ==> rs[i] == ToResult(ss[i])
  {
    seq(|ss|, i requires 0 <= i < |ss| => ToResult(ss[i]))
  }

  /** `POST /api/extract`. */
  function Extract(thresholdField: string, text: string, files: seq<Upload>, matches: Matcher): (r: Result<Response, string>)
    ensures r.Err? <==> |files| == 0 && IsBlank(text)
    ensures r.Err? ==> r.error == NoInputMessage
    ensures r.Ok? ==> r.value.threshold == Threshold(thresholdField)
    ensures r.Ok? ==> var ss := Sources(text, files, r.value.threshold, matches);
      && r.value.results == ResultsOf(ss)
      && multiset(r.value.aggregate) == multiset(AggregateOf(ss))
      && CountsOrdered(r.value.aggregate)
  {
    if |files| == 0 && IsBlank(text) then Err(NoInputMessage)
    else
      var t := Threshold(thresholdField);
      var ss := Sources(text, files, t, matches);
      var aggregate := AggregateOf(ss);
      OrderCountsSpec(aggregate, OrderCounts(aggregate));
      Ok(Response(t, |aggregate|, Total(aggregate), OrderCounts(aggregate), ResultsOf(ss)))
  }

  /** The sum of the sources' `totalWords`. */
  function TotalWordsOf(rs: seq<SourceResult>): int
    decreases |rs|
  {
    if |rs| == 0 then 0 else TotalWordsOf(rs[..|rs| - 1]) + rs[|rs| - 1].totalWords
  }

  /** The sum, over the sources, of what each counted for `k`. */
  function CountOfAll(ss: seq<Source>, k: string): int
    decreases |ss|
  {
    if |ss| == 0 then 0 else CountOfAll(ss[..|ss| - 1], k) + CountOf(Contribution(ss[|ss| - 1]), k)
  }

  lemma {:induction false} AggregateSpec(ss: seq<Source>)
    ensures UniqueKeys(AggregateOf(ss))
    ensures Total(AggregateOf(ss)) == TotalWordsOf(ResultsOf(ss))
    decreases |ss|
  {
    if |ss| > 0 {
      var front := ss[..|ss| - 1];
      var last := ss[|ss| - 1];
      AggregateSpec(front);
      MergeCountsKeys(AggregateOf(front), Contribution(last));
      MergeCountsTotal(AggregateOf(front), Contribution(last));
      assert ResultsOf(ss)[..|ss| - 1] == ResultsOf(front);
    }
  }

  lemma {:induction false} AggregateCount(ss: seq<Source>, k: string)
    ensures CountOf(AggregateOf(ss), k) == CountOfAll(ss, k)
    decreases |ss|
  {
    if |ss| > 0 {
      var front := ss[..|ss| - 1];
      AggregateCount(front, k);
      MergeCountsCount(AggregateOf(front), Contribution(ss[|ss| - 1]), k);
    }
  }

  /** The response's totals: the results are the sources' in order,
      `totalOccurrences` is the sum of their `totalWords`, `totalUniqueWords`
      the number of distinct words up to case, and the aggregate lists every
      word once with the sum of its per-source counts, in count-then-word
      order. */
  lemma ExtractTotals(thresholdField: string, text: string, files: seq<Upload>, matches: Matcher, r: Response)
    requires Extract(thresholdField, text, files, matches) == Ok(r)
    ensures r.totalOccurrences == TotalWordsOf(r.results)
    ensures r.totalUniqueWords == |r.aggregate|
    ensures CountsOrdered(r.aggregate)
    ensures UniqueKeys(r.aggregate)
    ensures var ss := Sources(text, files, Threshold(thresholdField), matches);
      && r.results == ResultsOf(ss)
      && multiset(r.aggregate) == multiset(AggregateOf(ss))
      && r.totalUniqueWords == |KeySet(AggregateOf(ss))|
      && (forall k :: CountOf(AggregateOf(ss), k) == CountOfAll(ss, k))
      && (forall k :: CountOf(r.aggregate, k) == CountOfAll(ss, k))
  {
    var ss := Sources(text, files, Threshold(thresholdField), matches);
    var aggregate := AggregateOf(ss);
    AggregateSpec(ss);
    DistinctCard(Keys(aggregate));
    OrderCountsSpec(aggregate, r.aggregate);
    assert |r.aggregate| == |multiset(r.aggregate)| == |multiset(aggregate)| == |aggregate|;
    UniqueKeysPermuted(aggregate, r.aggregate);
    forall k ensures CountOf(aggregate, k) == CountOfAll(ss, k) && CountOf(r.aggregate, k) == CountOfAll(ss, k) {
      AggregateCount(ss, k);
      CountOfPermuted(aggregate, r.aggregate, k);
    }
  }

  /** An upload fails with the unsupported-type message exactly when its
      extension is not allowed, with the reader's message when the reader
      throws, and is otherwise counted; a failed source counts nothing. */
  lemma FileResultSpec(u: Upload, threshold: int, matches: Matcher)
    ensures var r := ToResult(FileSource(u, threshold, matches));
      && (!IsAllowed(Extension(u.fileName)) ==> r.error == Some(UnsupportedMessage))
      && (IsAllowed(Extension(u.fileName)) && u.payload.Err? ==> r.error == Some(u.payload.error))
      && (r.error.Some? ==> r.totalWords == 0 && r.uniqueWords == 0 && r.words == [])
      && (IsAllowed(Extension(u.fileName)) && u.payload.Ok? ==> r.error == None)
  {
    if IsAllowed(Extension(u.fileName)) && u.payload.Ok? {
      ReadAllowed(Extension(u.fileName), u.payload.value);
    }
  }
}

=== FILE: numbers.dfy ===
/** The 32-bit integers of C#: their range, unchecked wrap-around, invariant
    decimal formatting (`int.ToString()`) and `int.TryParse` with the default
    `NumberStyles.Integer`, plus `PadLeft`. */
module Numbers {
  import opened Wrappers
  import opened Strings

  const MinInt32: int := -0x8000_0000
  const MaxInt32: int := 0x7FFF_FFFF

  predicate IsInt32(n: int) {
    MinInt32 <= n <= MaxInt32
  }

  /** Unchecked two's-complement wrap of an integer into the `int` range. */
  function Wrap32(n: int): (r: int)
    ensures IsInt32(r)
    ensures IsInt32(n) ==> r == n
    ensures (r - n) % 0x1_0000_0000 == 0
  {
    (n - MinInt32) % 0x1_0000_0000 + MinInt32
  }

  /** `counter++` in an unchecked context: `int.MaxValue` wraps to
      `int.MinValue`. */
  function Increment32(n: int): (r: int)
    requires IsInt32(n)
    ensures IsInt32(r)
  {
    if n == MaxInt32 then MinInt32 else n + 1
  }

  /** Incrementing a wrapped value wraps the incremented value, so a counter
      bumped once per step agrees with plain addition modulo 2^32. */
  lemma Wrap32Step(n: int)
    ensures Increment32(Wrap32(n)) == Wrap32(n + 1)
  {
    ModSucc(n - MinInt32);
  }

  lemma ModSucc(x: int)
    ensures (x + 1) % 0x1_0000_0000 == if x % 0x1_0000_0000 == 0xFFFF_FFFF then 0 else x % 0x1_0000_0000 + 1
  {
    var q := x / 0x1_0000_0000;
    var r := x % 0x1_0000_0000;
    assert x == q * 0x1_0000_0000 + r;
    if r == 0xFFFF_FFFF {
      assert x + 1 == (q + 1) * 0x1_0000_0000;
    } else {
      assert x + 1 == q * 0x1_0000_0000 + (r + 1);
    }
  }

  /* ---------------------------------------------------------------- digits */

  predicate AllDigits(s: string) {
    forall i :: 0 <= i < |s| ==> IsAsciiDigit(s[i])
  }

  function DigitChar(d: nat): (c: char)
    requires d < 10
    ensures IsAsciiDigit(c)
  {
    ('0' as int + d) as char
  }

  function DigitValue(c: char): nat
    requires IsAsciiDigit(c)
  {
    c as int - '0' as int
  }

  /** The number a string of decimal digits denotes. */
  function DigitsValue(s: string): nat
    requires AllDigits(s)
    decreases |s|
  {
    if |s| == 0 then 0 else DigitsValue(s[..|s| - 1]) * 10 + DigitValue(s[|s| - 1])
  }

  /** Decimal digits of a natural number, without leading zeros. */
  function NatToString(n: nat): (r: string)
    ensures |r| >= 1 && AllDigits(r)
    ensures DigitsValue(r) == n
    ensures |r| > 1 ==> r[0] != '0'
    decreases n
  {
    if n < 10 then [DigitChar(n)]
    else
      var front := NatToString(n / 10);
      var r := front + [DigitChar(n % 10)];
      assert r[..|r| - 1] == front;
      r
  }

  /** `int.ToString()` under the invariant culture. */
  function IntToString(n: int): (r: string)
    ensures |r| >= 1
    ensures forall i :: 0 <= i < |r| ==> IsAsciiDigit(r[i]) || r[i] == '-'
  {
    if n < 0 then "-" + NatToString(-n) else NatToString(n)
  }

  lemma NatToStringInjective(a: nat, b: nat)
    requires NatToString(a) == NatToString(b)
    ensures a == b
  {
  }

  /* --------------------------------------------------------------- parsing */

  /** White space that `NumberStyles.AllowLeadingWhite`/`AllowTrailingWhite`
      accept: U+0009 to U+000D and the space. */
  const NumberWhite: set<char> := {'\t', '\n', '\U{000B}', '\U{000C}', '\r', ' '}

  /** `int.TryParse(s, out v)`: optional surrounding white space, an optional
      sign, one or more decimal digits, and a value inside the `int` range. */
  function ParseInt32(s: string): (r: Option<int>)
    ensures r.Some? ==> IsInt32(r.value)
  {
    var t := TrimWith(s, NumberWhite);
    var negative := |t| > 0 && t[0] == '-';
    var body := if |t| > 0 && (t[0] == '-' || t[0] == '+') then t[1..] else t;
    if |body| == 0 || !AllDigits(body) then None
    else
      var magnitude: int := DigitsValue(body);
      var v := if negative then -magnitude else magnitude;
      if IsInt32(v) then Some(v) else None
  }

  /** `ParseOrDefault(input, fallback)` of the batch renamer. */
  function ParseOrDefault(s: string, fallback: int): (r: int)
    ensures ParseInt32(s).Some? ==> r == ParseInt32(s).value
    ensures ParseInt32(s).None? ==> r == fallback
  {
    ParseInt32(s).GetOr(fallback)
  }

  /** Parsing the invariant text of any `int` gives the number back. */
  lemma ParseFormatRoundTrip(n: int)
    requires IsInt32(n)
    ensures ParseInt32(IntToString(n)) == Some(n)
  {
    var s := IntToString(n);
    assert s[0] !in NumberWhite && s[|s| - 1] !in NumberWhite;
    TrimWithNone(s, NumberWhite);
    if n < 0 {
      assert s[1..] == NatToString(-n);
    }
  }

  /* ------------------------------------------------------------- padding */

  function Repeat(c: char, n: nat): (r: string)
    ensures |r| == n
    ensures forall i :: 0 <= i < n ==> r[i] == c
  {
    seq(n, _ => c)
  }

  /** `s.PadLeft(width, c)`. */
  function PadLeft(s: string, width: int, c: char): (r: string)
    ensures |r| == if |s| >= width then |s| else width
    ensures r[|r| - |s|..] == s
    ensures forall i :: 0 <= i < |r| - |s| ==> r[i] == c
  {
    if |s| >= width then s else Repeat(c, width - |s|) + s
  }
}

=== FILE: path_names.dfy ===
/** `System.IO.Path` on a Unix host: the file name of a path, its
    extension and its name without the extension. */
module PathNames {
  import opened Wrappers

  /** The last position of `c` in `s`. */
  function LastIndexOf(s: string, c: char): (r: Option<nat>)
    ensures r.Some? ==> r.value < |s| && s[r.value] == c
    ensures r.Some? ==> forall j :: r.value < j < |s| ==> s[j] != c
    ensures r.None? ==> c !in s
    decreases |s|
  {
    if |s| == 0 then None
    else if s[|s| - 1] == c then Some(|s| - 1)
    else
      var r := LastIndexOf(s[..|s| - 1], c);
      assert s == s[..|s| - 1] + [s[|s| - 1]];
      r
  }

  /** The directory separator of the Unix host. */
  const Separator: char := '/'

  /** `Path.GetFileName`: what follows the last separator. */
  function FileName(path: string): (r: string)
    ensures Separator !in r
    ensures |r| <= |path| && path[|path| - |r|..] == r
  {
    match LastIndexOf(path, Separator)
    case None => path
    case Some(i) => path[i + 1..]
  }

  /** `Path.GetExtension`: the file name from its last '.', or "" when it
      has none or the '.' is its last character. */
  function Extension(path: string): (r: string)
  {
    var name := FileName(path);
    match LastIndexOf(name, '.')
    case None => ""
    case Some(i) => if i == |name| - 1 then "" else name[i..]
  }

  /** `Path.GetFileNameWithoutExtension`: the file name up to its last '.'. */
  function BaseName(path: string): string {
    var name := FileName(path);
    match LastIndexOf(name, '.')
    case None => name
    case Some(i) => name[..i]
  }

  /** An extension is empty or a '.' followed by at least one character
      that is neither '.' nor a separator. */
  lemma ExtensionShape(path: string)
    ensures var e := Extension(path);
      e == "" || (|e| >= 2 && e[0] == '.' && '.' !in e[1..] && Separator !in e)
  {
    var name := FileName(path);
    match LastIndexOf(name, '.')
    case None =>
    case Some(i) =>
      if i < |name| - 1 {
        var e := name[i..];
        assert forall j :: 0 <= j < |e[1..]| ==> e[1..][j] == name[i + 1 + j];
      }
  }

  /** Base name and extension put back together give the file name, less a
      final '.' that `GetExtension` does not report. */
  lemma BaseNameExtension(path: string)
    ensures var name := FileName(path);
      var dot := if |name| > 0 && name[|name| - 1] == '.' then "." else "";
      BaseName(path) + Extension(path) + dot == name
  {
    var name := FileName(path);
    match LastIndexOf(name, '.')
    case None =>
    case Some(i) =>
      assert name == name[..i] + name[i..];
  }
}

=== FILE: paths.dfy ===
/** The file-path extractor: each uploaded source file of an allowed kind is
    cut into lines, the path-like captures of each line are cleaned of
    surrounding white space and trailing punctuation, the first capture of
    each (path, line) pair, compared ignoring case, is kept, and the matches
    are listed by line and then path. The regular expression is an input: a
    function from a line to the values of its `path` group. */
module PathExtractor {
  import opened Wrappers
  import opened Strings
  import opened Numbers
  import opened Collections
  import opened Sorting
  import opened PathNames

  /** The `path` group of each successive match in a line. */
  type Matcher = string -> seq<string>

  /** One reported path: the cleaned capture, its 1-based line, and that
      line trimmed. */
  datatype PathMatch = PathMatch(path: string, line: int, snippet: string)

  /* --------------------------------------------------------------- lines */

  /** A piece followed by a '\n' loses the '\r' of a "\r\n" terminator. */
  function DropCr(p: string): (r: string)
    ensures p == r || p == r + "\r"
  {
    if |p| > 0 && p[|p| - 1] == '\r' then p[..|p| - 1] else p
  }

  /** Every piece but the last is followed by a '\n'. */
  function Terminated(pieces: seq<string>): (r: seq<string>)
    ensures |r| == |pieces|
    decreases |pieces|
  {
    if |pieces| <= 1 then pieces else [DropCr(pieces[0])] + Terminated(pieces[1..])
  }

  /** `content.Split(new[] { "\r\n", "\n" }, StringSplitOptions.None)`: a
      '\n' ends a line, and so does a "\r\n", the '\r' going with it. */
  function SplitLines(content: string): (lines: seq<string>)
    ensures |lines| >= 1
  {
    Terminated(Split(content, '\n'))
  }

  /** No line holds a '\n'. */
  lemma {:induction false} TerminatedNoNewline(pieces: seq<string>)
    requires forall k :: 0 <= k < |pieces| ==> '\n' !in pieces[k]
    ensures forall k :: 0 <= k < |pieces| ==> '\n' !in Terminated(pieces)[k]
    decreases |pieces|
  {
    if |pieces| > 1 {
      TerminatedNoNewline(pieces[1..]);
      var r := Terminated(pieces);
      forall k | 0 <= k < |pieces| ensures '\n' !in r[k] {
        if k > 0 {
          assert r[k] == Terminated(pieces[1..])[k - 1];
        } else {
          assert pieces[0] == r[0] || pieces[0] == r[0] + "\r";
          assert forall j :: 0 <= j < |r[0]| ==> r[0][j] == pieces[0][j];
        }
      }
    }
  }

  /** The lines joined by '\n' are the text with each "\r\n" turned into
      '\n': the split loses exactly the terminators. */
  lemma SplitLinesJoin(content: string)
    ensures Join(SplitLines(content), "\n") == Replace(content, "\r\n", "\n")
    ensures forall k :: 0 <= k < |SplitLines(content)| ==> '\n' !in SplitLines(content)[k]
  {
    var pieces := Split(content, '\n');
    JoinSplit(content, '\n');
    JoinTerminated(pieces);
    TerminatedNoNewline(pieces);
  }

  lemma {:induction false} JoinTerminated(pieces: seq<string>)
    requires |pieces| >= 1
    requires forall k :: 0 <= k < |pieces| ==> '\n' !in pieces[k]
    ensures Join(Terminated(pieces), "\n") == Replace(Join(pieces, "\n"), "\r\n", "\n")
    decreases |pieces|
  {
    if |pieces| == 1 {
      ReplaceWithoutNewline(pieces[0]);
    } else {
      var rest := Join(pieces[1..], "\n");
      assert Join(pieces, "\n") == pieces[0] + "\n" + rest;
      ReplaceAfterPiece(pieces[0], rest);
      JoinTerminated(pieces[1..]);
      var t := Terminated(pieces);
      assert t[1..] == Terminated(pieces[1..]);
    }
  }

  /** Replacing in a text without '\n' finds no "\r\n". */
  lemma {:induction false} ReplaceWithoutNewline(p: string)
    requires '\n' !in p
    ensures Replace(p, "\r\n", "\n") == p
    decreases |p|
  {
    if |p| >= 2 {
      assert p[1] != '\n';
      assert p[0..2] != "\r\n";
      ReplaceWithoutNewline(p[1..]);
      assert p == [p[0]] + p[1..];
    }
  }

  /** Replacing through the piece `p` and the '\n' after it drops the
      piece's final '\r' and carries on behind the '\n'. */
  ghost predicate ReplacedAfter(p: string, rest: string) {
    Replace(p + "\n" + rest, "\r\n", "\n") == DropCr(p) + "\n" + Replace(rest, "\r\n", "\n")
  }

  lemma {:induction false} ReplaceAfterPiece(p: string, rest: string)
    requires '\n' !in p
    ensures ReplacedAfter(p, rest)
    decreases |p|
  {
    if |p| == 0 {
      ReplaceAfterNothing(rest);
    } else if p == "\r" {
      ReplaceAfterCr(rest);
    } else {
      ReplaceAfterPiece(p[1..], rest);
      ReplaceAfterStep(p, rest);
    }
  }

  lemma ReplaceAfterNothing(rest: string)
    ensures ReplacedAfter("", rest)
  {
    var s := "" + "\n" + rest;
    if |rest| > 0 {
      ReplaceStep(s);
      assert s[1..] == rest;
    } else {
      assert s == "\n";
    }
  }

  lemma ReplaceAfterCr(rest: string)
    ensures ReplacedAfter("\r", rest)
  {
    var s := "\r" + "\n" + rest;
    ReplaceStep(s);
    assert s[2..] == rest;
  }

  lemma ReplaceAfterStep(p: string, rest: string)
    requires '\n' !in p && |p| > 0 && p != "\r"
    requires ReplacedAfter(p[1..], rest)
    ensures ReplacedAfter(p, rest)
  {
    var q := p[1..];
    var t := q + "\n" + rest;
    assert p + "\n" + rest == [p[0]] + t;
    assert |t| > 0 && t[0] == '\n' ==> |q| == 0;
    assert DropCr(p) == [p[0]] + DropCr(q);
    var tail := Replace(rest, "\r\n", "\n");
    calc {
      Replace(p + "\n" + rest, "\r\n", "\n");
      Replace([p[0]] + t, "\r\n", "\n");
      { ReplaceKeep(p[0], t); }
      [p[0]] + Replace(t, "\r\n", "\n");
      [p[0]] + (DropCr(q) + "\n" + tail);
      DropCr(p) + "\n" + tail;
    }
  }

  /** A character that does not start "\r\n" is kept as it is. */
  lemma ReplaceKeep(c: char, t: string)
    requires c != '\r' || t == [] || t[0] != '\n'
    ensures Replace([c] + t, "\r\n", "\n") == [c] + Replace(t, "\r\n", "\n")
  {
    var s := [c] + t;
    if |s| >= 2 {
      ReplaceStep(s);
      assert s[1..] == t;
    }
  }

  /** One step of the left-to-right replacement of "\r\n". */
  lemma ReplaceStep(s: string)
    requires |s| >= 2
    ensures Replace(s, "\r\n", "\n") ==
      if s[0] == '\r' && s[1] == '\n' then "\n" + Replace(s[2..], "\r\n", "\n")
      else [s[0]] + Replace(s[1..], "\r\n", "\n")
  {
    assert MatchesAt(s, 0, "\r\n", Ordinal) <==> s[0] == '\r' && s[1] == '\n' by {
      assert s[0..2] == [s[0], s[1]];
    }
  }

  /* ------------------------------------------------------------- matches */

  /** The characters `TrimEnd` strips after the trim. */
  const Closers: set<char> := {';', ',', ')', ']', '}', '\'', '"', '`'}

  /** `path.Trim().TrimEnd(';', ',', ')', ']', '}', '\'', '"', '`')`: a
      prefix of the trimmed capture that starts with no white space and
      ends with none of the closers. */
  function Clean(path: string): (r: string)
    ensures |r| <= |Trim(path)| && r == Trim(path)[..|r|]
    ensures |r| > 0 ==> !IsWhiteSpace(r[0]) && r[|r| - 1] !in Closers
    ensures forall i :: |r| <= i < |Trim(path)| ==> Trim(path)[i] in Closers
  {
    TrimEndWith(Trim(path), Closers)
  }

  /** The matches of line `i` (0-based), blank captures skipped, in the
      order the expression finds them. */
  function LineMatches(lines: seq<string>, i: nat, matcher: Matcher): seq<PathMatch>
    requires i < |lines|
  {
    var captures := matcher(lines[i]);
    Flatten(seq(|captures|, k requires 0 <= k < |captures| =>
      if IsBlank(captures[k]) then [] else [PathMatch(Clean(captures[k]), i + 1, Trim(lines[i]))]))
  }

  /** All matches of the text, line by line, before duplicates are dropped. */
  function AllMatches(lines: seq<string>, matcher: Matcher): seq<PathMatch> {
    Flatten(seq(|lines|, i requires 0 <= i < |lines| => LineMatches(lines, i, matcher)))
  }

  /** `$"{cleaned}::{lineNumber}"` in the upper-cased form the ordinal
      ignore-case set compares. */
  function MatchKey(m: PathMatch): string {
    Upper(m.path + "::" + IntToString(m.line))
  }

  /** `ExtractPaths(content, regex)`: the first match of each key. */
  function ExtractPaths(content: string, matcher: Matcher): (r: seq<PathMatch>)
    ensures var all := AllMatches(SplitLines(content), matcher);
      && IsSubsequence(r, all)
      && (forall i, j :: 0 <= i < j < |r| ==> MatchKey(r[i]) != MatchKey(r[j]))
      && (forall i :: 0 <= i < |r| ==> FirstWithKey(all, MatchKey, MatchKey(r[i])) == Some(r[i]))
      && KeysOf(r, MatchKey) == KeysOf(all, MatchKey)
  {
    Dedupe(AllMatches(SplitLines(content), matcher), MatchKey)
  }

  /** `m` comes from a non-blank capture `k` of line `i`: its path is that
      capture cleaned, its line number `i + 1`, its snippet the trimmed
      line. */
  predicate CapturedAt(lines: seq<string>, matcher: Matcher, i: int, k: int, m: PathMatch) {
    && 0 <= i < |lines| && 0 <= k < |matcher(lines[i])|
    && !IsBlank(matcher(lines[i])[k])
    && m == PathMatch(Clean(matcher(lines[i])[k]), i + 1, Trim(lines[i]))
  }

  lemma {:induction false} AllMatchesFrom(lines: seq<string>, matcher: Matcher, m: PathMatch)
    requires m in AllMatches(lines, matcher)
    ensures exists i, k :: CapturedAt(lines, matcher, i, k, m)
  {
    var perLine := seq(|lines|, i requires 0 <= i < |lines| => LineMatches(lines, i, matcher));
    FlattenMembers(perLine, m);
    var i :| 0 <= i < |lines| && m in perLine[i];
    var captures := matcher(lines[i]);
    var perCapture := seq(|captures|, k requires 0 <= k < |captures| =>
      if IsBlank(captures[k]) then [] else [PathMatch(Clean(captures[k]), i + 1, Trim(lines[i]))]);
    FlattenMembers(perCapture, m);
    var k :| 0 <= k < |captures| && m in perCapture[k];
    assert CapturedAt(lines, matcher, i, k, m);
  }

  /** Every reported match is a cleaned, non-blank capture of the line it
      names, whose trimmed text is its snippet; it is the first match with
      its key; and no other reported match has the same path, ignoring
      case, on the same line. */
  lemma ExtractPathsSpec(content: string, matcher: Matcher, r: seq<PathMatch>, i: nat)
    requires r == ExtractPaths(content, matcher) && i < |r|
    ensures exists l, k :: CapturedAt(SplitLines(content), matcher, l, k, r[i])
    ensures 1 <= r[i].line <= |SplitLines(content)|
    ensures r[i].snippet == Trim(SplitLines(content)[r[i].line - 1])
    ensures exists n :: (IsFirstWithKey(AllMatches(SplitLines(content), matcher), MatchKey, n)
      && AllMatches(SplitLines(content), matcher)[n] == r[i])
    ensures forall j :: 0 <= j < |r| && j != i ==>
      !(EqualsIgnoreCase(r[i].path, r[j].path) && r[i].line == r[j].line)
  {
    var all := AllMatches(SplitLines(content), matcher);
    SubsequenceIn(r, all, i);
    AllMatchesFrom(SplitLines(content), matcher, r[i]);
    FirstWithKeyIndex(all, MatchKey, MatchKey(r[i]));
    forall j | 0 <= j < |r| && j != i
      ensures !(EqualsIgnoreCase(r[i].path, r[j].path) && r[i].line == r[j].line)
    {
      SameKey(r[i], r[j]);
    }
  }

  /** Paths equal up to case on the same line give the same key. */
  lemma SameKey(a: PathMatch, b: PathMatch)
    ensures EqualsIgnoreCase(a.path, b.path) && a.line == b.line ==> MatchKey(a) == MatchKey(b)
  {
    UpperAppend(a.path, "::" + IntToString(a.line));
    UpperAppend(b.path, "::" + IntToString(b.line));
  }

  /* ------------------------------------------------------------ ordering */

  function LineOf(m: PathMatch): int {
    m.line
  }

  function PathOf(m: PathMatch): string {
    m.path
  }

  /** `OrderBy(m => m.Line).ThenBy(m => m.Path, StringComparer.OrdinalIgnoreCase)`. */
  function MatchOrder(): (PathMatch, PathMatch) -> bool {
    ThenBy(By(LineOf, IntLe()), By(PathOf, IgnoreCaseLe()))
  }

  lemma MatchOrderPreorder()
    ensures TotalPreorder(MatchOrder())
  {
    IntLePreorder();
    ByPreorder(LineOf, IntLe());
    IgnoreCasePreorder();
    ByPreorder(PathOf, IgnoreCaseLe());
    ThenByPreorder(By(LineOf, IntLe()), By(PathOf, IgnoreCaseLe()));
  }

  /** What the comparer says about two matches. */
  lemma MatchOrderMeaning(a: PathMatch, b: PathMatch)
    ensures MatchOrder()(a, b) <==>
      a.line < b.line || (a.line == b.line && OrdinalLe(Upper(a.path), Upper(b.path)))
  {
    var first := By(LineOf, IntLe());
    var second := By(PathOf, IgnoreCaseLe());
    assert first(a, b) <==> a.line <= b.line;
    assert first(b, a) <==> b.line <= a.line;
    assert second(a, b) <==> OrdinalLe(Upper(a.path), Upper(b.path));
  }

  /** The listed matches of one file. */
  function OrderMatches(ms: seq<PathMatch>): (r: seq<PathMatch>)
    ensures multiset(r) == multiset(ms)
  {
    SortBy(ms, MatchOrder())
  }

  /** The listing is a permutation of the matches, ascending by line and,
      within a line, by path ignoring case; matches the comparer ties keep
      their order. */
  lemma OrderMatchesSpec(ms: seq<PathMatch>, r: seq<PathMatch>)
    requires r == OrderMatches(ms)
    ensures multiset(r) == multiset(ms)
    ensures forall i, j :: 0 <= i < j < |r| ==>
      r[i].line < r[j].line || (r[i].line == r[j].line && OrdinalLe(Upper(r[i].path), Upper(r[j].path)))
    ensures forall e :: TiesOf(r, e, MatchOrder()) == TiesOf(ms, e, MatchOrder())
  {
    MatchOrderPreorder();
    SortSorted(ms, MatchOrder());
    forall i, j | 0 <= i < j < |r|
      ensures r[i].line < r[j].line || (r[i].line == r[j].line && OrdinalLe(Upper(r[i].path), Upper(r[j].path)))
    {
      MatchOrderMeaning(r[i], r[j]);
    }
    forall e ensures TiesOf(r, e, MatchOrder()) == TiesOf(ms, e, MatchOrder()) {
      SortStable(ms, e, MatchOrder());
    }
  }

  /* ------------------------------------------------------------- handler */

  const NoFilesMessage: string :=
    "Upload at least one .js, .py, .json, .yaml/.yml, .md/.markdown, or .txt file."
  const UnsupportedMessage: string := "Unsupported file type."
  const EmptyMessage: string := "File was empty."

  const AllowedExtensions: set<string> := {".js", ".py", ".json", ".yaml", ".yml", ".md", ".markdown", ".txt"}

  /** Membership in the ignore-case extension set. */
  predicate IsAllowed(ext: string) {
    exists a | a in AllowedExtensions :: EqualsIgnoreCase(ext, a)
  }

  /** An upload: its file name, its length in bytes and its decoded text. */
  datatype Upload = Upload(fileName: string, length: nat, content: string)

  /** One element of the response's `results`. */
  datatype FileReport = FileReport(source: string, kind: string, matches: seq<PathMatch>, error: Option<string>)

  datatype ScanReport = ScanReport(filesProcessed: nat, totalMatches: int, results: seq<FileReport>)

  /** The report of one upload. */
  function ScanFile(u: Upload, matcher: Matcher): (r: FileReport)
    ensures r.source == u.fileName
    ensures r.kind == TrimStartWith(Extension(u.fileName), {'.'})
    ensures |r.kind| > 0 ==> r.kind[0] != '.'
    ensures !IsAllowed(Extension(u.fileName)) ==> r.error == Some(UnsupportedMessage) && r.matches == []
    ensures IsAllowed(Extension(u.fileName)) && u.length == 0 ==> r.error == Some(EmptyMessage) && r.matches == []
    ensures r.error.None? <==> IsAllowed(Extension(u.fileName)) && u.length > 0
    ensures r.error.None? ==> multiset(r.matches) == multiset(ExtractPaths(u.content, matcher))
    ensures r.error.None? ==> forall i, j :: 0 <= i < j < |r.matches| ==>
      r.matches[i].line < r.matches[j].line
      || (r.matches[i].line == r.matches[j].line && OrdinalLe(Upper(r.matches[i].path), Upper(r.matches[j].path)))
    ensures r.error.None? ==> forall e :: TiesOf(r.matches, e, MatchOrder()) == TiesOf(ExtractPaths(u.content, matcher), e, MatchOrder())
  {
    var ext := Extension(u.fileName);
    var kind := TrimStartWith(ext, {'.'});
    if !IsAllowed(ext) then FileReport(u.fileName, kind, [], Some(UnsupportedMessage))
    else if u.length == 0 then FileReport(u.fileName, kind, [], Some(EmptyMessage))
    else
      var found := ExtractPaths(u.content, matcher);
      OrderMatchesSpec(found, OrderMatches(found));
      FileReport(u.fileName, kind, OrderMatches(found), None)
  }

  /** What `totalMatches += matches.Count` adds for an upload: the count of
      its extracted matches when it is read, nothing otherwise. */
  function Counted(u: Upload, matcher: Matcher): nat {
    if IsAllowed(Extension(u.fileName)) && u.length > 0 then |ExtractPaths(u.content, matcher)| else 0
  }

  function MatchCount(r: FileReport): nat {
    |r.matches|
  }

  /** The scan endpoint once the form has been read. */
  function Scan(files: seq<Upload>, matcher: Matcher): (r: Result<ScanReport, string>)
    ensures r.Err? <==> |files| == 0
    ensures r.Err? ==> r.error == NoFilesMessage
    ensures r.Ok? ==> |r.value.results| == |files| == r.value.filesProcessed
    ensures r.Ok? ==> forall k :: 0 <= k < |files| ==> r.value.results[k] == ScanFile(files[k], matcher)
  {
    if |files| == 0 then Err(NoFilesMessage)
    else
      var results := MapSeq(files, (u: Upload) => ScanFile(u, matcher));
      Ok(ScanReport(|results|, Sum(MapSeq(files, (u: Upload) => Counted(u, matcher))), results))
  }

  /** The running total equals the sum of the listed matches of every
      report: error reports list none, and ordering keeps the count. */
  lemma ScanTotal(files: seq<Upload>, matcher: Matcher)
    requires |files| > 0
    ensures var r := Scan(files, matcher).value;
      r.totalMatches == Sum(MapSeq(r.results, MatchCount))
  {
    var r := Scan(files, matcher).value;
    var counted := MapSeq(files, (u: Upload) => Counted(u, matcher));
    var listed := MapSeq(r.results, MatchCount);
    assert |counted| == |listed|;
    forall k | 0 <= k < |files| ensures counted[k] == listed[k] {
      var u := files[k];
      assert counted[k] == Counted(u, matcher);
      assert r.results[k] == ScanFile(u, matcher);
      assert listed[k] == MatchCount(r.results[k]);
      CountedListed(u, matcher);
    }
    assert counted == listed;
  }

  lemma CountedListed(u: Upload, matcher: Matcher)
    ensures Counted(u, matcher) == MatchCount(ScanFile(u, matcher))
  {
    var f := ScanFile(u, matcher);
    if f.error.None? {
      assert |f.matches| == |multiset(f.matches)| == |multiset(ExtractPaths(u.content, matcher))|;
    }
  }
}

=== FILE: phrase_text.dfy ===
/** The text pipeline of the repeated sentence/phrase detector: white-space
    normalisation of the whole document, the cut of a line into sentences,
    the cut of a sentence into word tokens, the comparison key of a text,
    and the phrase windows of a sentence. */
module PhraseText {
  import opened Wrappers
  import opened Strings

  /* ---------------------------------------------------- normalisation */

  /** The characters of the pattern `[\t ]+`. */
  const Blanks: set<char> := {' ', '\t'}

  /** `\r` is never followed by `\r\n`. */
  predicate NoCrCrLf(s: string) {
    forall i :: 0 <= i < |s| - 2 ==> !(s[i] == '\r' && s[i + 1] == '\r' && s[i + 2] == '\n')
  }

  /** `NormalizeWhitespace`: CRLF becomes LF, every run of tabs and spaces
      becomes one space, then the ends are trimmed. */
  function NormalizeWhitespace(content: string): (r: string)
    ensures '\t' !in r
    ensures NoAdjacent(r, ' ', ' ')
    ensures IsTrimmed(r)
  {
    var collapsed := CollapseRuns(Replace(content, "\r\n", "\n"), Blanks);
    var r := Trim(collapsed);
    TrimCollapsed(collapsed, r);
    r
  }

  /** Trimming keeps a collapsed text free of tabs and double spaces. */
  lemma TrimCollapsed(collapsed: string, r: string)
    requires forall i :: 0 <= i < |collapsed| && collapsed[i] in Blanks ==> collapsed[i] == ' '
    requires NoAdjacent(collapsed, ' ', ' ')
    requires r == Trim(collapsed)
    ensures '\t' !in r && NoAdjacent(r, ' ', ' ')
  {
    var a, e := TrimSlice(collapsed);
    SliceCollapsed(collapsed, a, e);
  }

  lemma SliceCollapsed(collapsed: string, lo: nat, hi: nat)
    requires lo <= hi <= |collapsed|
    requires forall i :: 0 <= i < |collapsed| && collapsed[i] in Blanks ==> collapsed[i] == ' '
    requires NoAdjacent(collapsed, ' ', ' ')
    ensures '\t' !in collapsed[lo..hi] && NoAdjacent(collapsed[lo..hi], ' ', ' ')
  {
    var r := collapsed[lo..hi];
    forall i | 0 <= i < |r| ensures r[i] != '\t' {
      assert r[i] == collapsed[lo + i];
    }
    NoAdjacentSlice(collapsed, ' ', ' ', lo, hi);
  }

  /** The first character of a CRLF-to-LF replacement. */
  lemma ReplaceCrLfHead(s: string)
    requires |s| > 0
    ensures var r := Replace(s, "\r\n", "\n");
      |r| > 0 && r[0] == (if |s| >= 2 && s[0] == '\r' && s[1] == '\n' then '\n' else s[0])
  {
    if |s| >= 2 {
      assert MatchesAt(s, 0, "\r\n", Ordinal) <==> s[0] == '\r' && s[1] == '\n' by {
        assert s[0..2] == [s[0], s[1]];
      }
    }
  }

  /** Only a `\r\r\n` in the input can leave a CRLF behind. */
  lemma {:induction false} ReplaceCrLfLeavesNone(s: string)
    requires NoCrCrLf(s)
    ensures NoAdjacent(Replace(s, "\r\n", "\n"), '\r', '\n')
    decreases |s|
  {
    if |s| >= 2 {
      var isMatch := MatchesAt(s, 0, "\r\n", Ordinal);
      assert isMatch <==> s[0] == '\r' && s[1] == '\n' by {
        assert s[0..2] == [s[0], s[1]];
      }
      if isMatch {
        assert NoCrCrLf(s[2..]) by {
          forall i | 0 <= i < |s[2..]| - 2
            ensures !(s[2..][i] == '\r' && s[2..][i + 1] == '\r' && s[2..][i + 2] == '\n')
          {
            assert s[2..][i] == s[i + 2];
          }
        }
        ReplaceCrLfLeavesNone(s[2..]);
        var rest := Replace(s[2..], "\r\n", "\n");
        var r := "\n" + rest;
        forall i | 0 <= i < |r| - 1 ensures !(r[i] == '\r' && r[i + 1] == '\n') {
          if i > 0 {
            assert r[i] == rest[i - 1] && r[i + 1] == rest[i];
          }
        }
      } else {
        assert NoCrCrLf(s[1..]) by {
          forall i | 0 <= i < |s[1..]| - 2
            ensures !(s[1..][i] == '\r' && s[1..][i + 1] == '\r' && s[1..][i + 2] == '\n')
          {
            assert s[1..][i] == s[i + 1];
          }
        }
        ReplaceCrLfLeavesNone(s[1..]);
        ReplaceCrLfHead(s[1..]);
        var rest := Replace(s[1..], "\r\n", "\n");
        var r := [s[0]] + rest;
        forall i | 0 <= i < |r| - 1 ensures !(r[i] == '\r' && r[i + 1] == '\n') {
          if i > 0 {
            assert r[i] == rest[i - 1] && r[i + 1] == rest[i];
          } else if s[0] == '\r' && |s| >= 3 {
            assert !(s[1] == '\r' && s[2] == '\n');
          }
        }
      }
    }
  }

  /** A text without CRLF is left alone by the replacement. */
  lemma {:induction false} ReplaceCrLfIdentity(s: string)
    requires NoAdjacent(s, '\r', '\n')
    ensures Replace(s, "\r\n", "\n") == s
    decreases |s|
  {
    if |s| >= 2 {
      assert !MatchesAt(s, 0, "\r\n", Ordinal) by {
        assert s[0..2] == [s[0], s[1]];
      }
      NoAdjacentSlice(s, '\r', '\n', 1, |s|);
      ReplaceCrLfIdentity(s[1..]);
    }
  }

  /** Without `\r\r\n` in the input the normal form holds no CRLF. */
  lemma NormalizeNoCrLf(content: string)
    requires NoCrCrLf(content)
    ensures NoAdjacent(NormalizeWhitespace(content), '\r', '\n')
  {
    var replaced := Replace(content, "\r\n", "\n");
    ReplaceCrLfLeavesNone(content);
    var collapsed := CollapseRuns(replaced, Blanks);
    CollapseRunsKeepsApart(replaced, Blanks, '\r', '\n');
    var r := Trim(collapsed);
    NoAdjacentSlice(collapsed, '\r', '\n', TrimStartCount(collapsed, WhiteSpace), TrimStartCount(collapsed, WhiteSpace) + |r|);
  }

  /** Normalising twice is normalising once, for input without `\r\r\n`. */
  lemma NormalizeIdempotent(content: string)
    requires NoCrCrLf(content)
    ensures NormalizeWhitespace(NormalizeWhitespace(content)) == NormalizeWhitespace(content)
  {
    var r := NormalizeWhitespace(content);
    NormalizeNoCrLf(content);
    ReplaceCrLfIdentity(r);
    CollapseRunsIdentity(r, Blanks);
    TrimOfTrimmed(r);
  }

  lemma ReplaceCrCrLfExample()
    ensures Replace("a\r\r\nb", "\r\n", "\n") == "a\r\nb"
  {
    var s := "a\r\r\nb";
    assert !MatchesAt(s, 0, "\r\n", Ordinal) by { assert s[0..2] == "a\r"; }
    assert !MatchesAt(s[1..], 0, "\r\n", Ordinal) by { assert s[1..][0..2] == "\r\r"; }
    assert MatchesAt(s[2..], 0, "\r\n", Ordinal) by { assert s[2..][0..2] == "\r\n"; }
    assert s[2..][2..] == "b";
  }

  lemma ReplaceCrLfExample()
    ensures Replace("a\r\nb", "\r\n", "\n") == "a\nb"
  {
    var t := "a\r\nb";
    assert !MatchesAt(t, 0, "\r\n", Ordinal) by { assert t[0..2] == "a\r"; }
    assert MatchesAt(t[1..], 0, "\r\n", Ordinal) by { assert t[1..][0..2] == "\r\n"; }
    assert t[1..][2..] == "b";
  }

  /** Collapsing and trimming leave alone a text that holds no space or tab
      and no white space at its ends. */
  lemma CollapseTrimFixed(s: string)
    requires ' ' !in s && '\t' !in s
    requires IsTrimmed(s)
    ensures Trim(CollapseRuns(s, Blanks)) == s
  {
    CollapseRunsIdentity(s, Blanks);
    TrimOfTrimmed(s);
  }

  lemma BareLineFeedFixed()
    ensures Trim(CollapseRuns("a\nb", Blanks)) == "a\nb"
  {
    var u := "a\nb";
    assert u[0] == 'a' && u[1] == '\n' && u[2] == 'b';
    assert 'a' !in WhiteSpace && 'b' !in WhiteSpace;
    CollapseTrimFixed(u);
  }

  /** `\r\r\n` is where idempotence fails: one normalisation leaves a CRLF
      that the next one turns into a line feed. */
  lemma NormalizeNotIdempotentOnCrCrLf()
    ensures NormalizeWhitespace("a\r\r\nb") == "a\r\nb"
    ensures NormalizeWhitespace("a\r\nb") == "a\nb"
  {
    ReplaceCrCrLfExample();
    ReplaceCrLfExample();
    CollapseTrimFixed("a\r\nb");
    BareLineFeedFixed();
  }

  /** CRLF-to-LF replacement never lengthens a text, and shortens one that
      holds a CRLF. */
  lemma {:induction false} CrLfShrinks(s: string)
    ensures |Replace(s, "\r\n", "\n")| <= |s|
    ensures !NoAdjacent(s, '\r', '\n') ==> |Replace(s, "\r\n", "\n")| < |s|
    decreases |s|
  {
    if |s| >= 2 {
      assert MatchesAt(s, 0, "\r\n", Ordinal) <==> s[0] == '\r' && s[1] == '\n' by {
        assert s[0..2] == [s[0], s[1]];
      }
      if s[0] == '\r' && s[1] == '\n' {
        CrLfShrinks(s[2..]);
      } else {
        CrLfShrinks(s[1..]);
        if !NoAdjacent(s, '\r', '\n') {
          var i :| 0 <= i < |s| - 1 && s[i] == '\r' && s[i + 1] == '\n';
          assert s[1..][i - 1] == s[i] && s[1..][i] == s[i + 1];
        }
      }
    }
  }

  /** CRLF-to-LF replacement repeated until no CRLF is left: the line-ending
      pass `NormalizeWhitespace` evidently means, which a single pass falls
      short of on `\r\r\n`. */
  function LineFeedsOnly(s: string): (r: string)
    ensures NoAdjacent(r, '\r', '\n')
    decreases |s|
  {
    var t := Replace(s, "\r\n", "\n");
    if NoAdjacent(t, '\r', '\n') then t
    else
      NoCrLfKept(s);
      CrLfShrinks(s);
      LineFeedsOnly(t)
  }

  /** A text without CRLF stays without one through the replacement. */
  lemma NoCrLfKept(s: string)
    ensures NoAdjacent(s, '\r', '\n') ==> NoAdjacent(Replace(s, "\r\n", "\n"), '\r', '\n')
  {
    if NoAdjacent(s, '\r', '\n') {
      ReplaceCrLfIdentity(s);
    }
  }

  /** `NormalizeWhitespace` with the line-ending pass repeated to the end. */
  function NormalizeWhitespaceFixed(content: string): (r: string)
    ensures '\t' !in r
    ensures NoAdjacent(r, ' ', ' ')
    ensures NoAdjacent(r, '\r', '\n')
    ensures IsTrimmed(r)
  {
    var ends := LineFeedsOnly(content);
    var collapsed := CollapseRuns(ends, Blanks);
    CollapseRunsKeepsApart(ends, Blanks, '\r', '\n');
    var r := Trim(collapsed);
    TrimCollapsed(collapsed, r);
    NoAdjacentSlice(collapsed, '\r', '\n', TrimStartCount(collapsed, WhiteSpace), TrimStartCount(collapsed, WhiteSpace) + |r|);
    r
  }

  /** The corrected normalisation is idempotent on every text. */
  lemma NormalizeFixedIdempotent(content: string)
    ensures NormalizeWhitespaceFixed(NormalizeWhitespaceFixed(content)) == NormalizeWhitespaceFixed(content)
  {
    var r := NormalizeWhitespaceFixed(content);
    ReplaceCrLfIdentity(r);
    assert LineFeedsOnly(r) == r;
    CollapseRunsIdentity(r, Blanks);
    TrimOfTrimmed(r);
  }

  /** On every text without `\r\r\n` the corrected normalisation is the
      one the code performs. */
  lemma NormalizeFixedAgrees(content: string)
    requires NoCrCrLf(content)
    ensures NormalizeWhitespaceFixed(content) == NormalizeWhitespace(content)
  {
    ReplaceCrLfLeavesNone(content);
  }

  /** On `\r\r\n` the corrected normalisation leaves a bare line feed. */
  lemma NormalizeFixedOnCrCrLf()
    ensures NormalizeWhitespaceFixed("a\r\r\nb") == "a\nb"
  {
    LineFeedsOnlyCrCrLf();
    BareLineFeedFixed();
  }

  lemma LineFeedsOnlyCrCrLf()
    ensures LineFeedsOnly("a\r\r\nb") == "a\nb"
  {
    ReplaceCrCrLfExample();
    var t := "a\r\nb";
    assert !NoAdjacent(t, '\r', '\n') by {
      assert t[1] == '\r' && t[2] == '\n';
    }
    LineFeedsOnlyCrLf();
  }

  lemma LineFeedsOnlyCrLf()
    ensures LineFeedsOnly("a\r\nb") == "a\nb"
  {
    ReplaceCrLfExample();
    var u := "a\nb";
    assert NoAdjacent(u, '\r', '\n') by {
      assert u[0] != '\r' && u[1] != '\r' && u[2] != '\r';
    }
  }

  /* -------------------------------------------------------- sentences */

  /** The characters of the look-behind `[\.\!\?;:]`. */
  const SentenceEnd: set<char> := {'.', '!', '?', ';', ':'}

  /** The pattern `(?<=[.!?;:])\s+` starts a match at `i`. */
  predicate CutAt(s: string, i: int) {
    0 < i < |s| && s[i - 1] in SentenceEnd && s[i] in WhiteSpace
  }

  /** No match starts anywhere in `s`. */
  predicate NoCut(s: string) {
    forall i :: 0 <= i < |s| ==> !CutAt(s, i)
  }

  /** The leftmost match start at or after `from`. */
  function FirstCut(s: string, from: nat): (r: Option<nat>)
    ensures r.Some? ==> from <= r.value < |s| && CutAt(s, r.value)
    ensures forall j :: from <= j && (r.None? || j < r.value) ==> !CutAt(s, j)
    decreases |s| - from
  {
    if from >= |s| then None
    else if CutAt(s, from) then Some(from)
    else FirstCut(s, from + 1)
  }

  /** The pieces of `Regex.Split(s, "(?<=[.!?;:])\s+")`: the text between
      consecutive matches, each match being a maximal white-space run that
      follows sentence punctuation. */
  function SplitPieces(s: string): (ps: seq<string>)
    ensures |ps| >= 1
    ensures forall k :: 0 <= k < |ps| ==> NoCut(ps[k])
    ensures EndsExceptLast(ps)
    decreases |s|
  {
    match FirstCut(s, 0)
    case None => [s]
    case Some(i) =>
      var piece := s[..i];
      assert NoCut(piece) by {
        forall j | 0 <= j < |piece| ensures !CutAt(piece, j) {
          if CutAt(piece, j) {
            assert CutAt(s, j);
          }
        }
      }
      [piece] + SplitPieces(TrimStartWith(s[i..], WhiteSpace))
  }

  /** Trimming never creates a cut. */
  lemma TrimKeepsNoCut(p: string)
    requires NoCut(p)
    ensures NoCut(Trim(p))
  {
    var r := Trim(p);
    var a, e := TrimSlice(p);
    forall j | 0 <= j < |r| ensures !CutAt(r, j) {
      if CutAt(r, j) {
        assert r[j - 1] == p[a + j - 1] && r[j] == p[a + j];
        assert CutAt(p, a + j);
      }
    }
  }

  /** A text ending in sentence punctuation keeps that last character when
      trimmed. */
  lemma TrimKeepsEnd(p: string)
    requires EndsSentence(p)
    ensures var r := Trim(p); |r| > 0 && r[|r| - 1] == p[|p| - 1] && EndsSentence(r)
  {
    var a, e := TrimBounds(p);
    assert e == |p|;
    assert a < |p|;
  }

  /** Trims every piece and drops the blank ones. */
  function KeepSentences(ps: seq<string>): (r: seq<string>)
    ensures forall k :: 0 <= k < |r| ==> |r[k]| > 0 && IsTrimmed(r[k])
    decreases |ps|
  {
    if |ps| == 0 then []
    else
      var sentence := Trim(ps[0]);
      var rest := KeepSentences(ps[1..]);
      if IsBlank(sentence) then rest else [sentence] + rest
  }

  /** `SplitIntoSentences(line)`. */
  function SplitIntoSentences(line: string): seq<string> {
    KeepSentences(SplitPieces(line))
  }

  /** Every piece is free of cuts. */
  predicate AllNoCut(ps: seq<string>) {
    forall k :: 0 <= k < |ps| ==> NoCut(ps[k])
  }

  /** A text that ends in sentence punctuation. */
  predicate EndsSentence(s: string) {
    |s| > 0 && s[|s| - 1] in SentenceEnd
  }

  /** Every piece but the last ends in sentence punctuation. */
  predicate EndsExceptLast(ps: seq<string>) {
    forall k :: 0 <= k < |ps| - 1 ==> EndsSentence(ps[k])
  }

  lemma EndsExceptLastTail(ps: seq<string>)
    requires |ps| > 0 && EndsExceptLast(ps)
    ensures EndsExceptLast(ps[1..])
  {
    forall k | 0 <= k < |ps[1..]| - 1 ensures EndsSentence(ps[1..][k]) {
      assert ps[1..][k] == ps[k + 1];
    }
  }

  lemma EndsExceptLastCons(x: string, rest: seq<string>)
    requires EndsSentence(x) && EndsExceptLast(rest)
    ensures EndsExceptLast([x] + rest)
  {
    var r := [x] + rest;
    forall k | 0 <= k < |r| - 1 ensures EndsSentence(r[k]) {
      if k > 0 {
        assert r[k] == rest[k - 1];
      }
    }
  }

  /** `KeepSentences` unfolded once. */
  lemma KeepSentencesCons(ps: seq<string>)
    requires |ps| > 0
    ensures KeepSentences(ps) ==
      (if IsBlank(Trim(ps[0])) then KeepSentences(ps[1..]) else [Trim(ps[0])] + KeepSentences(ps[1..]))
  {
  }

  lemma AllNoCutTail(ps: seq<string>)
    requires |ps| > 0 && AllNoCut(ps)
    ensures NoCut(ps[0]) && AllNoCut(ps[1..])
  {
    forall k | 0 <= k < |ps[1..]| ensures NoCut(ps[1..][k]) {
      assert ps[1..][k] == ps[k + 1];
    }
  }

  lemma AllNoCutCons(p: string, rest: seq<string>)
    requires NoCut(p) && AllNoCut(rest)
    ensures AllNoCut([p] + rest)
  {
    var r := [p] + rest;
    forall k | 0 <= k < |r| ensures NoCut(r[k]) {
      if k > 0 {
        assert r[k] == rest[k - 1];
      }
    }
  }

  lemma {:induction false} KeepSentencesNoCut(ps: seq<string>)
    requires AllNoCut(ps)
    ensures AllNoCut(KeepSentences(ps))
    decreases |ps|
  {
    if |ps| > 0 {
      AllNoCutTail(ps);
      KeepSentencesNoCut(ps[1..]);
      KeepSentencesCons(ps);
      if !IsBlank(Trim(ps[0])) {
        TrimKeepsNoCut(ps[0]);
        AllNoCutCons(Trim(ps[0]), KeepSentences(ps[1..]));
      }
    }
  }

  lemma {:induction false} KeepSentencesEnds(ps: seq<string>)
    requires EndsExceptLast(ps)
    ensures EndsExceptLast(KeepSentences(ps))
    decreases |ps|
  {
    if |ps| > 1 {
      EndsExceptLastTail(ps);
      KeepSentencesEnds(ps[1..]);
      assert EndsSentence(ps[0]);
      TrimKeepsEnd(ps[0]);
      var sentence := Trim(ps[0]);
      assert !IsBlank(sentence) by {
        assert sentence[|sentence| - 1] !in WhiteSpace;
      }
      KeepSentencesCons(ps);
      EndsExceptLastCons(sentence, KeepSentences(ps[1..]));
    } else if |ps| == 1 {
      KeepSentencesCons(ps);
      assert KeepSentences(ps[1..]) == [];
    }
  }

  /** Every sentence is trimmed and non-empty, holds no cut of the pattern,
      and each but the last ends in sentence punctuation. */
  lemma SentencesShape(line: string)
    ensures var r := SplitIntoSentences(line);
      && (forall k :: 0 <= k < |r| ==> |r[k]| > 0 && IsTrimmed(r[k]))
      && AllNoCut(r) && EndsExceptLast(r)
  {
    KeepSentencesNoCut(SplitPieces(line));
    KeepSentencesEnds(SplitPieces(line));
  }

  predicate IsVisible(c: char) {
    c !in WhiteSpace
  }

  /** Trimming removes only white space. */
  lemma TrimKeepsVisible(p: string)
    ensures FilterChars(Trim(p), IsVisible) == FilterChars(p, IsVisible)
  {
    var r := Trim(p);
    var a := TrimStartCount(p, WhiteSpace);
    var front, back := p[..a], p[a + |r|..];
    SplitThree(p, a, a + |r|);
    BlankAroundInvisible(front, r, back);
  }

  lemma SplitThree(p: string, i: nat, j: nat)
    requires i <= j <= |p|
    ensures p == p[..i] + p[i..j] + p[j..]
  {
  }

  /** White space on either side adds no visible character. */
  lemma BlankAroundInvisible(front: string, middle: string, back: string)
    requires IsBlank(front) && IsBlank(back)
    ensures FilterChars(front + middle + back, IsVisible) == FilterChars(middle, IsVisible)
  {
    BlankHasNoVisible(front);
    BlankHasNoVisible(back);
    FilterCharsAppend(front + middle, back, IsVisible);
    FilterCharsAppend(front, middle, IsVisible);
  }

  lemma {:induction false} BlankHasNoVisible(s: string)
    requires IsBlank(s)
    ensures FilterChars(s, IsVisible) == ""
    decreases |s|
  {
    if |s| > 0 {
      BlankHasNoVisible(s[1..]);
    }
  }

  /** `SplitPieces` unfolded at its first cut. */
  lemma SplitPiecesCons(s: string, i: nat)
    requires FirstCut(s, 0) == Some(i)
    ensures SplitPieces(s) == [s[..i]] + SplitPieces(TrimStartWith(s[i..], WhiteSpace))
  {
  }

  lemma ConcatCons(x: string, xs: seq<string>)
    ensures Concat([x] + xs) == x + Concat(xs)
  {
    assert ([x] + xs)[1..] == xs;
  }

  /** Dropping leading white space loses no visible character. */
  lemma TrimStartKeepsVisible(s: string)
    ensures FilterChars(TrimStartWith(s, WhiteSpace), IsVisible) == FilterChars(s, IsVisible)
  {
    var a := TrimStartCount(s, WhiteSpace);
    TrimWithFront(s, WhiteSpace);
    assert s == s[..a] + TrimStartWith(s, WhiteSpace);
    BlankHasNoVisible(s[..a]);
    FilterCharsAppend(s[..a], TrimStartWith(s, WhiteSpace), IsVisible);
  }

  lemma SplitPiecesWhole(s: string)
    requires FirstCut(s, 0).None?
    ensures Concat(SplitPieces(s)) == s
  {
    assert SplitPieces(s) == [s];
    ConcatCons(s, []);
  }

  /** The pieces of `s` hold its visible characters, in order. */
  ghost predicate PiecesVisible(s: string) {
    FilterChars(Concat(SplitPieces(s)), IsVisible) == FilterChars(s, IsVisible)
  }

  /** The pieces hold every visible character of the line, in order. */
  lemma {:induction false} PiecesKeepVisible(s: string)
    ensures PiecesVisible(s)
    decreases |s|
  {
    var cut := FirstCut(s, 0);
    if cut.None? {
      SplitPiecesWhole(s);
    } else {
      var i := cut.value;
      var rest := TrimStartWith(s[i..], WhiteSpace);
      assert |rest| < |s|;
      PiecesKeepVisible(rest);
      PiecesVisibleStep(s, i);
    }
  }

  lemma PiecesVisibleStep(s: string, i: nat)
    requires FirstCut(s, 0) == Some(i)
    requires PiecesVisible(TrimStartWith(s[i..], WhiteSpace))
    ensures PiecesVisible(s)
  {
    var front, back := s[..i], s[i..];
    var pieces := SplitPieces(TrimStartWith(back, WhiteSpace));
    SplitPiecesCons(s, i);
    ConcatCons(front, pieces);
    assert Concat(SplitPieces(s)) == front + Concat(pieces);
    TrimStartKeepsVisible(back);
    assert s == front + back;
    VisibleStep(s, front, back, Concat(pieces));
  }

  /** Replacing the back of a text by one with the same visible characters
      keeps the visible characters of the whole. */
  lemma VisibleStep(s: string, front: string, back: string, tail: string)
    requires s == front + back
    requires FilterChars(tail, IsVisible) == FilterChars(back, IsVisible)
    ensures FilterChars(front + tail, IsVisible) == FilterChars(s, IsVisible)
  {
    FilterCharsAppend(front, back, IsVisible);
    FilterCharsAppend(front, tail, IsVisible);
  }

  lemma {:induction false} KeepSentencesKeepVisible(ps: seq<string>)
    ensures FilterChars(Concat(KeepSentences(ps)), IsVisible) == FilterChars(Concat(ps), IsVisible)
    decreases |ps|
  {
    if |ps| > 0 {
      KeepSentencesKeepVisible(ps[1..]);
      var sentence := Trim(ps[0]);
      var rest := KeepSentences(ps[1..]);
      TrimKeepsVisible(ps[0]);
      FilterCharsAppend(ps[0], Concat(ps[1..]), IsVisible);
      if IsBlank(sentence) {
        assert sentence == "";
        assert IsBlank(ps[0]);
        BlankHasNoVisible(ps[0]);
      } else {
        assert Concat([sentence] + rest) == sentence + Concat(rest) by {
          assert ([sentence] + rest)[1..] == rest;
        }
        FilterCharsAppend(sentence, Concat(rest), IsVisible);
      }
    }
  }

  /** Splitting into sentences loses only white space. */
  lemma SentencesKeepVisible(line: string)
    ensures FilterChars(Concat(SplitIntoSentences(line)), IsVisible) == FilterChars(line, IsVisible)
  {
    KeepSentencesKeepVisible(SplitPieces(line));
    PiecesKeepVisible(line);
  }

  /* ----------------------------------------------------------- tokens */

  /** A character of the class `[\p{L}0-9']`, letters taken as ASCII. */
  predicate IsTokenChar(c: char) {
    IsAsciiLetter(c) || IsAsciiDigit(c) || c == '\''
  }

  predicate AllTokenChars(s: string) {
    forall i :: 0 <= i < |s| ==> IsTokenChar(s[i])
  }

  /** Length of the longest prefix of token characters. */
  function RunLength(s: string): (n: nat)
    ensures n <= |s|
    ensures AllTokenChars(s[..n])
    ensures n < |s| ==> !IsTokenChar(s[n])
    decreases |s|
  {
    if |s| == 0 || !IsTokenChar(s[0]) then 0
    else
      var n := 1 + RunLength(s[1..]);
      assert s[..n] == [s[0]] + s[1..][..n - 1];
      n
  }

  /** `Tokenize`: the matches of `[\p{L}0-9']+`, i.e. the maximal runs of
      token characters, left to right. */
  function Tokenize(s: string): (ts: seq<string>)
    ensures forall k :: 0 <= k < |ts| ==> |ts[k]| > 0 && AllTokenChars(ts[k])
    decreases |s|
  {
    if |s| == 0 then []
    else if !IsTokenChar(s[0]) then Tokenize(s[1..])
    else
      var n := RunLength(s);
      [s[..n]] + Tokenize(s[n..])
  }

  /** `CountWords`. */
  function CountWords(sentence: string): nat {
    |Tokenize(sentence)|
  }

  /** Number of positions where a run of token characters starts, given
      whether the character before `s` was one. */
  function RunStarts(s: string, afterToken: bool): nat
    decreases |s|
  {
    if |s| == 0 then 0
    else (if IsTokenChar(s[0]) && !afterToken then 1 else 0) + RunStarts(s[1..], IsTokenChar(s[0]))
  }

  lemma {:induction false} RunStartsInsideRun(s: string, n: nat)
    requires n <= |s| && AllTokenChars(s[..n])
    ensures RunStarts(s, true) == RunStarts(s[n..], true)
    decreases n
  {
    if n > 0 {
      assert IsTokenChar(s[..n][0]);
      assert s[1..][..n - 1] == s[..n][1..];
      RunStartsInsideRun(s[1..], n - 1);
      assert s[1..][n - 1..] == s[n..];
    }
  }

  /** One token per run start: the tokens are exactly the maximal runs. */
  lemma {:induction false} TokenCount(s: string)
    ensures |Tokenize(s)| == RunStarts(s, false)
    decreases |s|
  {
    if |s| > 0 {
      if !IsTokenChar(s[0]) {
        TokenCount(s[1..]);
      } else {
        var n := RunLength(s);
        TokenCount(s[n..]);
        var mid := s[1..n];
        assert s[1..][..n - 1] == mid;
        assert AllTokenChars(mid) by {
          forall i | 0 <= i < |mid| ensures IsTokenChar(mid[i]) {
            assert mid[i] == s[..n][i + 1];
          }
        }
        RunStartsInsideRun(s[1..], n - 1);
        assert s[1..][n - 1..] == s[n..];
        if n < |s| {
          assert !IsTokenChar(s[n..][0]);
        }
      }
    }
  }

  lemma {:induction false} FilterAllTokenChars(s: string)
    requires AllTokenChars(s)
    ensures FilterChars(s, IsTokenChar) == s
    decreases |s|
  {
    if |s| > 0 {
      FilterAllTokenChars(s[1..]);
    }
  }

  /** The tokens, glued together, are the token characters of the text. */
  lemma {:induction false} TokensKeepTokenChars(s: string)
    ensures Concat(Tokenize(s)) == FilterChars(s, IsTokenChar)
    decreases |s|
  {
    if |s| > 0 {
      if IsTokenChar(s[0]) {
        var n := RunLength(s);
        TokensKeepTokenChars(s[n..]);
        ConcatCons(s[..n], Tokenize(s[n..]));
        FilterAllTokenChars(s[..n]);
        assert s == s[..n] + s[n..];
        FilterCharsAppend(s[..n], s[n..], IsTokenChar);
      } else {
        TokensKeepTokenChars(s[1..]);
      }
    }
  }

  /** Tokens joined with single spaces tokenize back to themselves. */
  lemma {:induction false} TokenizeJoin(ts: seq<string>)
    requires forall k :: 0 <= k < |ts| ==> |ts[k]| > 0 && AllTokenChars(ts[k])
    ensures Tokenize(Join(ts, " ")) == ts
    decreases |ts|
  {
    if |ts| == 1 {
      assert Join(ts, " ") == ts[0] + "";
      TokenizeRun(ts[0], "");
    } else if |ts| > 1 {
      var rest := Join(ts[1..], " ");
      assert Join(ts, " ") == ts[0] + (" " + rest);
      TokenizeRun(ts[0], " " + rest);
      TokenizeSpace(rest);
      TokenizeJoin(ts[1..]);
      assert ts == [ts[0]] + ts[1..];
    }
  }

  /** A maximal run of token characters is the first token. */
  lemma TokenizeRun(run: string, after: string)
    requires |run| > 0 && AllTokenChars(run)
    requires |after| > 0 ==> !IsTokenChar(after[0])
    ensures Tokenize(run + after) == [run] + Tokenize(after)
  {
    var s := run + after;
    RunLengthOfRun(run, after);
    assert IsTokenChar(s[0]);
    assert s[..|run|] == run;
    assert s[|run|..] == after;
  }

  lemma TokenizeSpace(rest: string)
    ensures Tokenize(" " + rest) == Tokenize(rest)
  {
    assert (" " + rest)[1..] == rest;
  }

  /** A run of token characters followed by a non-token character (or the
      end) is one token. */
  lemma {:induction false} RunLengthOfRun(run: string, after: string)
    requires |run| > 0 && AllTokenChars(run)
    requires |after| > 0 ==> !IsTokenChar(after[0])
    ensures RunLength(run + after) == |run|
    decreases |run|
  {
    var s := run + after;
    if |run| > 1 {
      assert s[1..] == run[1..] + after;
      RunLengthOfRun(run[1..], after);
    } else {
      assert s[1..] == after;
    }
  }

  /* -------------------------------------------------------------- keys */

  /** `NormalizeForKey`: trimmed, every white-space run made one space,
      lower-cased. */
  function NormalizeForKey(text: string): string {
    Lower(CollapseRuns(Trim(text), WhiteSpace))
  }

  /** The form every key has: trimmed, no white space but lone spaces, no
      upper-case letter. */
  predicate IsKeyShaped(k: string) {
    && IsTrimmed(k)
    && (forall i :: 0 <= i < |k| && k[i] in WhiteSpace ==> k[i] == ' ')
    && NoAdjacent(k, ' ', ' ')
    && (forall i :: 0 <= i < |k| ==> !('A' <= k[i] <= 'Z'))
  }

  lemma ToLowerKeepsWhiteSpace(c: char)
    ensures ToLowerChar(c) in WhiteSpace <==> c in WhiteSpace
    ensures ToLowerChar(c) == ' ' <==> c == ' '
  {
  }

  lemma KeyShape(text: string)
    ensures IsKeyShaped(NormalizeForKey(text))
  {
    var t := Trim(text);
    var c := CollapseRuns(t, WhiteSpace);
    if |t| > 0 {
      CollapseRunsLast(t, WhiteSpace);
    }
    assert IsTrimmed(c);
    LowerKeepsShape(c);
  }

  /** Lower-casing a collapsed, trimmed text gives a key-shaped one. */
  lemma LowerKeepsShape(c: string)
    requires IsTrimmed(c) && NoAdjacent(c, ' ', ' ')
    requires forall i :: 0 <= i < |c| && c[i] in WhiteSpace ==> c[i] == ' '
    ensures IsKeyShaped(Lower(c))
  {
    var k := Lower(c);
    forall i | 0 <= i < |k| ensures (k[i] in WhiteSpace <==> c[i] in WhiteSpace) && (k[i] == ' ' <==> c[i] == ' ') {
      ToLowerKeepsWhiteSpace(c[i]);
    }
  }

  /** A key is its own key. */
  lemma KeyIdempotent(text: string)
    ensures NormalizeForKey(NormalizeForKey(text)) == NormalizeForKey(text)
  {
    var k := NormalizeForKey(text);
    KeyShape(text);
    TrimOfTrimmed(k);
    CollapseRunsIdentity(k, WhiteSpace);
    assert Lower(k) == k;
  }

  lemma LowerTail(s: string)
    requires |s| > 0
    ensures Lower(s)[1..] == Lower(s[1..])
    ensures Lower(s)[..|s| - 1] == Lower(s[..|s| - 1])
  {
  }

  /** Lower-casing keeps a character in `cs` or out of it. */
  predicate CaseBlind(cs: set<char>) {
    forall c: char :: ToLowerChar(c) in cs <==> c in cs
  }

  lemma WhiteSpaceCaseBlind()
    ensures CaseBlind(WhiteSpace)
  {
    forall c: char ensures ToLowerChar(c) in WhiteSpace <==> c in WhiteSpace {
      ToLowerKeepsWhiteSpace(c);
    }
  }

  lemma LowerTrimStart(s: string)
    ensures Lower(TrimStartWith(s, WhiteSpace)) == TrimStartWith(Lower(s), WhiteSpace)
  {
    WhiteSpaceCaseBlind();
    LowerTrimStartWith(s, WhiteSpace);
  }

  lemma {:induction false} LowerTrimStartWith(s: string, cs: set<char>)
    requires CaseBlind(cs)
    ensures Lower(TrimStartWith(s, cs)) == TrimStartWith(Lower(s), cs)
    decreases |s|
  {
    if |s| > 0 {
      LowerTail(s);
      LowerTrimStartWith(s[1..], cs);
    }
  }

  lemma {:induction false} LowerTrimEnd(s: string)
    ensures Lower(TrimEndWith(s, WhiteSpace)) == TrimEndWith(Lower(s), WhiteSpace)
    decreases |s|
  {
    if |s| > 0 {
      ToLowerKeepsWhiteSpace(s[|s| - 1]);
      LowerTail(s);
      LowerTrimEnd(s[..|s| - 1]);
    }
  }

  /** Lower-casing and collapsing runs of `cs` commute on `s`. */
  ghost predicate CollapseCommutes(s: string, cs: set<char>) {
    Lower(CollapseRuns(s, cs)) == CollapseRuns(Lower(s), cs)
  }

  lemma LowerCollapse(s: string)
    ensures CollapseCommutes(s, WhiteSpace)
  {
    WhiteSpaceCaseBlind();
    LowerCollapseWith(s, WhiteSpace);
  }

  lemma {:induction false} LowerCollapseWith(s: string, cs: set<char>)
    requires CaseBlind(cs)
    ensures CollapseCommutes(s, cs)
    decreases |s|
  {
    if |s| > 0 {
      if s[0] in cs {
        var t := TrimStartWith(s, cs);
        assert t != s;
        LowerCollapseWith(t, cs);
        CollapseBlankStep(s, t, cs);
      } else {
        LowerCollapseWith(s[1..], cs);
        CollapseVisibleStep(s, cs);
      }
    }
  }

  lemma CollapseBlankStep(s: string, t: string, cs: set<char>)
    requires CaseBlind(cs)
    requires |s| > 0 && s[0] in cs && t == TrimStartWith(s, cs)
    requires CollapseCommutes(t, cs)
    ensures CollapseCommutes(s, cs)
  {
    var ls := Lower(s);
    assert ls[0] == ToLowerChar(s[0]) && ls[0] in cs;
    LowerTrimStartWith(s, cs);
    assert CollapseRuns(ls, cs) == " " + CollapseRuns(Lower(t), cs);
    LowerAppend(" ", CollapseRuns(t, cs));
    assert Lower(" ") == " ";
  }

  lemma CollapseVisibleStep(s: string, cs: set<char>)
    requires CaseBlind(cs)
    requires |s| > 0 && s[0] !in cs
    requires CollapseCommutes(s[1..], cs)
    ensures CollapseCommutes(s, cs)
  {
    var ls := Lower(s);
    var rest := CollapseRuns(s[1..], cs);
    assert ls[0] == ToLowerChar(s[0]) && ls[0] !in cs;
    assert CollapseRuns(s, cs) == [s[0]] + rest;
    LowerAppend([s[0]], rest);
    assert Lower([s[0]]) == [ls[0]];
    LowerTail(s);
    assert CollapseRuns(ls, cs) == [ls[0]] + CollapseRuns(ls[1..], cs);
  }

  /** The key sees only the lower-case form of a text. */
  lemma KeyIgnoresCase(a: string, b: string)
    requires Lower(a) == Lower(b)
    ensures NormalizeForKey(a) == NormalizeForKey(b)
  {
    LowerTrimStart(a);
    LowerTrimEnd(TrimStartWith(a, WhiteSpace));
    LowerCollapse(Trim(a));
    LowerTrimStart(b);
    LowerTrimEnd(TrimStartWith(b, WhiteSpace));
    LowerCollapse(Trim(b));
  }

  /** On keys, ordinal-ignore-case equality (the comparer of the maps) is
      plain equality. */
  lemma KeysCompareOrdinally(a: string, b: string)
    requires IsKeyShaped(a) && IsKeyShaped(b)
    ensures EqualsIgnoreCase(a, b) <==> a == b
  {
    if EqualsIgnoreCase(a, b) {
      assert |a| == |b|;
      forall i | 0 <= i < |a| ensures a[i] == b[i] {
        assert Upper(a)[i] == Upper(b)[i];
      }
    }
  }

  /* ------------------------------------------------------ phrase windows */

  const MinPhraseWords: nat := 3
  const MaxPhraseWords: nat := 8
  const MinPhraseLength: nat := 12

  function Min(a: int, b: int): int {
    if a <= b then a else b
  }

  /** LINQ `Skip(start).Take(size)`. */
  function SkipTake<T>(s: seq<T>, start: nat, size: nat): (r: seq<T>)
    ensures start + size <= |s| ==> r == s[start..start + size]
  {
    var rest := if start <= |s| then s[start..] else [];
    if size <= |rest| then rest[..size] else rest
  }

  /** The window of `size` tokens at `start`, joined by single spaces. */
  function Window(ts: seq<string>, start: nat, size: nat): string
    requires start + size <= |ts|
  {
    Join(ts[start..start + size], " ")
  }

  /** The inner loop over `start` for one window size. */
  function WindowsFrom(ts: seq<string>, size: nat, start: nat): (r: seq<string>)
    ensures forall k :: 0 <= k < |r| ==> |r[k]| >= MinPhraseLength
    decreases |ts| - start
  {
    if start + size > |ts| then []
    else
      var rest := WindowsFrom(ts, size, start + 1);
      var slice := SkipTake(ts, start, size);
      if |slice| < size then rest
      else
        var text := Join(slice, " ");
        if |text| < MinPhraseLength then rest else [text] + rest
  }

  /** The phrase candidates of a tokenized sentence: window sizes from
      `size` up to eight words (and at most the token count). */
  function PhraseCandidates(ts: seq<string>, size: nat): (r: seq<string>)
    ensures forall k :: 0 <= k < |r| ==> |r[k]| >= MinPhraseLength
    decreases MaxPhraseWords + 1 - size
  {
    if size > Min(MaxPhraseWords, |ts|) then []
    else WindowsFrom(ts, size, 0) + PhraseCandidates(ts, size + 1)
  }

  /** The `slice.Count < size` guard never fires inside the loop bounds. */
  lemma SliceGuardDead(ts: seq<string>, start: nat, size: nat)
    requires start + size <= |ts|
    ensures |SkipTake(ts, start, size)| == size
  {
  }

  /** `text` is the window of `size` tokens at `start`, long enough to be a
      phrase. */
  predicate WindowAt(ts: seq<string>, size: nat, start: nat, text: string) {
    start + size <= |ts| && Window(ts, start, size) == text && |text| >= MinPhraseLength
  }

  lemma {:induction false} WindowsFromSpec(ts: seq<string>, size: nat, start: nat, text: string)
    ensures text in WindowsFrom(ts, size, start) <==> exists st: nat :: start <= st && WindowAt(ts, size, st, text)
    decreases |ts| - start
  {
    if start + size <= |ts| {
      WindowsFromSpec(ts, size, start + 1, text);
      if WindowAt(ts, size, start, text) {
        assert text in WindowsFrom(ts, size, start);
      }
      if exists st: nat :: start <= st && WindowAt(ts, size, st, text) {
        var st: nat :| start <= st && WindowAt(ts, size, st, text);
        if st > start {
          assert text in WindowsFrom(ts, size, start + 1);
        }
      }
    }
  }

  /** The candidates are exactly the windows of 3 to min(8, n) tokens at
      every offset, joined by single spaces, that are at least 12 characters
      long. */
  lemma {:induction false} CandidatesSpec(ts: seq<string>, size: nat, text: string)
    ensures text in PhraseCandidates(ts, size) <==>
      exists sz: nat, st: nat :: size <= sz <= Min(MaxPhraseWords, |ts|) && WindowAt(ts, sz, st, text)
    decreases MaxPhraseWords + 1 - size
  {
    if size <= Min(MaxPhraseWords, |ts|) {
      CandidatesSpec(ts, size + 1, text);
      WindowsFromSpec(ts, size, 0, text);
      CandidatesStep(ts, size, text);
    }
  }

  lemma CandidatesStep(ts: seq<string>, size: nat, text: string)
    requires size <= Min(MaxPhraseWords, |ts|)
    requires text in WindowsFrom(ts, size, 0) <==> exists st: nat :: 0 <= st && WindowAt(ts, size, st, text)
    requires text in PhraseCandidates(ts, size + 1) <==>
      exists sz: nat, st: nat :: size + 1 <= sz <= Min(MaxPhraseWords, |ts|) && WindowAt(ts, sz, st, text)
    ensures text in PhraseCandidates(ts, size) <==>
      exists sz: nat, st: nat :: size <= sz <= Min(MaxPhraseWords, |ts|) && WindowAt(ts, sz, st, text)
  {
    var here := WindowsFrom(ts, size, 0);
    var later := PhraseCandidates(ts, size + 1);
    assert PhraseCandidates(ts, size) == here + later;
    if text in here {
      var st: nat :| 0 <= st && WindowAt(ts, size, st, text);
      assert size <= size <= Min(MaxPhraseWords, |ts|) && WindowAt(ts, size, st, text);
    }
    if exists sz: nat, st: nat :: size <= sz <= Min(MaxPhraseWords, |ts|) && WindowAt(ts, sz, st, text) {
      var sz: nat, st: nat :| size <= sz <= Min(MaxPhraseWords, |ts|) && WindowAt(ts, sz, st, text);
      if sz == size {
        assert text in here;
      } else {
        assert size + 1 <= sz <= Min(MaxPhraseWords, |ts|) && WindowAt(ts, sz, st, text);
      }
    }
  }

  /** Every candidate tokenizes back to a window of the sentence's tokens. */
  lemma WindowTokens(ts: seq<string>, start: nat, size: nat)
    requires start + size <= |ts|
    requires forall k :: 0 <= k < |ts| ==> |ts[k]| > 0 && AllTokenChars(ts[k])
    ensures Tokenize(Window(ts, start, size)) == ts[start..start + size]
  {
    TokenizeJoin(ts[start..start + size]);
  }
}

=== FILE: phrases.dfy ===
/** The repeated sentence/phrase detector: occurrence maps keyed by the
    normalised text, the per-line feed of sentences and phrase windows, and
    the report of texts seen on at least two distinct lines. */
module RepeatedPhrases {
  import opened Wrappers
  import opened Strings
  import opened Sorting
  import opened Collections
  import opened PhraseText

  /** Sentences with fewer words than this are ignored. */
  const MinSentenceWords: nat := 5

  /* ------------------------------------------------------ occurrences */

  /** `OccurrenceInfo`: the display text first seen for a key and the line
      numbers it was seen on, in the order a `HashSet<int>` enumerates them
      (insertion order, as nothing is ever removed). */
  datatype Occurrence = Occurrence(text: string, lines: seq<nat>)

  /** A `Dictionary<string, OccurrenceInfo>`: its keys in insertion order,
      which is the order `Values` enumerates, and its entries. */
  datatype OccurrenceMap = OccurrenceMap(order: seq<string>, entries: map<string, Occurrence>)

  predicate Valid(m: OccurrenceMap) {
    && Distinct(m.order)
    && m.entries.Keys == Elements(m.order)
    && (forall k :: k in m.entries ==> Distinct(m.entries[k].lines))
  }

  const EmptyMap: OccurrenceMap := OccurrenceMap([], map[])

  function LineSet(e: Occurrence): set<nat> {
    Elements(e.lines)
  }

  /** `AddOccurrence(map, key, original, line)`. */
  function AddOccurrence(m: OccurrenceMap, key: string, original: string, line: nat): (r: OccurrenceMap)
    requires Valid(m)
    ensures Valid(r)
    ensures r.entries.Keys == m.entries.Keys + {key}
    ensures r.entries[key].text == if key in m.entries then m.entries[key].text else Trim(original)
    ensures LineSet(r.entries[key]) == (if key in m.entries then LineSet(m.entries[key]) else {}) + {line}
    ensures forall k :: k in m.entries && k != key ==> r.entries[k] == m.entries[k]
    ensures key in m.entries ==> r.order == m.order
    ensures key !in m.entries ==> r.order == m.order + [key]
  {
    if key in m.entries then
      var e := m.entries[key];
      var lines := if line in e.lines then e.lines else e.lines + [line];
      AddLine(e.lines, line, lines);
      StoreExisting(m, key, Occurrence(e.text, lines));
      OccurrenceMap(m.order, m.entries[key := Occurrence(e.text, lines)])
    else
      var e := Occurrence(Trim(original), [line]);
      assert Elements(e.lines) == {line};
      StoreNew(m, key, e);
      OccurrenceMap(m.order + [key], m.entries[key := e])
  }

  /** `HashSet<int>.Add` on the line numbers. */
  lemma AddLine(lines: seq<nat>, line: nat, added: seq<nat>)
    requires Distinct(lines)
    requires added == if line in lines then lines else lines + [line]
    ensures Distinct(added) && Elements(added) == Elements(lines) + {line}
  {
  }

  lemma StoreExisting(m: OccurrenceMap, key: string, e: Occurrence)
    requires Valid(m) && key in m.entries && Distinct(e.lines)
    ensures Valid(OccurrenceMap(m.order, m.entries[key := e]))
  {
  }

  lemma StoreNew(m: OccurrenceMap, key: string, e: Occurrence)
    requires Valid(m) && key !in m.entries && Distinct(e.lines)
    ensures Valid(OccurrenceMap(m.order + [key], m.entries[key := e]))
  {
    assert key !in m.order;
    assert Elements(m.order + [key]) == Elements(m.order) + {key};
  }

  /** Recording a line a key was already seen on changes nothing. */
  lemma AddOccurrenceAgain(m: OccurrenceMap, key: string, original: string, line: nat)
    requires Valid(m)
    requires key in m.entries && line in m.entries[key].lines
    ensures AddOccurrence(m, key, original, line) == m
  {
  }

  /* ----------------------------------------------------------- feeding */

  /** What one text contributes: its key and its display text. */
  datatype Item = Item(key: string, text: string)

  function ItemKey(it: Item): string {
    it.key
  }

  /** The text of the first item with key `k`. */
  function FirstText(items: seq<Item>, k: string): string {
    match FirstWithKey(items, ItemKey, k)
    case Some(it) => it.text
    case None => ""
  }

  /** `AddOccurrence` for each item in turn, all on the same line. */
  function AddItems(m: OccurrenceMap, items: seq<Item>, line: nat): (r: OccurrenceMap)
    requires Valid(m)
    ensures Valid(r)
    decreases |items|
  {
    if |items| == 0 then m
    else AddItems(AddOccurrence(m, items[0].key, items[0].text, line), items[1..], line)
  }

  lemma {:induction false} AddItemsKeys(m: OccurrenceMap, items: seq<Item>, line: nat)
    requires Valid(m)
    ensures AddItems(m, items, line).entries.Keys == m.entries.Keys + KeysOf(items, ItemKey)
    decreases |items|
  {
    if |items| > 0 {
      var m1 := AddOccurrence(m, items[0].key, items[0].text, line);
      AddItemsKeys(m1, items[1..], line);
      KeysOfCons(items, ItemKey);
    }
  }

  /** Adding items records `line` for exactly their keys. */
  lemma {:induction false} AddItemsLines(m: OccurrenceMap, items: seq<Item>, line: nat, k: string)
    requires Valid(m)
    requires k in AddItems(m, items, line).entries
    ensures LineSet(AddItems(m, items, line).entries[k]) ==
      (if k in m.entries then LineSet(m.entries[k]) else {})
      + (if k in KeysOf(items, ItemKey) then {line} else {})
    decreases |items|
  {
    if |items| == 0 {
      assert KeysOf(items, ItemKey) == {};
    } else {
      var m1 := AddOccurrence(m, items[0].key, items[0].text, line);
      AddItemsLines(m1, items[1..], line, k);
      KeysOfCons(items, ItemKey);
    }
  }

  /** Adding items keeps existing texts and takes a new key's text from its
      first item. */
  lemma {:induction false} AddItemsText(m: OccurrenceMap, items: seq<Item>, line: nat, k: string)
    requires Valid(m)
    requires k in AddItems(m, items, line).entries
    ensures AddItems(m, items, line).entries[k].text ==
      if k in m.entries then m.entries[k].text else Trim(FirstText(items, k))
    decreases |items|
  {
    AddItemsKeys(m, items, line);
    if k !in m.entries {
      FirstWithKeyFound(items, ItemKey, k);
    }
    if |items| > 0 {
      var key := items[0].key;
      var m1 := AddOccurrence(m, key, items[0].text, line);
      AddItemsText(m1, items[1..], line, k);
      if k !in m.entries && k != key {
        assert k !in m1.entries;
        assert FirstWithKey(items, ItemKey, k) == FirstWithKey(items[1..], ItemKey, k);
      }
    }
  }

  /** The loop over the lines of the document, line numbers from 1; each
      line feeds the items `itemsOf` finds on it. */
  function FoldLines(lines: seq<string>, itemsOf: string -> seq<Item>): (r: OccurrenceMap)
    ensures Valid(r)
    decreases |lines|
  {
    if |lines| == 0 then EmptyMap
    else AddItems(FoldLines(lines[..|lines| - 1], itemsOf), itemsOf(lines[|lines| - 1]), |lines|)
  }

  /** The numbers of the lines on which some item has key `k`. */
  function LinesWithKey(lines: seq<string>, itemsOf: string -> seq<Item>, k: string): set<nat> {
    set i | 0 <= i < |lines| && k in KeysOf(itemsOf(lines[i]), ItemKey) :: i + 1
  }

  /** All items of the document, line by line. */
  function AllItems(lines: seq<string>, itemsOf: string -> seq<Item>): seq<Item>
    decreases |lines|
  {
    if |lines| == 0 then [] else AllItems(lines[..|lines| - 1], itemsOf) + itemsOf(lines[|lines| - 1])
  }

  /** The map the loop builds, described without the loop: a key is present
      exactly when some line yields it, its line set is the set of those
      lines, and its text is the trimmed text of its first item in document
      order. */
  lemma {:induction false} FoldLinesSpec(lines: seq<string>, itemsOf: string -> seq<Item>)
    ensures var r := FoldLines(lines, itemsOf);
      && (forall k :: k in r.entries <==> FirstWithKey(AllItems(lines, itemsOf), ItemKey, k).Some?)
      && (forall k :: k in r.entries ==> LineSet(r.entries[k]) == LinesWithKey(lines, itemsOf, k))
      && (forall k :: k in r.entries ==>
            r.entries[k].text == Trim(FirstText(AllItems(lines, itemsOf), k)))
    decreases |lines|
  {
    var r := FoldLines(lines, itemsOf);
    if |lines| == 0 {
      forall k ensures k !in r.entries && FirstWithKey(AllItems(lines, itemsOf), ItemKey, k).None? {
      }
    } else {
      var n := |lines|;
      var front := lines[..n - 1];
      var last := itemsOf(lines[n - 1]);
      var m := FoldLines(front, itemsOf);
      FoldLinesSpec(front, itemsOf);
      AddItemsKeys(m, last, n);
      forall k ensures k in r.entries <==> FirstWithKey(AllItems(lines, itemsOf), ItemKey, k).Some? {
        FirstWithKeyAppend(AllItems(front, itemsOf), last, ItemKey, k);
        FirstWithKeyFound(last, ItemKey, k);
      }
      forall k | k in r.entries ensures LineSet(r.entries[k]) == LinesWithKey(lines, itemsOf, k) {
        AddItemsLines(m, last, n, k);
        LinesWithKeyStep(lines, itemsOf, k);
        if k !in m.entries {
          FirstWithKeyFound(AllItems(front, itemsOf), ItemKey, k);
          NoItemsNoLines(front, itemsOf, k);
        }
      }
      forall k | k in r.entries
        ensures r.entries[k].text == Trim(FirstText(AllItems(lines, itemsOf), k))
      {
        AddItemsText(m, last, n, k);
        FirstWithKeyAppend(AllItems(front, itemsOf), last, ItemKey, k);
      }
    }
  }

  lemma LinesWithKeyStep(lines: seq<string>, itemsOf: string -> seq<Item>, k: string)
    requires |lines| > 0
    ensures LinesWithKey(lines, itemsOf, k) ==
      LinesWithKey(lines[..|lines| - 1], itemsOf, k)
      + (if k in KeysOf(itemsOf(lines[|lines| - 1]), ItemKey) then {|lines|} else {})
  {
    var front := lines[..|lines| - 1];
    assert forall i :: 0 <= i < |front| ==> front[i] == lines[i];
  }

  /** A key no earlier item has is on no earlier line. */
  lemma {:induction false} NoItemsNoLines(lines: seq<string>, itemsOf: string -> seq<Item>, k: string)
    requires k !in KeysOf(AllItems(lines, itemsOf), ItemKey)
    ensures LinesWithKey(lines, itemsOf, k) == {}
    decreases |lines|
  {
    if |lines| > 0 {
      var front := lines[..|lines| - 1];
      var last := itemsOf(lines[|lines| - 1]);
      KeysOfAppend(AllItems(front, itemsOf), last, ItemKey);
      NoItemsNoLines(front, itemsOf, k);
      LinesWithKeyStep(lines, itemsOf, k);
    }
  }

  /* ------------------------------------------------- sentences and phrases */

  /** The items the sentences of a line feed into the sentence map: every
      sentence of at least five words, keyed by `NormalizeForKey`. */
  function SentenceItemsOf(sentences: seq<string>): (r: seq<Item>)
    decreases |sentences|
  {
    if |sentences| == 0 then []
    else
      var s := sentences[0];
      var rest := SentenceItemsOf(sentences[1..]);
      if CountWords(s) < MinSentenceWords then rest else [Item(NormalizeForKey(s), s)] + rest
  }

  /** The items a sentence feeds into the phrase map: its phrase candidates,
      keyed by `NormalizeForKey`. */
  function PhraseItemsOfSentence(sentence: string): seq<Item> {
    var candidates := PhraseCandidates(Tokenize(sentence), MinPhraseWords);
    seq(|candidates|, i requires 0 <= i < |candidates| => Item(NormalizeForKey(candidates[i]), candidates[i]))
  }

  function PhraseItemsOf(sentences: seq<string>): seq<Item>
    decreases |sentences|
  {
    if |sentences| == 0 then []
    else
      var s := sentences[0];
      var rest := PhraseItemsOf(sentences[1..]);
      if CountWords(s) < MinSentenceWords then rest else PhraseItemsOfSentence(s) + rest
  }

  /** Sentence items of one line; a blank line is skipped. */
  function SentenceItems(line: string): seq<Item> {
    if IsBlank(line) then [] else SentenceItemsOf(SplitIntoSentences(line))
  }

  /** Phrase items of one line; a blank line is skipped. */
  function PhraseItems(line: string): seq<Item> {
    if IsBlank(line) then [] else PhraseItemsOf(SplitIntoSentences(line))
  }

  lemma {:induction false} SentenceItemsOfSpec(sentences: seq<string>, it: Item)
    ensures it in SentenceItemsOf(sentences) <==>
      it.text in sentences && CountWords(it.text) >= MinSentenceWords && it.key == NormalizeForKey(it.text)
    decreases |sentences|
  {
    if |sentences| > 0 {
      SentenceItemsOfSpec(sentences[1..], it);
      assert sentences == [sentences[0]] + sentences[1..];
    }
  }

  /** A sentence feeds the sentence map exactly when it has at least five
      words; shorter ones contribute nothing. */
  lemma SentenceItemsSpec(line: string, it: Item)
    ensures it in SentenceItems(line) <==>
      && !IsBlank(line)
      && it.text in SplitIntoSentences(line)
      && CountWords(it.text) >= MinSentenceWords
      && it.key == NormalizeForKey(it.text)
  {
    if !IsBlank(line) {
      SentenceItemsOfSpec(SplitIntoSentences(line), it);
    }
  }

  /** The sentence of at least five words a phrase item comes from. */
  lemma {:induction false} PhraseItemsOfSpec(sentences: seq<string>, it: Item) returns (s: string)
    requires it in PhraseItemsOf(sentences)
    ensures s in sentences && CountWords(s) >= MinSentenceWords && it in PhraseItemsOfSentence(s)
    decreases |sentences|
  {
    var rest := PhraseItemsOf(sentences[1..]);
    if CountWords(sentences[0]) >= MinSentenceWords && it in PhraseItemsOfSentence(sentences[0]) {
      s := sentences[0];
    } else {
      s := PhraseItemsOfSpec(sentences[1..], it);
    }
  }

  lemma PhraseItemOfSentence(s: string, it: Item)
    requires it in PhraseItemsOfSentence(s)
    ensures it.key == NormalizeForKey(it.text)
    ensures it.text in PhraseCandidates(Tokenize(s), MinPhraseWords)
  {
    var cs := PhraseCandidates(Tokenize(s), MinPhraseWords);
    var i :| 0 <= i < |cs| && PhraseItemsOfSentence(s)[i] == it;
    assert it.text == cs[i];
  }

  /** Every candidate of a sentence is fed to the phrase map under its key. */
  lemma CandidateFed(s: string, c: string)
    requires c in PhraseCandidates(Tokenize(s), MinPhraseWords)
    ensures Item(NormalizeForKey(c), c) in PhraseItemsOfSentence(s)
  {
    var cs := PhraseCandidates(Tokenize(s), MinPhraseWords);
    var i :| 0 <= i < |cs| && cs[i] == c;
    assert PhraseItemsOfSentence(s)[i] == Item(NormalizeForKey(c), c);
  }

  /** Every candidate of every sentence of at least five words is fed. */
  lemma {:induction false} CandidatesFed(sentences: seq<string>, s: string, c: string)
    requires s in sentences && CountWords(s) >= MinSentenceWords
    requires c in PhraseCandidates(Tokenize(s), MinPhraseWords)
    ensures Item(NormalizeForKey(c), c) in PhraseItemsOf(sentences)
    decreases |sentences|
  {
    if sentences[0] == s {
      CandidateFed(s, c);
    } else {
      CandidatesFed(sentences[1..], s, c);
    }
  }

  /** A line feeds the phrase map exactly with the candidate windows of its
      sentences of at least five words, each keyed by `NormalizeForKey`; a
      blank line feeds nothing. */
  lemma PhraseItemsSpec(line: string, it: Item)
    ensures it in PhraseItems(line) <==>
      && !IsBlank(line)
      && it.key == NormalizeForKey(it.text)
      && exists s :: (s in SplitIntoSentences(line) && CountWords(s) >= MinSentenceWords
        && it.text in PhraseCandidates(Tokenize(s), MinPhraseWords))
  {
    if it in PhraseItems(line) {
      var s := PhraseItemsOfSpec(SplitIntoSentences(line), it);
      PhraseItemOfSentence(s, it);
    }
    if && !IsBlank(line)
       && it.key == NormalizeForKey(it.text)
       && exists s :: (s in SplitIntoSentences(line) && CountWords(s) >= MinSentenceWords
         && it.text in PhraseCandidates(Tokenize(s), MinPhraseWords))
    {
      var s :| s in SplitIntoSentences(line) && CountWords(s) >= MinSentenceWords
        && it.text in PhraseCandidates(Tokenize(s), MinPhraseWords);
      CandidatesFed(SplitIntoSentences(line), s, it.text);
      assert it == Item(NormalizeForKey(it.text), it.text);
    }
  }

  /* ------------------------------------------------------------ report */

  /** `Repetition(Text, Count, Lines)`. */
  datatype Repetition = Repetition(text: string, count: nat, lines: seq<nat>)

  /** `AnalysisResult(Sentences, Phrases)`. */
  datatype AnalysisResult = AnalysisResult(sentences: seq<Repetition>, phrases: seq<Repetition>) {
    function TotalRepeated(): nat {
      |sentences| + |phrases|
    }
  }

  /** `map.Values`, in insertion order. */
  function Values(m: OccurrenceMap): (vs: seq<Occurrence>)
    requires Valid(m)
    ensures |vs| == |m.order|
    ensures forall i :: 0 <= i < |vs| ==> vs[i] == m.entries[m.order[i]]
  {
    seq(|m.order|, i requires 0 <= i < |m.order| => m.entries[m.order[i]])
  }

  /** `Where(x => x.LineNumbers.Count > 1)`. */
  function Repeated(es: seq<Occurrence>): (r: seq<Occurrence>)
    ensures forall i :: 0 <= i < |r| ==> |r[i].lines| > 1 && r[i] in es
    ensures forall e :: e in es && |e.lines| > 1 ==> e in r
    decreases |es|
  {
    if |es| == 0 then []
    else
      var rest := Repeated(es[1..]);
      if |es[0].lines| > 1 then [es[0]] + rest else rest
  }

  function Count(e: Occurrence): int {
    |e.lines|
  }

  function Text(e: Occurrence): string {
    e.text
  }

  /** `OrderByDescending(x => x.LineNumbers.Count).ThenBy(x => x.Text)`, the
      text comparer being the culture's default string order `textLe`. */
  function ReportOrder(textLe: (string, string) -> bool): (Occurrence, Occurrence) -> bool {
    ThenBy(Descending(By(Count, IntLe())), By(Text, textLe))
  }

  /** `new Repetition(x.Text, x.LineNumbers.Count, x.LineNumbers.OrderBy(n => n))`. */
  function ToRepetition(e: Occurrence): Repetition {
    Repetition(e.text, |e.lines|, SortBy(e.lines, IntLe()))
  }

  function ToRepetitions(es: seq<Occurrence>): (r: seq<Repetition>)
    ensures |r| == |es|
    ensures forall i :: 0 <= i < |es| ==> r[i] == ToRepetition(es[i])
  {
    seq(|es|, i requires 0 <= i < |es| => ToRepetition(es[i]))
  }

  /** The repeated-sentence or repeated-phrase list built from one map. */
  function Report(m: OccurrenceMap, textLe: (string, string) -> bool): seq<Repetition>
    requires Valid(m)
  {
    ToRepetitions(SortBy(Repeated(Values(m)), ReportOrder(textLe)))
  }

  predicate StrictlyIncreasing(s: seq<nat>) {
    forall i, j :: 0 <= i < j < |s| ==> s[i] < s[j]
  }

  /** The reported line list is the line set in increasing order. */
  lemma RepetitionLines(e: Occurrence)
    requires Distinct(e.lines)
    ensures var r := ToRepetition(e);
      && StrictlyIncreasing(r.lines)
      && Elements(r.lines) == LineSet(e)
      && r.count == |r.lines| == |LineSet(e)|
  {
    var sorted := SortBy(e.lines, IntLe());
    IntLePreorder();
    SortSorted(e.lines, IntLe());
    PermutationKeepsDistinct(e.lines, sorted);
    DistinctCard(e.lines);
    assert forall x :: x in sorted <==> x in multiset(sorted);
    assert forall x :: x in e.lines <==> x in multiset(e.lines);
  }

  /** The repetitions the entries of a map would give. */
  function RepetitionsOf(m: OccurrenceMap): set<Repetition> {
    set k | k in m.entries :: ToRepetition(m.entries[k])
  }

  /** What every reported repetition satisfies. */
  predicate WellFormedRepetition(x: Repetition) {
    x.count >= 2 && x.count == |x.lines| && StrictlyIncreasing(x.lines)
  }

  /** A reported repetition comes from an entry of the map seen on at least
      two distinct lines; its count is the number of those lines and its
      lines are listed once each, in increasing order. */
  lemma ReportElement(m: OccurrenceMap, textLe: (string, string) -> bool, i: nat)
    requires Valid(m)
    requires i < |Report(m, textLe)|
    ensures var x := Report(m, textLe)[i];
      && x in RepetitionsOf(m)
      && WellFormedRepetition(x)
  {
    var vs := Values(m);
    var rep := Repeated(vs);
    var sorted := SortBy(rep, ReportOrder(textLe));
    assert sorted[i] in multiset(rep);
    var j :| 0 <= j < |vs| && vs[j] == sorted[i];
    var k := m.order[j];
    RepetitionLines(m.entries[k]);
  }

  lemma ReportContents(m: OccurrenceMap, textLe: (string, string) -> bool)
    requires Valid(m)
    ensures var r := Report(m, textLe);
      forall i :: 0 <= i < |r| ==> r[i] in RepetitionsOf(m) && WellFormedRepetition(r[i])
  {
    var r := Report(m, textLe);
    forall i | 0 <= i < |r| ensures r[i] in RepetitionsOf(m) && WellFormedRepetition(r[i]) {
      ReportElement(m, textLe, i);
    }
  }

  /** Every entry seen on two or more lines is reported. */
  lemma ReportComplete(m: OccurrenceMap, textLe: (string, string) -> bool, k: string)
    requires Valid(m)
    requires k in m.entries && |LineSet(m.entries[k])| >= 2
    ensures ToRepetition(m.entries[k]) in Report(m, textLe)
  {
    var vs := Values(m);
    var rep := Repeated(vs);
    var sorted := SortBy(rep, ReportOrder(textLe));
    var e := m.entries[k];
    RepetitionLines(e);
    var j :| 0 <= j < |m.order| && m.order[j] == k;
    assert vs[j] == e;
    assert e in multiset(sorted);
    var i :| 0 <= i < |sorted| && sorted[i] == e;
    assert Report(m, textLe)[i] == ToRepetition(e);
  }

  /** The report is ordered by count, largest first, and equal counts by
      text; entries that tie on both keep the map's insertion order. */
  lemma ReportOrdered(m: OccurrenceMap, textLe: (string, string) -> bool)
    requires Valid(m)
    requires TotalPreorder(textLe)
    ensures var r := Report(m, textLe);
      forall i, j :: 0 <= i < j < |r| ==>
        r[i].count > r[j].count || (r[i].count == r[j].count && textLe(r[i].text, r[j].text))
  {
    var le := ReportOrder(textLe);
    IntLePreorder();
    ByPreorder(Count, IntLe());
    DescendingPreorder(By(Count, IntLe()));
    ByPreorder(Text, textLe);
    ThenByPreorder(Descending(By(Count, IntLe())), By(Text, textLe));
    var sorted := SortBy(Repeated(Values(m)), le);
    SortSorted(Repeated(Values(m)), le);
    var r := ToRepetitions(sorted);
    forall i, j | 0 <= i < j < |r|
      ensures r[i].count > r[j].count || (r[i].count == r[j].count && textLe(r[i].text, r[j].text))
    {
      assert le(sorted[i], sorted[j]);
      ReportOrderMeaning(textLe, sorted[i], sorted[j]);
    }
  }

  /** One comparison of the report order: more lines first, then text. */
  lemma ReportOrderMeaning(textLe: (string, string) -> bool, a: Occurrence, b: Occurrence)
    requires ReportOrder(textLe)(a, b)
    ensures |a.lines| > |b.lines| || (|a.lines| == |b.lines| && textLe(a.text, b.text))
  {
    var first := Descending(By(Count, IntLe()));
    assert first(a, b) <==> |b.lines| <= |a.lines|;
    assert first(b, a) <==> |a.lines| <= |b.lines|;
    assert By(Text, textLe)(a, b) <==> textLe(a.text, b.text);
    assert ReportOrder(textLe)(a, b) ==
      ((first(a, b) && !first(b, a)) || (first(a, b) && first(b, a) && By(Text, textLe)(a, b)));
  }

  /** Ties on count and text keep the order the keys were first seen. */
  lemma ReportStable(m: OccurrenceMap, textLe: (string, string) -> bool, e: Occurrence)
    requires Valid(m)
    requires TotalPreorder(textLe)
    ensures var rep := Repeated(Values(m));
      TiesOf(SortBy(rep, ReportOrder(textLe)), e, ReportOrder(textLe)) == TiesOf(rep, e, ReportOrder(textLe))
  {
    IntLePreorder();
    ByPreorder(Count, IntLe());
    DescendingPreorder(By(Count, IntLe()));
    ByPreorder(Text, textLe);
    ThenByPreorder(Descending(By(Count, IntLe())), By(Text, textLe));
    SortStable(Repeated(Values(m)), e, ReportOrder(textLe));
  }

  /* ------------------------------------------------------------ analysis */

  /** The lines of the normalised document. */
  function DocumentLines(content: string): seq<string> {
    Split(NormalizeWhitespace(content), '\n')
  }

  function SentenceMap(content: string): OccurrenceMap {
    FoldLines(DocumentLines(content), SentenceItems)
  }

  function PhraseMap(content: string): OccurrenceMap {
    FoldLines(DocumentLines(content), PhraseItems)
  }

  /** `AnalyzeContent(content)`. The two maps are filled in the same loop in
      the code; neither reads the other, so they are built one after the
      other here. */
  function AnalyzeContent(content: string, textLe: (string, string) -> bool): AnalysisResult {
    AnalysisResult(Report(SentenceMap(content), textLe), Report(PhraseMap(content), textLe))
  }

  /** A key is reported exactly when it occurs on at least two distinct lines
      of the document, with the number of those lines as its count. */
  lemma ReportedIffTwoLines(lines: seq<string>, itemsOf: string -> seq<Item>, textLe: (string, string) -> bool, k: string)
    requires k in FoldLines(lines, itemsOf).entries
    ensures var m := FoldLines(lines, itemsOf);
      && ToRepetition(m.entries[k]).count == |LinesWithKey(lines, itemsOf, k)|
      && (ToRepetition(m.entries[k]) in Report(m, textLe) <==> |LinesWithKey(lines, itemsOf, k)| >= 2)
  {
    var m := FoldLines(lines, itemsOf);
    FoldLinesSpec(lines, itemsOf);
    RepetitionLines(m.entries[k]);
    var r := Report(m, textLe);
    if ToRepetition(m.entries[k]) in r {
      var i :| 0 <= i < |r| && r[i] == ToRepetition(m.entries[k]);
      ReportElement(m, textLe, i);
    }
    if |LinesWithKey(lines, itemsOf, k)| >= 2 {
      ReportComplete(m, textLe, k);
    }
  }

  /** Every repeated sentence or phrase reported comes from a key seen on two
      or more lines of the document; its lines are those line numbers, once
      each, in increasing order. */
  lemma ReportLines(lines: seq<string>, itemsOf: string -> seq<Item>, textLe: (string, string) -> bool, i: nat)
    requires i < |Report(FoldLines(lines, itemsOf), textLe)|
    ensures var x := Report(FoldLines(lines, itemsOf), textLe)[i];
      && WellFormedRepetition(x)
      && (exists k :: Elements(x.lines) == LinesWithKey(lines, itemsOf, k))
      && (forall ln :: ln in x.lines ==> 1 <= ln <= |lines|)
  {
    var m := FoldLines(lines, itemsOf);
    var x := Report(m, textLe)[i];
    ReportElement(m, textLe, i);
    var k :| k in m.entries && x == ToRepetition(m.entries[k]);
    FoldLinesSpec(lines, itemsOf);
    RepetitionLines(m.entries[k]);
    assert Elements(x.lines) == LinesWithKey(lines, itemsOf, k);
    forall ln | ln in x.lines ensures 1 <= ln <= |lines| {
      assert ln in LinesWithKey(lines, itemsOf, k);
    }
  }

  /** An empty document reports nothing. */
  lemma EmptyReportsNothing(textLe: (string, string) -> bool)
    ensures AnalyzeContent("", textLe).TotalRepeated() == 0
  {
    var lines := DocumentLines("");
    assert NormalizeWhitespace("") == "";
    assert lines == [""];
    assert SentenceItems("") == [] && PhraseItems("") == [];
    assert lines[..0] == [];
    assert SentenceMap("") == EmptyMap;
    assert PhraseMap("") == EmptyMap;
  }

  /** With a single line no key can be seen on two lines, so nothing is
      reported. */
  lemma OneLineReportsNothing(content: string, textLe: (string, string) -> bool)
    requires '\n' !in NormalizeWhitespace(content)
    ensures AnalyzeContent(content, textLe).TotalRepeated() == 0
  {
    var lines := DocumentLines(content);
    assert |lines| == 1;
    OneLineMapEmpty(lines, SentenceItems, textLe);
    OneLineMapEmpty(lines, PhraseItems, textLe);
  }

  lemma OneLineMapEmpty(lines: seq<string>, itemsOf: string -> seq<Item>, textLe: (string, string) -> bool)
    requires |lines| == 1
    ensures Report(FoldLines(lines, itemsOf), textLe) == []
  {
    var r := Report(FoldLines(lines, itemsOf), textLe);
    if |r| > 0 {
      ReportLines(lines, itemsOf, textLe, 0);
      var k :| Elements(r[0].lines) == LinesWithKey(lines, itemsOf, k);
      assert LinesWithKey(lines, itemsOf, k) <= {1};
      SubsetCard(LinesWithKey(lines, itemsOf, k), {1});
      DistinctCard(r[0].lines);
      assert false;
    }
  }
}

=== FILE: renamer.dfy ===
/** The batch file renamer: every uploaded file name goes through search and
    replace, optional numbering, prefix and suffix, trimming and a fallback,
    and is then made unique, ignoring case, by appending "-2", "-3", ...
    before the extension. */
module BatchRenamer {
  import opened Wrappers
  import opened Strings
  import opened Numbers
  import opened PathNames
  import Collections

  /* --------------------------------------------------------------- replace */

  /** `source.IndexOf(search, from, comparison)`: the first position at or
      after `from` where `search` matches, or -1. */
  function IndexOf(s: string, pat: string, from: nat, cmp: Comparison): (r: int)
    requires from <= |s|
    ensures r == -1 || (from <= r && r + |pat| <= |s|)
    decreases |s| - from
  {
    if MatchesAt(s, from, pat, cmp) then from
    else if from == |s| then -1
    else IndexOf(s, pat, from + 1, cmp)
  }

  /** `IndexOf` finds a match, and no match lies between `from` and it; -1
      means there is no match from `from` on. */
  lemma {:induction false} IndexOfSpec(s: string, pat: string, from: nat, cmp: Comparison, r: int)
    requires from <= |s| && r == IndexOf(s, pat, from, cmp)
    ensures r == -1 || MatchesAt(s, r, pat, cmp)
    ensures r == -1 ==> forall i: nat :: from <= i <= |s| ==> !MatchesAt(s, i, pat, cmp)
    ensures r != -1 ==> forall i: nat :: from <= i < r ==> !MatchesAt(s, i, pat, cmp)
    decreases |s| - from
  {
    if !MatchesAt(s, from, pat, cmp) && from < |s| {
      IndexOfSpec(s, pat, from + 1, cmp, r);
    }
  }

  /** A match of `pat` in a suffix is a match in the whole text. */
  lemma MatchesAtSuffix(s: string, from: nat, i: nat, pat: string, cmp: Comparison)
    requires from <= |s|
    ensures MatchesAt(s[from..], i, pat, cmp) <==> MatchesAt(s, from + i, pat, cmp)
  {
    if from + i + |pat| <= |s| {
      assert s[from..][i..i + |pat|] == s[from + i..from + i + |pat|];
    }
  }

  /** Replacing from a position that no match starts at copies that
      character. */
  lemma ReplaceAllSkipOne(s: string, from: nat, pat: string, rep: string, cmp: Comparison)
    requires from < |s| && |pat| > 0 && !MatchesAt(s, from, pat, cmp)
    ensures ReplaceAll(s[from..], pat, rep, cmp) == [s[from]] + ReplaceAll(s[from + 1..], pat, rep, cmp)
  {
    var t := s[from..];
    MatchesAtSuffix(s, from, 0, pat, cmp);
    assert t[1..] == s[from + 1..];
    if |t| < |pat| {
      ReplaceAllShort(t[1..], pat, rep, cmp);
    }
  }

  /** Replacing over a stretch where no match starts copies the stretch. */
  lemma {:induction false} ReplaceAllSkips(s: string, from: nat, to: nat, pat: string, rep: string, cmp: Comparison)
    requires from <= to <= |s| && |pat| > 0
    requires forall i: nat :: from <= i < to ==> !MatchesAt(s, i, pat, cmp)
    ensures ReplaceAll(s[from..], pat, rep, cmp) == s[from..to] + ReplaceAll(s[to..], pat, rep, cmp)
    decreases |s| - from
  {
    if from < to {
      ReplaceAllSkipOne(s, from, pat, rep, cmp);
      ReplaceAllSkips(s, from + 1, to, pat, rep, cmp);
      ConsSlice(s, from, to, ReplaceAll(s[to..], pat, rep, cmp));
    }
  }

  lemma ConsSlice<T>(s: seq<T>, from: nat, to: nat, rest: seq<T>)
    requires from < to <= |s|
    ensures [s[from]] + (s[from + 1..to] + rest) == s[from..to] + rest
  {
    assert s[from..to] == [s[from]] + s[from + 1..to];
  }

  lemma ReplaceAllShort(s: string, pat: string, rep: string, cmp: Comparison)
    requires |s| < |pat|
    ensures ReplaceAll(s, pat, rep, cmp) == s
  {
  }

  /** At a match, the replacement is emitted and the match skipped. */
  lemma ReplaceAllAtMatch(s: string, at: nat, pat: string, rep: string, cmp: Comparison)
    requires |pat| > 0 && at <= |s| && MatchesAt(s, at, pat, cmp)
    ensures ReplaceAll(s[at..], pat, rep, cmp) == rep + ReplaceAll(s[at + |pat|..], pat, rep, cmp)
  {
    MatchesAtSuffix(s, at, 0, pat, cmp);
    assert s[at..][|pat|..] == s[at + |pat|..];
  }

  /** `ReplaceOccurrences(source, search, replacement, comparison)`: the
      `StringBuilder` loop agrees with the left-to-right replacement. */
  method ReplaceOccurrences(source: string, search: string, replacement: string, cmp: Comparison)
    returns (r: string)
    ensures r == ReplaceAll(source, search, replacement, cmp)
    ensures |search| == 0 ==> r == source
  {
    if |search| == 0 {
      return source;
    }
    var builder := "";
    var index := 0;
    ReplaceStart(source, search, replacement, cmp);
    while index < |source|
      invariant Rebuilt(builder, source, index, search, replacement, cmp)
      decreases |source| - index
    {
      var done;
      builder, index, done := ReplaceNext(builder, source, index, search, replacement, cmp);
      if done {
        return builder;
      }
    }
    ReplaceDone(builder, source, index, search, replacement, cmp);
    r := builder;
  }

  /** One turn of the loop: copy up to the next match and append the
      replacement, or copy the rest when there is none. */
  method ReplaceNext(builder: string, source: string, index: nat, search: string, replacement: string, cmp: Comparison)
    returns (built: string, next: nat, done: bool)
    requires |search| > 0 && index < |source| && Rebuilt(builder, source, index, search, replacement, cmp)
    ensures done ==> built == ReplaceAll(source, search, replacement, cmp)
    ensures !done ==> index < next && Rebuilt(built, source, next, search, replacement, cmp)
  {
    var at := IndexOf(source, search, index, cmp);
    if at < 0 {
      built, next, done := builder + source[index..], index, true;
    } else {
      built, next, done := builder + (source[index..at] + replacement), at + |search|, false;
    }
    ReplaceTurn(builder, source, index, at, search, replacement, cmp, built, next, done);
  }

  lemma ReplaceStart(s: string, pat: string, rep: string, cmp: Comparison)
    ensures Rebuilt("", s, 0, pat, rep, cmp)
  {
    assert s[0..] == s;
  }

  /** What the builder holds once the text before `index` is consumed. */
  predicate Rebuilt(built: string, s: string, index: nat, pat: string, rep: string, cmp: Comparison) {
    index <= |s| && built + ReplaceAll(s[index..], pat, rep, cmp) == ReplaceAll(s, pat, rep, cmp)
  }

  /** From `index`, the first match at `next` is replaced and the text before
      it copied. */
  lemma ReplaceStep(built: string, piece: string, s: string, index: nat, next: int, pat: string, rep: string, cmp: Comparison)
    requires |pat| > 0 && Rebuilt(built, s, index, pat, rep, cmp)
    requires index <= |s| && next == IndexOf(s, pat, index, cmp) && next >= 0
    requires index <= next <= |s| && piece == s[index..next] + rep
    ensures index < next + |pat| <= |s|
    ensures Rebuilt(built + piece, s, next + |pat|, pat, rep, cmp)
  {
    IndexOfSpec(s, pat, index, cmp, next);
    ReplaceAllSkips(s, index, next, pat, rep, cmp);
    ReplaceAllAtMatch(s, next, pat, rep, cmp);
    Regroup(built, s[index..next], rep, ReplaceAll(s[next + |pat|..], pat, rep, cmp));
  }

  /** Both outcomes of one turn of the loop. */
  lemma ReplaceTurn(built: string, s: string, index: nat, at: int, pat: string, rep: string, cmp: Comparison,
                    result: string, next: nat, done: bool)
    requires |pat| > 0 && index < |s| && Rebuilt(built, s, index, pat, rep, cmp)
    requires at == IndexOf(s, pat, index, cmp)
    requires at < 0 ==> result == built + s[index..] && done
    requires at >= 0 ==> at + |pat| <= |s| && result == built + (s[index..at] + rep) && next == at + |pat| && !done
    ensures done ==> result == ReplaceAll(s, pat, rep, cmp)
    ensures !done ==> index < next && Rebuilt(result, s, next, pat, rep, cmp)
  {
    if at < 0 {
      ReplaceTail(built, s, index, pat, rep, cmp);
    } else {
      ReplaceStep(built, s[index..at] + rep, s, index, at, pat, rep, cmp);
    }
  }

  lemma Regroup<T>(a: seq<T>, b: seq<T>, c: seq<T>, d: seq<T>)
    ensures a + (b + (c + d)) == (a + (b + c)) + d
  {
  }

  /** From `index`, without a further match the rest is copied. */
  lemma ReplaceTail(built: string, s: string, index: nat, pat: string, rep: string, cmp: Comparison)
    requires |pat| > 0 && Rebuilt(built, s, index, pat, rep, cmp)
    requires IndexOf(s, pat, index, cmp) == -1
    ensures built + s[index..] == ReplaceAll(s, pat, rep, cmp)
  {
    IndexOfSpec(s, pat, index, cmp, -1);
    ReplaceAllSkips(s, index, |s|, pat, rep, cmp);
    assert s[|s|..] == "";
  }

  lemma ReplaceDone(built: string, s: string, index: nat, pat: string, rep: string, cmp: Comparison)
    requires Rebuilt(built, s, index, pat, rep, cmp) && index >= |s|
    ensures built == ReplaceAll(s, pat, rep, cmp)
  {
    assert s[index..] == "";
  }

  /** With no match anywhere the text comes back unchanged. */
  lemma ReplaceWithoutMatch(s: string, pat: string, rep: string, cmp: Comparison)
    requires |pat| > 0
    requires forall i: nat :: i <= |s| ==> !MatchesAt(s, i, pat, cmp)
    ensures ReplaceAll(s, pat, rep, cmp) == s
  {
    ReplaceAllSkips(s, 0, |s|, pat, rep, cmp);
    assert s[0..] == s && s[|s|..] == "";
  }

  /** Replacing a text by itself changes nothing. */
  lemma {:induction false} ReplaceBySelf(s: string, pat: string)
    ensures ReplaceAll(s, pat, pat, Ordinal) == s
    decreases |s|
  {
    if |pat| > 0 && |s| >= |pat| {
      if MatchesAt(s, 0, pat, Ordinal) {
        ReplaceBySelf(s[|pat|..], pat);
        assert s == s[..|pat|] + s[|pat|..];
      } else {
        ReplaceBySelf(s[1..], pat);
        assert s == [s[0]] + s[1..];
      }
    }
  }

  /* --------------------------------------------------------------- options */

  /** The form fields, as `form[name].ToString()` gives them ("" when
      absent). */
  datatype RenameForm = RenameForm(
    prefix: string, suffix: string, search: string, replacement: string,
    useReplacement: string, caseSensitive: string, numberingEnabled: string,
    numberingPosition: string, numberingStart: string, numberingPad: string)

  datatype RenameOptions = RenameOptions(
    prefix: string, suffix: string, search: string, replacement: string,
    useReplacement: bool, comparison: Comparison, numberingEnabled: bool,
    position: string, start: int, pad: int)

  /** `Math.Clamp(value, lo, hi)`. */
  function Clamp(value: int, lo: int, hi: int): (r: int)
    requires lo <= hi
    ensures lo <= r <= hi
    ensures lo <= value <= hi ==> r == value
    ensures value < lo ==> r == lo
    ensures value > hi ==> r == hi
  {
    if value < lo then lo else if value > hi then hi else value
  }

  predicate IsTrue(field: string) {
    EqualsIgnoreCase(field, "true")
  }

  /** The option normalisation at the top of the handler. */
  function ReadOptions(form: RenameForm): (o: RenameOptions)
    ensures o.useReplacement <==> IsTrue(form.useReplacement) && !IsBlank(form.search)
    ensures o.comparison == Ordinal <==> IsTrue(form.caseSensitive)
    ensures o.numberingEnabled <==> IsTrue(form.numberingEnabled)
    ensures o.position == "prefix" || o.position == "suffix"
    ensures form.numberingPosition == "prefix" ==> o.position == "prefix"
    ensures form.numberingPosition != "prefix" ==> o.position == "suffix"
    ensures IsInt32(o.start) && 1 <= o.pad <= 6
    ensures ParseInt32(form.numberingStart).None? ==> o.start == 1
    ensures ParseInt32(form.numberingPad).None? ==> o.pad == 2
    ensures ParseInt32(form.numberingStart).Some? ==> o.start == ParseInt32(form.numberingStart).value
    ensures ParseInt32(form.numberingPad).Some? ==> o.pad == Clamp(ParseInt32(form.numberingPad).value, 1, 6)
    ensures o.prefix == form.prefix && o.suffix == form.suffix
    ensures o.search == form.search && o.replacement == form.replacement
  {
    var position := if form.numberingPosition == "prefix" || form.numberingPosition == "suffix"
      then form.numberingPosition else "suffix";
    RenameOptions(
      form.prefix, form.suffix, form.search, form.replacement,
      IsTrue(form.useReplacement) && !IsBlank(form.search),
      if IsTrue(form.caseSensitive) then Ordinal else OrdinalIgnoreCase,
      IsTrue(form.numberingEnabled),
      position,
      ParseOrDefault(form.numberingStart, 1),
      Clamp(ParseOrDefault(form.numberingPad, 2), 1, 6))
  }

  /** Options as the normalisation leaves them: replacement only with a
      non-blank search, a known numbering position, a 32-bit start and a pad
      from 1 to 6. */
  predicate Normalized(o: RenameOptions) {
    && (o.useReplacement ==> !IsBlank(o.search))
    && (o.position == "prefix" || o.position == "suffix")
    && IsInt32(o.start) && 1 <= o.pad <= 6
  }

  function Flag(b: bool): string {
    if b then "true" else "false"
  }

  /** The form a page would post for the options. */
  function FormOf(o: RenameOptions): RenameForm {
    RenameForm(o.prefix, o.suffix, o.search, o.replacement,
      Flag(o.useReplacement), Flag(o.comparison == Ordinal), Flag(o.numberingEnabled),
      o.position, IntToString(o.start), IntToString(o.pad))
  }

  /** Normalisation always yields normalised options, and reads the form of
      normalised options back to the same options. */
  lemma ReadOptionsRoundTrip(form: RenameForm, o: RenameOptions)
    requires Normalized(o)
    ensures Normalized(ReadOptions(form))
    ensures ReadOptions(FormOf(o)) == o
  {
    var f := FormOf(o);
    ParseFormatRoundTrip(o.start);
    ParseFormatRoundTrip(o.pad);
    assert IsTrue("true") && !IsTrue("false");
    assert IsTrue(f.useReplacement) == o.useReplacement;
    assert IsTrue(f.caseSensitive) == (o.comparison == Ordinal);
    assert IsTrue(f.numberingEnabled) == o.numberingEnabled;
  }

  /* ---------------------------------------------------------------- naming */

  const Fallback: string := "renamed-file"

  /** `counter.ToString().PadLeft(pad, '0')`. */
  function NumberLabel(counter: int, pad: int): (r: string)
    ensures |r| >= 1
    ensures forall i :: 0 <= i < |r| ==> IsNumberChar(r[i])
  {
    var digits := IntToString(counter);
    var r := PadLeft(digits, pad, '0');
    assert forall i :: |r| - |digits| <= i < |r| ==> r[i] == digits[i - (|r| - |digits|)];
    r
  }

  predicate IsNumberChar(c: char) {
    IsAsciiDigit(c) || c == '-'
  }

  lemma NumberCharNotWhite(c: char)
    requires IsNumberChar(c)
    ensures !IsWhiteSpace(c)
  {
  }

  /** The base name after the optional search and replace. */
  function Replaced(baseName: string, o: RenameOptions): string {
    if o.useReplacement then ReplaceAll(baseName, o.search, o.replacement, o.comparison) else baseName
  }

  /** The name before prefix, suffix and trimming: the replaced base name
      with the number joined to it by '-' on the chosen side. */
  function Stem(baseName: string, o: RenameOptions, counter: int): string {
    var replaced := Replaced(baseName, o);
    if !o.numberingEnabled then replaced
    else if o.position == "prefix" then NumberLabel(counter, o.pad) + "-" + replaced
    else replaced + "-" + NumberLabel(counter, o.pad)
  }

  /** The per-file name pipeline up to the extension. */
  function TransformName(baseName: string, o: RenameOptions, counter: int): (r: string)
    ensures IsTrimmed(r) && !IsBlank(r)
    ensures IsBlank(o.prefix + Stem(baseName, o, counter) + o.suffix) ==> r == Fallback
  {
    var t := Trim(o.prefix + Stem(baseName, o, counter) + o.suffix);
    if IsBlank(t) then
      assert Fallback[0] == 'r';
      Fallback
    else t
  }

  /** `t` occurs in `s`. */
  predicate Occurs(t: string, s: string) {
    exists i: nat :: i <= |s| && OccursAt(t, s, i)
  }

  predicate OccursAt(t: string, s: string, i: nat) {
    i + |t| <= |s| && s[i..i + |t|] == t
  }

  /** With numbering on, the padded number survives prefix, suffix and
      trimming: it is part of the final name. */
  lemma NumberKept(baseName: string, o: RenameOptions, counter: int)
    requires o.numberingEnabled
    ensures Occurs(NumberLabel(counter, o.pad), TransformName(baseName, o, counter))
  {
    var q := StemNumber(baseName, o, counter);
    NumberInName(o.prefix, Stem(baseName, o, counter), o.suffix, NumberLabel(counter, o.pad), q);
    TransformNameTrims(baseName, o, counter);
  }

  /** A number inside the stem is still there once prefix and suffix are
      added and the result trimmed. */
  lemma NumberInName(prefix: string, stem: string, suffix: string, num: string, q: nat)
    requires |num| > 0 && OccursAt(num, stem, q)
    requires forall i :: 0 <= i < |num| ==> IsNumberChar(num[i])
    ensures !IsBlank(prefix + stem + suffix)
    ensures Occurs(num, Trim(prefix + stem + suffix))
  {
    OccursInFrame(prefix, stem, suffix, num, q);
    NumberCharNotWhite(num[0]);
    NumberCharNotWhite(num[|num| - 1]);
    TrimKeepsInner(prefix + stem + suffix, |prefix| + q, num);
  }

  /** A name that is not blank is only trimmed, never replaced by the
      fallback. */
  lemma TransformNameTrims(baseName: string, o: RenameOptions, counter: int)
    requires !IsBlank(o.prefix + Stem(baseName, o, counter) + o.suffix)
    ensures TransformName(baseName, o, counter) == Trim(o.prefix + Stem(baseName, o, counter) + o.suffix)
  {
    var t := Trim(o.prefix + Stem(baseName, o, counter) + o.suffix);
    assert t[0] !in WhiteSpace;
  }

  /** Where the number sits in the stem. */
  lemma StemNumber(baseName: string, o: RenameOptions, counter: int) returns (q: nat)
    requires o.numberingEnabled
    ensures OccursAt(NumberLabel(counter, o.pad), Stem(baseName, o, counter), q)
  {
    var num := NumberLabel(counter, o.pad);
    var replaced := Replaced(baseName, o);
    if o.position == "prefix" {
      q := 0;
      NumberFirst(num, replaced);
    } else {
      q := |replaced| + 1;
      NumberLast(replaced, num);
    }
  }

  lemma NumberFirst(num: string, rest: string)
    ensures OccursAt(num, num + "-" + rest, 0)
  {
    assert (num + "-" + rest)[..|num|] == num;
  }

  lemma NumberLast(rest: string, num: string)
    ensures OccursAt(num, rest + "-" + num, |rest| + 1)
  {
    assert (rest + "-" + num)[|rest| + 1..] == num;
  }

  lemma OccursInFrame(a: string, s: string, b: string, w: string, q: nat)
    requires OccursAt(w, s, q)
    ensures OccursAt(w, a + s + b, |a| + q)
  {
    assert (a + s + b)[|a| + q..|a| + q + |w|] == s[q..q + |w|];
  }

  /** A stretch that starts and ends with non-white characters survives
      trimming. */
  lemma TrimKeepsInner(full: string, p: nat, w: string)
    requires |w| > 0 && p + |w| <= |full| && full[p..p + |w|] == w
    requires !IsWhiteSpace(w[0]) && !IsWhiteSpace(w[|w| - 1])
    ensures !IsBlank(full)
    ensures Occurs(w, Trim(full))
  {
    var a, e := TrimBounds(full);
    assert full[p] == w[0] && full[p + |w| - 1] == w[|w| - 1];
    assert a <= p && p + |w| <= e;
    OccursInSlice(full, a, e, p, w);
  }

  lemma OccursInSlice(s: string, lo: nat, hi: nat, p: nat, w: string)
    requires lo <= p && p + |w| <= hi <= |s| && s[p..p + |w|] == w
    ensures Occurs(w, s[lo..hi])
  {
    var u := s[lo..hi][p - lo..p - lo + |w|];
    forall k | 0 <= k < |w| ensures u[k] == w[k] {
      assert u[k] == s[p + k] == s[p..p + |w|][k];
    }
    assert u == w;
    assert OccursAt(w, s[lo..hi], p - lo);
  }

  /** The name tried on the `k`-th attempt: the bare name first, then with
      "-2", "-3", ... before the extension. */
  function Candidate(name: string, k: nat, ext: string): string
    requires k >= 1
  {
    if k == 1 then name + ext else name + "-" + NatToString(k) + ext
  }

  lemma UpperDigits(s: string)
    requires AllDigits(s)
    ensures Upper(s) == s
  {
  }

  /** Upper-cased, the candidate keeps its number. */
  lemma UpperCandidate(name: string, k: nat, ext: string)
    requires k >= 2
    ensures Upper(Candidate(name, k, ext)) == Upper(name) + "-" + NatToString(k) + Upper(ext)
  {
    UpperAppend(name + "-" + NatToString(k), ext);
    UpperAppend(name + "-", NatToString(k));
    UpperAppend(name, "-");
    UpperDigits(NatToString(k));
  }

  /** Different attempts never collide, even ignoring case. */
  lemma CandidatesDiffer(name: string, j: nat, k: nat, ext: string)
    requires 1 <= j < k
    ensures Upper(Candidate(name, j, ext)) != Upper(Candidate(name, k, ext))
  {
    var ck := Upper(Candidate(name, k, ext));
    UpperCandidate(name, k, ext);
    if j == 1 {
      UpperAppend(name, ext);
      assert |Upper(Candidate(name, j, ext))| < |ck|;
    } else {
      UpperCandidate(name, j, ext);
      var cj := Upper(Candidate(name, j, ext));
      if cj == ck {
        MiddleEqual(Upper(name) + "-", NatToString(j), NatToString(k), Upper(ext));
        NatToStringInjective(j, k);
        assert false;
      }
    }
  }

  /** Equal texts with the same frame have the same middle. */
  lemma MiddleEqual<T>(p: seq<T>, x: seq<T>, y: seq<T>, q: seq<T>)
    requires (p + x) + q == (p + y) + q
    ensures x == y
  {
    assert |x| == |y|;
    assert x == ((p + x) + q)[|p|..|p| + |x|];
    assert y == ((p + y) + q)[|p|..|p| + |y|];
  }

  /** The dedupe loop: tries candidates until one is not used yet, ignoring
      case. `used` holds the upper-cased names already emitted, which is how
      an ordinal-ignore-case `HashSet` tells names apart. */
  method ResolveName(name: string, ext: string, used: set<string>) returns (candidate: string, k: nat)
    ensures k >= 1 && candidate == Candidate(name, k, ext)
    ensures Upper(candidate) !in used
    ensures forall j :: 1 <= j < k ==> Upper(Candidate(name, j, ext)) in used
  {
    k := 1;
    candidate := name + ext;
    while Upper(candidate) in used
      invariant k >= 1 && candidate == Candidate(name, k, ext)
      invariant forall j :: 1 <= j < k ==> Upper(Candidate(name, j, ext)) in used
      decreases |used| - k
    {
      CandidatesBound(name, ext, used, k + 1);
      k := k + 1;
      candidate := name + "-" + NatToString(k) + ext;
    }
  }

  /** The upper-cased candidates of the attempts before `k`. */
  function Tried(name: string, ext: string, k: nat): set<string>
    decreases k
  {
    if k <= 1 then {} else Tried(name, ext, k - 1) + {Upper(Candidate(name, k - 1, ext))}
  }

  /** The attempts before `k` are `k - 1` different names. */
  lemma {:induction false} TriedCard(name: string, ext: string, k: nat)
    ensures |Tried(name, ext, k)| == if k <= 1 then 0 else k - 1
    ensures forall x :: x in Tried(name, ext, k) ==> exists j :: 1 <= j < k && x == Upper(Candidate(name, j, ext))
    decreases k
  {
    if k > 1 {
      TriedCard(name, ext, k - 1);
      var last := Upper(Candidate(name, k - 1, ext));
      if last in Tried(name, ext, k - 1) {
        var j :| 1 <= j < k - 1 && last == Upper(Candidate(name, j, ext));
        CandidatesDiffer(name, j, k - 1, ext);
        assert false;
      }
    }
  }

  /** If the first `k - 1` attempts are all taken, there are at least that
      many names taken: the loop cannot go on for ever. */
  lemma CandidatesBound(name: string, ext: string, used: set<string>, k: nat)
    requires k >= 1
    requires forall j :: 1 <= j < k ==> Upper(Candidate(name, j, ext)) in used
    ensures k - 1 <= |used|
  {
    TriedCard(name, ext, k);
    Collections.SubsetCard(Tried(name, ext, k), used);
  }

  /* -------------------------------------------------------------- the loop */

  /** One entry of the response's `renamed` list. */
  datatype Renamed = Renamed(
    original: string, renamed: string, replaced: bool,
    numberingApplied: bool, duplicateResolved: bool)

  /** The counter in force for the `i`-th file: it starts at the configured
      value and advances once per file while numbering is on. */
  function CounterAt(o: RenameOptions, i: nat): (r: int)
    requires IsInt32(o.start)
    ensures IsInt32(r)
    decreases i
  {
    if i == 0 || !o.numberingEnabled then o.start else Increment32(CounterAt(o, i - 1))
  }

  /** In closed form: the start plus the file's index, with 32-bit
      wrap-around. */
  lemma {:induction false} CounterAtWraps(o: RenameOptions, i: nat)
    requires IsInt32(o.start) && o.numberingEnabled
    ensures CounterAt(o, i) == Wrap32(o.start + i)
    decreases i
  {
    if i > 0 {
      CounterAtWraps(o, i - 1);
      Wrap32Step(o.start + i - 1);
    }
  }

  /** The name the pipeline plans for a base name under the request's
      options, given the current counter value. */
  function Planner(o: RenameOptions): (plan: (string, int) -> string)
    ensures forall b, c :: plan(b, c) == TransformName(b, o, c)
  {
    (b: string, c: int) => TransformName(b, o, c)
  }

  /** `entry` is what the loop reports for `file`, the `i`-th upload: the
      name `plan` gives it resolved on attempt `k` (the handler's
      `dedupeSuffix`), and the flags of the request. */
  predicate EntryFor(file: string, o: RenameOptions, plan: (string, int) -> string, i: nat, entry: Renamed, k: nat)
    requires IsInt32(o.start)
  {
    && k >= 1
    && entry.original == file
    && entry.renamed == Candidate(plan(BaseName(file), CounterAt(o, i)), k, Extension(file))
    && entry.replaced == o.useReplacement
    && entry.numberingApplied == o.numberingEnabled
    && (entry.duplicateResolved <==> k > 1)
  }

  /** No two reported names agree ignoring case, and `used` holds all of
      them upper-cased. */
  predicate Taken(results: seq<Renamed>, used: set<string>) {
    && (forall j :: 0 <= j < |results| ==> Upper(results[j].renamed) in used)
    && (forall a, b :: 0 <= a < b < |results| ==> Upper(results[a].renamed) != Upper(results[b].renamed))
  }

  /** Every name in `used` is, upper-cased, the name of a reported entry. */
  predicate OnlyReported(results: seq<Renamed>, used: set<string>) {
    forall x :: x in used ==> exists a :: 0 <= a < |results| && Upper(results[a].renamed) == x
  }

  lemma TakenAppend(results: seq<Renamed>, used: set<string>, entry: Renamed)
    requires Taken(results, used) && OnlyReported(results, used) && Upper(entry.renamed) !in used
    ensures Taken(results + [entry], used + {Upper(entry.renamed)})
    ensures OnlyReported(results + [entry], used + {Upper(entry.renamed)})
  {
    var next := results + [entry];
    assert forall j :: 0 <= j < |results| ==> next[j] == results[j];
    assert next[|results|] == entry;
  }

  /** Every attempt before the one reported for an upload was already, ignoring
      case, the name of an earlier upload: the dedupe number is the first
      free one. */
  predicate FirstFree(files: seq<string>, o: RenameOptions, plan: (string, int) -> string, results: seq<Renamed>, attempts: seq<nat>)
    requires IsInt32(o.start) && |results| <= |files| && |attempts| == |results|
  {
    forall i, j :: 0 <= i < |results| && 1 <= j < attempts[i] ==> TakenBefore(files, o, plan, results, i, j)
  }

  /** Attempt `j` for the `i`-th upload is, ignoring case, the name of an
      earlier upload. */
  predicate TakenBefore(files: seq<string>, o: RenameOptions, plan: (string, int) -> string, results: seq<Renamed>, i: nat, j: nat)
    requires IsInt32(o.start) && i < |files| && i <= |results| && j >= 1
  {
    exists a :: 0 <= a < i && EqualsIgnoreCase(results[a].renamed, Candidate(plan(BaseName(files[i]), CounterAt(o, i)), j, Extension(files[i])))
  }

  lemma FirstFreeAppend(files: seq<string>, o: RenameOptions, plan: (string, int) -> string,
                        results: seq<Renamed>, attempts: seq<nat>, used: set<string>, entry: Renamed, k: nat)
    requires IsInt32(o.start) && |results| < |files| && |attempts| == |results|
    requires FirstFree(files, o, plan, results, attempts) && OnlyReported(results, used)
    requires k >= 1
    requires var i := |results|; forall j :: 1 <= j < k ==>
      Upper(Candidate(plan(BaseName(files[i]), CounterAt(o, i)), j, Extension(files[i]))) in used
    ensures FirstFree(files, o, plan, results + [entry], attempts + [k])
  {
    var next, tries := results + [entry], attempts + [k];
    forall i, j | 0 <= i < |results| && 1 <= j < attempts[i]
      ensures TakenBefore(files, o, plan, next, i, j)
    {
      TakenBeforeKept(files, o, plan, results, entry, i, j);
    }
    forall j | 1 <= j < k
      ensures TakenBefore(files, o, plan, next, |results|, j)
    {
      TakenBeforeNew(files, o, plan, results, used, entry, j);
    }
    forall i, j | 0 <= i < |next| && 1 <= j < tries[i]
      ensures TakenBefore(files, o, plan, next, i, j)
    {
      if i < |results| {
        assert tries[i] == attempts[i];
      } else {
        assert i == |results| && tries[i] == k;
      }
    }
  }

  lemma TakenBeforeKept(files: seq<string>, o: RenameOptions, plan: (string, int) -> string,
                        results: seq<Renamed>, entry: Renamed, i: nat, j: nat)
    requires IsInt32(o.start) && i < |results| <= |files| && j >= 1
    requires TakenBefore(files, o, plan, results, i, j)
    ensures TakenBefore(files, o, plan, results + [entry], i, j)
  {
    var c := Candidate(plan(BaseName(files[i]), CounterAt(o, i)), j, Extension(files[i]));
    var a :| 0 <= a < i && EqualsIgnoreCase(results[a].renamed, c);
    assert (results + [entry])[a] == results[a];
  }

  lemma TakenBeforeNew(files: seq<string>, o: RenameOptions, plan: (string, int) -> string,
                       results: seq<Renamed>, used: set<string>, entry: Renamed, j: nat)
    requires IsInt32(o.start) && |results| < |files| && j >= 1 && OnlyReported(results, used)
    requires var i := |results|;
      Upper(Candidate(plan(BaseName(files[i]), CounterAt(o, i)), j, Extension(files[i]))) in used
    ensures TakenBefore(files, o, plan, results + [entry], |results|, j)
  {
    var i := |results|;
    var c := Candidate(plan(BaseName(files[i]), CounterAt(o, i)), j, Extension(files[i]));
    var a :| 0 <= a < |results| && Upper(results[a].renamed) == Upper(c);
    assert (results + [entry])[a] == results[a];
  }

  /** The counter after the `i`-th file, from the one in force for it. */
  lemma CounterStep(o: RenameOptions, i: nat, counter: int)
    requires IsInt32(o.start) && counter == CounterAt(o, i)
    ensures CounterAt(o, i + 1) == if o.numberingEnabled then Increment32(counter) else counter
  {
  }

  /** The first `|results|` uploads have been reported. */
  predicate Reported(files: seq<string>, o: RenameOptions, plan: (string, int) -> string, results: seq<Renamed>, attempts: seq<nat>)
    requires IsInt32(o.start)
  {
    && |results| <= |files| && |attempts| == |results|
    && forall j :: 0 <= j < |results| ==> EntryFor(files[j], o, plan, j, results[j], attempts[j])
  }

  lemma ReportedAppend(files: seq<string>, o: RenameOptions, plan: (string, int) -> string,
                       results: seq<Renamed>, attempts: seq<nat>, entry: Renamed, k: nat)
    requires IsInt32(o.start) && Reported(files, o, plan, results, attempts) && |results| < |files|
    requires EntryFor(files[|results|], o, plan, |results|, entry, k)
    ensures Reported(files, o, plan, results + [entry], attempts + [k])
  {
    var next := results + [entry];
    assert forall j :: 0 <= j < |results| ==> next[j] == results[j];
  }

  /** What one turn of the loop keeps: the entry for the next upload, made of
      the attempt `ResolveName` settles on, extends every invariant. */
  lemma LoopStep(files: seq<string>, o: RenameOptions, plan: (string, int) -> string,
                 results: seq<Renamed>, attempts: seq<nat>, used: set<string>, entry: Renamed, k: nat)
    requires IsInt32(o.start) && Reported(files, o, plan, results, attempts) && |results| < |files|
    requires Taken(results, used) && OnlyReported(results, used)
    requires FirstFree(files, o, plan, results, attempts)
    requires EntryFor(files[|results|], o, plan, |results|, entry, k)
    requires Upper(entry.renamed) !in used
    requires var i := |results|; forall j :: 1 <= j < k ==>
      Upper(Candidate(plan(BaseName(files[i]), CounterAt(o, i)), j, Extension(files[i]))) in used
    ensures Reported(files, o, plan, results + [entry], attempts + [k])
    ensures Taken(results + [entry], used + {Upper(entry.renamed)})
    ensures OnlyReported(results + [entry], used + {Upper(entry.renamed)})
    ensures FirstFree(files, o, plan, results + [entry], attempts + [k])
  {
    ReportedAppend(files, o, plan, results, attempts, entry, k);
    FirstFreeAppend(files, o, plan, results, attempts, used, entry, k);
    TakenAppend(results, used, entry);
  }

  /** The per-file loop of the handler (the archive writing left out), for
      any way `plan` of naming a base name at a counter value. */
  method RenameLoop(files: seq<string>, o: RenameOptions, plan: (string, int) -> string)
    returns (results: seq<Renamed>, attempts: seq<nat>)
    requires IsInt32(o.start)
    ensures |results| == |files| && |attempts| == |files|
    ensures forall i, j :: 0 <= i < j < |results| ==> !EqualsIgnoreCase(results[i].renamed, results[j].renamed)
    ensures forall i :: 0 <= i < |results| ==> EntryFor(files[i], o, plan, i, results[i], attempts[i])
    ensures FirstFree(files, o, plan, results, attempts)
  {
    results := [];
    attempts := [];
    var used: set<string> := {};
    var counter := o.start;
    var i := 0;
    while i < |files|
      invariant i == |results| && IsInt32(counter) && counter == CounterAt(o, i)
      invariant Reported(files, o, plan, results, attempts)
      invariant Taken(results, used) && OnlyReported(results, used)
      invariant FirstFree(files, o, plan, results, attempts)
    {
      var original := files[i];
      var name := plan(BaseName(original), counter);
      var candidate, k := ResolveName(name, Extension(original), used);
      var entry := Renamed(original, candidate, o.useReplacement, o.numberingEnabled, k > 1);
      LoopStep(files, o, plan, results, attempts, used, entry, k);
      CounterStep(o, i, counter);
      results := results + [entry];
      attempts := attempts + [k];
      used := used + {Upper(candidate)};
      if o.numberingEnabled {
        counter := Increment32(counter);
      }
      i := i + 1;
    }
  }

  /** The handler's loop with its own naming pipeline: the `i`-th upload is
      named by `TransformName` at the `i`-th counter value, then made unique. */
  method RenameFiles(files: seq<string>, o: RenameOptions) returns (results: seq<Renamed>, attempts: seq<nat>)
    requires IsInt32(o.start)
    ensures |results| == |files| && |attempts| == |files|
    ensures forall i, j :: 0 <= i < j < |results| ==> !EqualsIgnoreCase(results[i].renamed, results[j].renamed)
    ensures forall i :: 0 <= i < |results| ==> EntryFor(files[i], o, Planner(o), i, results[i], attempts[i])
    ensures FirstFree(files, o, Planner(o), results, attempts)
  {
    results, attempts := RenameLoop(files, o, Planner(o));
  }

  /** Every emitted name ends with the extension of the uploaded file. */
  lemma KeepsExtension(file: string, o: RenameOptions, plan: (string, int) -> string, i: nat, entry: Renamed, k: nat)
    requires IsInt32(o.start) && EntryFor(file, o, plan, i, entry, k)
    ensures var ext := Extension(file);
      |ext| <= |entry.renamed| && entry.renamed[|entry.renamed| - |ext|..] == ext
  {
  }

  /* ------------------------------------------------------------ the handler */

  datatype RenameResponse = RenameResponse(options: RenameOptions, renamed: seq<Renamed>)

  /** The `/api/rename` handler after the form has been read: at least one
      file is required. `attempts` gives, per upload, the dedupe number its
      name settled on. */
  method Rename(form: RenameForm, files: seq<string>) returns (r: Result<RenameResponse, string>, attempts: seq<nat>)
    ensures |files| == 0 <==> r.Err?
    ensures r.Err? ==> r.error == "Upload at least one file to rename." && attempts == []
    ensures r.Ok? ==> r.value.options == ReadOptions(form) && |r.value.renamed| == |files| && |attempts| == |files|
    ensures r.Ok? ==> forall i, j :: 0 <= i < j < |files| ==>
      !EqualsIgnoreCase(r.value.renamed[i].renamed, r.value.renamed[j].renamed)
    ensures r.Ok? ==> forall i :: 0 <= i < |files| ==>
      EntryFor(files[i], ReadOptions(form), Planner(ReadOptions(form)), i, r.value.renamed[i], attempts[i])
    ensures r.Ok? ==> FirstFree(files, ReadOptions(form), Planner(ReadOptions(form)), r.value.renamed, attempts)
  {
    if |files| == 0 {
      return Err("Upload at least one file to rename."), [];
    }
    var o := ReadOptions(form);
    var results;
    results, attempts := RenameFiles(files, o);
    r := Ok(RenameResponse(o, results));
  }
}

=== FILE: shorts.dfy ===
/** The Shorts downloader's choices: the container a request asks for, the
    60-second gate, the muxed stream it picks (vertical first, then the
    tallest, then the highest bitrate, the earliest of equals), the square
    crop side, and the headers it answers with. Resolving the video, the
    manifest, the download and the crop itself are inputs. */
module ShortsDownloader {
  import opened Wrappers
  import opened Strings
  import opened PathNames

  datatype Container = Mp4 | WebM | OtherContainer(name: string)

  /** `Container.Name`. */
  function ContainerName(c: Container): string {
    match c
    case Mp4 => "mp4"
    case WebM => "webm"
    case OtherContainer(name) => name
  }

  datatype Quality = Quality(width: int, height: int)

  /** A muxed stream; its video quality may be missing. */
  datatype MuxedStream = MuxedStream(container: Container, quality: Option<Quality>, bitrate: int)

  /* ----------------------------------------------------------- container */

  /** A lower-case letter or a digit: a character that only itself and its
      upper-case form lower-case to. */
  predicate LowerOrDigit(c: char) {
    'a' <= c <= 'z' || '0' <= c <= '9'
  }

  lemma LowerCharMatch(c: char, w: char)
    requires LowerOrDigit(w)
    ensures ToLowerChar(c) == w <==> ToUpperChar(c) == ToUpperChar(w)
  {
  }

  /** For a word of lower-case letters and digits, lower-casing gives the
      word exactly when the two are equal ignoring case. */
  lemma LowerMatch(s: string, w: string)
    requires forall i :: 0 <= i < |w| ==> LowerOrDigit(w[i])
    ensures Lower(s) == w <==> EqualsIgnoreCase(s, w)
  {
    if |s| == |w| {
      forall i | 0 <= i < |s| ensures ToLowerChar(s[i]) == w[i] <==> ToUpperChar(s[i]) == ToUpperChar(w[i]) {
        LowerCharMatch(s[i], w[i]);
      }
      if Lower(s) != w {
        var i :| 0 <= i < |s| && Lower(s)[i] != w[i];
        assert Upper(s)[i] != Upper(w)[i];
      }
      if Upper(s) != Upper(w) {
        var i :| 0 <= i < |s| && Upper(s)[i] != Upper(w)[i];
        assert Lower(s)[i] != w[i];
      }
    } else {
      assert |Upper(s)| != |Upper(w)|;
    }
  }

  /** `ParseContainer`: the format lower-cased, "mp4" or "webm"; nothing
      for anything else or no format. */
  function ParseContainer(format: Option<string>): Option<Container> {
    if format.None? then None
    else
      var f := Lower(format.value);
      if f == "mp4" then Some(Mp4)
      else if f == "webm" then Some(WebM)
      else None
  }

  /** The container is recognised ignoring case, and nothing else is. */
  lemma ParseContainerSpec(format: Option<string>)
    ensures ParseContainer(format) == Some(Mp4) <==> format.Some? && EqualsIgnoreCase(format.value, "mp4")
    ensures ParseContainer(format) == Some(WebM) <==> format.Some? && EqualsIgnoreCase(format.value, "webm")
    ensures ParseContainer(format).None? <==>
      format.None? || (!EqualsIgnoreCase(format.value, "mp4") && !EqualsIgnoreCase(format.value, "webm"))
  {
    if format.Some? {
      LowerMatch(format.value, "mp4");
      LowerMatch(format.value, "webm");
    }
  }

  /* ------------------------------------------------------------ duration */

  /** `TimeSpan` ticks in a second. */
  const TicksPerSecond: int := 10_000_000

  const TooLongMessage: string := "This tool only supports public Shorts that are 60 seconds or less."

  /** The duration gate: the error for a video without a duration or one
      longer than 60 seconds. */
  function DurationGate(duration: Option<int>): (r: Option<string>)
    ensures r.None? <==> duration.Some? && duration.value <= 60 * TicksPerSecond
    ensures r.Some? ==> r.value == TooLongMessage
  {
    if duration.None? || duration.value > 60 * TicksPerSecond then Some(TooLongMessage) else None
  }

  /* ----------------------------------------------------------- selection */

  /** The streams in the requested container, or all of them. */
  function ContainerFiltered(muxed: seq<MuxedStream>, desired: Option<Container>): (r: seq<MuxedStream>)
    ensures forall s :: s in r <==> s in muxed && (desired.None? || s.container == desired.value)
    decreases |muxed|
  {
    if |muxed| == 0 then []
    else
      var rest := ContainerFiltered(muxed[1..], desired);
      assert forall s :: s in muxed <==> s == muxed[0] || s in muxed[1..];
      if desired.None? || muxed[0].container == desired.value then [muxed[0]] + rest else rest
  }

  predicate IsVertical(s: MuxedStream) {
    s.quality.Some? && s.quality.value.width < s.quality.value.height
  }

  function Verticals(pool: seq<MuxedStream>): (r: seq<MuxedStream>)
    ensures forall s :: s in r <==> s in pool && IsVertical(s)
    decreases |pool|
  {
    if |pool| == 0 then []
    else
      var rest := Verticals(pool[1..]);
      assert forall s :: s in pool <==> s == pool[0] || s in pool[1..];
      if IsVertical(pool[0]) then [pool[0]] + rest else rest
  }

  function Height(s: MuxedStream): int {
    if s.quality.Some? then s.quality.value.height else 0
  }

  /** `a` comes before `b` in the order by height, then bitrate, both
      descending. */
  predicate Better(a: MuxedStream, b: MuxedStream) {
    Height(a) > Height(b) || (Height(a) == Height(b) && a.bitrate > b.bitrate)
  }

  /** The first stream of the order by height, then bitrate, descending; a
      stable order keeps the earliest of equal streams first. */
  function Best(pool: seq<MuxedStream>): (r: MuxedStream)
    requires |pool| > 0
    ensures r in pool
    ensures forall k :: 0 <= k < |pool| ==> !Better(pool[k], r)
    ensures exists i :: 0 <= i < |pool| && pool[i] == r && forall j :: 0 <= j < i ==> Better(r, pool[j])
    decreases |pool|
  {
    if |pool| == 1 then pool[0]
    else
      var b := Best(pool[1..]);
      assert forall k :: 1 <= k < |pool| ==> pool[k] == pool[1..][k - 1];
      if Better(b, pool[0]) then
        var i :| 0 <= i < |pool[1..]| && pool[1..][i] == b && forall j :: 0 <= j < i ==> Better(b, pool[1..][j]);
        assert pool[i + 1] == b;
        b
      else
        pool[0]
  }

  /** The outcome of the selection: a stream; none at all; or, when no
      vertical stream exists and some stream of the pool has no quality,
      the failure the order by height meets on it. */
  datatype Selection = Selected(stream: MuxedStream) | NoStreams | MissingQuality

  function Select(muxed: seq<MuxedStream>, format: Option<string>): Selection {
    var pool := ContainerFiltered(muxed, ParseContainer(format));
    var verticals := Verticals(pool);
    if |verticals| > 0 then Selected(Best(verticals))
    else if |pool| == 0 then NoStreams
    else if exists k :: 0 <= k < |pool| && pool[k].quality.None? then MissingQuality
    else Selected(Best(pool))
  }

  /** The selected stream is in the requested container; it is vertical
      whenever a vertical stream is on offer; it is the best of its pool
      and the earliest of equals; no stream at all gives none. */
  lemma SelectSpec(muxed: seq<MuxedStream>, format: Option<string>)
    ensures var pool := ContainerFiltered(muxed, ParseContainer(format));
      var r := Select(muxed, format);
      && (r.NoStreams? <==> pool == [])
      && (r.MissingQuality? ==> forall s :: s in pool ==> !IsVertical(s))
      && (r.Selected? ==> r.stream in muxed)
      && (r.Selected? && ParseContainer(format).Some? ==> r.stream.container == ParseContainer(format).value)
      && ((exists s :: s in pool && IsVertical(s)) ==> r.Selected? && IsVertical(r.stream))
      && var from := if |Verticals(pool)| > 0 then Verticals(pool) else pool;
        r.Selected? ==> r.stream in from && forall k :: 0 <= k < |from| ==> !Better(from[k], r.stream)
  {
    var pool := ContainerFiltered(muxed, ParseContainer(format));
    var verticals := Verticals(pool);
    if exists s :: s in pool && IsVertical(s) {
      var s :| s in pool && IsVertical(s);
      assert s in verticals;
    }
  }

  /* ------------------------------------------------------------ response */

  /** `Math.Min(width, height)`: the side of the square crop. */
  function SquareSide(width: int, height: int): (r: int)
    ensures r <= width && r <= height
    ensures r == width || r == height
  {
    if width <= height then width else height
  }

  function Orientation(q: Quality): (r: string)
    ensures r == "vertical" || r == "horizontal"
  {
    if q.width < q.height then "vertical" else "horizontal"
  }

  function Mime(c: Container): (r: string)
    ensures r == "video/webm" || r == "video/mp4"
  {
    if c == WebM then "video/webm" else "video/mp4"
  }

  /** The container of the cropped file: WebM when the preferred format
      parses as WebM, else MP4. */
  function CropExtension(preferred: string): (r: string)
    ensures r == "webm" <==> ParseContainer(Some(preferred)) == Some(WebM)
    ensures r == "webm" || r == "mp4"
  {
    if ParseContainer(Some(preferred)) == Some(WebM) then "webm" else "mp4"
  }

  /** `Path.ChangeExtension`: the name up to its extension, and the new
      extension after a '.'. */
  function ChangeExtension(path: string, ext: string): string {
    var name := FileName(path);
    var stem := match LastIndexOf(name, '.')
      case None => path
      case Some(i) => path[..|path| - |name| + i];
    stem + (if |ext| > 0 && ext[0] == '.' then ext else "." + ext)
  }

  lemma FileNameKeepsExtension(stem: string, ext1: string)
    requires Separator !in ext1
    ensures |FileName(stem + "." + ext1)| > |ext1|
  {
    var path := stem + "." + ext1;
    var dot := |stem|;
    assert path[dot] == '.';
  }

  /** A name whose extension is `ext1` has it swapped for `ext2`, which
      gains a '.' unless it starts with one. */
  lemma ChangeExtensionOf(stem: string, ext1: string, ext2: string)
    requires '.' !in ext1 && Separator !in ext1
    ensures ChangeExtension(stem + "." + ext1, ext2) == stem + (if |ext2| > 0 && ext2[0] == '.' then ext2 else "." + ext2)
  {
    var path := stem + "." + ext1;
    var dot := |stem|;
    var name := FileName(path);
    FileNameKeepsExtension(stem, ext1);
    assert forall j :: dot < j < |path| ==> path[j] == ext1[j - dot - 1];
    var at := |name| - |ext1| - 1;
    assert name[at] == '.' by {
      assert name[at] == path[|path| - |name| + at];
    }
    forall j | at < j < |name| ensures name[j] != '.' {
      assert name[j] == path[|path| - |name| + j] == ext1[|path| - |name| + j - dot - 1];
    }
    LastIndexOfIs(name, '.', at);
    assert path[..|path| - |name| + at] == stem;
  }

  lemma LastIndexOfIs(s: string, c: char, at: nat)
    requires at < |s| && s[at] == c
    requires forall j :: at < j < |s| ==> s[j] != c
    ensures LastIndexOf(s, c) == Some(at)
  {
    match LastIndexOf(s, c)
    case None =>
      assert false;
    case Some(i) =>
      if i < at {
        assert false;
      }
  }

  datatype ShortsRequest = ShortsRequest(url: string, format: Option<string>, squareCrop: bool)

  /** A resolved video: its title and its duration in ticks, if known. */
  datatype Video = Video(title: string, duration: Option<int>)

  datatype Reply =
    | Refused(error: string)
    | Delivered(stream: MuxedStream, fileName: string, orientation: string, mime: string, cropped: bool)

  const NoUrlMessage: string := "Please provide a valid YouTube Shorts URL."
  const UnresolvedMessage: string := "Unable to resolve the provided YouTube URL."
  const NoStreamMessage: string := "No downloadable streams were found for this Shorts URL."
  const CropFailedMessage: string := "Square crop failed. Ensure FFmpeg binaries are reachable and try again."

  /** The `X-Download-FileName` of an uncropped download: the cleaned
      title, or "shorts" when it is blank, with the container's extension. */
  function DownloadName(title: string, sanitize: string -> string, container: Container): string {
    var cleaned := sanitize(title);
    (if IsBlank(cleaned) then "shorts" else cleaned) + "." + ContainerName(container)
  }

  /** The URL is given, resolves, and the video passes the duration gate. */
  predicate Admitted(request: ShortsRequest, resolve: string -> Result<Video, string>) {
    && !IsBlank(request.url)
    && resolve(request.url).Ok?
    && DurationGate(resolve(request.url).value.duration).None?
  }

  /** The download endpoint: `resolve` looks the URL up, `manifest` lists
      the muxed streams, `sanitize` cleans the title for a file name, and
      `crop` is whether the square crop succeeded. A stream without a
      quality met by the order by height ends the request with an
      unhandled failure, shown here as `None`. */
  function Download(request: ShortsRequest, resolve: string -> Result<Video, string>, manifest: seq<MuxedStream>,
                    sanitize: string -> string, crop: bool): (r: Option<Reply>)
    ensures IsBlank(request.url) ==> r == Some(Refused(NoUrlMessage))
    ensures r.Some? && r.value.Delivered? ==>
      var v := resolve(request.url);
      && !IsBlank(request.url) && v.Ok?
      && DurationGate(v.value.duration).None?
      && Select(manifest, request.format) == Selected(r.value.stream)
      && r.value.stream.quality.Some?
      && (r.value.orientation == "vertical" <==> IsVertical(r.value.stream))
      && (r.value.mime == "video/webm" <==> r.value.stream.container == WebM)
      && r.value.cropped == request.squareCrop
    ensures r.None? <==> (!IsBlank(request.url) && resolve(request.url).Ok?
      && DurationGate(resolve(request.url).value.duration).None?
      && Select(manifest, request.format).MissingQuality?)
    ensures !IsBlank(request.url) && resolve(request.url).Err? ==> r == Some(Refused(UnresolvedMessage))
    ensures !IsBlank(request.url) && resolve(request.url).Ok? && DurationGate(resolve(request.url).value.duration).Some?
      ==> r == Some(Refused(TooLongMessage))
    ensures Admitted(request, resolve) && Select(manifest, request.format).NoStreams? ==> r == Some(Refused(NoStreamMessage))
    ensures Admitted(request, resolve) && Select(manifest, request.format).Selected? && request.squareCrop && !crop
      ==> r == Some(Refused(CropFailedMessage))
    ensures Admitted(request, resolve) && Select(manifest, request.format).Selected? && (!request.squareCrop || crop) ==>
      var s := Select(manifest, request.format).stream;
      var name := DownloadName(resolve(request.url).value.title, sanitize, s.container);
      && r.Some? && r.value.Delivered? && r.value.stream == s
      && r.value.fileName == (if request.squareCrop
        then ChangeExtension(name, request.format.GetOr(ContainerName(s.container)))
        else name)
  {
    if IsBlank(request.url) then Some(Refused(NoUrlMessage))
    else
      match resolve(request.url)
      case Err(_) => Some(Refused(UnresolvedMessage))
      case Ok(video) =>
        match DurationGate(video.duration)
        case Some(e) => Some(Refused(e))
        case None =>
          match Select(manifest, request.format)
          case NoStreams => Some(Refused(NoStreamMessage))
          case MissingQuality => None
          case Selected(s) =>
            SelectedHasQuality(manifest, request.format);
            var extension := ContainerName(s.container);
            var cleaned := sanitize(video.title);
            var downloadName := if IsBlank(cleaned) then "shorts." + extension else cleaned + "." + extension;
            assert downloadName == DownloadName(video.title, sanitize, s.container);
            if request.squareCrop && !crop then Some(Refused(CropFailedMessage))
            else
              var fileName := if request.squareCrop
                then ChangeExtension(downloadName, if request.format.Some? then request.format.value else extension)
                else downloadName;
              Some(Delivered(s, fileName, Orientation(s.quality.value), Mime(s.container), request.squareCrop))
  }

  /** A selected stream always has a quality: it is vertical, or every
      stream of its pool has one. */
  lemma SelectedHasQuality(muxed: seq<MuxedStream>, format: Option<string>)
    ensures Select(muxed, format).Selected? ==> Select(muxed, format).stream.quality.Some?
  {
    var pool := ContainerFiltered(muxed, ParseContainer(format));
    if Select(muxed, format).Selected? && |Verticals(pool)| == 0 {
      var s := Best(pool);
      var i :| 0 <= i < |pool| && pool[i] == s;
    }
  }
}

=== FILE: sku.dfy ===
/** The product-SKU extractor: every cell of every sheet of every uploaded
    workbook is matched against the SKU patterns, each trimmed match is kept
    when it passes the length and prefix options, and a `(sku|file)`
    signature set, compared ignoring case, lets only the first sighting of a
    SKU in a file through. The spreadsheet reader and the regular
    expressions are inputs: a workbook arrives as its cell texts and each
    pattern as a function from a cell's text to the texts it matches. */
module SkuExtractor {
  import opened Wrappers
  import opened Strings
  import opened Numbers
  import opened Collections

  /** The `prefix`, `minLength` and `maxLength` form fields once read. */
  datatype SkuOptions = SkuOptions(prefix: Option<string>, minLength: Option<int>, maxLength: Option<int>)

  /** A worksheet: its name and its rows of cells; a cell is absent (`null`)
      or holds the text its value prints as. */
  datatype Sheet = Sheet(name: string, rows: seq<seq<Option<string>>>)

  /** An uploaded workbook: its file name and its sheets in order. */
  datatype Workbook = Workbook(fileName: string, sheets: seq<Sheet>)

  /** One reported SKU, with 1-based row and column. */
  datatype SkuResult = SkuResult(sku: string, fileName: string, sheet: string, row: int, column: int)

  /** A compiled pattern: the texts of its successive matches in a cell. */
  type Matcher = string -> seq<string>

  /** The options from the raw form fields: the prefix is trimmed, and a
      length is kept only when `int.TryParse` accepts it. */
  function ReadOptions(prefix: Option<string>, minLength: Option<string>, maxLength: Option<string>): (o: SkuOptions)
    ensures o.prefix.Some? <==> prefix.Some?
    ensures o.prefix.Some? ==> IsTrimmed(o.prefix.value) && o.prefix.value == Trim(prefix.value)
    ensures o.minLength.Some? <==> minLength.Some? && ParseInt32(minLength.value).Some?
    ensures o.minLength.Some? ==> o.minLength == ParseInt32(minLength.value)
    ensures o.maxLength.Some? <==> maxLength.Some? && ParseInt32(maxLength.value).Some?
    ensures o.maxLength.Some? ==> o.maxLength == ParseInt32(maxLength.value)
  {
    SkuOptions(
      if prefix.Some? then Some(Trim(prefix.value)) else None,
      if minLength.Some? then ParseInt32(minLength.value) else None,
      if maxLength.Some? then ParseInt32(maxLength.value) else None)
  }

  predicate IsAlphanumeric(c: char) {
    IsAsciiLetter(c) || IsAsciiDigit(c)
  }

  /** The candidate with every character outside `[A-Za-z0-9]` removed. */
  function Sanitized(candidate: string): (r: string)
    ensures forall i :: 0 <= i < |r| ==> IsAlphanumeric(r[i])
  {
    FilterChars(candidate, IsAlphanumeric)
  }

  /** The number of ASCII letters and digits in `s`, counted from its end. */
  function AlphanumericCount(s: string): nat
    decreases |s|
  {
    if |s| == 0 then 0
    else AlphanumericCount(s[..|s| - 1]) + (if IsAlphanumeric(s[|s| - 1]) then 1 else 0)
  }

  /** The sanitised text is as long as the count of letters and digits. */
  lemma {:induction false} SanitizedLength(s: string)
    ensures |Sanitized(s)| == AlphanumericCount(s)
    decreases |s|
  {
    if |s| > 0 {
      var front, last := s[..|s| - 1], s[|s| - 1];
      assert s == front + [last];
      FilterCharsAppend(front, [last], IsAlphanumeric);
      assert [last][1..] == "";
      SanitizedLength(front);
    }
  }

  /** `IsValidSku`: the checks in the order the code makes them. */
  function IsValidSku(candidate: string, o: SkuOptions): (r: bool)
    ensures o.prefix.None? && o.minLength.None? && o.maxLength.None? ==> r
  {
    var sanitized := Sanitized(candidate);
    if o.minLength.Some? && |sanitized| < o.minLength.value then false
    else if o.maxLength.Some? && |sanitized| > o.maxLength.value then false
    else if o.prefix.Some? && !IsBlank(o.prefix.value)
      && !StartsWith(candidate, o.prefix.value, OrdinalIgnoreCase) then false
    else true
  }

  predicate LongEnough(candidate: string, minLength: Option<int>) {
    minLength.None? || AlphanumericCount(candidate) >= minLength.value
  }

  predicate ShortEnough(candidate: string, maxLength: Option<int>) {
    maxLength.None? || AlphanumericCount(candidate) <= maxLength.value
  }

  /** A blank prefix asks for nothing; otherwise the unsanitised candidate
      must start with it, ignoring case. */
  predicate HasPrefix(candidate: string, prefix: Option<string>) {
    prefix.None? || IsBlank(prefix.value) || StartsWith(candidate, prefix.value, OrdinalIgnoreCase)
  }

  /** A candidate is valid exactly when it passes all three checks. */
  lemma IsValidSkuSpec(candidate: string, o: SkuOptions)
    ensures IsValidSku(candidate, o) <==>
      LongEnough(candidate, o.minLength) && ShortEnough(candidate, o.maxLength) && HasPrefix(candidate, o.prefix)
  {
    SanitizedLength(candidate);
  }

  /* ------------------------------------------------------------ scanning */

  /** The trimmed matches of every pattern in turn. */
  function Candidates(patterns: seq<Matcher>, cell: string): (r: seq<string>)
    ensures forall i :: 0 <= i < |r| ==> IsTrimmed(r[i])
  {
    MapSeq(Flatten(MapSeq(patterns, (p: Matcher) => p(cell))), Trim)
  }

  /** The valid candidates of one cell, as results at the given place. */
  function Accepted(cands: seq<string>, o: SkuOptions, file: string, sheet: string, row: int, column: int): (r: seq<SkuResult>)
    ensures forall h :: h in r ==>
      (h.sku in cands && IsValidSku(h.sku, o)
       && h.fileName == file && h.sheet == sheet && h.row == row && h.column == column)
    decreases |cands|
  {
    if |cands| == 0 then []
    else
      var rest := Accepted(cands[1..], o, file, sheet, row, column);
      if IsValidSku(cands[0], o) then [SkuResult(cands[0], file, sheet, row, column)] + rest else rest
  }

  /** The results of the cell in row `r`, column `c` (both 0-based). */
  function CellHits(patterns: seq<Matcher>, o: SkuOptions, w: Workbook, s: nat, r: nat, c: nat): seq<SkuResult>
    requires s < |w.sheets| && r < |w.sheets[s].rows| && c < |w.sheets[s].rows[r]|
  {
    var cell := w.sheets[s].rows[r][c];
    if cell.None? || IsBlank(cell.value) then []
    else Accepted(Candidates(patterns, cell.value), o, w.fileName, w.sheets[s].name, r + 1, c + 1)
  }

  function RowHits(patterns: seq<Matcher>, o: SkuOptions, w: Workbook, s: nat, r: nat): seq<SkuResult>
    requires s < |w.sheets| && r < |w.sheets[s].rows|
  {
    var width := |w.sheets[s].rows[r]|;
    Flatten(seq(width, c requires 0 <= c < width => CellHits(patterns, o, w, s, r, c)))
  }

  function SheetHits(patterns: seq<Matcher>, o: SkuOptions, w: Workbook, s: nat): seq<SkuResult>
    requires s < |w.sheets|
  {
    var height := |w.sheets[s].rows|;
    Flatten(seq(height, r requires 0 <= r < height => RowHits(patterns, o, w, s, r)))
  }

  function WorkbookHits(patterns: seq<Matcher>, o: SkuOptions, w: Workbook): seq<SkuResult> {
    Flatten(seq(|w.sheets|, s requires 0 <= s < |w.sheets| => SheetHits(patterns, o, w, s)))
  }

  /** Every accepted candidate of every file, in scanning order, before the
      duplicates are dropped. */
  function AllHits(patterns: seq<Matcher>, o: SkuOptions, files: seq<Workbook>): seq<SkuResult> {
    Flatten(seq(|files|, f requires 0 <= f < |files| => WorkbookHits(patterns, o, files[f])))
  }

  /** `h` is a valid, trimmed match of a non-blank cell: file `f`, sheet
      `s`, 0-based row `r` and column `c`, reported 1-based. */
  predicate FoundAt(patterns: seq<Matcher>, o: SkuOptions, files: seq<Workbook>, f: int, s: int, r: int, c: int, h: SkuResult) {
    && 0 <= f < |files| && 0 <= s < |files[f].sheets|
    && 0 <= r < |files[f].sheets[s].rows| && 0 <= c < |files[f].sheets[s].rows[r]|
    && var cell := files[f].sheets[s].rows[r][c];
    && cell.Some? && !IsBlank(cell.value)
    && h.sku in Candidates(patterns, cell.value) && IsValidSku(h.sku, o)
    && h.fileName == files[f].fileName && h.sheet == files[f].sheets[s].name
    && h.row == r + 1 && h.column == c + 1
  }

  lemma RowHitsFrom(patterns: seq<Matcher>, o: SkuOptions, files: seq<Workbook>, f: nat, s: nat, r: nat, h: SkuResult)
    requires f < |files| && s < |files[f].sheets| && r < |files[f].sheets[s].rows|
    requires h in RowHits(patterns, o, files[f], s, r)
    ensures exists c :: FoundAt(patterns, o, files, f, s, r, c, h)
  {
    var w := files[f];
    var width := |w.sheets[s].rows[r]|;
    var cells := seq(width, c requires 0 <= c < width => CellHits(patterns, o, w, s, r, c));
    FlattenMembers(cells, h);
    var c :| 0 <= c < width && h in cells[c];
    assert FoundAt(patterns, o, files, f, s, r, c, h);
  }

  lemma SheetHitsFrom(patterns: seq<Matcher>, o: SkuOptions, files: seq<Workbook>, f: nat, s: nat, h: SkuResult)
    requires f < |files| && s < |files[f].sheets|
    requires h in SheetHits(patterns, o, files[f], s)
    ensures exists r, c :: FoundAt(patterns, o, files, f, s, r, c, h)
  {
    var w := files[f];
    var height := |w.sheets[s].rows|;
    var rows := seq(height, r requires 0 <= r < height => RowHits(patterns, o, w, s, r));
    FlattenMembers(rows, h);
    var r :| 0 <= r < height && h in rows[r];
    RowHitsFrom(patterns, o, files, f, s, r, h);
  }

  /** Every hit comes from a non-blank cell, is a trimmed match of one of
      the patterns there, passes `IsValidSku`, and carries the file name,
      sheet name and 1-based position of that cell. */
  lemma {:induction false} HitsFrom(patterns: seq<Matcher>, o: SkuOptions, files: seq<Workbook>, h: SkuResult)
    requires h in AllHits(patterns, o, files)
    ensures exists f, s, r, c :: FoundAt(patterns, o, files, f, s, r, c, h)
  {
    var books := seq(|files|, f requires 0 <= f < |files| => WorkbookHits(patterns, o, files[f]));
    FlattenMembers(books, h);
    var f :| 0 <= f < |files| && h in books[f];
    var w := files[f];
    var sheets := seq(|w.sheets|, s requires 0 <= s < |w.sheets| => SheetHits(patterns, o, w, s));
    FlattenMembers(sheets, h);
    var s :| 0 <= s < |w.sheets| && h in sheets[s];
    SheetHitsFrom(patterns, o, files, f, s, h);
  }

  /* ---------------------------------------------------------- signatures */

  /** The `$"{candidate}|{file.FileName}"` entry of the ordinal-ignore-case
      set, in the upper-cased form the comparer compares. */
  function Signature(h: SkuResult): string {
    Upper(h.sku + "|" + h.fileName)
  }

  /** Two hits with the same SKU and file name, up to case, share a
      signature; when the SKUs hold no '|', sharing a signature means
      exactly that. */
  lemma SignatureSpec(a: SkuResult, b: SkuResult)
    ensures EqualsIgnoreCase(a.sku, b.sku) && EqualsIgnoreCase(a.fileName, b.fileName) ==> Signature(a) == Signature(b)
    ensures '|' !in a.sku && '|' !in b.sku && Signature(a) == Signature(b) ==>
      EqualsIgnoreCase(a.sku, b.sku) && EqualsIgnoreCase(a.fileName, b.fileName)
  {
    UpperAppend(a.sku + "|", a.fileName);
    UpperAppend(a.sku, "|");
    UpperAppend(b.sku + "|", b.fileName);
    UpperAppend(b.sku, "|");
    assert Upper("|") == "|";
    if '|' !in a.sku && '|' !in b.sku && Signature(a) == Signature(b) {
      UpperKeepsBar(a.sku);
      UpperKeepsBar(b.sku);
      BarSplit(Upper(a.sku), Upper(a.fileName), Upper(b.sku), Upper(b.fileName));
    }
  }

  lemma UpperKeepsBar(s: string)
    requires '|' !in s
    ensures '|' !in Upper(s)
  {
    forall i | 0 <= i < |s| ensures Upper(s)[i] != '|' {
      assert s[i] != '|';
    }
  }

  /** A text cut at its first '|' has one way to be cut there. */
  lemma BarSplit(x: string, y: string, x': string, y': string)
    requires '|' !in x && '|' !in x'
    requires x + "|" + y == x' + "|" + y'
    ensures x == x' && y == y'
  {
    var t := x + "|" + y;
    BarAt(x, y);
    BarAt(x', y');
    assert x == t[..|x|] == x';
    assert y == t[|x| + 1..] == y';
  }

  lemma BarAt(x: string, y: string)
    requires '|' !in x
    ensures IndexOfChar(x + "|" + y, '|') == |x|
  {
    var t := x + "|" + y;
    var i := IndexOfChar(t, '|');
    assert t[|x|] == '|';
    assert forall j :: 0 <= j < i ==> t[..i][j] == t[j];
    assert forall j :: 0 <= j < |x| ==> t[j] == x[j];
  }

  /* ------------------------------------------------------------- handler */

  /** The scan endpoint once the form has been read: no files is a bad
      request; otherwise the hits of all files with each signature kept
      the first time it is seen. */
  function ExtractSkus(files: seq<Workbook>, patterns: seq<Matcher>,
                       prefix: Option<string>, minLength: Option<string>, maxLength: Option<string>): (r: Result<seq<SkuResult>, string>)
    ensures r.Err? <==> |files| == 0
    ensures r.Err? ==> r.error == "No files were uploaded."
    ensures r.Ok? ==> var hits := AllHits(patterns, ReadOptions(prefix, minLength, maxLength), files);
      && IsSubsequence(r.value, hits)
      && (forall i, j :: 0 <= i < j < |r.value| ==> Signature(r.value[i]) != Signature(r.value[j]))
      && (forall i :: 0 <= i < |r.value| ==> FirstWithKey(hits, Signature, Signature(r.value[i])) == Some(r.value[i]))
      && KeysOf(r.value, Signature) == KeysOf(hits, Signature)
  {
    if |files| == 0 then Err("No files were uploaded.")
    else Ok(Dedupe(AllHits(patterns, ReadOptions(prefix, minLength, maxLength), files), Signature))
  }

  /** No two reported SKUs agree, ignoring case, in both SKU and file
      name. */
  lemma ExtractSkusDistinct(files: seq<Workbook>, patterns: seq<Matcher>,
                            prefix: Option<string>, minLength: Option<string>, maxLength: Option<string>, i: nat, j: nat)
    requires ExtractSkus(files, patterns, prefix, minLength, maxLength).Ok?
    requires var rs := ExtractSkus(files, patterns, prefix, minLength, maxLength).value; i < j < |rs|
    ensures var rs := ExtractSkus(files, patterns, prefix, minLength, maxLength).value;
      !(EqualsIgnoreCase(rs[i].sku, rs[j].sku) && EqualsIgnoreCase(rs[i].fileName, rs[j].fileName))
  {
    var rs := ExtractSkus(files, patterns, prefix, minLength, maxLength).value;
    SignatureSpec(rs[i], rs[j]);
  }

  /** Each reported SKU is the earliest hit with its signature, so the
      sheet, row and column of its first sighting are the ones reported;
      and it was found where it says. */
  lemma ExtractSkusFirst(files: seq<Workbook>, patterns: seq<Matcher>,
                         prefix: Option<string>, minLength: Option<string>, maxLength: Option<string>, i: nat)
    requires ExtractSkus(files, patterns, prefix, minLength, maxLength).Ok?
    requires i < |ExtractSkus(files, patterns, prefix, minLength, maxLength).value|
    ensures var o := ReadOptions(prefix, minLength, maxLength);
      var hits := AllHits(patterns, o, files);
      var h := ExtractSkus(files, patterns, prefix, minLength, maxLength).value[i];
      && (exists k :: IsFirstWithKey(hits, Signature, k) && hits[k] == h)
      && (exists f, s, r, c :: FoundAt(patterns, o, files, f, s, r, c, h))
  {
    var o := ReadOptions(prefix, minLength, maxLength);
    var hits := AllHits(patterns, o, files);
    var rs := ExtractSkus(files, patterns, prefix, minLength, maxLength).value;
    FirstWithKeyIndex(hits, Signature, Signature(rs[i]));
    SubsequenceIn(rs, hits, i);
    HitsFrom(patterns, o, files, rs[i]);
  }
}

=== FILE: sorting.dfy ===
/** LINQ's `OrderBy(...).ThenBy(...)`: a stable sort under a total preorder,
    and the orders the utilities sort by (ordinal and ordinal-ignore-case
    string order, numbers, descending, lexicographic combination). */
module Sorting {
  import opened Strings

  /** A comparer usable by a sort: total and transitive. Ties (both `le(a, b)`
      and `le(b, a)`) are allowed between distinct values. */
  ghost predicate TotalPreorder<T(!new)>(le: (T, T) -> bool) {
    && (forall a, b :: le(a, b) || le(b, a))
    && (forall a, b, c :: le(a, b) && le(b, c) ==> le(a, c))
  }

  predicate SortedBy<T>(s: seq<T>, le: (T, T) -> bool) {
    forall i, j :: 0 <= i < j < |s| ==> le(s[i], s[j])
  }

  /** Neither value precedes the other. */
  predicate Tied<T>(le: (T, T) -> bool, a: T, b: T) {
    le(a, b) && le(b, a)
  }

  /** The elements of `s` tied with `e`, in their order in `s`. */
  function TiesOf<T>(s: seq<T>, e: T, le: (T, T) -> bool): seq<T>
    decreases |s|
  {
    if |s| == 0 then []
    else (if Tied(le, s[0], e) then [s[0]] else []) + TiesOf(s[1..], e, le)
  }

  /** Puts `x` in front of the first element it does not follow. */
  function Insert<T>(x: T, s: seq<T>, le: (T, T) -> bool): (r: seq<T>)
    ensures multiset(r) == multiset(s) + multiset{x}
    ensures |r| == |s| + 1
    decreases |s|
  {
    if |s| == 0 || le(x, s[0]) then [x] + s
    else
      assert s == [s[0]] + s[1..];
      [s[0]] + Insert(x, s[1..], le)
  }

  /** Stable insertion sort: each element is inserted ahead of the already
      sorted later elements it ties with, so ties keep their input order. */
  function SortBy<T>(s: seq<T>, le: (T, T) -> bool): (r: seq<T>)
    ensures multiset(r) == multiset(s)
    ensures |r| == |s|
    decreases |s|
  {
    if |s| == 0 then []
    else
      assert s == [s[0]] + s[1..];
      Insert(s[0], SortBy(s[1..], le), le)
  }

  lemma {:induction false} InsertSorted<T(!new)>(x: T, s: seq<T>, le: (T, T) -> bool)
    requires TotalPreorder(le)
    requires SortedBy(s, le)
    ensures SortedBy(Insert(x, s, le), le)
    decreases |s|
  {
    if |s| > 0 && !le(x, s[0]) {
      InsertSorted(x, s[1..], le);
      var r := Insert(x, s, le);
      var tail := Insert(x, s[1..], le);
      assert r == [s[0]] + tail;
      assert forall k :: 0 <= k < |tail| ==> le(s[0], tail[k]) by {
        forall k | 0 <= k < |tail| ensures le(s[0], tail[k]) {
          assert tail[k] in multiset(tail);
          assert tail[k] in multiset(s[1..]) + multiset{x};
          if tail[k] != x {
            assert tail[k] in s[1..];
          }
        }
      }
    }
  }

  /** The sort yields an ordered permutation of its input. */
  lemma {:induction false} SortSorted<T(!new)>(s: seq<T>, le: (T, T) -> bool)
    requires TotalPreorder(le)
    ensures SortedBy(SortBy(s, le), le)
    ensures multiset(SortBy(s, le)) == multiset(s)
    decreases |s|
  {
    if |s| > 0 {
      SortSorted(s[1..], le);
      InsertSorted(s[0], SortBy(s[1..], le), le);
    }
  }

  lemma {:induction false} TiesAppend<T>(a: seq<T>, b: seq<T>, e: T, le: (T, T) -> bool)
    ensures TiesOf(a + b, e, le) == TiesOf(a, e, le) + TiesOf(b, e, le)
    decreases |a|
  {
    if |a| == 0 {
      assert a + b == b;
    } else {
      assert (a + b)[0] == a[0];
      assert (a + b)[1..] == a[1..] + b;
      TiesAppend(a[1..], b, e, le);
    }
  }

  function TieHead<T>(x: T, e: T, le: (T, T) -> bool): seq<T> {
    if Tied(le, x, e) then [x] else []
  }

  lemma {:induction false} InsertTies<T(!new)>(x: T, s: seq<T>, e: T, le: (T, T) -> bool)
    requires TotalPreorder(le)
    ensures TiesOf(Insert(x, s, le), e, le) == TieHead(x, e, le) + TiesOf(s, e, le)
  {
    InsertTiesFrom(x, s, e, le);
  }

  /** `x` does not move past an element tied with `e` when `x` itself is. */
  lemma {:induction false} InsertTiesFrom<T>(x: T, s: seq<T>, e: T, le: (T, T) -> bool)
    requires forall y :: Tied(le, x, e) && Tied(le, y, e) ==> le(x, y)
    ensures TiesOf(Insert(x, s, le), e, le) == TieHead(x, e, le) + TiesOf(s, e, le)
    decreases |s|
  {
    if |s| == 0 || le(x, s[0]) {
      TiesCons([x] + s, e, le);
      assert ([x] + s)[1..] == s;
    } else {
      var s0 := s[0];
      InsertTiesFrom(x, s[1..], e, le);
      var rest := Insert(x, s[1..], le);
      TiesCons([s0] + rest, e, le);
      assert ([s0] + rest)[1..] == rest;
      TiesCons(s, e, le);
      TiesSwap(TieHead(x, e, le), TieHead(s0, e, le), TiesOf(s[1..], e, le));
    }
  }

  lemma TiesCons<T>(s: seq<T>, e: T, le: (T, T) -> bool)
    requires |s| > 0
    ensures TiesOf(s, e, le) == TieHead(s[0], e, le) + TiesOf(s[1..], e, le)
  {
  }

  lemma TiesSwap<T>(a: seq<T>, b: seq<T>, c: seq<T>)
    requires |a| == 0 || |b| == 0
    ensures b + (a + c) == a + (b + c)
  {
  }

  /** Stability: for every value `e`, the elements tied with `e` come out of
      the sort in the order they went in. */
  lemma {:induction false} SortStable<T(!new)>(s: seq<T>, e: T, le: (T, T) -> bool)
    requires TotalPreorder(le)
    ensures TiesOf(SortBy(s, le), e, le) == TiesOf(s, e, le)
    decreases |s|
  {
    if |s| > 0 {
      SortStable(s[1..], e, le);
      InsertTies(s[0], SortBy(s[1..], le), e, le);
    }
  }

  /* ------------------------------------------------------------ comparers */

  /** `OrderBy(first).ThenBy(second)`: `second` decides only the ties of
      `first`. */
  function ThenBy<T>(first: (T, T) -> bool, second: (T, T) -> bool): (T, T) -> bool {
    (a: T, b: T) => (first(a, b) && !first(b, a)) || (first(a, b) && first(b, a) && second(a, b))
  }

  /** Compare by a key. */
  function By<T, K>(key: T -> K, le: (K, K) -> bool): (T, T) -> bool {
    (a: T, b: T) => le(key(a), key(b))
  }

  /** `OrderByDescending`. */
  function Descending<T>(le: (T, T) -> bool): (T, T) -> bool {
    (a: T, b: T) => le(b, a)
  }

  lemma ThenByPreorder<T(!new)>(first: (T, T) -> bool, second: (T, T) -> bool)
    requires TotalPreorder(first) && TotalPreorder(second)
    ensures TotalPreorder(ThenBy(first, second))
  {
  }

  lemma ByPreorder<T(!new), K(!new)>(key: T -> K, le: (K, K) -> bool)
    requires TotalPreorder(le)
    ensures TotalPreorder(By(key, le))
  {
  }

  lemma DescendingPreorder<T(!new)>(le: (T, T) -> bool)
    requires TotalPreorder(le)
    ensures TotalPreorder(Descending(le))
  {
  }

  /** Integers in ascending order. */
  function IntLe(): (int, int) -> bool {
    (a: int, b: int) => a <= b
  }

  lemma IntLePreorder()
    ensures TotalPreorder(IntLe())
  {
  }

  /** `StringComparer.Ordinal`: lexicographic by character code, a proper
      prefix first. */
  predicate OrdinalLe(a: string, b: string)
    decreases |a|
  {
    |a| == 0 || (|b| > 0 && (a[0] < b[0] || (a[0] == b[0] && OrdinalLe(a[1..], b[1..]))))
  }

  lemma {:induction false} OrdinalLeTotal(a: string, b: string)
    ensures OrdinalLe(a, b) || OrdinalLe(b, a)
    decreases |a|
  {
    if |a| > 0 && |b| > 0 && a[0] == b[0] {
      OrdinalLeTotal(a[1..], b[1..]);
    }
  }

  lemma {:induction false} OrdinalLeTransitive(a: string, b: string, c: string)
    requires OrdinalLe(a, b) && OrdinalLe(b, c)
    ensures OrdinalLe(a, c)
    decreases |a|
  {
    if |a| > 0 && a[0] == b[0] && b[0] == c[0] {
      OrdinalLeTransitive(a[1..], b[1..], c[1..]);
    }
  }

  /** Two strings each ordinal-before the other are equal. */
  lemma {:induction false} OrdinalLeAntisymmetric(a: string, b: string)
    requires OrdinalLe(a, b) && OrdinalLe(b, a)
    ensures a == b
    decreases |a|
  {
    if |a| > 0 {
      OrdinalLeAntisymmetric(a[1..], b[1..]);
      assert a == [a[0]] + a[1..] && b == [b[0]] + b[1..];
    }
  }

  lemma OrdinalPreorder()
    ensures TotalPreorder((a: string, b: string) => OrdinalLe(a, b))
  {
    forall a: string, b: string ensures OrdinalLe(a, b) || OrdinalLe(b, a) {
      OrdinalLeTotal(a, b);
    }
    forall a: string, b: string, c: string | OrdinalLe(a, b) && OrdinalLe(b, c)
      ensures OrdinalLe(a, c)
    {
      OrdinalLeTransitive(a, b, c);
    }
  }

  /** `StringComparer.OrdinalIgnoreCase`: ordinal order of the upper-cased
      forms. */
  function IgnoreCaseLe(): (string, string) -> bool {
    (a: string, b: string) => OrdinalLe(Upper(a), Upper(b))
  }

  lemma IgnoreCasePreorder()
    ensures TotalPreorder(IgnoreCaseLe())
  {
    OrdinalPreorder();
    ByPreorder(Upper, (a: string, b: string) => OrdinalLe(a, b));
    assert forall a, b :: IgnoreCaseLe()(a, b) == By(Upper, (x: string, y: string) => OrdinalLe(x, y))(a, b);
  }
}

=== FILE: strings.dfy ===
/** Text primitives of the .NET base library that the utilities lean on:
    white-space classification, trimming, ordinal and ordinal-ignore-case
    comparison (ASCII case mapping), left-to-right replacement, and
    splitting/joining on a separator. */
module Strings {

  /** The characters for which .NET's `char.IsWhiteSpace` holds; the same set
      is matched by the regular-expression class `\s`. */
  const WhiteSpace: set<char> := {
    '\t', '\n', '\U{000B}', '\U{000C}', '\r', ' ', '\U{0085}', '\U{00A0}',
    '\U{1680}', '\U{2000}', '\U{2001}', '\U{2002}', '\U{2003}', '\U{2004}',
    '\U{2005}', '\U{2006}', '\U{2007}', '\U{2008}', '\U{2009}', '\U{200A}',
    '\U{2028}', '\U{2029}', '\U{202F}', '\U{205F}', '\U{3000}'
  }

  predicate IsWhiteSpace(c: char) {
    c in WhiteSpace
  }

  /** `string.IsNullOrWhiteSpace` for a non-null string. */
  predicate IsBlank(s: string) {
    AllIn(s, WhiteSpace)
  }

  predicate IsAsciiDigit(c: char) {
    '0' <= c <= '9'
  }

  predicate IsAsciiLetter(c: char) {
    'A' <= c <= 'Z' || 'a' <= c <= 'z'
  }

  /* ---------------------------------------------------------------- trimming */

  /** `TrimStart(chars)`: drops the longest prefix made of characters in `cs`. */
  function TrimStartWith(s: string, cs: set<char>): (r: string)
    ensures |r| <= |s| && r == s[|s| - |r|..]
    ensures |r| > 0 ==> r[0] !in cs
    ensures forall i :: 0 <= i < |s| - |r| ==> s[i] in cs
    decreases |s|
  {
    if |s| > 0 && s[0] in cs then TrimStartWith(s[1..], cs) else s
  }

  /** `TrimEnd(chars)`: drops the longest suffix made of characters in `cs`. */
  function TrimEndWith(s: string, cs: set<char>): (r: string)
    ensures |r| <= |s| && r == s[..|r|]
    ensures |r| > 0 ==> r[|r| - 1] !in cs
    ensures forall i :: |r| <= i < |s| ==> s[i] in cs
    decreases |s|
  {
    if |s| > 0 && s[|s| - 1] in cs then TrimEndWith(s[..|s| - 1], cs) else s
  }

  /** `r` is the slice of `s` from `a` on, with only characters of `cs`
      before and after it. */
  predicate CoreOf(s: string, cs: set<char>, a: nat, r: string) {
    && a + |r| <= |s| && r == s[a..a + |r|]
    && AllIn(s[..a], cs) && AllIn(s[a + |r|..], cs)
  }

  /** `Trim(chars)`: both ends. What is left is a contiguous slice of `s`,
      framed by characters outside `cs`, with only characters of `cs` cut off
      around it; it is empty exactly when every character is in `cs`. */
  function TrimWith(s: string, cs: set<char>): (r: string)
    ensures CoreOf(s, cs, TrimStartCount(s, cs), r)
    ensures |r| > 0 ==> r[0] !in cs && r[|r| - 1] !in cs
    ensures r == "" <==> AllIn(s, cs)
  {
    var r := TrimEndWith(TrimStartWith(s, cs), cs);
    TrimWithSpec(s, cs, r);
    r
  }

  lemma TrimWithSpec(s: string, cs: set<char>, r: string)
    requires r == TrimEndWith(TrimStartWith(s, cs), cs)
    ensures CoreOf(s, cs, TrimStartCount(s, cs), r)
    ensures |r| > 0 ==> r[0] !in cs && r[|r| - 1] !in cs
    ensures r == "" <==> AllIn(s, cs)
  {
    var front := TrimStartWith(s, cs);
    TrimPieces(s, cs, front, TrimStartCount(s, cs), r);
  }

  /** The slice arithmetic behind `TrimWith`: `front` is `s` after its first
      `a` characters, all in `cs`, and `r` is `front` before a tail made of
      characters in `cs`. */
  lemma TrimPieces(s: string, cs: set<char>, front: string, a: nat, r: string)
    requires a + |front| == |s| && front == s[a..]
    requires forall i :: 0 <= i < a ==> s[i] in cs
    requires |front| > 0 ==> front[0] !in cs
    requires |r| <= |front| && r == front[..|r|]
    requires |r| > 0 ==> r[|r| - 1] !in cs
    requires forall i :: |r| <= i < |front| ==> front[i] in cs
    ensures a + |r| <= |s| && r == s[a..a + |r|]
    ensures AllIn(s[..a], cs) && AllIn(s[a + |r|..], cs)
    ensures |r| > 0 ==> r[0] !in cs && r[|r| - 1] !in cs
    ensures r == "" <==> AllIn(s, cs)
  {
    forall i | 0 <= i < a ensures s[..a][i] in cs {
      assert s[..a][i] == s[i];
    }
    var tail := s[a + |r|..];
    forall i | 0 <= i < |tail| ensures tail[i] in cs {
      assert tail[i] == front[|r| + i];
    }
    assert |r| == 0 ==> |front| == 0;
    if r == "" {
      assert a == |s|;
    } else {
      assert r[0] == front[0];
      assert s[a + |r| - 1] == r[|r| - 1];
    }
  }

  /** A text that neither starts nor ends with a character of `cs` is left
      alone by `TrimWith`. */
  lemma TrimWithNone(s: string, cs: set<char>)
    requires |s| > 0 ==> s[0] !in cs && s[|s| - 1] !in cs
    ensures TrimWith(s, cs) == s
  {
    assert TrimStartWith(s, cs) == s;
    assert TrimEndWith(s, cs) == s;
  }

  /** No white space at either end. */
  predicate IsTrimmed(s: string) {
    |s| > 0 ==> s[0] !in WhiteSpace && s[|s| - 1] !in WhiteSpace
  }

  /** `string.Trim()`: the white-space-free core of `s`, a contiguous slice of
      it that is empty exactly when `s` is blank. */
  function Trim(s: string): (r: string)
    ensures IsTrimmed(r)
    ensures r == "" <==> IsBlank(s)
    ensures CoreOf(s, WhiteSpace, TrimStartCount(s, WhiteSpace), r)
  {
    TrimWith(s, WhiteSpace)
  }

  /** The trimmed core is the slice of `s` from `a` to `e`. */
  lemma TrimSlice(s: string) returns (a: nat, e: nat)
    ensures a <= e <= |s| && Trim(s) == s[a..e]
  {
    var r := Trim(s);
    a := TrimStartCount(s, WhiteSpace);
    assert CoreOf(s, WhiteSpace, a, r);
    e := a + |r|;
  }

  /** Where the trimmed core sits: white space only before `a` and from `e`
      on. */
  lemma TrimBounds(s: string) returns (a: nat, e: nat)
    ensures a <= e <= |s| && Trim(s) == s[a..e]
    ensures forall p :: 0 <= p < a ==> IsWhiteSpace(s[p])
    ensures forall p :: e <= p < |s| ==> IsWhiteSpace(s[p])
  {
    a := TrimStartCount(s, WhiteSpace);
    e := a + |Trim(s)|;
    forall p | 0 <= p < a ensures IsWhiteSpace(s[p]) {
      assert s[..a][p] == s[p];
    }
    forall p | e <= p < |s| ensures IsWhiteSpace(s[p]) {
      assert s[e..][p - e] == s[p];
    }
  }

  /** Every character of `s` lies in `cs`. */
  predicate AllIn(s: string, cs: set<char>) {
    forall i :: 0 <= i < |s| ==> s[i] in cs
  }

  /** Number of characters `TrimStartWith` removes. */
  function TrimStartCount(s: string, cs: set<char>): nat {
    |s| - |TrimStartWith(s, cs)|
  }

  lemma TrimWithFront(s: string, cs: set<char>)
    ensures var a := TrimStartCount(s, cs);
      AllIn(s[..a], cs)
  {
    var a := |s| - |TrimStartWith(s, cs)|;
    forall i | 0 <= i < a ensures s[..a][i] in cs {
      assert s[..a][i] == s[i];
    }
  }

  lemma TrimOfTrimmed(s: string)
    requires IsTrimmed(s)
    ensures Trim(s) == s
  {
    assert TrimStartWith(s, WhiteSpace) == s;
    assert TrimEndWith(s, WhiteSpace) == s;
  }

  /** `Regex.Replace(s, "[cs]+", " ")`: every maximal run of characters from
      `cs` becomes a single space. */
  function CollapseRuns(s: string, cs: set<char>): (r: string)
    ensures |r| <= |s|
    ensures |s| > 0 ==> |r| > 0 && r[0] == (if s[0] in cs then ' ' else s[0])
    ensures forall i :: 0 <= i < |r| && r[i] in cs ==> r[i] == ' '
    ensures ' ' in cs ==> NoAdjacent(r, ' ', ' ')
    decreases |s|
  {
    if |s| == 0 then ""
    else if s[0] in cs then
      var t := TrimStartWith(s, cs);
      assert t != s;
      " " + CollapseRuns(t, cs)
    else
      [s[0]] + CollapseRuns(s[1..], cs)
  }

  /** `a` is never directly followed by `b` in `s`. */
  predicate NoAdjacent(s: string, a: char, b: char) {
    forall i :: 0 <= i < |s| - 1 ==> !(s[i] == a && s[i + 1] == b)
  }

  /** A text without run characters other than lone spaces is left alone. */
  lemma {:induction false} CollapseRunsIdentity(s: string, cs: set<char>)
    requires ' ' in cs
    requires forall i :: 0 <= i < |s| && s[i] in cs ==> s[i] == ' '
    requires NoAdjacent(s, ' ', ' ')
    ensures CollapseRuns(s, cs) == s
    decreases |s|
  {
    if |s| > 0 {
      if s[0] in cs {
        var t := TrimStartWith(s, cs);
        assert t == s[1..] by {
          if |s| > 1 {
            assert s[1] !in cs;
          }
        }
      }
      CollapseRunsIdentity(s[1..], cs);
    }
  }

  /** A last character outside `cs` survives collapsing as the last one. */
  lemma {:induction false} CollapseRunsLast(s: string, cs: set<char>)
    requires |s| > 0 && s[|s| - 1] !in cs
    ensures var r := CollapseRuns(s, cs); |r| > 0 && r[|r| - 1] == s[|s| - 1]
    decreases |s|
  {
    if s[0] in cs {
      var t := TrimStartWith(s, cs);
      assert |t| > 0 && t[|t| - 1] == s[|s| - 1];
      CollapseRunsLast(t, cs);
    } else if |s| > 1 {
      CollapseRunsLast(s[1..], cs);
    }
  }

  /** Collapsing never makes two characters outside `cs` adjacent. */
  lemma {:induction false} CollapseRunsKeepsApart(s: string, cs: set<char>, a: char, b: char)
    requires a !in cs && b !in cs && a != ' ' && b != ' '
    requires NoAdjacent(s, a, b)
    ensures NoAdjacent(CollapseRuns(s, cs), a, b)
    decreases |s|
  {
    if |s| > 0 {
      if s[0] in cs {
        var t := TrimStartWith(s, cs);
        assert NoAdjacent(t, a, b) by {
          var d := |s| - |t|;
          forall i | 0 <= i < |t| - 1 ensures !(t[i] == a && t[i + 1] == b) {
            assert t[i] == s[d + i] && t[i + 1] == s[d + i + 1];
          }
        }
        CollapseRunsKeepsApart(t, cs, a, b);
      } else {
        CollapseRunsKeepsApart(s[1..], cs, a, b);
        var rest := CollapseRuns(s[1..], cs);
        var r := [s[0]] + rest;
        forall i | 0 <= i < |r| - 1 ensures !(r[i] == a && r[i + 1] == b) {
          if i == 0 {
            assert r[1] == rest[0];
            if |s| > 1 {
              assert rest[0] == (if s[1] in cs then ' ' else s[1]);
            }
          } else {
            assert r[i] == rest[i - 1] && r[i + 1] == rest[i];
          }
        }
      }
    }
  }

  /** A slice of a text keeps every "never adjacent" fact about it. */
  lemma NoAdjacentSlice(s: string, a: char, b: char, lo: nat, hi: nat)
    requires lo <= hi <= |s|
    requires NoAdjacent(s, a, b)
    ensures NoAdjacent(s[lo..hi], a, b)
  {
    forall i | 0 <= i < hi - lo - 1 ensures !(s[lo..hi][i] == a && s[lo..hi][i + 1] == b) {
      assert s[lo..hi][i] == s[lo + i] && s[lo..hi][i + 1] == s[lo + i + 1];
    }
  }

  /** The text unchanged. */
  function Identity(s: string): string {
    s
  }

  /* -------------------------------------------------------------- ASCII case */

  function ToLowerChar(c: char): char {
    if 'A' <= c <= 'Z' then (c as int + 32) as char else c
  }

  function ToUpperChar(c: char): char {
    if 'a' <= c <= 'z' then (c as int - 32) as char else c
  }

  /** `ToLowerInvariant`, restricted to the ASCII letters. */
  function Lower(s: string): (r: string)
    ensures |r| == |s|
    ensures forall i :: 0 <= i < |s| ==> r[i] == ToLowerChar(s[i])
  {
    seq(|s|, i requires 0 <= i < |s| => ToLowerChar(s[i]))
  }

  /** `ToUpperInvariant`, restricted to the ASCII letters. */
  function Upper(s: string): (r: string)
    ensures |r| == |s|
    ensures forall i :: 0 <= i < |s| ==> r[i] == ToUpperChar(s[i])
  {
    seq(|s|, i requires 0 <= i < |s| => ToUpperChar(s[i]))
  }

  lemma UpperAppend(a: string, b: string)
    ensures Upper(a + b) == Upper(a) + Upper(b)
  {
  }

  lemma LowerAppend(a: string, b: string)
    ensures Lower(a + b) == Lower(a) + Lower(b)
  {
  }

  /** Upper-casing twice changes nothing more. */
  lemma UpperIdempotent(s: string)
    ensures Upper(Upper(s)) == Upper(s)
  {
  }

  /** `StringComparison.Ordinal` / `OrdinalIgnoreCase`. */
  datatype Comparison = Ordinal | OrdinalIgnoreCase

  /** Equality of two strings under a comparison; ignore-case compares the
      upper-cased forms, as .NET's ordinal-ignore-case comparer does. */
  predicate Same(a: string, b: string, cmp: Comparison) {
    match cmp
    case Ordinal => a == b
    case OrdinalIgnoreCase => Upper(a) == Upper(b)
  }

  predicate EqualsIgnoreCase(a: string, b: string) {
    Same(a, b, OrdinalIgnoreCase)
  }

  /** `StartsWith(prefix, comparison)`. */
  predicate StartsWith(s: string, prefix: string, cmp: Comparison) {
    |prefix| <= |s| && Same(s[..|prefix|], prefix, cmp)
  }

  /* ------------------------------------------------------------- replacement */

  /** `pat` occurs in `s` at position `i`. */
  predicate MatchesAt(s: string, i: nat, pat: string, cmp: Comparison) {
    i + |pat| <= |s| && Same(s[i..i + |pat|], pat, cmp)
  }

  /** Replaces the non-overlapping occurrences of `pat`, found from left to
      right, by `rep`; an empty pattern leaves the text alone. */
  function ReplaceAll(s: string, pat: string, rep: string, cmp: Comparison): string
    decreases |s|
  {
    if |pat| == 0 || |s| < |pat| then s
    else if MatchesAt(s, 0, pat, cmp) then rep + ReplaceAll(s[|pat|..], pat, rep, cmp)
    else [s[0]] + ReplaceAll(s[1..], pat, rep, cmp)
  }

  /** `string.Replace(old, new)`, which is ordinal. */
  function Replace(s: string, pat: string, rep: string): string {
    ReplaceAll(s, pat, rep, Ordinal)
  }

  /** Expands every character through `f`. */
  function MapChars(s: string, f: char -> string): string
    decreases |s|
  {
    if |s| == 0 then "" else f(s[0]) + MapChars(s[1..], f)
  }

  lemma {:induction false} MapCharsAppend(s: string, t: string, f: char -> string)
    ensures MapChars(s + t, f) == MapChars(s, f) + MapChars(t, f)
    decreases |s|
  {
    if |s| == 0 {
      assert s + t == t;
    } else {
      assert (s + t)[1..] == s[1..] + t;
      MapCharsAppend(s[1..], t, f);
    }
  }

  /** Expansions that agree on every character expand alike. */
  lemma {:induction false} MapCharsSame(s: string, f: char -> string, g: char -> string)
    requires forall c :: f(c) == g(c)
    ensures MapChars(s, f) == MapChars(s, g)
    decreases |s|
  {
    if |s| > 0 {
      MapCharsSame(s[1..], f, g);
    }
  }

  /** Replacing a one-character pattern rewrites each character on its own. */
  lemma {:induction false} ReplaceCharIsMap(s: string, c: char, rep: string)
    ensures Replace(s, [c], rep) == MapChars(s, x => if x == c then rep else [x])
    decreases |s|
  {
    if |s| > 0 {
      assert s[0..1] == [s[0]];
      ReplaceCharIsMap(s[1..], c, rep);
    }
  }

  /** Expanding twice is expanding once through the composed expansion. */
  lemma {:induction false} MapCharsCompose(s: string, f: char -> string, g: char -> string)
    ensures MapChars(MapChars(s, f), g) == MapChars(s, x => MapChars(f(x), g))
    decreases |s|
  {
    if |s| > 0 {
      MapCharsAppend(f(s[0]), MapChars(s[1..], f), g);
      MapCharsCompose(s[1..], f, g);
    }
  }

  /* ------------------------------------------------------ splitting, joining */

  /** Position of the first `c` in `s`. */
  function IndexOfChar(s: string, c: char): (i: nat)
    requires c in s
    ensures i < |s| && s[i] == c && c !in s[..i]
  {
    if s[0] == c then 0
    else
      assert c in s[1..] by {
        var k :| 0 <= k < |s| && s[k] == c;
        assert s[1..][k - 1] == c;
      }
      var j := IndexOfChar(s[1..], c);
      assert s[..j + 1] == [s[0]] + s[1..][..j];
      j + 1
  }

  /** `string.Split(c)`: the pieces between consecutive occurrences of `c`,
      empty pieces included. */
  function Split(s: string, c: char): (parts: seq<string>)
    ensures |parts| >= 1
    ensures forall k :: 0 <= k < |parts| ==> c !in parts[k]
    decreases |s|
  {
    if c in s then
      var i := IndexOfChar(s, c);
      [s[..i]] + Split(s[i + 1..], c)
    else [s]
  }

  /** `string.Join(sep, parts)`. */
  function Join(parts: seq<string>, sep: string): string
    decreases |parts|
  {
    if |parts| == 0 then ""
    else if |parts| == 1 then parts[0]
    else parts[0] + sep + Join(parts[1..], sep)
  }

  /** Concatenation of all parts. */
  function Concat(parts: seq<string>): string
    decreases |parts|
  {
    if |parts| == 0 then "" else parts[0] + Concat(parts[1..])
  }

  /** Joining the pieces of a split restores the text. */
  lemma {:induction false} JoinSplit(s: string, c: char)
    ensures Join(Split(s, c), [c]) == s
    decreases |s|
  {
    if c in s {
      var i := IndexOfChar(s, c);
      var head, tail := s[..i], s[i + 1..];
      var rest := Split(tail, c);
      var parts := [head] + rest;
      assert Split(s, c) == parts;
      assert parts[1..] == rest;
      assert Join(parts, [c]) == head + [c] + Join(rest, [c]);
      JoinSplit(tail, c);
      assert s == head + [c] + tail;
    }
  }

  /** Splitting a join of separator-free pieces recovers the pieces. */
  lemma {:induction false} SplitJoin(parts: seq<string>, c: char)
    requires |parts| >= 1
    requires forall k :: 0 <= k < |parts| ==> c !in parts[k]
    ensures Split(Join(parts, [c]), c) == parts
    decreases |parts|
  {
    if |parts| > 1 {
      var s := Join(parts, [c]);
      var rest := Join(parts[1..], [c]);
      assert s == parts[0] + [c] + rest;
      assert s[|parts[0]|] == c;
      var i := IndexOfChar(s, c);
      assert forall j :: 0 <= j < |parts[0]| ==> s[j] == parts[0][j];
      assert forall j :: 0 <= j < i ==> s[..i][j] == s[j];
      assert i == |parts[0]|;
      assert s[..i] == parts[0];
      assert s[i + 1..] == rest;
      SplitJoin(parts[1..], c);
    } else {
      assert Join(parts, [c]) == parts[0];
    }
  }

  /** The characters of `s` satisfying `p`, in order. */
  function FilterChars(s: string, p: char -> bool): (r: string)
    ensures |r| <= |s|
    ensures forall i :: 0 <= i < |r| ==> p(r[i])
    decreases |s|
  {
    if |s| == 0 then ""
    else if p(s[0]) then [s[0]] + FilterChars(s[1..], p)
    else FilterChars(s[1..], p)
  }
  lemma {:induction false} FilterCharsAppend(s: string, t: string, p: char -> bool)
    ensures FilterChars(s + t, p) == FilterChars(s, p) + FilterChars(t, p)
    decreases |s|
  {
    if |s| == 0 {
      assert s + t == t;
    } else {
      assert (s + t)[0] == s[0];
      assert (s + t)[1..] == s[1..] + t;
      FilterCharsAppend(s[1..], t, p);
    }
  }
}

=== FILE: voice.dfy ===
/** The voice-message extractor: uploads are sorted into audio messages
    (an `.opus` or `.ogg` file, or such an entry of a `.zip` archive) and
    warnings (an empty upload, or one of another kind); the download
    endpoint then converts every message to the requested format and writes
    a metadata CSV beside the converted files. Archive reading, the clock
    and the converter are inputs. */
module VoiceExtractor {
  import opened Wrappers
  import opened Strings
  import opened Collections
  import opened PathNames
  import opened Csv

  /** A point in time, as `DateTimeOffset` ticks. */
  datatype Instant = Instant(ticks: int)

  /** An entry of an uploaded archive: its full name inside the archive,
      the name part the archive reports (blank for a directory), and its
      last write time. */
  datatype ZipEntry = ZipEntry(fullName: string, name: string, lastWrite: Instant)

  /** An upload: its file name, its length in bytes, and the entries a
      `.zip` upload holds (looked at only for a `.zip` file name). */
  datatype Upload = Upload(fileName: string, length: nat, entries: seq<ZipEntry>)

  datatype AudioMessage = AudioMessage(fileName: string, relativePath: string, extension: string, timestamp: Instant)

  /** What one upload contributes. */
  datatype Outcome = Outcome(messages: seq<AudioMessage>, warnings: seq<string>)

  /* ---------------------------------------------------- classification */

  /** `supportedExtensions.Contains(ext)` with the ordinal-ignore-case
      comparer. */
  predicate IsAudioExtension(ext: string) {
    EqualsIgnoreCase(ext, ".opus") || EqualsIgnoreCase(ext, ".ogg")
  }

  predicate IsZip(ext: string) {
    EqualsIgnoreCase(ext, ".zip")
  }

  /** `Trim('.')`. */
  function TrimDots(s: string): (r: string)
    ensures |r| > 0 ==> r[0] != '.' && r[|r| - 1] != '.'
  {
    TrimWith(s, {'.'})
  }

  /** An audio extension is a '.' and then "opus" or "ogg" in some case;
      trimming the dots leaves just that name. */
  lemma AudioExtensionTrimmed(ext: string)
    requires IsAudioExtension(ext)
    ensures |ext| >= 2 && TrimDots(ext) == ext[1..]
    ensures EqualsIgnoreCase(TrimDots(ext), "opus") || EqualsIgnoreCase(TrimDots(ext), "ogg")
    ensures '.' !in TrimDots(ext)
  {
    if EqualsIgnoreCase(ext, ".opus") {
      assert ".opus" == "." + "opus";
      DotName(ext, "opus");
    } else {
      assert ".ogg" == "." + "ogg";
      DotName(ext, "ogg");
    }
    OneLeadingDot(ext);
  }

  /** A string equal, ignoring case, to a '.' and a name free of dots is a
      '.' and then that name in some case. */
  lemma DotName(ext: string, name: string)
    requires |name| > 0 && forall i :: 0 <= i < |name| ==> name[i] != '.'
    requires Upper(ext) == Upper("." + name)
    ensures |ext| >= 2 && ext[0] == '.' && forall i :: 1 <= i < |ext| ==> ext[i] != '.'
    ensures Upper(ext[1..]) == Upper(name)
  {
    UpperAppend(".", name);
    UpperDot(ext[0]);
    forall i | 1 <= i < |ext| ensures ext[i] != '.' {
      UpperDot(ext[i]);
      UpperDot(name[i - 1]);
      assert Upper(ext)[i] == Upper(name)[i - 1];
    }
    assert Upper(ext[1..]) == Upper(ext)[1..];
  }

  lemma UpperDot(c: char)
    ensures ToUpperChar(c) == '.' <==> c == '.'
  {
  }

  /** A '.' followed by characters that are not dots trims to those. */
  lemma OneLeadingDot(s: string)
    requires |s| >= 2 && s[0] == '.'
    requires forall i :: 1 <= i < |s| ==> s[i] != '.'
    ensures TrimDots(s) == s[1..]
  {
    assert TrimStartWith(s, {'.'}) == TrimStartWith(s[1..], {'.'}) == s[1..];
    assert TrimEndWith(s[1..], {'.'}) == s[1..];
  }

  /** `$"{file.FileName} was empty."` */
  function EmptyWarning(fileName: string): string {
    fileName + " was empty."
  }

  /** `$"{file.FileName} is not a supported archive or audio format."` */
  function UnsupportedWarning(fileName: string): string {
    fileName + " is not a supported archive or audio format."
  }

  /** The message an archive entry gives: its file name, its full name with
      '/' for every '\', its extension without the dots, its time. */
  function EntryMessage(e: ZipEntry): AudioMessage {
    AudioMessage(FileName(e.fullName), Replace(e.fullName, "\\", "/"), TrimDots(Extension(e.fullName)), e.lastWrite)
  }

  /** An entry that is not a directory and has an audio extension. */
  predicate IsAudioEntry(e: ZipEntry) {
    !IsBlank(e.name) && IsAudioExtension(Extension(e.fullName))
  }

  /** The messages of an archive, entry by entry. */
  function EntryMessages(entries: seq<ZipEntry>): seq<AudioMessage> {
    KeepMap(entries, IsAudioEntry, EntryMessage)
  }

  /** Every audio entry gives its message. */
  lemma EntryMessagesKeep(entries: seq<ZipEntry>, k: nat)
    requires k < |entries| && IsAudioEntry(entries[k])
    ensures EntryMessage(entries[k]) in EntryMessages(entries)
  {
    KeepMapKeeps(entries, IsAudioEntry, EntryMessage, k);
  }

  /** Every message of an archive is that of an audio entry. */
  lemma EntryMessagesSource(entries: seq<ZipEntry>, m: AudioMessage)
    requires m in EntryMessages(entries)
    ensures exists k :: 0 <= k < |entries| && IsAudioEntry(entries[k]) && m == EntryMessage(entries[k])
  {
    KeepMapSource(entries, IsAudioEntry, EntryMessage, m);
  }

  /** The message of an audio entry has a relative path free of '\' and an
      extension that is "opus" or "ogg" in some case, with no dot. */
  lemma EntryMessageShape(e: ZipEntry)
    requires IsAudioEntry(e)
    ensures '\\' !in EntryMessage(e).relativePath
    ensures var x := EntryMessage(e).extension;
      (EqualsIgnoreCase(x, "opus") || EqualsIgnoreCase(x, "ogg")) && '.' !in x
  {
    var ext := Extension(e.fullName);
    BackslashesReplaced(e.fullName);
    AudioExtensionTrimmed(ext);
    ExtensionShape(e.fullName);
  }

  /** After the replacement no '\' is left. */
  lemma BackslashesReplaced(s: string)
    ensures '\\' !in Replace(s, "\\", "/")
  {
    assert "\\" == ['\\'];
    ReplaceCharIsMap(s, '\\', "/");
    MapCharsAvoid(s, x => if x == '\\' then "/" else [x], '\\');
  }

  lemma {:induction false} MapCharsAvoid(s: string, f: char -> string, c: char)
    requires forall x :: c !in f(x)
    ensures c !in MapChars(s, f)
    decreases |s|
  {
    if |s| > 0 {
      MapCharsAvoid(s[1..], f, c);
      assert c !in f(s[0]);
    }
  }

  /** One pass of the upload loop of `ExtractAudioMessages`; `now` is the
      time `DateTimeOffset.UtcNow` reads for a direct audio upload. */
  function UploadOutcome(u: Upload, now: Instant): (o: Outcome)
    ensures u.length == 0 ==> o == Outcome([], [EmptyWarning(u.fileName)])
    ensures u.length > 0 && !IsZip(Extension(u.fileName)) && !IsAudioExtension(Extension(u.fileName)) ==>
      o == Outcome([], [UnsupportedWarning(u.fileName)])
    ensures |o.warnings| == (if Rejected(u) then 1 else 0)
    ensures |o.warnings| == 1 ==> o.messages == []
  {
    var ext := Extension(u.fileName);
    if u.length == 0 then Outcome([], [EmptyWarning(u.fileName)])
    else if IsZip(ext) then Outcome(EntryMessages(u.entries), [])
    else if IsAudioExtension(ext) then Outcome([AudioMessage(u.fileName, u.fileName, TrimDots(ext), now)], [])
    else Outcome([], [UnsupportedWarning(u.fileName)])
  }

  /** An upload that draws a warning: an empty one, or one that is neither
      an archive nor audio. */
  predicate Rejected(u: Upload) {
    u.length == 0 || (!IsZip(Extension(u.fileName)) && !IsAudioExtension(Extension(u.fileName)))
  }

  /** Every message of an upload is an audio file: the upload itself, or an
      audio entry of a non-empty archive. */
  lemma UploadMessages(u: Upload, now: Instant, m: AudioMessage)
    requires m in UploadOutcome(u, now).messages
    ensures u.length > 0
    ensures var ext := Extension(u.fileName);
      || (IsAudioExtension(ext) && !IsZip(ext) && m == AudioMessage(u.fileName, u.fileName, TrimDots(ext), now))
      || (IsZip(ext) && exists k :: 0 <= k < |u.entries| && IsAudioEntry(u.entries[k]) && m == EntryMessage(u.entries[k]))
  {
    if IsZip(Extension(u.fileName)) && u.length > 0 {
      EntryMessagesSource(u.entries, m);
    }
  }

  /** The extraction from the `i`-th upload on; `clock(i)` is the time
      read for the `i`-th upload. */
  function ExtractFrom(files: seq<Upload>, clock: nat -> Instant, i: nat): (r: Outcome)
    requires i <= |files|
    ensures |r.warnings| == RejectedFrom(files, i)
    decreases |files| - i
  {
    if i == |files| then Outcome([], [])
    else
      var o := UploadOutcome(files[i], clock(i));
      var rest := ExtractFrom(files, clock, i + 1);
      Outcome(o.messages + rest.messages, o.warnings + rest.warnings)
  }

  /** `ExtractAudioMessages`: every upload in turn. */
  function Extract(files: seq<Upload>, clock: nat -> Instant): Outcome {
    ExtractFrom(files, clock, 0)
  }

  /** How many uploads from the `i`-th on draw a warning. */
  function RejectedFrom(files: seq<Upload>, i: nat): nat
    requires i <= |files|
    decreases |files| - i
  {
    if i == |files| then 0 else (if Rejected(files[i]) then 1 else 0) + RejectedFrom(files, i + 1)
  }

  /** Every message of an upload from the `i`-th on is a message of the
      extraction. */
  lemma {:induction false} ExtractKeeps(files: seq<Upload>, clock: nat -> Instant, i: nat, j: nat, m: AudioMessage)
    requires i <= j < |files|
    requires m in UploadOutcome(files[j], clock(j)).messages
    ensures m in ExtractFrom(files, clock, i).messages
    decreases j - i
  {
    var here := UploadOutcome(files[i], clock(i)).messages;
    var later := ExtractFrom(files, clock, i + 1).messages;
    assert ExtractFrom(files, clock, i).messages == here + later;
    if i < j {
      ExtractKeeps(files, clock, i + 1, j, m);
      assert m in later;
    } else {
      assert m in here;
    }
  }

  /** A message of the extraction comes from the outcome of some upload. */
  lemma {:induction false} ExtractSource(files: seq<Upload>, clock: nat -> Instant, i: nat, m: AudioMessage)
    requires i <= |files|
    requires m in ExtractFrom(files, clock, i).messages
    ensures exists j :: i <= j < |files| && m in UploadOutcome(files[j], clock(j)).messages
    decreases |files| - i
  {
    if m !in UploadOutcome(files[i], clock(i)).messages {
      ExtractSource(files, clock, i + 1, m);
    }
  }

  /** Every extracted message has "opus" or "ogg", in some case and with
      no dot, for its extension; one taken from an archive has no '\' in
      its relative path. */
  lemma ExtractShape(files: seq<Upload>, clock: nat -> Instant, m: AudioMessage)
    requires m in Extract(files, clock).messages
    ensures (EqualsIgnoreCase(m.extension, "opus") || EqualsIgnoreCase(m.extension, "ogg")) && '.' !in m.extension
    ensures m.relativePath != m.fileName ==> '\\' !in m.relativePath
  {
    ExtractSource(files, clock, 0, m);
    var j :| 0 <= j < |files| && m in UploadOutcome(files[j], clock(j)).messages;
    var u := files[j];
    UploadMessages(u, clock(j), m);
    var ext := Extension(u.fileName);
    if IsZip(ext) {
      var k :| 0 <= k < |u.entries| && IsAudioEntry(u.entries[k]) && m == EntryMessage(u.entries[k]);
      EntryMessageShape(u.entries[k]);
    } else {
      AudioExtensionTrimmed(ext);
    }
  }

  /* ------------------------------------------------------------ endpoints */

  const NoAudioMessage: string := "No supported audio files (.opus, .ogg) were found."

  /** The scan endpoint's answer. */
  datatype ScanResponse =
    | Found(count: nat, messages: seq<AudioMessage>, warnings: seq<string>)
    | NoAudio(error: string, warnings: seq<string>)

  function Scan(files: seq<Upload>, clock: nat -> Instant): (r: ScanResponse)
    ensures r.NoAudio? <==> Extract(files, clock).messages == []
    ensures r.NoAudio? ==> r.error == NoAudioMessage
    ensures r.Found? ==> r.count == |r.messages| > 0 && r.messages == Extract(files, clock).messages
    ensures r.warnings == Extract(files, clock).warnings
  {
    var x := Extract(files, clock);
    if |x.messages| == 0 then NoAudio(NoAudioMessage, x.warnings)
    else Found(|x.messages|, x.messages, x.warnings)
  }

  /** The `targetFormat` field lower-cased, when it is "mp3" or "wav";
      "mp3" for anything else or nothing. */
  function TargetFormat(field: Option<string>): (r: string)
    ensures r == "mp3" || r == "wav"
    ensures field.Some? && (Lower(field.value) == "mp3" || Lower(field.value) == "wav") ==> r == Lower(field.value)
    ensures field.None? || (Lower(field.value) != "mp3" && Lower(field.value) != "wav") ==> r == "mp3"
  {
    var t := if field.Some? then Some(Lower(field.value)) else None;
    if t.None? || IsBlank(t.value) || (t.value != "mp3" && t.value != "wav") then "mp3" else t.value
  }

  /** The converted file's name: the message's name less its extension, and
      the target format. */
  function OutputName(m: AudioMessage, format: string): string {
    BaseName(m.fileName) + "." + format
  }

  const HeaderNames: seq<string> := ["FileName", "SourcePath", "Timestamp", "DurationSeconds"]

  /** The header line, the column names joined by commas. */
  const MetadataHeader: string := Join(HeaderNames, ",")

  /** The metadata line of a converted message: the two names escaped, the
      round-trip time and the duration as the formatter writes them. */
  function MetadataLine(name: string, path: string, stamp: string, duration: string): string {
    Join([EscapeField(name), EscapeField(path), stamp, duration], ",")
  }

  /** The outcome of converting one message: the text of its duration, or
      the message of the exception. */
  type Conversion = Result<string, string>

  /** The download endpoint's replies. The archive is a bare file response
      with no JSON body; the problem response's `warnings` is what a client
      receives beside the detail text. */
  datatype DownloadResponse =
    | Archive(entryNames: seq<string>, metadata: string)
    | DownloadNoAudio(error: string, warnings: seq<string>)
    | ConversionFailed(error: string, warnings: seq<string>)

  const NothingConverted: string := "Unable to convert any audio files. See warnings for details."

  function FailureWarning(m: AudioMessage, error: string): string {
    "Failed to convert " + m.fileName + ": " + error
  }

  /** The messages that converted, each with its duration text. */
  function Converted(ms: seq<AudioMessage>, convert: AudioMessage -> Conversion): (r: seq<(AudioMessage, string)>)
    ensures forall p :: p in r ==> p.0 in ms && convert(p.0) == Ok(p.1)
    decreases |ms|
  {
    if |ms| == 0 then []
    else
      var rest := Converted(ms[1..], convert);
      match convert(ms[0])
      case Ok(d) => [(ms[0], d)] + rest
      case Err(_) => rest
  }

  /** One warning per message that failed to convert. */
  function Failures(ms: seq<AudioMessage>, convert: AudioMessage -> Conversion): seq<string>
    decreases |ms|
  {
    if |ms| == 0 then []
    else
      var rest := Failures(ms[1..], convert);
      match convert(ms[0])
      case Ok(_) => rest
      case Err(e) => [FailureWarning(ms[0], e)] + rest
  }

  lemma {:induction false} ConvertedSplit(ms: seq<AudioMessage>, convert: AudioMessage -> Conversion)
    ensures |Converted(ms, convert)| + |Failures(ms, convert)| == |ms|
    decreases |ms|
  {
    if |ms| > 0 {
      ConvertedSplit(ms[1..], convert);
    }
  }

  function MetadataValues(p: (AudioMessage, string), format: string, stamp: Instant -> string): seq<string> {
    [OutputName(p.0, format), p.0.relativePath, stamp(p.0.timestamp), p.1]
  }

  /** A metadata row: the header (`None`) or a converted message with its
      duration text. */
  type MetadataRow = Option<(AudioMessage, string)>

  function Rows(done: seq<(AudioMessage, string)>): (r: seq<MetadataRow>)
    ensures |r| == |done| + 1 && r[0] == None
    ensures forall k :: 0 <= k < |done| ==> r[k + 1] == Some(done[k])
  {
    seq(|done| + 1, i requires 0 <= i <= |done| => if i == 0 then None else Some(done[i - 1]))
  }

  function RowLine(x: MetadataRow, format: string, stamp: Instant -> string): string {
    match x
    case None => MetadataHeader
    case Some(p) => MetadataLine(OutputName(p.0, format), p.0.relativePath, stamp(p.0.timestamp), p.1)
  }

  /** The metadata file: the header line, then a line per converted message. */
  function MetadataOf(done: seq<(AudioMessage, string)>, format: string, stamp: Instant -> string): string {
    AppendLines(MapSeq(Rows(done), x => RowLine(x, format, stamp)))
  }

  /** The warnings the handler holds when the conversion loop ends: those
      of the extraction, then one per message that failed to convert. */
  function Collected(x: Outcome, run: AudioMessage -> Conversion): (w: seq<string>)
    ensures |x.warnings| <= |w| && w[..|x.warnings|] == x.warnings
    ensures |w| == |x.warnings| + |x.messages| - |Converted(x.messages, run)|
  {
    ConvertedSplit(x.messages, run);
    x.warnings + Failures(x.messages, run)
  }

  /** The download endpoint once FFmpeg is available: `convert` runs the
      conversion to `format` and reports the duration text or an error,
      and `stamp` writes a time in the round-trip ("o") format. */
  function Download(files: seq<Upload>, clock: nat -> Instant, targetFormat: Option<string>,
                    convert: (AudioMessage, string) -> Conversion, stamp: Instant -> string): (r: DownloadResponse)
    ensures r.DownloadNoAudio? <==> Extract(files, clock).messages == []
    ensures r.DownloadNoAudio? ==> r.error == NoAudioMessage && r.warnings == Extract(files, clock).warnings
    ensures r.ConversionFailed? ==> r.error == NothingConverted && r.warnings == []
    ensures r.Archive? ==> |r.entryNames| >= 2 && r.entryNames[|r.entryNames| - 1] == "metadata.csv"
    ensures r.Archive? ==> NamedAfter(r.entryNames[..|r.entryNames| - 1], Extract(files, clock).messages, TargetFormat(targetFormat))
  {
    var format := TargetFormat(targetFormat);
    Deliver(Extract(files, clock), format, m => convert(m, format), stamp)
  }

  /** The download once the messages are extracted and the format chosen;
      `run` converts one message. Only the no-audio reply carries warnings:
      the problem reply has just its detail text and the archive is a bare
      file, so the failures collected in the loop reach no client. */
  function Deliver(x: Outcome, format: string, run: AudioMessage -> Conversion, stamp: Instant -> string): (r: DownloadResponse)
    ensures r.DownloadNoAudio? <==> x.messages == []
    ensures r.DownloadNoAudio? ==> r.error == NoAudioMessage && r.warnings == x.warnings
    ensures r.ConversionFailed? <==> x.messages != [] && Converted(x.messages, run) == []
    ensures r.ConversionFailed? ==> r.error == NothingConverted && r.warnings == []
    ensures r.Archive? ==> |r.entryNames| >= 2 && r.entryNames[|r.entryNames| - 1] == "metadata.csv"
    ensures r.Archive? ==> NamedAfter(r.entryNames[..|r.entryNames| - 1], x.messages, format)
    ensures r.Archive? ==> |r.entryNames| - 1 == |Converted(x.messages, run)|
  {
    if |x.messages| == 0 then DownloadNoAudio(NoAudioMessage, x.warnings)
    else
      var done := Converted(x.messages, run);
      if |done| == 0 then ConversionFailed(NothingConverted, [])
      else
        var names := OutputNames(done, format);
        NamesOfMessages(x.messages, run, format);
        assert (names + ["metadata.csv"])[..|names|] == names;
        Archive(names + ["metadata.csv"], MetadataOf(done, format, stamp))
  }

  /** A converter that fails on every message with the error "E". */
  function FailWithE(m: AudioMessage): Conversion {
    Err("E")
  }

  /** One message whose conversion fails: the handler collects a warning
      for it, yet the problem reply that says "See warnings for details"
      carries none. */
  lemma FailureWarningDropped(stamp: Instant -> string)
    ensures var x := Outcome([AudioMessage("a.ogg", "a.ogg", "ogg", Instant(0))], []);
      && Collected(x, FailWithE) == ["Failed to convert a.ogg: E"]
      && Deliver(x, "mp3", FailWithE, stamp) == ConversionFailed(NothingConverted, [])
  {
    var m := AudioMessage("a.ogg", "a.ogg", "ogg", Instant(0));
    assert Converted([m], FailWithE) == [];
    assert Failures([m], FailWithE) == [FailureWarning(m, "E")];
    assert FailureWarning(m, "E") == "Failed to convert a.ogg: E";
    assert [] + [FailureWarning(m, "E")] == ["Failed to convert a.ogg: E"];
  }

  /** The download as its problem reply promises: when nothing converts,
      the reply carries the collected warnings, one for each message. */
  function DeliverReporting(x: Outcome, format: string, run: AudioMessage -> Conversion, stamp: Instant -> string): (r: DownloadResponse)
    ensures r.DownloadNoAudio? <==> x.messages == []
    ensures r.ConversionFailed? <==> x.messages != [] && Converted(x.messages, run) == []
    ensures r.ConversionFailed? ==> r.error == NothingConverted && r.warnings == Collected(x, run)
    ensures r.ConversionFailed? ==> |r.warnings| == |x.warnings| + |x.messages|
    ensures !r.ConversionFailed? ==> r == Deliver(x, format, run, stamp)
  {
    var r := Deliver(x, format, run, stamp);
    if r.ConversionFailed? then ConversionFailed(NothingConverted, Collected(x, run)) else r
  }

  /** Every failed conversion has its warning in the corrected reply, and
      the reply differs from the code's only in carrying them. */
  lemma {:induction false} DeliverReportingNamesFailures(x: Outcome, format: string, run: AudioMessage -> Conversion,
                                                         stamp: Instant -> string, m: AudioMessage)
    requires DeliverReporting(x, format, run, stamp).ConversionFailed?
    requires m in x.messages && run(m).Err?
    ensures FailureWarning(m, run(m).error) in DeliverReporting(x, format, run, stamp).warnings
    ensures Deliver(x, format, run, stamp) == ConversionFailed(NothingConverted, [])
  {
    FailuresName(x.messages, run, m);
  }

  lemma {:induction false} FailuresName(ms: seq<AudioMessage>, run: AudioMessage -> Conversion, m: AudioMessage)
    requires m in ms && run(m).Err?
    ensures FailureWarning(m, run(m).error) in Failures(ms, run)
    decreases |ms|
  {
    if ms[0] != m {
      FailuresName(ms[1..], run, m);
    }
  }

  function OutputNames(done: seq<(AudioMessage, string)>, format: string): (r: seq<string>)
    ensures |r| == |done|
    ensures forall k :: 0 <= k < |done| ==> r[k] == OutputName(done[k].0, format)
  {
    seq(|done|, k requires 0 <= k < |done| => OutputName(done[k].0, format))
  }

  /** Each name is the output name of one of the messages. */
  predicate NamedAfter(names: seq<string>, ms: seq<AudioMessage>, format: string) {
    forall k :: 0 <= k < |names| ==> IsOutputName(names[k], ms, format)
  }

  predicate IsOutputName(name: string, ms: seq<AudioMessage>, format: string) {
    exists m :: m in ms && name == OutputName(m, format)
  }

  lemma NamesOfMessages(ms: seq<AudioMessage>, convert: AudioMessage -> Conversion, format: string)
    ensures NamedAfter(OutputNames(Converted(ms, convert), format), ms, format)
  {
    var done := Converted(ms, convert);
    var names := OutputNames(done, format);
    forall k | 0 <= k < |names| ensures IsOutputName(names[k], ms, format) {
      var m := done[k].0;
      assert done[k] in done;
      assert m in ms && names[k] == OutputName(m, format);
    }
    assert NamedAfter(names, ms, format);
  }

  /** The time and duration texts are written unescaped; they read back
      when they need no quoting. */
  predicate PlainTexts(done: seq<(AudioMessage, string)>, stamp: Instant -> string) {
    forall k :: 0 <= k < |done| ==> !NeedsQuotes(stamp(done[k].0.timestamp)) && !NeedsQuotes(done[k].1)
  }

  /** A reader of the metadata gets the header and, for each converted
      message, its output name, its relative path, its time and its
      duration, whatever characters the names hold, provided the time and
      duration texts need no quoting. */
  lemma MetadataRoundTrip(done: seq<(AudioMessage, string)>, format: string, stamp: Instant -> string)
    requires PlainTexts(done, stamp)
    ensures var table := ParseCsv(MetadataOf(done, format, stamp));
      && |table| == |done| + 1
      && table[0] == HeaderNames
      && forall k :: 0 <= k < |done| ==> table[k + 1] == MetadataValues(done[k], format, stamp)
  {
    var xs := Rows(done);
    var line := x => RowLine(x, format, stamp);
    var values := (x: MetadataRow) => RowValues(x, format, stamp);
    EscapeFieldCells();
    forall k | 0 <= k < |xs| ensures WritesRow(line, values, EscapeField, Anything, xs[k]) {
      if k > 0 {
        assert xs[k] == Some(done[k - 1]);
      }
      MetadataRowWritten(xs[k], format, stamp);
    }
    LinesRoundTrip(xs, line, values, EscapeField, Identity, Anything);
    var table := ParseCsv(MetadataOf(done, format, stamp));
    assert MapSeq(xs, line) == MapSeq(Rows(done), x => RowLine(x, format, stamp));
    forall k | 0 <= k < |xs| ensures table[k] == values(xs[k]) {
      MapIdentity(values(xs[k]));
    }
  }

  function RowValues(x: MetadataRow, format: string, stamp: Instant -> string): seq<string> {
    match x
    case None => HeaderNames
    case Some(p) => MetadataValues(p, format, stamp)
  }

  /** Each metadata line is its values escaped and joined by commas. */
  lemma MetadataRowWritten(x: MetadataRow, format: string, stamp: Instant -> string)
    requires x.Some? ==> !NeedsQuotes(stamp(x.value.0.timestamp)) && !NeedsQuotes(x.value.1)
    ensures var values := RowValues(x, format, stamp);
      RowLine(x, format, stamp) == Join(MapSeq(values, EscapeField), ",") && |values| >= 1 && AllOk(values, Anything)
  {
    match x
    case None =>
      HeaderPlain();
    case Some(p) =>
      var vs := MetadataValues(p, format, stamp);
      EscapeLastPlain(vs[0], vs[1], vs[2], vs[3]);
  }

  lemma EscapeLastPlain(a: string, b: string, c: string, d: string)
    requires !NeedsQuotes(c) && !NeedsQuotes(d)
    ensures MapSeq([a, b, c, d], EscapeField) == [EscapeField(a), EscapeField(b), c, d]
  {
  }

  /** No header name needs quoting. */
  lemma HeaderPlain()
    ensures MapSeq(HeaderNames, EscapeField) == HeaderNames
  {
    LettersPlain("FileName");
    LettersPlain("SourcePath");
    LettersPlain("Timestamp");
    LettersPlain("DurationSeconds");
  }

  lemma LettersPlain(v: string)
    requires forall j :: 0 <= j < |v| ==> IsAsciiLetter(v[j])
    ensures EscapeField(v) == v
  {
    assert !NeedsQuotes(v);
  }
}

=== FILE: wrappers.dfy ===
/** Optional values and success/failure results, standing in for C#'s nullable
    references and for the error branches of the endpoints. */
module Wrappers {

  /** A value that may be absent (a C# `null`). */
  datatype Option<+T> = None | Some(value: T) {
    function GetOr(default: T): T {
      match this
      case Some(v) => v
      case None => default
    }
  }

  /** The outcome of an operation that either produces a value or fails. */
  datatype Result<+T, +E> = Ok(value: T) | Err(error: E)
}
